=== FILE: README.md ===
# NRenderer core in Dafny

NRenderer is a small offline renderer. Its application imports scenes from `.scn` and
`.obj` files into an *asset* container, and a *scene builder* copies the asset into the
flat buffers a renderer reads. The project ships two renderers. The ray-casting renderer
brute-forces closest hits, builds a photon map and has a KD-tree over the scene. The
simple path tracer stripes rows over eight tasks and traces paths recursively.

This project models that core as immutable datatypes and pure functions:

- the material property store and the geometry records (`materials.dfy`, `scene.dfy`);
- the asset container and its clears (`assets.dfy`);
- the two importers and their rollback (`scn_importer.dfy`, `obj_importer.dfy`, `obj_faces.dfy`);
- the path helpers and importer dispatch (`files.dfy`, `importer_factory.dfy`);
- the scene builder (`scene_builder.dfy`);
- the geometry kernel: rays, hit records, boxes and the four intersection routines;
- the KD-tree build and query (`kdtree.dfy`, `kd_query.dfy`, `median.dfy`);
- the ray-casting renderer's closest hit, roulette and photon-map bookkeeping;
- the path tracer's row striping, pixel indexing, light search and `trace`;
- both vertex transformers, both shader creators and both Lambertian shaders.

Some conventions hold throughout:

- Floats are `real`.
- `FLOAT_INF` is the `Infinite` case of a `Limit`.
- Library maths (`sqrt`, `normalize`, the 3×3 inverse, Fresnel, reflection, refraction and the hemisphere basis) is passed in as function values, and random draws are passed in as parameters.
- A lemma states a property of a function only under an explicit requirement on these values, such as `SqrtSound` or `InverseSound`.
- The importers read a file as a sequence of lines of pre-parsed tokens.
- Behaviour the C++ leaves undefined is an explicit `Undefined` outcome. Examples are dereferencing `back()` of an empty list and a null `currNodePtr`.

The importers follow the code as written, quirks included. The section "Findings" pairs two of these quirks with corrected definitions that stand beside them.

## Model

| member | source | states |
|---|---|---|
| Materials.MakeProperty | code/include/scene/Material.hpp:65-99 | each constructor stores key and value and sets the type tag that matches the wrapper, in both directions |
| Materials.DefaultMaterial | code/include/scene/Material.hpp:106-110 | a default material has type 0 and holds no key |
| Materials.Find | code/include/scene/Material.hpp:113-122 | the search stops at the first entry with the key, and every entry before it has another key |
| Materials.HasPropertyMeaning | code/include/scene/Material.hpp:113-122 | `hasProperty(k)` holds iff some stored property has key `k` |
| Materials.HasProperty | code/include/scene/Material.hpp:114-122 | `hasProperty(key)`; its meaning, some stored property carries the key, is stated by `Materials.HasPropertyMeaning` |
| Materials.GetProperty | code/include/scene/Material.hpp:126-140 | missing iff the key is absent; a found value is the stored wrapper of the requested type; a present key of that type is always found |
| Materials.RegisterProperty | code/include/scene/Material.hpp:155-161 | returns true iff the key was absent, appending exactly that property; otherwise the material is unchanged; unique keys stay unique |
| Materials.Register | code/include/scene/Material.hpp:144-152 | the key/value form: appends the constructed property iff the key was absent, else leaves the material unchanged |
| Materials.RemoveByKey | code/include/scene/Material.hpp:169-179 | removes the first entry with the key and keeps the others in order; no-op when the key is absent |
| Materials.RemoveAt | code/include/scene/Material.hpp:182-186 | for `i < size` deletes exactly entry `i` (the others shift down in order); otherwise does nothing |
| Materials.RegisterThenGet | code/include/scene/Material.hpp:126-161 | registering an absent key succeeds, and `getProperty` then returns the registered value |
| Materials.RemoveByKeyRemoves | code/include/scene/Material.hpp:164-179 | with unique keys the key is gone afterwards, keys stay unique, and the count drops by one iff the key was present |
| Materials.RemoveByKeyKeepsOthers | code/include/scene/Material.hpp:169-179 | removing one key leaves the presence of every other key unchanged |
| Materials.RegisterCounts | code/include/scene/Material.hpp:155-166 | `getPropertiesNum` grows by one exactly when registration reports success |
| Materials.PropertiesNum | code/include/scene/Material.hpp:164-166 | `getPropertiesNum()`; `Materials.RegisterCounts` and `Materials.RemoveByKeyRemoves` state how registration and removal change it |
| Materials.RegisterMakesPresent | code/include/scene/Material.hpp:155-161 | after registration the key is present, whether or not it was before |
| Scene.DefaultGeometry | code/include/scene/Model.hpp:28-118 | the defaults: identity model translation and scale, zero triangle with normal (0,0,1), zero-radius sphere facing +z, `SPHERE` node, invalid material handles, meshes without normals or uvs |
| Handles.SetIndex | code/app/src/importer/ObjImporter.cpp:249 | `setIndex(i)` makes the handle valid with index `i` |
| Assets.ClearModel | code/app/include/asset/Asset.hpp:42-75 | empties the model, node, sphere, triangle, plane and mesh lists and keeps light, material and texture lists |
| Assets.ClearLight | code/app/include/asset/Asset.hpp:79-86 | empties the light items and the four light buffers and keeps everything else |
| Assets.ClearMaterial | code/app/include/asset/Asset.hpp:90-92 | empties only the material list |
| Assets.ClearTexture | code/app/include/asset/Asset.hpp:96-98 | empties only the texture list |
| Assets.ClearsPartition | code/app/include/asset/Asset.hpp:42-98 | each clear is idempotent, the clears commute, and all four together give the empty asset |
| Assets.Truncate | code/app/src/importer/ScnImporter.cpp:540-556 | the rollback's `resize` gives the recorded lengths and keeps every list a prefix of the original |
| Assets.TruncateUndoesAppends | code/app/src/importer/ScnImporter.cpp:467-481 | truncating an asset that only grew by appends to the recorded lengths gives back the asset it grew from |
| Files.FindLastOf | code/app/include/utilities/File.hpp:23 | `find_last_of`: `npos` iff no character of the set occurs, else the last position holding one |
| Files.GetFileExtension | code/app/include/utilities/File.hpp:22-25 | a suffix of the path without '.', preceded by the last '.'; the whole path when there is no '.' (the `npos + 1` wrap) |
| Files.GetFileName | code/app/include/utilities/File.hpp:30-38 | a suffix without '/' or '\\', preceded by the last separator; the whole path when there is none |
| Files.DirectoryOf | code/app/src/importer/ObjImporter.cpp:223-230 | the directory prefix the MTL path is built from: it and the file name make up the path |
| ImporterFactory.Importer | code/app/include/importer/SceneImporterFactory.hpp:43-49 | an importer exactly for the registered extensions, the registered one, and none otherwise |
| ImporterFactory.InstanceDispatch | code/app/include/importer/SceneImporterFactory.hpp:28-38 | the single instance maps exactly "scn" to the SCN importer and "obj" to the OBJ importer; every other key, case-sensitively, gives none |
| ImporterFactory.ImporterForPath | code/app/include/importer/SceneImporterFactory.hpp:43-49 | dispatch by file extension picks the SCN or OBJ importer only for paths ending in that extension |
| ImporterFactory.DispatchExamples | code/app/include/importer/SceneImporterFactory.hpp:35-49 | "OBJ" and "box.OBJ" find no importer; "box.obj" and a bare "scn" do |
| Tokens.Unsigned32 | code/app/src/importer/ObjImporter.cpp:127 | the `(unsigned int)` cast of the texture count: below 2^32, congruent to the number modulo 2^32, and the number itself when it fits |
| Tokens.ReadUnsigned32 | code/app/src/importer/ScnImporter.cpp:56-59 | the material type read by `ss >> type`: a fitting value is kept, a negative one of magnitude below 2^32 wraps to 2^32 plus it, and any magnitude of 2^32 or more gives 4294967295 |
| Tokens.ReadInt32 | code/app/src/importer/ScnImporter.cpp:68-70 | the `Int` property value read by `ss >> v`: kept when it fits in 32 bits, 2147483647 above the range and -2147483648 below it |
| Tokens.LowerIdempotent | code/app/src/importer/ObjImporter.cpp:65 | lower-casing an MTL keyword twice is lower-casing it once, and leaves no upper-case letter |
| ScnImport.TopStep | code/app/src/importer/ScnImporter.cpp:500-522 | at top level a line never changes the asset; only `Begin Material/Model/Light` opens a section, anything else fails with the state unchanged |
| ScnImport.PropValue | code/app/src/importer/ScnImporter.cpp:61-97 | a value is read exactly for the six known type names; an `Int` value is the 32-bit `ReadInt32` read, so it lies in the `int` range and equals the written number when that fits |
| ScnImport.MaterialStep | code/app/src/importer/ScnImporter.cpp:18-108 | a material-section line only appends to the asset or edits its last entries, and keeps the state well formed |
| ScnImport.AddNode | code/app/src/importer/ScnImporter.cpp:150-212 | a Sphere/Triangle/Plane line fails exactly when its material name is undeclared, is undefined without a model item, and otherwise adds a node in the model section |
| ScnImport.ModelStep | code/app/src/importer/ScnImporter.cpp:115-294 | a model-section line only grows the asset and keeps the state well formed |
| ScnImport.AddLight | code/app/src/importer/ScnImporter.cpp:318-365 | a light header always succeeds and adds exactly one light item |
| ScnImport.LightStep | code/app/src/importer/ScnImporter.cpp:300-453 | a light-section line only grows the asset and keeps the state well formed |
| ScnImport.StepLine | code/app/src/importer/ScnImporter.cpp:18-526 | one line in any mode only grows the asset and keeps the state well formed |
| ScnImport.Run | code/app/src/importer/ScnImporter.cpp:491-526 | the line loop: every outcome grows the asset from the starting one |
| ScnImport.Import | code/app/src/importer/ScnImporter.cpp:459-559 | a missing file fails untouched; a failed import restores every list length; a successful one only grows the asset |
| ScnImport.ImportLines | code/app/src/importer/ScnImporter.cpp:459-559 | the line loop written as a method agrees with `Import`, so a failure restores every length |
| ScnProperties.SkipLinesAreNoOps | code/app/src/importer/ScnImporter.cpp:35-36 | empty and `#` lines are no-ops in every section and at top level |
| ScnProperties.UnknownLinesFail | code/app/src/importer/ScnImporter.cpp:101-104 | a line with no keyword of its section fails, with "Syntax Error" outside material sections and without a message inside them |
| ScnProperties.TopLevelForms | code/app/src/importer/ScnImporter.cpp:504-522 | `Begin` succeeds iff followed by Material, Model or Light, and enters that section |
| ScnProperties.EndClosesSection | code/app/src/importer/ScnImporter.cpp:98-100 | `End` in any section returns to top level and changes nothing else |
| ScnProperties.MaterialDeclaration | code/app/src/importer/ScnImporter.cpp:37-60 | a repeated name fails with "Duplicated Material Key:"+name; a new name is mapped to the new item, type from the line or 0, no properties |
| ScnProperties.UnknownPropTypeIgnored | code/app/src/importer/ScnImporter.cpp:61-97 | a `Prop` of an unknown type is silently ignored |
| ScnProperties.PropRegisters | code/app/src/importer/ScnImporter.cpp:61-97 | a `Prop` of a known type makes its key present on the current material and never overwrites an existing key |
| ScnProperties.NodeMaterialChecked | code/app/src/importer/ScnImporter.cpp:150-170 | a Sphere with an undeclared material fails with "Invalid material name."; otherwise it adds one node and one default sphere with that material and appends the node to the last model |
| ScnProperties.SpotDirectionWritesDirectional | code/app/src/importer/ScnImporter.cpp:404-416 | in a Spot block `D` writes the last directional light and leaves the spot lights unchanged (undefined without a directional light) |
| ScnProperties.DirectionalIgnoresPosition | code/app/src/importer/ScnImporter.cpp:387-403 | `P` in a Directional block changes nothing |
| ScnProperties.RollbackRestoresLengths | code/app/src/importer/ScnImporter.cpp:540-556 | a failed import restores every length; a failed run that only appended gives back the original asset |
| ObjFaces.FirstSlash | code/app/src/importer/ObjImporter.cpp:332-335 | the first '/' of a vertex token, or its length when there is none |
| ObjFaces.ClassifyBySlashes | code/app/src/importer/ObjImporter.cpp:332-355 | no slash is `v`, one slash `v/t`, two adjacent slashes `v//n`, and `v/t/n` has at least two slashes |
| ObjFaces.Classify | code/app/src/importer/ObjImporter.cpp:332-355 | the four vertex forms by slash positions; `ObjFaces.ClassifyBySlashes` states which slash patterns give which form |
| ObjFaces.ParseVertex | code/app/src/importer/ObjImporter.cpp:332-355 | the position index is always read; the missing uv or normal index is -1 by form |
| ObjFaces.ParsePositionUvNormal | code/app/src/importer/ObjImporter.cpp:332-355 | "7/3/2" parses to (7, 3, 2); the three sibling lemmas give "7", "7/3" and "7//2" |
| ObjImport.RecordedIndex | code/app/src/importer/ObjImporter.cpp:70 | the index `newmtl` records is one below the item count, and `npos` for an empty list |
| ObjImport.NewMaterial | code/app/src/importer/ObjImporter.cpp:68-77 | appends one type-1 material with the name, makes it current, adds the name when new and never overwrites a mapped name |
| ObjImport.RegisterOnCurrent | code/app/src/importer/ObjImporter.cpp:82-99 | `Kd`/`Ks`/`Ns` register on the current material, and are undefined without one |
| ObjImport.LoadTexture | code/app/src/importer/ObjImporter.cpp:123-150 | a loadable texture appends one texture item and registers the map property on the current material; an unloadable one changes nothing |
| ObjImport.MtlKeyword | code/app/src/importer/ObjImporter.cpp:65 | the MTL keyword is lower case |
| ObjImport.MtlStepChange | code/app/src/importer/ObjImporter.cpp:61-154 | one MTL line only appends materials or textures or edits the current material; only `newmtl` touches the name map |
| ObjImport.MtlStep | code/app/src/importer/ObjImporter.cpp:61-154 | one MTL line, undefined only for a property or map line before any `newmtl`; `ObjImport.MtlStepChange` states what it may change |
| ObjImport.MtlRunAppends | code/app/src/importer/ObjImporter.cpp:49-156 | an MTL file changes only the material and texture lists, by growing them |
| ObjImport.MtlRun | code/app/src/importer/ObjImporter.cpp:49-156 | `parseMtl`'s line loop, never reporting failure; `ObjImport.MtlRunAppends` states that it only grows the material and texture lists |
| ObjImport.Use | code/app/src/importer/ObjImporter.cpp:358-400 | per node, a first use of a global index appends the element and records its local index; a reuse adds only the index; a bad index is undefined |
| ObjImport.NewNode | code/app/src/importer/ObjImporter.cpp:273-294 | `o`/`g` add a mesh node under the model item being built, a fresh mesh made current, and empty index maps |
| ObjImport.AddVertex | code/app/src/importer/ObjImporter.cpp:358-400 | one face vertex edits only the current mesh and the index maps |
| ObjImport.Face | code/app/src/importer/ObjImporter.cpp:295-409 | a face edits only the current mesh and the index maps, and keeps the state valid |
| ObjImport.ObjStep | code/app/src/importer/ObjImporter.cpp:219-410 | one OBJ line keeps the state valid and never shrinks the asset |
| ObjImport.ObjRun | code/app/src/importer/ObjImporter.cpp:219-412 | the line loop keeps the state valid and never shrinks the asset |
| ObjImport.WithModelItem | code/app/src/importer/ObjImporter.cpp:415 | the model item is appended under the file name and nothing else changes |
| ObjImport.Import | code/app/src/importer/ObjImporter.cpp:163-443 | a missing file fails untouched; a failure restores every length; a success only grows the asset |
| ObjProperties.ObjRunWellFormed | code/app/src/importer/ObjImporter.cpp:219-412 | every line keeps the new meshes indexed within their own lists and the new nodes pointing at them |
| ObjProperties.FailedImportRestores | code/app/src/importer/ObjImporter.cpp:425-441 | a failed OBJ import gives back exactly the original asset |
| ObjProperties.SuccessfulImportShape | code/app/src/importer/ObjImporter.cpp:163-443 | a success appends one model item named after the file, whose nodes are exactly the new mesh nodes, with every new mesh indexed |
| ObjProperties.ThrownImportKeeps | code/app/src/importer/ObjImporter.cpp:327 | a face with too few vertices throws, leaving the appended lists and no model item |
| ObjProperties.HasNormalIffIndices | code/include/scene/Model.hpp:83-90 | on an indexed mesh `hasNormal`/`hasUv` agree with the index lists being non-empty |
| Scene.HasNormal | code/include/scene/Model.hpp:83-85 | `Mesh::hasNormal()`; `ObjProperties.HasNormalIffIndices` ties it to the normal indices and `Scene.DefaultGeometry` shows a default mesh has none |
| Scene.HasUv | code/include/scene/Model.hpp:88-90 | `Mesh::hasUv()`; `ObjProperties.HasNormalIffIndices` ties it to the uv indices and `Scene.DefaultGeometry` shows a default mesh has none |
| ObjProperties.ObjUnknownSkipped | code/app/src/importer/ObjImporter.cpp:219-410 | a line with another keyword changes nothing |
| ObjProperties.ObjKeywordsAreCaseSensitive | code/app/src/importer/ObjImporter.cpp:219-223 | "V" is skipped while "v" appends a position |
| ObjProperties.UsemtlOutcome | code/app/src/importer/ObjImporter.cpp:244-257 | an unknown name fails with "Cannot find material: "+name; a known one sets the current mesh's material, and is undefined without a mesh |
| ObjProperties.MtllibMissingFails | code/app/src/importer/ObjImporter.cpp:230-236 | a missing MTL file stops the import with its message |
| ObjProperties.GroupStartsNode | code/app/src/importer/ObjImporter.cpp:273-294 | `o`/`g` add one node named by the token or "undefined", a default mesh made current, and fresh maps |
| ObjProperties.FaceFirstCreatesNode | code/app/src/importer/ObjImporter.cpp:297-310 | a face before any `o`/`g` first creates an unnamed node and mesh |
| ObjProperties.FaceOutcome | code/app/src/importer/ObjImporter.cpp:322-409 | fewer than three vertices throw; exactly three continue; more stop with "Only Triangulated mesh is supported!" |
| ObjProperties.TriangleAddsCorners | code/app/src/importer/ObjImporter.cpp:358-400 | a triangle appends exactly three position indices, each naming the referenced global position |
| MtlProperties.MtlKeywordsIgnoreCase | code/app/src/importer/ObjImporter.cpp:65 | two MTL lines whose keywords agree up to case do the same |
| MtlProperties.MtlUnknownSkipped | code/app/src/importer/ObjImporter.cpp:78-121 | unsupported MTL keywords change nothing |
| MtlProperties.MtlPropertyNeedsMaterial | code/app/src/importer/ObjImporter.cpp:82-99 | a colour line before any `newmtl` is undefined |
| MtlProperties.ColorLinesRegister | code/app/src/importer/ObjImporter.cpp:82-87 | `Kd` registers `diffuseColor` on the current material unless the key is already there |
| MtlProperties.NewmtlKeepsFirstEntry | code/app/src/importer/ObjImporter.cpp:68-77 | `newmtl` appends one item with the name and never changes an existing mapping |
| Rays.DefaultRay | code/components/ray_cast/include/Ray.hpp:55-58 | the default ray is zero and every point on it is the origin |
| Rays.PointAt | code/components/ray_cast/include/Ray.hpp:41-43 | `at(t)` lies `t` directions from the origin |
| Rays.SetOrigin | code/components/simple_path_tracing/include/Ray.hpp:28-30 | changes only the origin, so `at(0)` is the new origin |
| Rays.SetDirection | code/components/ray_cast/include/Ray.hpp:33-35 | changes only the direction, to the normalized argument |
| Rays.AtAffine | code/components/ray_cast/include/Ray.hpp:41-43 | `at(0)` is the origin, and re-rooting the ray at `at(s)` shifts the parameter by `s` |
| Rays.AtInjective | code/components/simple_path_tracing/include/Ray.hpp:45-48 | with a nonzero direction, distinct parameters give distinct points |
| HitRecords.MissRecord | code/components/ray_cast/include/intersections/HitRecord.hpp:33-36 | the miss record is none |
| HitRecords.MakeHit | code/components/simple_path_tracing/include/intersections/HitRecord.hpp:46-49 | a hit record holds exactly its four arguments |
| HitRecords.HitsAreDistinct | code/components/ray_cast/include/intersections/HitRecord.hpp:19-47 | a hit is never the miss, and two hits are equal iff all four fields are |
| Aabb.EmptyBox | code/components/ray_cast/include/AABB.hpp:25-26 | the default box contains no point |
| Aabb.ExpandPoint | code/components/ray_cast/include/AABB.hpp:30-33 | the smallest box containing the old box and the point |
| Aabb.ExpandBox | code/components/ray_cast/include/AABB.hpp:35-38 | the smallest box including both boxes |
| Aabb.ExpandBoxLaws | code/components/ray_cast/include/AABB.hpp:35-38 | the union is commutative and idempotent, and the empty box is its unit within float range |
| Aabb.ExpandEmptyByPoint | code/components/ray_cast/include/AABB.hpp:25-33 | expanding the empty box by `p` gives `[p, p]`, which contains only `p` |
| Aabb.Center | code/components/ray_cast/include/AABB.hpp:40-42 | the midpoint, inside every box with min ≤ max |
| Aabb.SurfaceArea | code/components/ray_cast/include/AABB.hpp:48-51 | non-negative for a box with min ≤ max, zero for a point box |
| Aabb.SphereBounds | code/components/ray_cast/src/AABB.cpp:6-9 | centred on the sphere, non-empty for a non-negative radius |
| Aabb.SphereBoundsHoldSphere | code/components/ray_cast/src/AABB.cpp:6-9 | every point of the ball lies in the sphere's box |
| Aabb.TriangleBounds | code/components/ray_cast/src/AABB.cpp:11-17 | holds the three vertices |
| Aabb.TriangleBoundsTight | code/components/ray_cast/src/AABB.cpp:11-17 | is the min/max of the vertices and lies in every box holding them |
| Aabb.PlaneBounds | code/components/ray_cast/src/AABB.cpp:19-23 | the constant box `[-10000, 10000]^3`, whatever the plane |
| Aabb.HitsBox | code/components/ray_cast/src/AABB.cpp:26-38 | a reported hit means the slab entry is below `tMax` and the exit beyond `tMin` |
| Aabb.HitsBoxIffPointInside | code/components/ray_cast/src/AABB.cpp:26-38 | for a direction with no zero component, `xAABB` holds iff some `t` in `(tMin, tMax)` puts `at(t)` in the box |
| Aabb.ContainsIffBetween | code/components/ray_cast/src/AABB.cpp:31-32 | `at(t)` is in the box iff `t` lies between the entry and exit parameters, whatever the direction's signs |
| Intersections.HitTriangle | code/components/ray_cast/src/intersections/intersections.cpp:11-41 | a hit lies in `(tMin, tMax)` at `at(t)` with the triangle's material; `|det| < 1e-6` misses |
| Intersections.TriangleHitInside | code/components/ray_cast/src/intersections/intersections.cpp:21-40 | every hit point is a barycentric combination inside the triangle |
| Intersections.TriangleInsideHit | code/components/ray_cast/src/intersections/intersections.cpp:21-40 | conversely, a point of the triangle at an in-range `t` is reported, with a negative determinant sign-flipped |
| Intersections.SolveOnTriangle | code/components/ray_cast/src/intersections/intersections.cpp:17-34 | Cramer's rule: on the triangle, the unscaled `u`, `v` and `t` are the barycentrics and parameter times the determinant |
| Intersections.HitSphere | code/components/ray_cast/src/intersections/intersections.cpp:48-77 | a hit lies in range with the sphere's material; a discriminant ≤ 0 misses |
| Intersections.OnSphereIffRoot | code/components/ray_cast/src/intersections/intersections.cpp:50-56 | `at(t)` is on the sphere iff `t` solves the ray's quadratic |
| Intersections.QuadraticRoots | code/components/ray_cast/src/intersections/intersections.cpp:62-74 | with a positive leading coefficient the two roots are ordered and are the only solutions |
| Intersections.SphereRootsWhenPositive | code/components/ray_cast/src/intersections/intersections.cpp:57-74 | with a positive discriminant the near root is ≤ the far one, and they are exactly the crossings |
| Intersections.HitSphereIsFirstCrossing | code/components/ray_cast/src/intersections/intersections.cpp:62-76 | a hit is on the sphere with normal `(p - c)/r` and is the first crossing in range; a miss leaves only tangent crossings |
| Intersections.PatchHit | code/components/ray_cast/src/intersections/intersections.cpp:83-136 | the shared plane/light routine: misses in the parallel window; a hit is in range at the plane parameter with patch coordinates in `[0,1]` |
| Intersections.HitPlane | code/components/ray_cast/src/intersections/intersections.cpp:83-106 | a plane hit is in range with the normalized normal and the plane's material |
| Intersections.HitAreaLight | code/components/ray_cast/src/intersections/intersections.cpp:112-136 | a light hit is in range with the unnormalized `cross(u, v)` normal and a default handle |
| Intersections.OnPlaneIffParameter | code/components/ray_cast/src/intersections/intersections.cpp:90-93 | off the parallel case, `at(t)` is on the plane iff `t` is the computed parameter |
| Intersections.ParallelWindowAsymmetric | code/components/ray_cast/src/intersections/intersections.cpp:87-89 | the parallel window `(-1e-8, 1e-7)` holds 5e-8 but not -5e-8 |
| Intersections.PatchHitSound | code/components/ray_cast/src/intersections/intersections.cpp:94-104 | a hit point is on the plane at patch coordinates in `[0,1]` that rebuild it |
| Intersections.PatchHitComplete | code/components/ray_cast/src/intersections/intersections.cpp:94-104 | conversely, a patch point at an in-range `t` is reported |
| Intersections.AreaLightHitInside | code/components/ray_cast/src/intersections/intersections.cpp:112-136 | a light hit lies on the parallelogram `position + s u + w v`, `s, w` in `[0,1]` |
| Intersections.AreaLightInsideHit | code/components/ray_cast/src/intersections/intersections.cpp:112-136 | conversely, a parallelogram point at an in-range `t` is reported |
| KdTree.NewNode | code/components/ray_cast/include/KDTree.hpp:31 | a new node is an empty leaf on axis 0 at 0 |
| KdTree.TotalObjectTests | code/components/ray_cast/include/KDTree.hpp:54-56 | with non-negative counters the total bounds each of the three counters |
| KdTree.Reset | code/components/ray_cast/include/KDTree.hpp:59-68 | every counter is zero |
| KdTree.NewTree | code/components/ray_cast/src/KDTree.cpp:8-13 | no root, the given limits, counters reset |
| KdTree.ChooseSplitAxis | code/components/ray_cast/src/KDTree.cpp:116-121 | an axis of greatest extent, the first such in x, y, z order |
| KdTree.FindMedianSplit | code/components/ray_cast/src/KDTree.cpp:123-152 | 0 for no objects; else one of the coordinates with at most half of them below and half above |
| KdTree.Side | code/components/ray_cast/src/KDTree.cpp:161-187 | an order-preserving sub-list holding exactly the indices whose box reaches that side |
| KdTree.ClassifyCovers | code/components/ray_cast/src/KDTree.cpp:154-193 | every primitive reaches a side; a straddler reaches both iff its box crosses the split; planes go to both |
| KdTree.Classify | code/components/ray_cast/src/KDTree.cpp:154-193 | every plane goes to both sides unchanged; `KdTree.ClassifyCovers` states where triangles and spheres go |
| KdTree.ComputeBounds | code/components/ray_cast/src/KDTree.cpp:195-213 | the smallest box including every primitive's box |
| KdTree.BoundsHoldPrimitives | code/components/ray_cast/src/KDTree.cpp:195-213 | every listed triangle's vertices and sphere's centre lie in the bounds |
| KdTree.LeftBox | code/components/ray_cast/src/KDTree.cpp:77-93 | the left child box holds the parent's points up to the split, and only such points |
| KdTree.RightBox | code/components/ray_cast/src/KDTree.cpp:77-93 | the right child box holds the parent's points from the split, and only such points |
| KdTree.HalvesCover | code/components/ray_cast/src/KDTree.cpp:77-93 | the halves cover the box and meet only on the split plane |
| KdTree.BuildRecursive | code/components/ray_cast/src/KDTree.cpp:38-114 | a leaf at the depth or size limit or on a degenerate split; interior nodes hold nothing; height ≤ `maxDepth - depth + 1` |
| KdTree.Child | code/components/ray_cast/src/KDTree.cpp:97-111 | a child exists iff its side received an object |
| KdTree.BuildKeepsContents | code/components/ray_cast/src/KDTree.cpp:38-114 | the leaves hold exactly the objects the node was built over: none lost, none invented |
| KdTree.BuildTree | code/components/ray_cast/src/KDTree.cpp:15-36 | the root covers every triangle, sphere and plane index of the scene, and nothing else changes |
| KdTree.CountNodes | code/components/ray_cast/src/KDTree.cpp:310-320 | leaves ≤ nodes; no nodes iff no root; fewer than `2^height` nodes; a built tree has a leaf |
| KdTree.NodeCount | code/components/ray_cast/src/KDTree.cpp:298-302 | zero before the build, at least one after |
| KdTree.LeafCount | code/components/ray_cast/src/KDTree.cpp:304-308 | at most the node count, at least one in a built tree |
| Median.Sort | code/components/ray_cast/src/KDTree.cpp:150 | sorted and a permutation of the input |
| Median.SortCounts | code/components/ray_cast/src/KDTree.cpp:150 | sorting keeps how many values lie below or above any value |
| Median.MedianOf | code/components/ray_cast/src/KDTree.cpp:146-151 | 0 for an empty list; else a member with at most half below and at most half above |
| KdQuery.Narrowing | code/components/ray_cast/src/KDTree.cpp:253-281 | lowering a routine's `tMax` keeps exactly the hits below it |
| KdQuery.Scan | code/components/ray_cast/src/KDTree.cpp:249-282 | a leaf loop never raises the best distance and keeps the best record consistent |
| KdQuery.ScanIsNearest | code/components/ray_cast/src/KDTree.cpp:249-282 | after a leaf loop no listed object hits below the best distance, and the best is the old one or a listed object's hit |
| KdQuery.Query | code/components/ray_cast/src/KDTree.cpp:229-296 | a node whose box is missed before the best distance changes nothing; otherwise the best only improves |
| KdQuery.QuerySound | code/components/ray_cast/src/KDTree.cpp:229-296 | the query changes the best only to the hit of an object in the subtree |
| KdQuery.LeafNearest | code/components/ray_cast/src/KDTree.cpp:244-282 | in a leaf reached, no object hits below the final best distance |
| KdQuery.ClosestHit | code/components/ray_cast/src/KDTree.cpp:215-227 | a miss without a root or when the root box is missed; any hit is beyond 0.01 |
| KdQuery.ClosestHitSound | code/components/ray_cast/src/KDTree.cpp:215-227 | the result is the miss or the hit of some object in the tree |
| KdQuery.BuiltTreeIndexes | code/components/ray_cast/src/KDTree.cpp:15-36 | a built tree meets the query's requirement that every leaf index names an object |
| Nearest.TestAt | code/components/ray_cast/src/RayCastRenderer.cpp:885-905 | each routine's hit lies in range and carries the object's material |
| Nearest.NarrowingAt | code/components/ray_cast/src/RayCastRenderer.cpp:885-910 | passing the best distance as `tMax` keeps exactly the hits below it |
| Nearest.Order | code/components/ray_cast/src/RayCastRenderer.cpp:883-911 | the scan order holds every sphere, triangle and plane, spheres first |
| Nearest.ScanObjects | code/components/ray_cast/src/RayCastRenderer.cpp:878-914 | the scan's record is consistent with its distance and comes from a scanned object |
| Nearest.ClosestObjectHit | code/components/simple_path_tracing/src/SimplePathTracer.cpp:105-136 | the closest hit is on the ray beyond `tMin`, with a material in range when all materials resolve |
| Nearest.ClosestObjectHitIsNearest | code/components/ray_cast/src/RayCastRenderer.cpp:878-914 | a miss iff no object is hit; a hit has minimal `t`, and with strict `<` the earliest object wins ties |
| PhotonMaps.EmptyMap | code/components/ray_cast/include/RayCastRenderer.hpp:47 | a new map is empty with an empty index |
| PhotonMaps.Store | code/components/ray_cast/include/RayCastRenderer.hpp:49-52 | appends exactly the photon and keeps the index |
| PhotonMaps.Size | code/components/ray_cast/include/RayCastRenderer.hpp:60 | the number of stored photons; `PhotonMaps.Store` grows it by one and `PhotonMaps.ClearKeepsStaleIndex` empties it |
| PhotonMaps.BuildIndex | code/components/ray_cast/include/RayCastRenderer.hpp:55-58 | the index holds the stored photons |
| PhotonMaps.Clear | code/components/ray_cast/include/RayCastRenderer.hpp:95 | empties the photons and keeps the index |
| PhotonMaps.ClearKeepsStaleIndex | code/components/ray_cast/include/RayCastRenderer.hpp:55-95 | after build and clear the map is empty while its index is not |
| PhotonMaps.QueryRange | code/components/ray_cast/include/RayCastRenderer.hpp:64-80 | with an empty index, exactly the stored photons within the radius |
| PhotonMaps.StoreThenQuery | code/components/ray_cast/include/RayCastRenderer.hpp:49-80 | a query after a store is the earlier result plus the new photon when it is near, in storage order |
| PhotonMaps.SortByDistance | code/components/ray_cast/src/RayCastRenderer.cpp:592-594 | sorted by distance and a permutation |
| PhotonMaps.SelectNearest | code/components/ray_cast/src/RayCastRenderer.cpp:579-610 | none for an empty map or k ≤ 0; else `min(k, n)` of the stored photons, each no farther than the last, every strictly nearer photon among them, radius the larger of the last one's distance and 10 |
| PhotonMaps.SelectionIsNearest | code/components/ray_cast/src/RayCastRenderer.cpp:583-606 | a prefix of the sorted ranking is a sub-multiset of the map containing every photon nearer than its last |
| RayCast.NewRenderer | code/components/ray_cast/include/RayCastRenderer.hpp:114-123 | defaults 10000 photons, 5 bounces, photon mapping on, ids from 0, empty map |
| RayCast.SetPhotonCount | code/components/ray_cast/include/RayCastRenderer.hpp:142 | changes only the photon count |
| RayCast.SetMaxBounces | code/components/ray_cast/include/RayCastRenderer.hpp:143 | changes only the bounce limit |
| RayCast.SetUsePhotonMapping | code/components/ray_cast/include/RayCastRenderer.hpp:144 | changes only the flag |
| RayCast.SettersIndependent | code/components/ray_cast/include/RayCastRenderer.hpp:142-144 | the setters commute and the last write wins |
| RayCast.StoredPhotonCount | code/components/ray_cast/include/RayCastRenderer.hpp:145 | the number of stored photons |
| RayCast.TerminationProbability | code/components/ray_cast/src/RayCastRenderer.cpp:58-77 | a probability below 1 that is zero exactly at bounce 0 |
| RayCast.RouletteMonotone | code/components/ray_cast/src/RayCastRenderer.cpp:58-77 | bounce 0 never terminates, and a draw that ends a path at one bounce ends it at every later one |
| RayCast.RussianRoulette | code/components/ray_cast/src/RayCastRenderer.cpp:58-77 | a path ends when the draw falls below the termination probability; `RayCast.RouletteMonotone` states that bounce 0 never ends and later bounces end more often |
| RayCast.MaterialIndex | code/components/ray_cast/src/RayCastRenderer.cpp:386 | a valid handle gives its index and an unset one a negative index |
| RayCast.MaterialClasses | code/components/ray_cast/src/RayCastRenderer.cpp:337-357 | Lambertian and dielectric exclude each other, need an index in range, and mean types 0 and 2 |
| RayCast.IsLambertian | code/components/ray_cast/src/RayCastRenderer.cpp:337-346 | `isLambertianMaterial`; `RayCast.MaterialClasses` states that it means an in-range index of type 0 |
| RayCast.IsDielectric | code/components/ray_cast/src/RayCastRenderer.cpp:348-357 | `isDielectricMaterial`; `RayCast.MaterialClasses` states that it means an in-range index of type 2, never also Lambertian |
| RayCast.MaterialReflectance | code/components/ray_cast/src/RayCastRenderer.cpp:152-185 | grey (0.7) out of range, for other types or without `diffuseColor`; else the stored colour |
| RayCast.Ior | code/components/ray_cast/src/RayCastRenderer.cpp:410-413 | the stored `ior`, or 1.5 when absent |
| RayCast.StoreProbability | code/components/ray_cast/src/RayCastRenderer.cpp:453-454 | at most 1, non-negative for non-negative energy, and 1 from energy 0.005 up |
| RayCast.MaybeStore | code/components/ray_cast/src/RayCastRenderer.cpp:445-478 | stores iff bounce ≥ 1, energy > 1e-5, the id is new and the draw passes; a store adds one photon, records the id and counts one |
| RayCast.EffectsCompose | code/components/ray_cast/src/RayCastRenderer.cpp:359-530 | two traced segments of one photon compose into one trace effect |
| RayCast.TracePhoton | code/components/ray_cast/src/RayCastRenderer.cpp:359-530 | stores at most one photon per id, only at bounces in `[from, maxBounces)`; nothing at the bounce limit or below 1e-6 energy |
| RayCast.TraceDielectric | code/components/ray_cast/src/RayCastRenderer.cpp:408-440 | the reflected and refracted branches together keep the trace effect |
| RayCast.TraceLambertian | code/components/ray_cast/src/RayCastRenderer.cpp:445-509 | the store, roulette and bounce together keep the trace effect |
| RayCast.BuildPhotonMap | code/components/ray_cast/src/RayCastRenderer.cpp:246-336 | cleared map and ids from 0; empty without a point light; else `photonCount` ids, distinct stored ids below it, stored ≤ emitted, index built |
| PathTracer.TaskRows | code/components/simple_path_tracing/src/SimplePathTracer.cpp:31-33 | task `off` handles rows `off + k*step` below the height |
| PathTracer.RowInTask | code/components/simple_path_tracing/src/SimplePathTracer.cpp:31-33 | a row belongs to task `off` iff `row % step == off` |
| PathTracer.EveryRowOnce | code/components/simple_path_tracing/src/SimplePathTracer.cpp:77-85 | with eight tasks each row is handled by exactly one task, once |
| PathTracer.PixelIndexBijective | code/components/simple_path_tracing/src/SimplePathTracer.cpp:51 | the flipped pixel index is in bounds and a bijection on the image |
| PathTracer.AverageOfConstant | code/components/simple_path_tracing/src/SimplePathTracer.cpp:37-49 | the pixel colour, sum over sample count, of equal samples is that sample |
| PathTracer.ScanLights | code/components/simple_path_tracing/src/SimplePathTracer.cpp:144-157 | no light hit gives radiance zero |
| PathTracer.ClosestLightIsNearest | code/components/simple_path_tracing/src/SimplePathTracer.cpp:144-157 | no light hits below the result; a finite result is a light's hit; infinite iff every light misses |
| PathTracer.ClosestLight | code/components/simple_path_tracing/src/SimplePathTracer.cpp:144-157 | no light hit means black radiance; `PathTracer.ClosestLightIsNearest` states that the result is the nearest light hit |
| PathTracer.Trace | code/components/simple_path_tracing/src/SimplePathTracer.cpp:166-206 | the ambient constant at the depth limit; recursion on `currDepth + 1` terminates |
| PathTracer.TraceMisses | code/components/simple_path_tracing/src/SimplePathTracer.cpp:199-205 | nothing hit gives black; a light no farther than the object gives its radiance |
| PathTracer.DarkSceneIsBlack | code/components/simple_path_tracing/src/SimplePathTracer.cpp:166-206 | without area lights and with black ambient every path is black |
| VertexTransform.ApplyNodes | code/components/ray_cast/src/VertexTransformer.cpp:11-40 | each entity moves by the sum of its nodes' model translations; only positions and vertices change |
| VertexTransform.ExecKeepsTheRest | code/components/ray_cast/src/VertexTransformer.cpp:22-38 | radius, normals, `u`, `v`, materials, meshes and every other buffer are unchanged |
| VertexTransform.Exec | code/components/ray_cast/src/VertexTransformer.cpp:11-40 | the scene keeps every node resolving; `VertexTransform.ExecKeepsTheRest`, `VertexTransform.ShiftCounts` and `VertexTransform.ExecTwice` state what moves and by how much |
| VertexTransform.ShiftCounts | code/components/ray_cast/src/VertexTransformer.cpp:14-38 | an entity named by k nodes of one translation moves k times it |
| VertexTransform.ScaleIgnored | code/components/simple_path_tracing/src/VertexTransformer.cpp:16-20 | changing the models' scales changes nothing |
| VertexTransform.ExecTwice | code/components/simple_path_tracing/src/VertexTransformer.cpp:15-40 | a second run shifts every entity again |
| VertexTransform.ExecIdempotentIff | code/components/simple_path_tracing/src/VertexTransformer.cpp:15-40 | running twice equals running once iff no entity's shift is nonzero |
| VertexTransform.OneNodeMovesTwice | code/components/ray_cast/src/VertexTransformer.cpp:29-33 | one sphere under a (1,0,0) translation moves +1 and then +2, so `exec` is not idempotent |
| Shaders.RayCastShaderFor | code/components/ray_cast/include/shaders/ShaderCreator.hpp:26-42 | Phong iff type 1, else Lambertian, never null |
| Shaders.DielectricShadedAsLambertian | code/components/ray_cast/include/shaders/ShaderCreator.hpp:37-39 | a Glass material (type 2) gets a Lambertian |
| Shaders.PathTracerShaderFor | code/components/simple_path_tracing/include/shaders/ShaderCreator.hpp:25-37 | every type gets a Lambertian |
| Shaders.MakeCastLambertian | code/components/ray_cast/src/shaders/Lambertian.cpp:10-17 | the stored `diffuseColor`, or white when absent |
| Shaders.CastShadeProperties | code/components/ray_cast/src/shaders/Lambertian.cpp:24-27 | independent of `in`, zero when `out` is perpendicular to the normal, negative behind the surface (no clamping) |
| Shaders.MakePathLambertian | code/components/simple_path_tracing/src/shaders/Lambertian.cpp:13-20 | albedo is the stored `diffuseColor`, or white when absent |
| Shaders.Scatter | code/components/simple_path_tracing/src/shaders/Lambertian.cpp:30-52 | scattered from the hit point in the sampled direction, pdf `1/(2π)`, attenuation `albedo/π`, no emission |
| SceneBuild.BuildRenderOption | code/app/src/asset/SceneBuilder.cpp:10-17 | depth, samples, width and height copied |
| SceneBuild.BuildAmbient | code/app/src/asset/SceneBuilder.cpp:108-117 | CONSTANT iff the setting is constant; constant and map handle copied |
| SceneBuild.CopyNodes | code/app/src/asset/SceneBuilder.cpp:34-64 | nodes copied in order; success iff every node's entity has a valid material |
| SceneBuild.Build | code/app/src/asset/SceneBuilder.cpp:121-131 | none iff some node's entity lacks a material; else every buffer an element-wise copy and the camera as given |

## Left out

- Rendering output is left out: images, gamma (`sqrt`), the cameras, `render`, threads and timing. The camera ray and the hemisphere sampler are parameters of `PathTracer.Trace`.
- The photon emission directions, the random draws of `tracePhoton` and Fresnel, reflection and refraction are parameters.
- `estimateRadiance`, the radiance sum of `estimateRadianceAdaptive`, `getTotalEnergy`, `visualizePhotonDensity` and `verifyEnergyConservation` are left out. They are float formulas and reporting; only the selection of the nearest photons is modelled.
- `PhotonMaps.QueryRange`: requires an empty index, which is the linear branch. The generic photon k-d index is not part of this model, because its source is not shown.
- The KD-tree's traversal statistics counters and its debug output are left out.
- `KdQuery.ClosestHit`: proved sound, and nearest within each leaf reached, but not equal to the brute-force closest hit. The plane bounds are a constant box, so a plane can lie outside its leaf box and the equivalence fails in general.
- `Aabb.HitsBox`, `Aabb.HitsBoxIffPointInside`, `Aabb.ContainsIffBetween`, `Aabb.AxisIff`, `KdQuery.Query`, `KdQuery.Visit`, `KdQuery.QuerySound`, `KdQuery.LeafNearest`, `KdQuery.ClosestHit` and `KdQuery.ClosestHitSound`: require every component of the ray direction to be nonzero (`Aabb.Oblique`), as the slab test divides by them. With floats a zero component gives infinite slab parameters, which real numbers do not have.
- `KdQuery.ClosestHit` and `KdQuery.ClosestHitSound`: the root test at KDTree.cpp:222 calls `xAABB` with two arguments. The only definition shown (AABB.cpp:26) takes `tMin` and `tMax` as well, and no declaration shown gives them defaults. The model assumes the range `(0, FLOAT_INF)` there.
- `KdTree.LeftBox`: a child box lies inside its parent only when the split lies inside the parent box.
- `KdTree.RightBox`: the same condition applies.
- Handle.hpp is not part of this model. An unset handle is `NoHandle` and its `index()` is taken as -1.
- `Shaders.MakeCastLambertian`, `Shaders.MakePathLambertian`, `RayCast.Ior` and `RayCast.MaterialReflectance`: require the key to have the requested type. `getProperty` throws when the stored type differs from the requested one.
- `PathTracer.Trace`: requires `currDepth <= depth`, as every call in the program has. It also requires that materials resolve and that `diffuseColor` has the RGB type. It states only the depth-limit case in its own contract; the other cases are in `PathTracer.TraceMisses` and `PathTracer.DarkSceneIsBlack`.
- `PathTracer.AverageOfConstant`: requires at least one sample, since the division by zero samples is undefined.
- `RayCast.TerminationProbability`: states the range and the zero at bounce 0, not the constants 0.2 and 0.8, which are its body.
- `ScnImport.AddNode` and the other importer steps: a numeric field missing from a line reads as 0. The C++ leaves the variable as it was.
- Each `/` field of an OBJ face token is parsed independently (0 without digits). In the C++ a failed read keeps the previous value.
- `ObjImport.Face`: a line is modelled as its list of tokens, with the stream at end-of-file right after the last token. The C++ end-of-file tests (ObjImporter.cpp:275-279, 327 and 404-407) also see a trailing blank or the `\r` of a CRLF line. So `f 1 2 3 ` and `f 1 2 3\r` stop with "Only Triangulated mesh is supported!" where the model continues. `f 1 2 ` adds a third corner that repeats vertex 2, because the empty token leaves `v` as it was, where the model throws.
- `ObjProperties.FaceOutcome`: its split (fewer than three vertices throw, three continue, more stop) holds only for lines without trailing whitespace, for the reason given under `ObjImport.Face`.
- `ObjImport.ObjStep`: an `o` or `g` line with only a blank or `\r` after the keyword names its node "" in the C++, since the stream is not yet at end-of-file. The model has no trailing whitespace and names it "undefined".
- `ObjProperties.GroupStartsNode`: the name is the next token or "undefined" only for lines without trailing whitespace; a bare `o `/`g ` or `g\r` gives "" in the C++.
- Texture image loading is a parameter: the set of loadable paths.
- `VertexTransform.ApplyNodes`: requires every node to name an existing entity and model. The C++ indexes without a check. Mesh nodes are unconstrained and untouched.
- `PathTracer.ClosestLight`, `PathTracer.Trace` and `Nearest.ClosestObjectHit` as the path tracer uses it: the path tracer's own `Intersection::xSphere`, `xTriangle`, `xPlane` and `xAreaLight` (simple_path_tracing intersections.hpp:25-55) are only declared in the source shown. They are assumed to be the ray-casting routines of ray_cast/src/intersections/intersections.cpp, with those routines' `|det| < 1e-6` and `(-1e-8, 1e-7)` guards.
- `SceneBuild.CopyNodes` and `SceneBuild.Build`: require every node to name an existing sphere, triangle, plane or mesh (SceneBuilder.cpp:37-58 indexes without a check). The importers create each node together with the entity it names.
- The ray-casting `trace` and its Phong and Glass shaders are left out. `closestHit` is modelled through `Nearest.ClosestObjectHit` with `tMin` as a parameter.
- UI, OpenGL buffers, plugin loading and logging are left out.

## Findings

| source | as written | input that shows it | evidently intended | confidence | as-written member | corrected member |
|---|---|---|---|---|---|---|
| code/app/src/importer/ScnImporter.cpp:213-218,540-556 | a failed import only truncates every list to its old length, so edits made to entries that already existed survive | an asset holding one sphere of radius 1, then `Begin Model`, `R 5`, `Bogus`: the import fails and the sphere now has radius 5 | a failed import leaves the asset as it was | not executed; medium | ScnProperties.RollbackKeepsEditsOfEarlierEntries | ScnProperties.ImportAtomic |
| code/app/src/importer/ObjImporter.cpp:70-72 | `newmtl` maps the name to `materialItems.size() - 1` taken before the push, i.e. the previous item (or `npos` for the first) | `newmtl A` then `newmtl B`: B maps to A's item 0, so `usemtl B` applies A's material | the name maps to the index of its own new item | not executed; high | MtlProperties.NewmtlRecordsPreviousItem | MtlProperties.FixedStepKeepsNames |

`ScnProperties.AtomicAgreesOnAppendOnlyRuns` shows that the corrected import agrees with the written one whenever a failed run only appended. `MtlProperties.MtlStepFixed` is the corrected MTL step. It agrees with the written step on every line except `newmtl`, and `MtlProperties.FixedStepKeepsNames` proves that it keeps every mapped name pointing at its own item. The importers themselves keep the behaviour as written.

=== FILE: aabb.dfy ===
/** Axis-aligned bounding boxes: the empty default box, union with a point or a box,
    the bounds of each primitive, and the slab test of a ray against a box. */
module Aabb {
  import opened Vectors
  import opened Scene
  import opened Rays

  /** The largest finite single-precision value; `lowest()` is its negation. */
  const FloatMax: real := 340282346638528859811704183484516925440.0

  /** The half-width of the box that stands for an unbounded plane. */
  const PlaneExtent: real := 10000.0

  datatype AABB = AABB(min: Vec3, max: Vec3)

  /** The default box: `min` at the largest float and `max` at the lowest, so that the
      first expansion sets both corners. */
  function EmptyBox(): (b: AABB)
    ensures forall p :: !Contains(b, p)
  {
    AABB(Splat(FloatMax), Splat(-FloatMax))
  }

  /** Inclusive on every face. */
  predicate Contains(b: AABB, p: Vec3) {
    b.min.x <= p.x <= b.max.x && b.min.y <= p.y <= b.max.y && b.min.z <= p.z <= b.max.z
  }

  /** `b` lies inside `c`, corner by corner. */
  predicate Includes(c: AABB, b: AABB) {
    LessEq(c.min, b.min) && LessEq(b.max, c.max)
  }

  /** A point every one of whose coordinates is a finite single-precision value. */
  predicate InFloatRange(p: Vec3) {
    -FloatMax <= p.x <= FloatMax && -FloatMax <= p.y <= FloatMax && -FloatMax <= p.z <= FloatMax
  }

  /** A box whose lower corner is at or below its upper corner. */
  predicate NonEmpty(b: AABB) {
    LessEq(b.min, b.max)
  }

  /** `expand(point)`: the smallest box holding `b` and `p`. */
  function ExpandPoint(b: AABB, p: Vec3): (r: AABB)
    ensures Contains(r, p)
    ensures Includes(r, b)
    ensures forall c :: Includes(c, b) && Contains(c, p) ==> Includes(c, r)
  {
    AABB(MinV(b.min, p), MaxV(b.max, p))
  }

  /** `expand(other)`: the smallest box holding both. */
  function ExpandBox(b: AABB, other: AABB): (r: AABB)
    ensures Includes(r, b) && Includes(r, other)
    ensures forall c :: Includes(c, b) && Includes(c, other) ==> Includes(c, r)
  {
    AABB(MinV(b.min, other.min), MaxV(b.max, other.max))
  }

  /** A box includes another exactly when it holds the other's corners; so it then
      holds every point of the other. */
  lemma IncludesMeansContains(c: AABB, b: AABB, p: Vec3)
    requires Includes(c, b)
    ensures Contains(b, p) ==> Contains(c, p)
  {
  }

  /** Union is commutative and idempotent, and the empty box is its unit on boxes
      within float range. */
  lemma ExpandBoxLaws(a: AABB, b: AABB)
    ensures ExpandBox(a, b) == ExpandBox(b, a)
    ensures ExpandBox(a, a) == a
    ensures InFloatRange(a.min) && InFloatRange(a.max) ==> ExpandBox(EmptyBox(), a) == a
  {
  }

  /** Expanding the empty box by a point within float range gives the degenerate box
      at that point, which holds that point and no other. */
  lemma ExpandEmptyByPoint(p: Vec3, q: Vec3)
    requires InFloatRange(p)
    ensures ExpandPoint(EmptyBox(), p) == AABB(p, p)
    ensures Contains(ExpandPoint(EmptyBox(), p), q) <==> q == p
  {
  }

  /** `center()`: the midpoint of the corners. */
  function Center(b: AABB): (c: Vec3)
    ensures Add(Sub(c, b.min), Sub(c, b.max)) == Zero
    ensures NonEmpty(b) ==> Contains(b, c)
  {
    Scale(0.5, Add(b.min, b.max))
  }

  /** `surfaceArea()`: twice the sum of the three face areas. */
  function SurfaceArea(b: AABB): (s: real)
    ensures NonEmpty(b) ==> s >= 0.0
    ensures b.min == b.max ==> s == 0.0
  {
    var e := Sub(b.max, b.min);
    2.0 * (e.x * e.y + e.x * e.z + e.y * e.z)
  }

  // ------------------------------------------------------------- primitive bounds

  /** The sphere's bounds: the centre plus and minus the radius on every axis. */
  function SphereBounds(s: Sphere): (b: AABB)
    ensures Center(b) == s.position
    ensures s.radius >= 0.0 ==> NonEmpty(b)
  {
    AABB(Sub(s.position, Splat(s.radius)), Add(s.position, Splat(s.radius)))
  }

  /** A coordinate whose square is at most `r * r`, with `r` not negative, lies
      within `r` of zero. */
  lemma SquareBound(x: real, r: real)
    requires r >= 0.0
    ensures x * x <= r * r ==> -r <= x <= r
  {
    if x > r {
      SquareGrows(r, x);
    } else if x < -r {
      SquareGrows(r, -x);
    }
  }

  /** Squaring is strictly increasing on the non-negative reals. */
  lemma SquareGrows(a: real, b: real)
    requires 0.0 <= a < b
    ensures a * a < b * b
  {
    var u, v := b - a, b + a;
    assert u > 0.0 && v > 0.0;
    assert u * v > 0.0;
    assert b * b - a * a == u * v;
  }

  /** The sphere's box holds every point of the solid sphere. */
  lemma SphereBoundsHoldSphere(s: Sphere, p: Vec3)
    requires s.radius >= 0.0
    requires Dot(Sub(p, s.position), Sub(p, s.position)) <= s.radius * s.radius
    ensures Contains(SphereBounds(s), p)
  {
    var d := Sub(p, s.position);
    assert d.x * d.x >= 0.0 && d.y * d.y >= 0.0 && d.z * d.z >= 0.0;
    SquareBound(d.x, s.radius);
    SquareBound(d.y, s.radius);
    SquareBound(d.z, s.radius);
  }

  /** The triangle's bounds: the empty box expanded by the three vertices in turn. */
  function TriangleBounds(t: Triangle): (b: AABB)
    ensures Contains(b, t.v1) && Contains(b, t.v2) && Contains(b, t.v3)
  {
    ExpandPoint(ExpandPoint(ExpandPoint(EmptyBox(), t.v1), t.v2), t.v3)
  }

  /** For vertices within float range the triangle's bounds are the tight box of the
      three vertices: any box holding the three holds the bounds. */
  lemma TriangleBoundsTight(t: Triangle, c: AABB)
    requires InFloatRange(t.v1) && InFloatRange(t.v2) && InFloatRange(t.v3)
    ensures TriangleBounds(t) == AABB(MinV(MinV(t.v1, t.v2), t.v3), MaxV(MaxV(t.v1, t.v2), t.v3))
    ensures Contains(c, t.v1) && Contains(c, t.v2) && Contains(c, t.v3) ==> Includes(c, TriangleBounds(t))
  {
    ExpandEmptyByPoint(t.v1, t.v1);
  }

  /** A plane's bounds: the same fixed cube for every plane. */
  function PlaneBounds(p: Plane): (b: AABB)
    ensures b == AABB(Splat(-PlaneExtent), Splat(PlaneExtent))
    ensures Contains(b, Zero) && NonEmpty(b)
  {
    AABB(Splat(-PlaneExtent), Splat(PlaneExtent))
  }

  // ------------------------------------------------------------------ slab test

  /** The entry and exit parameters of one slab, `(bound - origin) * (1 / direction)`,
      ordered. */
  function SlabLow(o: real, d: real, lo: real, hi: real): real
    requires d != 0.0
  {
    Min((lo - o) * (1.0 / d), (hi - o) * (1.0 / d))
  }

  function SlabHigh(o: real, d: real, lo: real, hi: real): real
    requires d != 0.0
  {
    Max((lo - o) * (1.0 / d), (hi - o) * (1.0 / d))
  }

  /** A ray whose direction has no zero component, so that every slab parameter is
      finite. */
  predicate Oblique(ray: Ray) {
    ray.direction.x != 0.0 && ray.direction.y != 0.0 && ray.direction.z != 0.0
  }

  /** The ordered slab parameters of `b` on axis `i`. */
  function EntryOn(ray: Ray, b: AABB, i: nat): real
    requires Oblique(ray) && i < 3
  {
    SlabLow(Axis(ray.origin, i), Axis(ray.direction, i), Axis(b.min, i), Axis(b.max, i))
  }

  function ExitOn(ray: Ray, b: AABB, i: nat): real
    requires Oblique(ray) && i < 3
  {
    SlabHigh(Axis(ray.origin, i), Axis(ray.direction, i), Axis(b.min, i), Axis(b.max, i))
  }

  /** The latest entry over the three slabs. */
  function EntryParameter(ray: Ray, b: AABB): real
    requires Oblique(ray)
  {
    Max(Max(EntryOn(ray, b, 0), EntryOn(ray, b, 1)), EntryOn(ray, b, 2))
  }

  /** The earliest exit over the three slabs. */
  function ExitParameter(ray: Ray, b: AABB): real
    requires Oblique(ray)
  {
    Min(Min(ExitOn(ray, b, 0), ExitOn(ray, b, 1)), ExitOn(ray, b, 2))
  }

  /** `Intersection::xAABB`: the slab interval is non-empty and overlaps the open
      range `(tMin, tMax)`. */
  function HitsBox(ray: Ray, b: AABB, tMin: real, tMax: Limit): (r: bool)
    requires Oblique(ray)
    ensures r ==> Below(EntryParameter(ray, b), tMax) && tMin < ExitParameter(ray, b)
  {
    var tEnter := EntryParameter(ray, b);
    var tExit := ExitParameter(ray, b);
    tExit >= tEnter && tExit > tMin && Below(tEnter, tMax)
  }

  /** On one axis: the ray's coordinate lies between the two bounds exactly when the
      parameter lies in the slab interval, whichever way the direction points. */
  lemma SlabAxis(o: real, d: real, lo: real, hi: real, t: real)
    requires d != 0.0 && lo <= hi
    ensures Within(lo, o + t * d, hi) <==> Within(SlabLow(o, d, lo, hi), t, SlabHigh(o, d, lo, hi))
  {
    var t0 := (lo - o) * (1.0 / d);
    var t1 := (hi - o) * (1.0 / d);
    DivideBack(lo - o, d);
    DivideBack(hi - o, d);
    SlabBetween(o, d, lo, hi, t, t0, t1);
  }

  /** `SlabAxis` with the two slab parameters named. */
  lemma SlabBetween(o: real, d: real, lo: real, hi: real, t: real, t0: real, t1: real)
    requires d != 0.0 && lo <= hi && t0 * d == lo - o && t1 * d == hi - o
    ensures Within(lo, o + t * d, hi) <==> Within(Min(t0, t1), t, Max(t0, t1))
  {
    if d > 0.0 {
      ScaleUpBack(t0, t1, d);
      assert Min(t0, t1) == t0 && Max(t0, t1) == t1;
      if t0 <= t <= t1 {
        ScaleUp(t0, t, d);
        ScaleUp(t, t1, d);
      }
      if lo <= o + t * d <= hi {
        ScaleUpBack(t0, t, d);
        ScaleUpBack(t, t1, d);
      }
    } else {
      ScaleDownBack(t1, t0, d);
      assert Min(t0, t1) == t1 && Max(t0, t1) == t0;
      if t1 <= t <= t0 {
        ScaleDown(t1, t, d);
        ScaleDown(t, t0, d);
      }
      if lo <= o + t * d <= hi {
        ScaleDownBack(t, t0, d);
        ScaleDownBack(t1, t, d);
      }
    }
  }

  lemma ScaleUp(x: real, y: real, d: real)
    requires d > 0.0 && x <= y
    ensures x * d <= y * d
  {
    assert (y - x) * d >= 0.0;
  }

  lemma ScaleUpBack(x: real, y: real, d: real)
    requires d > 0.0 && x * d <= y * d
    ensures x <= y
  {
    assert 1.0 / d > 0.0;
    ScaleUp(x * d, y * d, 1.0 / d);
    assert (x * d) * (1.0 / d) == x && (y * d) * (1.0 / d) == y;
  }

  lemma ScaleDown(x: real, y: real, d: real)
    requires d < 0.0 && x <= y
    ensures x * d >= y * d
  {
    assert (y - x) * d <= 0.0;
  }

  lemma ScaleDownBack(x: real, y: real, d: real)
    requires d < 0.0 && x * d >= y * d
    ensures x <= y
  {
    assert 1.0 / d < 0.0;
    ScaleDown(y * d, x * d, 1.0 / d);
    assert (x * d) * (1.0 / d) == x && (y * d) * (1.0 / d) == y;
  }

  lemma DivideBack(x: real, d: real)
    requires d != 0.0
    ensures (x * (1.0 / d)) * d == x
  {
    assert (1.0 / d) * d == 1.0;
  }

  /** A point of the ray lies in the box exactly when its parameter lies between the
      entry and the exit parameter. */
  lemma ContainsIffBetween(ray: Ray, b: AABB, t: real)
    requires Oblique(ray) && NonEmpty(b)
    ensures Contains(b, PointAt(ray, t)) <==> Within(EntryParameter(ray, b), t, ExitParameter(ray, b))
  {
    var p := PointAt(ray, t);
    AxisIff(ray, b, t, 0);
    AxisIff(ray, b, t, 1);
    AxisIff(ray, b, t, 2);
    BetweenAll(EntryOn(ray, b, 0), EntryOn(ray, b, 1), EntryOn(ray, b, 2), ExitOn(ray, b, 0), ExitOn(ray, b, 1), ExitOn(ray, b, 2), t);
    SameConjunction(Contains(b, p),
      Within(b.min.x, p.x, b.max.x), Within(b.min.y, p.y, b.max.y), Within(b.min.z, p.z, b.max.z),
      Within(EntryOn(ray, b, 0), t, ExitOn(ray, b, 0)), Within(EntryOn(ray, b, 1), t, ExitOn(ray, b, 1)),
      Within(EntryOn(ray, b, 2), t, ExitOn(ray, b, 2)),
      Within(EntryParameter(ray, b), t, ExitParameter(ray, b)));
  }

  /** Conjunctions of pairwise-equal parts are equal. */
  lemma SameConjunction(c: bool, cx: bool, cy: bool, cz: bool, ix: bool, iy: bool, iz: bool, i: bool)
    requires c == (cx && cy && cz) && i == (ix && iy && iz)
    requires cx == ix && cy == iy && cz == iz
    ensures c == i
  {
  }

  /** On axis `i`, the ray's point lies between the box's faces exactly when the
      parameter lies in that axis's slab interval. */
  lemma AxisIff(ray: Ray, b: AABB, t: real, i: nat)
    requires Oblique(ray) && NonEmpty(b) && i < 3
    ensures Within(Axis(b.min, i), Axis(PointAt(ray, t), i), Axis(b.max, i)) == Within(EntryOn(ray, b, i), t, ExitOn(ray, b, i))
  {
    assert Axis(PointAt(ray, t), i) == Axis(ray.origin, i) + t * Axis(ray.direction, i);
    SlabAxis(Axis(ray.origin, i), Axis(ray.direction, i), Axis(b.min, i), Axis(b.max, i), t);
  }

  /** `lo <= v <= hi`. */
  predicate Within(lo: real, v: real, hi: real) {
    lo <= v <= hi
  }

  /** A value lies between the largest of three lower bounds and the smallest of three
      upper bounds exactly when it lies between each pair. */
  lemma BetweenAll(lx: real, ly: real, lz: real, hx: real, hy: real, hz: real, t: real)
    ensures Within(Max(Max(lx, ly), lz), t, Min(Min(hx, hy), hz)) <==> Within(lx, t, hx) && Within(ly, t, hy) && Within(lz, t, hz)
  {
  }

  /** The slab test is exact: for a non-empty box and a non-empty range, it succeeds
      exactly when some parameter strictly inside `(tMin, tMax)` puts the ray inside
      the box. */
  lemma HitsBoxIffPointInside(ray: Ray, b: AABB, tMin: real, tMax: Limit)
    requires Oblique(ray) && NonEmpty(b) && Below(tMin, tMax)
    ensures HitsBox(ray, b, tMin, tMax) <==> exists t :: tMin < t && Below(t, tMax) && Contains(b, PointAt(ray, t))
  {
    var tEnter := EntryParameter(ray, b);
    var tExit := ExitParameter(ray, b);
    if HitsBox(ray, b, tMin, tMax) {
      var t: real;
      if tEnter > tMin {
        t := tEnter;
      } else if tMax.Finite? && tMax.value < tExit {
        t := (tMin + tMax.value) / 2.0;
      } else {
        t := (tMin + tExit) / 2.0;
      }
      ContainsIffBetween(ray, b, t);
      assert tMin < t && Below(t, tMax) && Contains(b, PointAt(ray, t));
    }
    if exists t :: tMin < t && Below(t, tMax) && Contains(b, PointAt(ray, t)) {
      var t :| tMin < t && Below(t, tMax) && Contains(b, PointAt(ray, t));
      ContainsIffBetween(ray, b, t);
    }
  }
}

=== FILE: assets.dfy ===
/** The asset container: five lists of named items and eight entity buffers, plus
    the selective clear operations and the length snapshot an importer rolls back to. */
module Assets {
  import opened Scene
  import opened Materials

  /** Every item's name defaults to "undefined". */
  const DefaultName: string := "undefined"

  datatype ModelItem = ModelItem(name: string, model: Model)

  datatype NodeItem = NodeItem(name: string, node: Node)

  datatype MaterialItem = MaterialItem(name: string, material: Material)

  /** A loaded texture; only its name is modelled. */
  datatype TextureItem = TextureItem(name: string)

  datatype LightItem = LightItem(name: string, light: Light)

  datatype Asset = Asset(
    modelItems: seq<ModelItem>,
    nodeItems: seq<NodeItem>,
    materialItems: seq<MaterialItem>,
    textureItems: seq<TextureItem>,
    lightItems: seq<LightItem>,
    spheres: seq<Sphere>,
    triangles: seq<Triangle>,
    planes: seq<Plane>,
    meshes: seq<Mesh>,
    pointLights: seq<PointLight>,
    areaLights: seq<AreaLight>,
    directionalLights: seq<DirectionalLight>,
    spotLights: seq<SpotLight>)

  function EmptyAsset(): Asset {
    Asset([], [], [], [], [], [], [], [], [], [], [], [], [])
  }

  /** `clearModel()`, without its OpenGL buffer deletions. */
  function ClearModel(a: Asset): (r: Asset)
    ensures r.modelItems == [] && r.nodeItems == []
    ensures r.spheres == [] && r.triangles == [] && r.planes == [] && r.meshes == []
    ensures r.materialItems == a.materialItems && r.textureItems == a.textureItems
    ensures r.lightItems == a.lightItems && r.pointLights == a.pointLights && r.areaLights == a.areaLights
    ensures r.directionalLights == a.directionalLights && r.spotLights == a.spotLights
  {
    a.(modelItems := [], nodeItems := [], spheres := [], triangles := [], planes := [], meshes := [])
  }

  /** `clearLight()`. */
  function ClearLight(a: Asset): (r: Asset)
    ensures r.lightItems == [] && r.pointLights == [] && r.areaLights == []
    ensures r.directionalLights == [] && r.spotLights == []
    ensures r.modelItems == a.modelItems && r.nodeItems == a.nodeItems
    ensures r.materialItems == a.materialItems && r.textureItems == a.textureItems
    ensures r.spheres == a.spheres && r.triangles == a.triangles && r.planes == a.planes && r.meshes == a.meshes
  {
    a.(lightItems := [], pointLights := [], areaLights := [], directionalLights := [], spotLights := [])
  }

  /** `clearMaterial()`. */
  function ClearMaterial(a: Asset): (r: Asset)
    ensures r.materialItems == [] && r.textureItems == a.textureItems
    ensures r.modelItems == a.modelItems && r.nodeItems == a.nodeItems
    ensures r.spheres == a.spheres && r.triangles == a.triangles && r.planes == a.planes && r.meshes == a.meshes
    ensures r.lightItems == a.lightItems && r.pointLights == a.pointLights && r.areaLights == a.areaLights
    ensures r.directionalLights == a.directionalLights && r.spotLights == a.spotLights
  {
    a.(materialItems := [])
  }

  /** `clearTexture()`. */
  function ClearTexture(a: Asset): (r: Asset)
    ensures r.textureItems == [] && r.materialItems == a.materialItems
    ensures r.modelItems == a.modelItems && r.nodeItems == a.nodeItems
    ensures r.spheres == a.spheres && r.triangles == a.triangles && r.planes == a.planes && r.meshes == a.meshes
    ensures r.lightItems == a.lightItems && r.pointLights == a.pointLights && r.areaLights == a.areaLights
    ensures r.directionalLights == a.directionalLights && r.spotLights == a.spotLights
  {
    a.(textureItems := [])
  }

  /** The four clears touch disjoint lists: each is idempotent, any two commute, and
      all four together leave the empty asset. */
  lemma ClearsPartition(a: Asset)
    ensures ClearModel(ClearModel(a)) == ClearModel(a)
    ensures ClearLight(ClearLight(a)) == ClearLight(a)
    ensures ClearModel(ClearLight(a)) == ClearLight(ClearModel(a))
    ensures ClearMaterial(ClearTexture(a)) == ClearTexture(ClearMaterial(a))
    ensures ClearModel(ClearMaterial(a)) == ClearMaterial(ClearModel(a))
    ensures ClearModel(ClearLight(ClearMaterial(ClearTexture(a)))) == EmptyAsset()
  {
  }

  /** The thirteen list lengths, in the order the importers record them. */
  datatype Sizes = Sizes(
    modelItems: nat, nodeItems: nat, materialItems: nat, textureItems: nat, lightItems: nat,
    spheres: nat, triangles: nat, planes: nat, meshes: nat,
    pointLights: nat, areaLights: nat, directionalLights: nat, spotLights: nat)

  function SizesOf(a: Asset): Sizes {
    Sizes(|a.modelItems|, |a.nodeItems|, |a.materialItems|, |a.textureItems|, |a.lightItems|,
          |a.spheres|, |a.triangles|, |a.planes|, |a.meshes|,
          |a.pointLights|, |a.areaLights|, |a.directionalLights|, |a.spotLights|)
  }

  /** Every list of `a` is at least as long as recorded in `s`. */
  predicate AtLeast(a: Asset, s: Sizes) {
    s.modelItems <= |a.modelItems| && s.nodeItems <= |a.nodeItems|
    && s.materialItems <= |a.materialItems| && s.textureItems <= |a.textureItems|
    && s.lightItems <= |a.lightItems| && s.spheres <= |a.spheres|
    && s.triangles <= |a.triangles| && s.planes <= |a.planes| && s.meshes <= |a.meshes|
    && s.pointLights <= |a.pointLights| && s.areaLights <= |a.areaLights|
    && s.directionalLights <= |a.directionalLights| && s.spotLights <= |a.spotLights|
  }

  /** Every list of `a` is a prefix of the matching list of `b`: `b` was reached from
      `a` by appending only. */
  predicate Extends(a: Asset, b: Asset) {
    a.modelItems <= b.modelItems && a.nodeItems <= b.nodeItems
    && a.materialItems <= b.materialItems && a.textureItems <= b.textureItems
    && a.lightItems <= b.lightItems && a.spheres <= b.spheres
    && a.triangles <= b.triangles && a.planes <= b.planes && a.meshes <= b.meshes
    && a.pointLights <= b.pointLights && a.areaLights <= b.areaLights
    && a.directionalLights <= b.directionalLights && a.spotLights <= b.spotLights
  }

  /** The importers' rollback: every list resized back to its recorded length. */
  function Truncate(a: Asset, s: Sizes): (r: Asset)
    requires AtLeast(a, s)
    ensures SizesOf(r) == s
    ensures Extends(r, a)
  {
    Asset(a.modelItems[..s.modelItems], a.nodeItems[..s.nodeItems],
          a.materialItems[..s.materialItems], a.textureItems[..s.textureItems],
          a.lightItems[..s.lightItems], a.spheres[..s.spheres], a.triangles[..s.triangles],
          a.planes[..s.planes], a.meshes[..s.meshes], a.pointLights[..s.pointLights],
          a.areaLights[..s.areaLights], a.directionalLights[..s.directionalLights],
          a.spotLights[..s.spotLights])
  }

  /** When an import only appended, truncating to the recorded lengths restores the
      asset exactly. */
  lemma TruncateUndoesAppends(a: Asset, b: Asset)
    requires Extends(a, b)
    ensures AtLeast(b, SizesOf(a))
    ensures Truncate(b, SizesOf(a)) == a
  {
  }
}

=== FILE: closest_hit.dfy ===
/** The brute-force closest-hit scan both renderers use: every sphere, then every
    triangle, then every plane, each compared against the best distance so far, and a hit
    kept only when strictly nearer, so that of two hits at the same distance the one
    compared first stays. */
module Nearest {
  import opened Optional
  import opened Vectors
  import opened Scene
  import opened Rays
  import opened HitRecords
  import opened Numerics
  import opened Intersections
  import opened SceneBuild
  import opened Handles

  /** The three kinds of object a scene holds. */
  datatype Shape = TriangleShape | SphereShape | PlaneShape

  /** `d` is no larger than `e`. */
  predicate AtMost(d: Limit, e: Limit) {
    e.Infinite? || (d.Finite? && d.value <= e.value)
  }

  /** The object's index names an entry of its buffer. */
  predicate Exists(scene: RenderScene, shape: Shape, id: nat) {
    match shape
    case TriangleShape => id < |scene.triangleBuffer|
    case SphereShape => id < |scene.sphereBuffer|
    case PlaneShape => id < |scene.planeBuffer|
  }

  /** The material handle of an object. */
  function MaterialOf(scene: RenderScene, shape: Shape, id: nat): Handle
    requires Exists(scene, shape, id)
  {
    match shape
    case TriangleShape => scene.triangleBuffer[id].material
    case SphereShape => scene.sphereBuffer[id].material
    case PlaneShape => scene.planeBuffer[id].material
  }

  /** Every object's material handle is set and names a material of the scene, as the
      scene builder guarantees of the scenes it builds. */
  ghost predicate MaterialsResolve(scene: RenderScene) {
    forall shape, id: nat :: Exists(scene, shape, id) ==>
      MaterialOf(scene, shape, id).Valid() && MaterialOf(scene, shape, id).index < |scene.materials|
  }

  /** The intersection routine for one object over `(tMin, tMax)`. */
  function TestAt(num: Numerics, scene: RenderScene, ray: Ray, shape: Shape, id: nat, tMin: real, tMax: Limit): (r: HitRecord)
    requires Exists(scene, shape, id)
    ensures OnRay(r, ray, tMin, tMax)
    ensures r.Some? ==> r.value.material == MaterialOf(scene, shape, id)
  {
    match shape
    case TriangleShape => HitTriangle(num, ray, scene.triangleBuffer[id], tMin, tMax)
    case SphereShape => HitSphere(num, ray, scene.sphereBuffer[id], tMin, tMax)
    case PlaneShape => HitPlane(num, ray, scene.planeBuffer[id], tMin, tMax)
  }

  /** Narrowing the range of a routine only drops hits: with the smaller bound it
      returns the same record when that record's parameter is still below the bound,
      and a miss otherwise. For a sphere this rests on the square root being the true
      one, so that the nearer root is tried first. */
  lemma NarrowingAt(num: Numerics, scene: RenderScene, ray: Ray, shape: Shape, id: nat, tMin: real, d: Limit, e: Limit)
    requires Exists(scene, shape, id) && AtMost(d, e) && SqrtSound(num)
    ensures var h := TestAt(num, scene, ray, shape, id, tMin, e);
      TestAt(num, scene, ray, shape, id, tMin, d) == if h.Some? && Below(h.value.t, d) then h else None
  {
    match shape
    case TriangleShape => NarrowTriangle(num, ray, scene.triangleBuffer[id], tMin, d, e);
    case SphereShape => NarrowSphere(num, ray, scene.sphereBuffer[id], tMin, d, e);
    case PlaneShape => NarrowPlane(num, ray, scene.planeBuffer[id], tMin, d, e);
  }

  lemma NarrowTriangle(num: Numerics, ray: Ray, tri: Triangle, tMin: real, d: Limit, e: Limit)
    requires AtMost(d, e)
    ensures var h := HitTriangle(num, ray, tri, tMin, e);
      HitTriangle(num, ray, tri, tMin, d) == if h.Some? && Below(h.value.t, d) then h else None
  {
    var s := Solve(ray, tri);
    var a := Accept(s, tMin, e);
    assert Accept(s, tMin, d) == if a.Some? && Below(a.value, d) then a else None;
  }

  lemma NarrowSphere(num: Numerics, ray: Ray, sp: Sphere, tMin: real, d: Limit, e: Limit)
    requires AtMost(d, e) && SqrtSound(num)
    ensures var h := HitSphere(num, ray, sp, tMin, e);
      HitSphere(num, ray, sp, tMin, d) == if h.Some? && Below(h.value.t, d) then h else None
  {
    if Discriminant(SphereQuadratic(ray, sp)) > 0.0 {
      SphereRootsWhenPositive(num, ray, sp, 0.0);
    }
  }

  lemma NarrowPlane(num: Numerics, ray: Ray, p: Plane, tMin: real, d: Limit, e: Limit)
    requires AtMost(d, e)
    ensures var h := HitPlane(num, ray, p, tMin, e);
      HitPlane(num, ray, p, tMin, d) == if h.Some? && Below(h.value.t, d) then h else None
  {
  }

  /** One object of the scene. */
  datatype Obj = Obj(shape: Shape, id: nat)

  function Ids(shape: Shape, n: nat): (r: seq<Obj>)
    ensures |r| == n && forall i :: 0 <= i < n ==> r[i] == Obj(shape, i)
  {
    if n == 0 then [] else Ids(shape, n - 1) + [Obj(shape, n - 1)]
  }

  /** The order the three loops visit the objects in: spheres, triangles, planes. */
  function Order(scene: RenderScene): (r: seq<Obj>)
    ensures |r| == |scene.sphereBuffer| + |scene.triangleBuffer| + |scene.planeBuffer|
    ensures forall k :: 0 <= k < |r| ==> Exists(scene, r[k].shape, r[k].id)
    ensures forall shape, id: nat :: Exists(scene, shape, id) ==> Obj(shape, id) in r
  {
    var r := Ids(SphereShape, |scene.sphereBuffer|) + Ids(TriangleShape, |scene.triangleBuffer|)
      + Ids(PlaneShape, |scene.planeBuffer|);
    OrderCovers(scene, r);
    r
  }

  lemma OrderCovers(scene: RenderScene, r: seq<Obj>)
    requires r == Ids(SphereShape, |scene.sphereBuffer|) + Ids(TriangleShape, |scene.triangleBuffer|)
      + Ids(PlaneShape, |scene.planeBuffer|)
    ensures forall shape, id: nat :: Exists(scene, shape, id) ==> Obj(shape, id) in r
  {
    forall shape, id: nat | Exists(scene, shape, id) ensures Obj(shape, id) in r {
      if shape == SphereShape {
        assert r[id] == Obj(shape, id);
      } else if shape == TriangleShape {
        assert r[|scene.sphereBuffer| + id] == Obj(shape, id);
      } else {
        assert r[|scene.sphereBuffer| + |scene.triangleBuffer| + id] == Obj(shape, id);
      }
    }
  }

  predicate ObjsExist(scene: RenderScene, objs: seq<Obj>) {
    forall k :: 0 <= k < |objs| ==> Exists(scene, objs[k].shape, objs[k].id)
  }

  /** The hit of an object over the whole ray beyond `tMin`. */
  function HitOf(num: Numerics, scene: RenderScene, ray: Ray, o: Obj, tMin: real): (r: HitRecord)
    requires Exists(scene, o.shape, o.id)
    ensures OnRay(r, ray, tMin, Infinite)
  {
    TestAt(num, scene, ray, o.shape, o.id, tMin, Infinite)
  }

  /** `closestHit` and `closest` during the scan. */
  datatype Closest = Closest(hit: HitRecord, dist: Limit)

  /** The best record is a hit at the recorded distance; without one the distance is
      still `FLOAT_INF`. */
  predicate Tracks(b: Closest, ray: Ray, tMin: real) {
    (b.hit.None? <==> b.dist.Infinite?)
    && (b.hit.Some? ==> b.dist == Finite(b.hit.value.t) && OnRay(b.hit, ray, tMin, Infinite))
  }

  /** One loop iteration: test the object against the best distance and keep its hit
      when strictly nearer. */
  function StepAt(num: Numerics, scene: RenderScene, ray: Ray, o: Obj, tMin: real, b: Closest): (r: Closest)
    requires Exists(scene, o.shape, o.id)
    ensures AtMost(r.dist, b.dist)
    ensures Tracks(b, ray, tMin) ==> Tracks(r, ray, tMin)
  {
    var h := TestAt(num, scene, ray, o.shape, o.id, tMin, b.dist);
    if h.Some? && Below(h.value.t, b.dist) then Closest(h, Finite(h.value.t)) else b
  }

  /** The loops over a prefix of the order, from the miss record at `FLOAT_INF`. */
  function ScanObjects(num: Numerics, scene: RenderScene, ray: Ray, objs: seq<Obj>, tMin: real): (r: Closest)
    requires ObjsExist(scene, objs)
    ensures Tracks(r, ray, tMin)
    ensures r.hit.Some? ==> exists k :: 0 <= k < |objs| && r.hit.value.material == MaterialOf(scene, objs[k].shape, objs[k].id)
  {
    if objs == [] then Closest(MissRecord(), Infinite)
    else StepAt(num, scene, ray, objs[|objs| - 1], tMin, ScanObjects(num, scene, ray, objs[..|objs| - 1], tMin))
  }

  /** `closestHit` of the ray-casting renderer (with `tMin` 0.01) and `closestHitObject`
      of the path tracer (with `tMin` 0.000001). */
  function ClosestObjectHit(num: Numerics, scene: RenderScene, ray: Ray, tMin: real): (r: HitRecord)
    ensures OnRay(r, ray, tMin, Infinite)
    ensures r.Some? && MaterialsResolve(scene) ==>
      r.value.material.Valid() && r.value.material.index < |scene.materials|
  {
    ScanObjects(num, scene, ray, Order(scene), tMin).hit
  }

  /** Every object before position `w` misses, or hits strictly farther than `h`. */
  predicate EarlierFarther(num: Numerics, scene: RenderScene, ray: Ray, objs: seq<Obj>, tMin: real, w: nat, h: HitRecord)
    requires ObjsExist(scene, objs) && w <= |objs| && h.Some?
  {
    forall k :: 0 <= k < w ==>
      HitOf(num, scene, ray, objs[k], tMin).None? || HitOf(num, scene, ray, objs[k], tMin).value.t > h.value.t
  }

  /** The winner among `objs` at position `w`: its own hit, strictly nearer than the
      hit of every object before it and no farther than that of every object after. */
  predicate Wins(num: Numerics, scene: RenderScene, ray: Ray, objs: seq<Obj>, tMin: real, w: nat, h: HitRecord)
    requires ObjsExist(scene, objs)
  {
    w < |objs| && h.Some? && h == HitOf(num, scene, ray, objs[w], tMin)
    && EarlierFarther(num, scene, ray, objs, tMin, w, h)
    && (forall k :: w < k < |objs| ==>
          HitOf(num, scene, ray, objs[k], tMin).None? || HitOf(num, scene, ray, objs[k], tMin).value.t >= h.value.t)
  }

  /** What the loops keep: no object scanned so far hits below the best distance, and a
      best hit is the hit of a scanned object strictly nearer than every earlier one. */
  lemma {:induction false} ScanInvariant(num: Numerics, scene: RenderScene, ray: Ray, objs: seq<Obj>, tMin: real)
    requires ObjsExist(scene, objs) && SqrtSound(num)
    ensures var r := ScanObjects(num, scene, ray, objs, tMin);
      (forall k :: 0 <= k < |objs| ==> TestAt(num, scene, ray, objs[k].shape, objs[k].id, tMin, r.dist).None?)
      && (r.hit.Some? ==> exists w :: (0 <= w < |objs| && r.hit == HitOf(num, scene, ray, objs[w], tMin)
            && EarlierFarther(num, scene, ray, objs, tMin, w, r.hit)))
  {
    if objs != [] {
      var n := |objs| - 1;
      var front := objs[..n];
      var o := objs[n];
      assert ObjsExist(scene, front);
      var b := ScanObjects(num, scene, ray, front, tMin);
      var r := StepAt(num, scene, ray, o, tMin, b);
      ScanInvariant(num, scene, ray, front, tMin);
      NarrowingAt(num, scene, ray, o.shape, o.id, tMin, r.dist, b.dist);
      NarrowingAt(num, scene, ray, o.shape, o.id, tMin, b.dist, Infinite);
      forall k | 0 <= k < |objs|
        ensures TestAt(num, scene, ray, objs[k].shape, objs[k].id, tMin, r.dist).None?
      {
        if k < n {
          assert objs[k] == front[k];
          NarrowingAt(num, scene, ray, objs[k].shape, objs[k].id, tMin, r.dist, b.dist);
        }
      }
      if r != b {
        // the last object's hit is the new best, strictly nearer than every earlier one
        forall k | 0 <= k < n
          ensures HitOf(num, scene, ray, objs[k], tMin).None? || HitOf(num, scene, ray, objs[k], tMin).value.t > r.hit.value.t
        {
          assert objs[k] == front[k];
          NarrowingAt(num, scene, ray, objs[k].shape, objs[k].id, tMin, b.dist, Infinite);
        }
        assert r.hit == HitOf(num, scene, ray, objs[n], tMin);
        assert EarlierFarther(num, scene, ray, objs, tMin, n, r.hit);
      } else if r.hit.Some? {
        var w :| 0 <= w < |front| && r.hit == HitOf(num, scene, ray, front[w], tMin)
          && EarlierFarther(num, scene, ray, front, tMin, w, r.hit);
        assert objs[w] == front[w];
        assert forall k :: 0 <= k < w ==> objs[k] == front[k];
        assert EarlierFarther(num, scene, ray, objs, tMin, w, r.hit);
      }
    }
  }

  /** The scan finds the nearest hit of all objects and, among equally near ones, the
      first in order; it reports a miss exactly when no object is hit at all. */
  lemma ClosestObjectHitIsNearest(num: Numerics, scene: RenderScene, ray: Ray, tMin: real)
    requires SqrtSound(num)
    ensures var r := ClosestObjectHit(num, scene, ray, tMin);
      var objs := Order(scene);
      (r.None? <==> forall k :: 0 <= k < |objs| ==> HitOf(num, scene, ray, objs[k], tMin).None?)
      && (r.Some? ==> exists w :: Wins(num, scene, ray, objs, tMin, w, r))
  {
    var objs := Order(scene);
    var b := ScanObjects(num, scene, ray, objs, tMin);
    ScanInvariant(num, scene, ray, objs, tMin);
    if b.hit.Some? {
      var w :| 0 <= w < |objs| && b.hit == HitOf(num, scene, ray, objs[w], tMin)
        && EarlierFarther(num, scene, ray, objs, tMin, w, b.hit);
      forall k | w < k < |objs|
        ensures HitOf(num, scene, ray, objs[k], tMin).None? || HitOf(num, scene, ray, objs[k], tMin).value.t >= b.hit.value.t
      {
        NarrowingAt(num, scene, ray, objs[k].shape, objs[k].id, tMin, b.dist, Infinite);
      }
      assert Wins(num, scene, ray, objs, tMin, w, b.hit);
    }
  }
}

=== FILE: files.dfy ===
/** Path utilities. `std::string::find_last_of` returns `npos`, the largest 64-bit
    unsigned value, when nothing matches, and the callers add one to it; that sum
    wraps to zero, which the functions here carry out explicitly. */
module Files {

  /** 2^64, the modulus of `size_t` arithmetic. */
  const SizeMod: nat := 0x1_0000_0000_0000_0000

  /** `std::string::npos`. */
  const NPos: nat := SizeMod - 1

  /** `find_last_of(chars)`: the index of the last character of `s` in `chars`, or
      `NPos` when there is none. */
  function FindLastOf(s: string, chars: set<char>): (r: nat)
    requires |s| < NPos
    ensures r == NPos || r < |s|
    ensures r < |s| ==> s[r] in chars && forall j :: r < j < |s| ==> s[j] !in chars
    ensures r == NPos ==> forall j :: 0 <= j < |s| ==> s[j] !in chars
  {
    if |s| == 0 then NPos
    else if s[|s| - 1] in chars then |s| - 1
    else
      var r := FindLastOf(s[..|s| - 1], chars);
      assert r < |s| - 1 ==> s[r] == s[..|s| - 1][r];
      assert forall j :: 0 <= j < |s| - 1 ==> s[j] == s[..|s| - 1][j];
      r
  }

  /** `FindLastOf` is determined by its contract: the matching index after which no
      character matches. */
  lemma FindLastOfIs(s: string, chars: set<char>, k: nat)
    requires |s| < NPos && k < |s| && s[k] in chars
    requires forall j :: k < j < |s| ==> s[j] !in chars
    ensures FindLastOf(s, chars) == k
  {
  }

  /** `r` is a suffix of `s`. */
  predicate IsSuffix(r: string, s: string) {
    |r| <= |s| && s[|s| - |r|..] == r
  }

  /** `substr(pos, count)`: at most `count` characters from `pos` on; `pos` may not
      pass the end. */
  function Substr(s: string, pos: nat, count: nat): (r: string)
    requires pos <= |s|
    ensures |r| == if count < |s| - pos then count else |s| - pos
    ensures forall i :: 0 <= i < |r| ==> r[i] == s[pos + i]
  {
    if pos + count < |s| then s[pos..pos + count] else s[pos..]
  }

  /** `File::getFileExtension`: `substr(pos + 1, size - pos - 1)` with `pos` the last
      '.', the arithmetic taken modulo 2^64. */
  function GetFileExtension(path: string): (r: string)
    requires |path| < NPos
    ensures IsSuffix(r, path)
    ensures '.' !in r
    ensures '.' !in path ==> r == path
    ensures '.' in path ==> path[|path| - |r| - 1] == '.'
  {
    var pos := FindLastOf(path, {'.'});
    var start := (pos + 1) % SizeMod;
    var count := (|path| - pos - 1) % SizeMod;
    if pos == NPos then
      assert start == 0 && count == |path|;
      Substr(path, start, count)
    else
      assert start == pos + 1 && count == |path| - pos - 1;
      Substr(path, start, count)
  }

  /** The extension of a path whose last '.' sits at index `k` is the text after it. */
  lemma ExtensionAfter(path: string, k: nat)
    requires |path| < NPos && k < |path| && path[k] == '.'
    requires forall j :: k < j < |path| ==> path[j] != '.'
    ensures GetFileExtension(path) == path[k + 1..]
  {
    FindLastOfIs(path, {'.'}, k);
  }

  /** `File::getFileName`: the text after the last '/' or '\\', or the whole path. */
  function GetFileName(path: string): (r: string)
    requires |path| < NPos
    ensures IsSuffix(r, path)
    ensures '/' !in r && '\\' !in r
    ensures '/' !in path && '\\' !in path ==> r == path
    ensures ('/' in path || '\\' in path) ==> path[|path| - |r| - 1] in {'/', '\\'}
  {
    var pos := FindLastOf(path, {'/', '\\'});
    if pos != NPos then Substr(path, pos + 1, |path| - pos - 1) else path
  }

  /** The directory part the OBJ importer prefixes to a material library name:
      `substr(0, pos + 1)` with `pos` the last separator, again modulo 2^64. */
  function DirectoryOf(path: string): (r: string)
    requires |path| < NPos
    ensures r + GetFileName(path) == path
  {
    var pos := FindLastOf(path, {'/', '\\'});
    var count := (pos + 1) % SizeMod;
    if pos == NPos then
      assert count == 0;
      Substr(path, 0, count)
    else
      assert count == pos + 1;
      assert path[..pos + 1] + path[pos + 1..] == path;
      Substr(path, 0, count)
  }
}

=== FILE: handles.dfy ===
/** Handles: indices into the scene's buffers that may be unset. A default-constructed
    handle is invalid, and setting an index makes it valid. */
module Handles {

  datatype Handle = NoHandle | At(index: nat) {

    /** The handle's `valid()`. */
    predicate Valid() {
      At?
    }
  }

  /** The handle after `setIndex(i)`: valid, with index `i`, whatever it was before. */
  function SetIndex(h: Handle, i: nat): (r: Handle)
    ensures r.Valid() && r.index == i
  {
    At(i)
  }
}

=== FILE: hit_records.dfy ===
/** The optional hit record both renderers' intersection routines return. */
module HitRecords {
  import opened Vectors
  import opened Handles
  import opened Optional

  /** What a hit records: the ray parameter, the point, the surface normal and the
      material of the surface hit. */
  datatype HitRecordBase = HitRecordBase(t: real, hitPoint: Vec3, normal: Vec3, material: Handle)

  /** A miss is `None`; a hit is `Some` of its record. */
  type HitRecord = Option<HitRecordBase>

  /** `getMissRecord()`. */
  function MissRecord(): (r: HitRecord)
    ensures r.None?
  {
    None
  }

  /** `getHitRecord(t, hitPoint, normal, material)`: a hit carrying exactly its
      arguments. */
  function MakeHit(t: real, hitPoint: Vec3, normal: Vec3, material: Handle): (r: HitRecord)
    ensures r.Some?
    ensures r.value.t == t && r.value.hitPoint == hitPoint
    ensures r.value.normal == normal && r.value.material == material
  {
    Some(HitRecordBase(t, hitPoint, normal, material))
  }

  /** A hit is never the miss, and two hits are equal exactly when all four fields are. */
  lemma HitsAreDistinct(t: real, p: Vec3, n: Vec3, m: Handle, t': real, p': Vec3, n': Vec3, m': Handle)
    ensures MakeHit(t, p, n, m) != MissRecord()
    ensures MakeHit(t, p, n, m) == MakeHit(t', p', n', m') <==> t == t' && p == p' && n == n' && m == m'
  {
  }
}

=== FILE: importer_factory.dfy ===
/** The extension-to-importer registry. Its single instance maps "scn" and "obj";
    lookup is an exact, case-sensitive key match and an unknown key yields no importer. */
module ImporterFactory {
  import opened Optional
  import opened Files

  datatype ImporterKind = ScnImporter | ObjImporter

  datatype Factory = Factory(importerMap: map<string, ImporterKind>)

  /** `SceneImporterFactory::instance()`: always the same registry, built by the
      constructor. */
  const TheInstance: Factory := Factory(map["scn" := ScnImporter, "obj" := ObjImporter])

  function Instance(): Factory {
    TheInstance
  }

  /** `importer(ext)`. */
  function Importer(f: Factory, ext: string): (r: Option<ImporterKind>)
    ensures r.Some? <==> ext in f.importerMap
    ensures r.Some? ==> r.value == f.importerMap[ext]
  {
    if ext in f.importerMap then Some(f.importerMap[ext]) else None
  }

  /** The registry answers "scn" and "obj" and nothing else. */
  lemma InstanceDispatch(ext: string)
    ensures Importer(Instance(), ext) == Some(ScnImporter) <==> ext == "scn"
    ensures Importer(Instance(), ext) == Some(ObjImporter) <==> ext == "obj"
    ensures Importer(Instance(), ext).None? <==> ext != "scn" && ext != "obj"
  {
  }

  /** The importer chosen for a path, the asset manager's
      `importer(getFileExtension(path))`. */
  function ImporterForPath(path: string): (r: Option<ImporterKind>)
    requires |path| < NPos
    ensures r == Some(ScnImporter) ==> IsSuffix("scn", path)
    ensures r == Some(ObjImporter) ==> IsSuffix("obj", path)
  {
    Importer(Instance(), GetFileExtension(path))
  }

  /** Dispatch examples: the upper-case "OBJ" is unknown, and a path without any '.'
      is taken whole as its extension, so the bare path "scn" selects the scene importer. */
  lemma DispatchExamples()
    ensures Importer(Instance(), "OBJ").None?
    ensures ImporterForPath("scenes/box.obj") == Some(ObjImporter)
    ensures ImporterForPath("scn") == Some(ScnImporter)
    ensures ImporterForPath("scenes/box.OBJ").None?
  {
    assert "OBJ" !in TheInstance.importerMap;
    LowerObjPath();
    BareScnPath();
    UpperObjPath();
  }

  /** The lower-case ".obj" path selects the OBJ importer. */
  lemma LowerObjPath()
    ensures ImporterForPath("scenes/box.obj") == Some(ObjImporter)
  {
    ExtensionAfter("scenes/box.obj", 10);
    assert "scenes/box.obj"[11..] == "obj";
  }

  /** A path without '.' is its own extension. */
  lemma BareScnPath()
    ensures ImporterForPath("scn") == Some(ScnImporter)
  {
    assert '.' !in "scn";
  }

  /** The extension is matched as written, so ".OBJ" finds nothing. */
  lemma UpperObjPath()
    ensures ImporterForPath("scenes/box.OBJ").None?
  {
    ExtensionAfter("scenes/box.OBJ", 10);
    assert "scenes/box.OBJ"[11..] == "OBJ";
    assert "OBJ" !in TheInstance.importerMap;
  }
}

=== FILE: intersections.dfy ===
/** The ray-cast renderer's intersection routines: triangle (Moller-Trumbore with
    the sign of the determinant folded in), sphere (nearer root first), plane and area
    light (a parallelogram patch through an inverse basis). Each returns a hit record
    whose parameter lies strictly inside `(tMin, tMax)`. */
module Intersections {
  import opened Vectors
  import opened Handles
  import opened Optional
  import opened Scene
  import opened Rays
  import opened HitRecords
  import opened Numerics

  /** Below this determinant the ray counts as parallel to the triangle. */
  const TriangleEpsilon: real := 0.000001

  /** A direction-normal product strictly between these two counts as parallel to
      a plane; the window is not symmetric. */
  const ParallelAbove: real := 0.0000001
  const ParallelBelow: real := -0.00000001

  /** A hit parameter in the open range `(tMin, tMax)`. */
  predicate InRange(t: real, tMin: real, tMax: Limit) {
    tMin < t && Below(t, tMax)
  }

  /** What every routine promises of a hit: the parameter is in range and the point
      is the ray's point at that parameter. */
  predicate OnRay(r: HitRecord, ray: Ray, tMin: real, tMax: Limit) {
    r.Some? ==> InRange(r.value.t, tMin, tMax) && r.value.hitPoint == PointAt(ray, r.value.t)
  }

  // ------------------------------------------------------------------ triangle

  /** The point `v1 + beta e1 + gamma e2` of the triangle's plane. */
  function Barycentric(tri: Triangle, beta: real, gamma: real): Vec3 {
    Add(tri.v1, Add(Scale(beta, Sub(tri.v2, tri.v1)), Scale(gamma, Sub(tri.v3, tri.v1))))
  }

  /** The determinant, before its sign is folded in: `e1 . (d x e2)`. */
  function TriangleDet(ray: Ray, tri: Triangle): real {
    Dot(Sub(tri.v2, tri.v1), Cross(ray.direction, Sub(tri.v3, tri.v1)))
  }

  /** The quantities the triangle routine computes: the determinant with its sign
      folded into `T`, the unscaled barycentric coordinates `u = T.P`, `v = d.Q` and
      the unscaled parameter `e2.Q`. */
  datatype TriangleSystem = TriangleSystem(det: real, u: real, v: real, wq: real)

  function Solve(ray: Ray, tri: Triangle): (s: TriangleSystem)
    ensures s.det >= 0.0
    ensures s.det == TriangleDet(ray, tri) || s.det == -TriangleDet(ray, tri)
  {
    var e1 := Sub(tri.v2, tri.v1);
    var e2 := Sub(tri.v3, tri.v1);
    var p := Cross(ray.direction, e2);
    var det0 := Dot(e1, p);
    var tv := if det0 > 0.0 then Sub(ray.origin, tri.v1) else Sub(tri.v1, ray.origin);
    var q := Cross(tv, e1);
    TriangleSystem(if det0 > 0.0 then det0 else -det0, Dot(tv, p), Dot(ray.direction, q), Dot(e2, q))
  }

  /** `xTriangle`. A non-positive determinant is negated together with `T`, so both
      windings are hit; a determinant under the threshold, a barycentric coordinate
      outside the triangle or a parameter outside the range is a miss. */
  function HitTriangle(num: Numerics, ray: Ray, tri: Triangle, tMin: real, tMax: Limit): (r: HitRecord)
    ensures OnRay(r, ray, tMin, tMax)
    ensures r.Some? ==> r.value.material == tri.material && r.value.normal == num.normalize(tri.normal)
    ensures -TriangleEpsilon < TriangleDet(ray, tri) < TriangleEpsilon ==> r.None?
  {
    match Accept(Solve(ray, tri), tMin, tMax)
    case None => None
    case Some(w) => MakeHit(w, PointAt(ray, w), num.normalize(tri.normal), tri.material)
  }

  /** The routine's checks on a solved system, in order: the threshold, `u`, `v`, then
      the parameter `T` divided back, which must lie in range. */
  function Accept(s: TriangleSystem, tMin: real, tMax: Limit): (r: Option<real>)
    ensures s.det < TriangleEpsilon ==> r.None?
    ensures r.Some? ==> s.det >= TriangleEpsilon && 0.0 <= s.u <= s.det && 0.0 <= s.v && s.v + s.u <= s.det
    ensures r.Some? ==> r.value == s.wq * (1.0 / s.det) && InRange(r.value, tMin, tMax)
  {
    if s.det < TriangleEpsilon then None
    else if s.u > s.det || s.u < 0.0 then None
    else if s.v < 0.0 || s.v + s.u > s.det then None
    else
      var w := s.wq * (1.0 / s.det);
      if !Below(w, tMax) || w <= tMin then None
      else Some(w)
  }

  /** A system that passes every check, with its parameter in range, is accepted at
      that parameter. */
  lemma AcceptAt(s: TriangleSystem, tMin: real, tMax: Limit, t: real)
    requires s.det >= TriangleEpsilon && 0.0 <= s.u <= s.det && 0.0 <= s.v && s.v + s.u <= s.det
    requires s.wq * (1.0 / s.det) == t && InRange(t, tMin, tMax)
    ensures Accept(s, tMin, tMax) == Some(t)
  {
  }

  lemma CramerX(d: Vec3, e1: Vec3, e2: Vec3, tv: Vec3)
    ensures Dot(e1, Cross(d, e2)) * tv.x + Dot(e2, Cross(tv, e1)) * d.x == Dot(tv, Cross(d, e2)) * e1.x + Dot(d, Cross(tv, e1)) * e2.x
  {
  }

  lemma CramerY(d: Vec3, e1: Vec3, e2: Vec3, tv: Vec3)
    ensures Dot(e1, Cross(d, e2)) * tv.y + Dot(e2, Cross(tv, e1)) * d.y == Dot(tv, Cross(d, e2)) * e1.y + Dot(d, Cross(tv, e1)) * e2.y
  {
  }

  lemma CramerZ(d: Vec3, e1: Vec3, e2: Vec3, tv: Vec3)
    ensures Dot(e1, Cross(d, e2)) * tv.z + Dot(e2, Cross(tv, e1)) * d.z == Dot(tv, Cross(d, e2)) * e1.z + Dot(d, Cross(tv, e1)) * e2.z
  {
  }

  /** On each axis, the solved parameter and coordinates satisfy the ray-equals-plane
      equation `o + w d = v1 + beta e1 + gamma e2`. */
  lemma SolvedX(ray: Ray, tri: Triangle)
    requires Solve(ray, tri).det != 0.0
    ensures var s := Solve(ray, tri);
      ray.origin.x + (s.wq * (1.0 / s.det)) * ray.direction.x
        == tri.v1.x + ((s.u / s.det) * (tri.v2.x - tri.v1.x) + (s.v / s.det) * (tri.v3.x - tri.v1.x))
  {
    var o, d, v1 := ray.origin, ray.direction, tri.v1;
    var e1, e2 := Sub(tri.v2, v1), Sub(tri.v3, v1);
    var s := Solve(ray, tri);
    if Dot(e1, Cross(d, e2)) > 0.0 {
      CramerX(d, e1, e2, Sub(o, v1));
    } else {
      CramerX(d, e1, e2, Sub(v1, o));
    }
    DivideThrough(s.det, o.x - v1.x, s.wq, d.x, s.u, e1.x, s.v, e2.x);
  }

  lemma SolvedY(ray: Ray, tri: Triangle)
    requires Solve(ray, tri).det != 0.0
    ensures var s := Solve(ray, tri);
      ray.origin.y + (s.wq * (1.0 / s.det)) * ray.direction.y
        == tri.v1.y + ((s.u / s.det) * (tri.v2.y - tri.v1.y) + (s.v / s.det) * (tri.v3.y - tri.v1.y))
  {
    var o, d, v1 := ray.origin, ray.direction, tri.v1;
    var e1, e2 := Sub(tri.v2, v1), Sub(tri.v3, v1);
    var s := Solve(ray, tri);
    if Dot(e1, Cross(d, e2)) > 0.0 {
      CramerY(d, e1, e2, Sub(o, v1));
    } else {
      CramerY(d, e1, e2, Sub(v1, o));
    }
    DivideThrough(s.det, o.y - v1.y, s.wq, d.y, s.u, e1.y, s.v, e2.y);
  }

  lemma SolvedZ(ray: Ray, tri: Triangle)
    requires Solve(ray, tri).det != 0.0
    ensures var s := Solve(ray, tri);
      ray.origin.z + (s.wq * (1.0 / s.det)) * ray.direction.z
        == tri.v1.z + ((s.u / s.det) * (tri.v2.z - tri.v1.z) + (s.v / s.det) * (tri.v3.z - tri.v1.z))
  {
    var o, d, v1 := ray.origin, ray.direction, tri.v1;
    var e1, e2 := Sub(tri.v2, v1), Sub(tri.v3, v1);
    var s := Solve(ray, tri);
    if Dot(e1, Cross(d, e2)) > 0.0 {
      CramerZ(d, e1, e2, Sub(o, v1));
    } else {
      CramerZ(d, e1, e2, Sub(v1, o));
    }
    DivideThrough(s.det, o.z - v1.z, s.wq, d.z, s.u, e1.z, s.v, e2.z);
  }

  /** One coordinate of Cramer's identity, divided through by the determinant. */
  lemma DivideThrough(det: real, a: real, wq: real, dc: real, u: real, e1c: real, v: real, e2c: real)
    requires det != 0.0
    requires det * a + wq * dc == u * e1c + v * e2c
    ensures a + (wq * (1.0 / det)) * dc == (u / det) * e1c + (v / det) * e2c
  {
    calc {
      a + (wq * (1.0 / det)) * dc;
      (det * a + wq * dc) / det;
      (u * e1c + v * e2c) / det;
    }
  }

  /** A triangle hit lies on the triangle: its point is `v1 + beta e1 + gamma e2` with
      `beta`, `gamma` non-negative and summing to at most one. */
  lemma TriangleHitInside(num: Numerics, ray: Ray, tri: Triangle, tMin: real, tMax: Limit)
    ensures var r := HitTriangle(num, ray, tri, tMin, tMax);
      r.Some? ==> exists beta: real, gamma: real ::
        0.0 <= beta && 0.0 <= gamma && beta + gamma <= 1.0 && r.value.hitPoint == Barycentric(tri, beta, gamma)
  {
    var r := HitTriangle(num, ray, tri, tMin, tMax);
    if r.Some? {
      var s := Solve(ray, tri);
      var w := s.wq * (1.0 / s.det);
      var beta, gamma := s.u / s.det, s.v / s.det;
      SolvedPoint(ray, tri);
      Ratios(s.det, s.u, s.v);
      assert r.value.hitPoint == Barycentric(tri, beta, gamma);
    }
  }

  /** The solved parameter puts the ray on the triangle's plane at the solved
      barycentric coordinates. */
  lemma SolvedPoint(ray: Ray, tri: Triangle)
    requires Solve(ray, tri).det != 0.0
    ensures var s := Solve(ray, tri);
      PointAt(ray, s.wq * (1.0 / s.det)) == Barycentric(tri, s.u / s.det, s.v / s.det)
  {
    SolvedX(ray, tri);
    SolvedY(ray, tri);
    SolvedZ(ray, tri);
  }

  /** Dividing coordinates that pass the routine's checks by the determinant gives
      barycentric coordinates of a point inside the triangle. */
  lemma Ratios(det: real, u: real, v: real)
    requires det > 0.0 && 0.0 <= u && 0.0 <= v && u + v <= det
    ensures 0.0 <= u / det && 0.0 <= v / det && u / det + v / det <= 1.0
  {
    assert u / det + v / det == (u + v) / det;
  }

  /** `b p + g q - t r`; with `p, q, r = e1, e2, d` it equals `o - v1` when the ray's
      point at `t` is the triangle's point at `(b, g)`. */
  function Combine(b: real, g: real, t: real, p: Vec3, q: Vec3, r: Vec3): Vec3 {
    Vec3(b * p.x + g * q.x - t * r.x, b * p.y + g * q.y - t * r.y, b * p.z + g * q.z - t * r.z)
  }
  /** `Cross` with a fixed right factor and `Dot` with a fixed vector are linear. */
  /** The scalar identity behind each component of `CrossComb`: `c1`, `c2` are two
      components of the combination, `mp`, `mq`, `mr` the matching minors. */
  lemma LinearMinor(b: real, g: real, t: real, p1: real, q1: real, r1: real, p2: real, q2: real, r2: real,
                    y1: real, y2: real, c1: real, c2: real, mp: real, mq: real, mr: real)
    requires c1 == b * p1 + g * q1 - t * r1 && c2 == b * p2 + g * q2 - t * r2
    requires mp == p1 * y1 - p2 * y2 && mq == q1 * y1 - q2 * y2 && mr == r1 * y1 - r2 * y2
    ensures c1 * y1 - c2 * y2 == b * mp + g * mq - t * mr
  {
    assert c1 * y1 == b * (p1 * y1) + g * (q1 * y1) - t * (r1 * y1);
    assert c2 * y2 == b * (p2 * y2) + g * (q2 * y2) - t * (r2 * y2);
  }
  lemma CrossCombX(b: real, g: real, t: real, p: Vec3, q: Vec3, r: Vec3, y: Vec3)
    ensures Cross(Combine(b, g, t, p, q, r), y).x == b * Cross(p, y).x + g * Cross(q, y).x - t * Cross(r, y).x
  {
    var c := Combine(b, g, t, p, q, r);
    LinearMinor(b, g, t, p.y, q.y, r.y, p.z, q.z, r.z, y.z, y.y, c.y, c.z, Cross(p, y).x, Cross(q, y).x, Cross(r, y).x);
  }
  lemma CrossCombY(b: real, g: real, t: real, p: Vec3, q: Vec3, r: Vec3, y: Vec3)
    ensures Cross(Combine(b, g, t, p, q, r), y).y == b * Cross(p, y).y + g * Cross(q, y).y - t * Cross(r, y).y
  {
    var c := Combine(b, g, t, p, q, r);
    LinearMinor(b, g, t, p.z, q.z, r.z, p.x, q.x, r.x, y.x, y.z, c.z, c.x, Cross(p, y).y, Cross(q, y).y, Cross(r, y).y);
  }
  lemma CrossCombZ(b: real, g: real, t: real, p: Vec3, q: Vec3, r: Vec3, y: Vec3)
    ensures Cross(Combine(b, g, t, p, q, r), y).z == b * Cross(p, y).z + g * Cross(q, y).z - t * Cross(r, y).z
  {
    var c := Combine(b, g, t, p, q, r);
    LinearMinor(b, g, t, p.x, q.x, r.x, p.y, q.y, r.y, y.y, y.x, c.x, c.y, Cross(p, y).z, Cross(q, y).z, Cross(r, y).z);
  }
  lemma CrossComb(b: real, g: real, t: real, p: Vec3, q: Vec3, r: Vec3, y: Vec3)
    ensures Cross(Combine(b, g, t, p, q, r), y) == Combine(b, g, t, Cross(p, y), Cross(q, y), Cross(r, y))
  {
    CrossCombX(b, g, t, p, q, r, y);
    CrossCombY(b, g, t, p, q, r, y);
    CrossCombZ(b, g, t, p, q, r, y);
  }
  lemma DotComb(b: real, g: real, t: real, p: Vec3, q: Vec3, r: Vec3, y: Vec3)
    ensures Dot(y, Combine(b, g, t, p, q, r)) == b * Dot(y, p) + g * Dot(y, q) - t * Dot(y, r)
  {
  }
  /** The triple product is invariant under cyclic shifts and vanishes when a factor
      repeats. */
  lemma TripleProduct(a: Vec3, b: Vec3, c: Vec3)
    ensures Dot(a, Cross(b, c)) == Dot(b, Cross(c, a)) == Dot(c, Cross(a, b))
    ensures Dot(a, Cross(a, b)) == 0.0 && Dot(b, Cross(a, b)) == 0.0
  {
    DotCrossIsTriple(a, b, c);
    DotCrossIsTriple(b, c, a);
    DotCrossIsTriple(c, a, b);
    DotCrossIsTriple(a, a, b);
    DotCrossIsTriple(b, a, b);
    Cyclic(a.x, a.y, a.z, b.x, b.y, b.z, c.x, c.y, c.z);
  }
  /** `Dot(a, Cross(b, c))` written out over components. */
  function Triple(a1: real, a2: real, a3: real, b1: real, b2: real, b3: real, c1: real, c2: real, c3: real): real {
    a1 * (b2 * c3 - b3 * c2) + a2 * (b3 * c1 - b1 * c3) + a3 * (b1 * c2 - b2 * c1)
  }
  lemma DotCrossIsTriple(a: Vec3, b: Vec3, c: Vec3)
    ensures Dot(a, Cross(b, c)) == Triple(a.x, a.y, a.z, b.x, b.y, b.z, c.x, c.y, c.z)
  {
  }
  lemma Cyclic(a1: real, a2: real, a3: real, b1: real, b2: real, b3: real, c1: real, c2: real, c3: real)
    ensures Triple(a1, a2, a3, b1, b2, b3, c1, c2, c3) == Triple(b1, b2, b3, c1, c2, c3, a1, a2, a3)
    ensures Triple(a1, a2, a3, b1, b2, b3, c1, c2, c3) == Triple(c1, c2, c3, a1, a2, a3, b1, b2, b3)
    ensures Triple(a1, a2, a3, a1, a2, a3, b1, b2, b3) == 0.0
    ensures Triple(b1, b2, b3, a1, a2, a3, b1, b2, b3) == 0.0
  {
  }

  /** The routine's three products evaluated at such a combination recover `b`, `g`
      and `t`, each times the determinant. */
  lemma ExpandU(b: real, g: real, t: real, e1: Vec3, e2: Vec3, d: Vec3)
    ensures Dot(Combine(b, g, t, e1, e2, d), Cross(d, e2)) == b * Dot(e1, Cross(d, e2))
  {
    DotComb(b, g, t, e1, e2, d, Cross(d, e2));
    TripleProduct(d, e2, e1);
    assert Dot(Combine(b, g, t, e1, e2, d), Cross(d, e2)) == Dot(Cross(d, e2), Combine(b, g, t, e1, e2, d));
    assert Dot(Cross(d, e2), e1) == Dot(e1, Cross(d, e2));
  }
  lemma ExpandV(b: real, g: real, t: real, e1: Vec3, e2: Vec3, d: Vec3)
    ensures Dot(d, Cross(Combine(b, g, t, e1, e2, d), e1)) == g * Dot(e1, Cross(d, e2))
  {
    CrossComb(b, g, t, e1, e2, d, e1);
    var c1, c2, cd := Cross(e1, e1), Cross(e2, e1), Cross(d, e1);
    DotComb(b, g, t, c1, c2, cd, d);
    TripleProduct(d, e1, e2);
    TripleProduct(e1, d, e2);
    TripleProduct(e2, e1, d);
    assert c1 == Zero;
  }
  lemma ExpandW(b: real, g: real, t: real, e1: Vec3, e2: Vec3, d: Vec3)
    ensures Dot(e2, Cross(Combine(b, g, t, e1, e2, d), e1)) == t * Dot(e1, Cross(d, e2))
  {
    CrossComb(b, g, t, e1, e2, d, e1);
    var c1, c2, cd := Cross(e1, e1), Cross(e2, e1), Cross(d, e1);
    DotComb(b, g, t, c1, c2, cd, e2);
    TripleProduct(e2, e1, d);
    TripleProduct(d, e1, e2);
    TripleProduct(e1, d, e2);
    assert c1 == Zero;
  }

  /** When the ray's point at `t` is the triangle's point at `(beta, gamma)`, the routine
      computes exactly `beta`, `gamma` and `t`, scaled by its determinant. */
  lemma SolveOnTriangle(ray: Ray, tri: Triangle, beta: real, gamma: real, t: real)
    requires PointAt(ray, t) == Barycentric(tri, beta, gamma)
    ensures var s := Solve(ray, tri);
      s.u == beta * s.det && s.v == gamma * s.det && s.wq == t * s.det
  {
    var o, d, v1 := ray.origin, ray.direction, tri.v1;
    var e1, e2 := Sub(tri.v2, v1), Sub(tri.v3, v1);
    OffsetIsCombination(ray, tri, beta, gamma, t);
    if Dot(e1, Cross(d, e2)) > 0.0 {
      ExpandU(beta, gamma, t, e1, e2, d);
      ExpandV(beta, gamma, t, e1, e2, d);
      ExpandW(beta, gamma, t, e1, e2, d);
    } else {
      ExpandU(-beta, -gamma, -t, e1, e2, d);
      ExpandV(-beta, -gamma, -t, e1, e2, d);
      ExpandW(-beta, -gamma, -t, e1, e2, d);
    }
  }

  /** The offset of the ray's origin from `v1`, in both signs, as a combination of the
      edges and the direction. */
  lemma OffsetIsCombination(ray: Ray, tri: Triangle, beta: real, gamma: real, t: real)
    requires PointAt(ray, t) == Barycentric(tri, beta, gamma)
    ensures var e1, e2 := Sub(tri.v2, tri.v1), Sub(tri.v3, tri.v1);
      && Sub(ray.origin, tri.v1) == Combine(beta, gamma, t, e1, e2, ray.direction)
      && Sub(tri.v1, ray.origin) == Combine(-beta, -gamma, -t, e1, e2, ray.direction)
  {
    var p, b := PointAt(ray, t), Barycentric(tri, beta, gamma);
    assert p.x == b.x && p.y == b.y && p.z == b.z;
  }

  /** The converse: a point of the triangle that the ray reaches strictly inside the
      range, with a determinant clear of the threshold, is hit at that parameter. So
      the routine misses exactly the near-parallel rays and the points off the
      triangle or out of range. */
  lemma TriangleInsideHit(num: Numerics, ray: Ray, tri: Triangle, tMin: real, tMax: Limit, beta: real, gamma: real, t: real)
    requires TriangleDet(ray, tri) >= TriangleEpsilon || TriangleDet(ray, tri) <= -TriangleEpsilon
    requires 0.0 <= beta && 0.0 <= gamma && beta + gamma <= 1.0
    requires InRange(t, tMin, tMax) && PointAt(ray, t) == Barycentric(tri, beta, gamma)
    ensures HitTriangle(num, ray, tri, tMin, tMax) == MakeHit(t, PointAt(ray, t), num.normalize(tri.normal), tri.material)
  {
    var s := Solve(ray, tri);
    SolveOnTriangle(ray, tri, beta, gamma, t);
    AcceptScaled(s, beta, gamma, t, tMin, tMax);
  }

  /** A system holding in-triangle coordinates and an in-range parameter, each scaled
      by a determinant clear of the threshold, is accepted at that parameter. */
  lemma AcceptScaled(s: TriangleSystem, beta: real, gamma: real, t: real, tMin: real, tMax: Limit)
    requires s.det >= TriangleEpsilon && 0.0 <= beta && 0.0 <= gamma && beta + gamma <= 1.0
    requires s.u == beta * s.det && s.v == gamma * s.det && s.wq == t * s.det && InRange(t, tMin, tMax)
    ensures Accept(s, tMin, tMax) == Some(t)
  {
    Scaled(s.det, beta, gamma, t, s.u, s.v, s.wq);
    AcceptAt(s, tMin, tMax, t);
  }

  /** Coordinates inside the triangle, scaled by a positive determinant, pass every
      check, and the parameter is recovered by dividing back. */
  lemma Scaled(det: real, beta: real, gamma: real, t: real, u: real, v: real, wq: real)
    requires det > 0.0 && 0.0 <= beta && 0.0 <= gamma && beta + gamma <= 1.0
    requires u == beta * det && v == gamma * det && wq == t * det
    ensures 0.0 <= u <= det && 0.0 <= v && v + u <= det
    ensures wq * (1.0 / det) == t
  {
    assert v + u == (beta + gamma) * det;
    assert (beta + gamma) * det <= 1.0 * det;
    assert u <= (beta + gamma) * det;
    assert det * (1.0 / det) == 1.0;
    assert wq * (1.0 / det) == t * (det * (1.0 / det));
  }

  // -------------------------------------------------------------------- sphere

  /** The sphere routine's quadratic `a t^2 + 2 b t + c`, from `oc = o - centre`:
      `a = d.d`, `b = oc.d`, `c = oc.oc - r^2`. */
  datatype Quadratic = Quadratic(a: real, b: real, c: real)

  function SphereQuadratic(ray: Ray, sp: Sphere): Quadratic {
    var oc := Sub(ray.origin, sp.position);
    Quadratic(Dot(ray.direction, ray.direction), Dot(oc, ray.direction), Dot(oc, oc) - sp.radius * sp.radius)
  }

  /** The reduced discriminant `b^2 - a c`. */
  function Discriminant(q: Quadratic): real {
    q.b * q.b - q.a * q.c
  }

  /** The point lies on the sphere's surface. */
  predicate OnSphere(sp: Sphere, p: Vec3) {
    Dot(Sub(p, sp.position), Sub(p, sp.position)) == sp.radius * sp.radius
  }

  /** A positive discriminant needs a non-zero direction and a non-zero radius, so
      the routine's two divisions are defined whenever it reaches them. */
  lemma SphereNondegenerate(ray: Ray, sp: Sphere)
    ensures var q := SphereQuadratic(ray, sp);
      q.a >= 0.0 && (q.a == 0.0 ==> Discriminant(q) == 0.0) && (sp.radius == 0.0 ==> Discriminant(q) <= 0.0)
  {
    var oc := Sub(ray.origin, sp.position);
    var d := ray.direction;
    DotSelfNonNegative(d);
    CauchySchwarz(oc, d);
    assert Dot(oc, d) == Dot(d, oc);
    assert Dot(oc, d) * Dot(oc, d) >= 0.0;
  }

  /** The nearer root `(-b - sqrt(b^2 - a c)) / a` the routine tries first. */
  function NearRoot(num: Numerics, q: Quadratic): real
    requires q.a != 0.0
  {
    (-q.b - num.sqrt(Discriminant(q))) / q.a
  }

  /** The farther root `(-b + sqrt(b^2 - a c)) / a`. */
  function FarRoot(num: Numerics, q: Quadratic): real
    requires q.a != 0.0
  {
    (-q.b + num.sqrt(Discriminant(q))) / q.a
  }

  /** The hit record at parameter `t`: the ray's point there, the outward normal
      scaled by the radius, and the sphere's material. */
  function SphereHit(ray: Ray, sp: Sphere, t: real): (r: HitRecord)
    requires sp.radius != 0.0
    ensures r.Some? && r.value.t == t && r.value.hitPoint == PointAt(ray, t)
    ensures Scale(sp.radius, r.value.normal) == Sub(PointAt(ray, t), sp.position)
  {
    var p := PointAt(ray, t);
    MakeHit(t, p, DivScalar(Sub(p, sp.position), sp.radius), sp.material)
  }

  /** `xSphere`. With a positive discriminant the nearer root is tried first and the
      farther one only when the nearer is out of range; a zero or negative
      discriminant is a miss. */
  function HitSphere(num: Numerics, ray: Ray, sp: Sphere, tMin: real, tMax: Limit): (r: HitRecord)
    ensures OnRay(r, ray, tMin, tMax)
    ensures r.Some? ==> r.value.material == sp.material
    ensures Discriminant(SphereQuadratic(ray, sp)) <= 0.0 ==> r.None?
  {
    var q := SphereQuadratic(ray, sp);
    if Discriminant(q) > 0.0 then
      SphereNondegenerate(ray, sp);
      var near := NearRoot(num, q);
      if Below(near, tMax) && near > tMin then SphereHit(ray, sp, near)
      else
        var far := FarRoot(num, q);
        if Below(far, tMax) && far > tMin then SphereHit(ray, sp, far)
        else None
    else None
  }

  /** `|oc + t d|^2` expanded in `t`, over the components. */
  lemma ShiftedSquare(oc: Vec3, d: Vec3, t: real)
    ensures var x := Vec3(oc.x + t * d.x, oc.y + t * d.y, oc.z + t * d.z);
      Dot(x, x) == Dot(d, d) * (t * t) + 2.0 * Dot(oc, d) * t + Dot(oc, oc)
  {
    assert (oc.x + t * d.x) * (oc.x + t * d.x) == (d.x * d.x) * (t * t) + 2.0 * (oc.x * d.x) * t + oc.x * oc.x;
    assert (oc.y + t * d.y) * (oc.y + t * d.y) == (d.y * d.y) * (t * t) + 2.0 * (oc.y * d.y) * t + oc.y * oc.y;
    assert (oc.z + t * d.z) * (oc.z + t * d.z) == (d.z * d.z) * (t * t) + 2.0 * (oc.z * d.z) * t + oc.z * oc.z;
  }

  /** The ray's point at `t` lies on the sphere exactly when `t` is a root of the
      routine's quadratic. */
  lemma OnSphereIffRoot(ray: Ray, sp: Sphere, t: real)
    ensures var q := SphereQuadratic(ray, sp);
      OnSphere(sp, PointAt(ray, t)) <==> q.a * (t * t) + 2.0 * q.b * t + q.c == 0.0
  {
    var oc := Sub(ray.origin, sp.position);
    var d := ray.direction;
    var x := Vec3(oc.x + t * d.x, oc.y + t * d.y, oc.z + t * d.z);
    assert Sub(PointAt(ray, t), sp.position) == x;
    ShiftedSquare(oc, d, t);
    var q := SphereQuadratic(ray, sp);
    assert Dot(x, x) == q.a * (t * t) + 2.0 * q.b * t + Dot(oc, oc);
  }

  /** A product of reals vanishes exactly when a factor does. */
  lemma ZeroProduct(x: real, y: real)
    ensures x * y == 0.0 <==> x == 0.0 || y == 0.0
  {
    if x > 0.0 && y > 0.0 {
      assert x * y > 0.0;
    } else if x > 0.0 && y < 0.0 {
      assert x * y < 0.0;
    } else if x < 0.0 && y > 0.0 {
      assert x * y < 0.0;
    } else if x < 0.0 && y < 0.0 {
      assert x * y > 0.0;
    }
  }

  /** With `sq` the square root of the reduced discriminant, the roots of
      `a t^2 + 2 b t + c` are exactly `(-b - sq) / a` and `(-b + sq) / a`, in that order. */
  lemma {:induction false} QuadraticRoots(a: real, b: real, c: real, sq: real, t: real)
    requires a > 0.0 && sq >= 0.0 && sq * sq == b * b - a * c
    ensures (-b - sq) / a <= (-b + sq) / a
    ensures a * (t * t) + 2.0 * b * t + c == 0.0 <==> t == (-b - sq) / a || t == (-b + sq) / a
  {
    var e := a * (t * t) + 2.0 * b * t + c;
    assert a * e == (a * t + b - sq) * (a * t + b + sq);
    ZeroProduct(a, e);
    ZeroProduct(a * t + b - sq, a * t + b + sq);
    assert a * t + b - sq == 0.0 <==> t == (-b + sq) / a;
    assert a * t + b + sq == 0.0 <==> t == (-b - sq) / a;
  }

  /** A real root forces a non-negative reduced discriminant: it equals `(a t + b)^2`. */
  lemma RootNeedsDiscriminant(a: real, b: real, c: real, t: real)
    ensures a * (t * t) + 2.0 * b * t + c == 0.0 ==> b * b - a * c >= 0.0
  {
    var e := a * (t * t) + 2.0 * b * t + c;
    var m := a * t + b;
    assert a * e == m * m - (b * b - a * c);
    assert m * m >= 0.0;
    if e == 0.0 {
      assert a * e == 0.0;
    }
  }

  /** With a positive discriminant and a sound square root, the ray meets the sphere
      exactly at the two roots, nearer first. */
  lemma SphereRootsWhenPositive(num: Numerics, ray: Ray, sp: Sphere, t: real)
    requires SqrtSound(num)
    requires Discriminant(SphereQuadratic(ray, sp)) > 0.0
    ensures SphereQuadratic(ray, sp).a > 0.0
    ensures var q := SphereQuadratic(ray, sp);
      NearRoot(num, q) <= FarRoot(num, q)
      && (OnSphere(sp, PointAt(ray, t)) <==> t == NearRoot(num, q) || t == FarRoot(num, q))
  {
    var q := SphereQuadratic(ray, sp);
    SphereNondegenerate(ray, sp);
    OnSphereIffRoot(ray, sp, t);
    QuadraticRoots(q.a, q.b, q.c, num.sqrt(Discriminant(q)), t);
  }

  /** The sphere routine returns the FIRST crossing: a hit lies on the sphere, its
      normal has length one radius outward, and no in-range parameter reaches the
      surface earlier; a miss means no in-range parameter reaches the surface, except
      where the ray only grazes it (zero discriminant). */
  lemma {:induction false} HitSphereIsFirstCrossing(num: Numerics, ray: Ray, sp: Sphere, tMin: real, tMax: Limit)
    requires SqrtSound(num)
    ensures var r := HitSphere(num, ray, sp, tMin, tMax);
      r.Some? ==> OnSphere(sp, r.value.hitPoint)
                  && Scale(sp.radius, r.value.normal) == Sub(r.value.hitPoint, sp.position)
                  && (forall t' :: InRange(t', tMin, tMax) && OnSphere(sp, PointAt(ray, t')) ==> r.value.t <= t')
    ensures var r := HitSphere(num, ray, sp, tMin, tMax);
      r.None? ==> forall t' :: InRange(t', tMin, tMax) && OnSphere(sp, PointAt(ray, t')) ==>
                    Discriminant(SphereQuadratic(ray, sp)) == 0.0
  {
    var q := SphereQuadratic(ray, sp);
    SphereNondegenerate(ray, sp);
    if Discriminant(q) > 0.0 {
      forall t' | InRange(t', tMin, tMax) && OnSphere(sp, PointAt(ray, t'))
        ensures t' == NearRoot(num, q) || t' == FarRoot(num, q)
      {
        SphereRootsWhenPositive(num, ray, sp, t');
      }
      SphereRootsWhenPositive(num, ray, sp, NearRoot(num, q));
      SphereRootsWhenPositive(num, ray, sp, FarRoot(num, q));
    } else {
      forall t' | InRange(t', tMin, tMax) && OnSphere(sp, PointAt(ray, t'))
        ensures Discriminant(q) == 0.0
      {
        OnSphereIffRoot(ray, sp, t');
        RootNeedsDiscriminant(q.a, q.b, q.c, t');
      }
    }
  }

  // ------------------------------------------------------- plane and area light

  /** Both the plane and the area light take `d.n` inside this window as parallel. The
      window is not symmetric: it reaches ten times further on the positive side. */
  predicate Parallel(nd: real) {
    nd < ParallelAbove && nd > ParallelBelow
  }

  /** The patch's frame: the columns `u`, `v` and `u x v`. */
  function Frame(u: Vec3, v: Vec3): Mat3 {
    Mat3(u, v, Cross(u, v))
  }

  /** The coordinates of the offset `p` in the frame, through the library inverse. */
  function PatchCoordinates(num: Numerics, u: Vec3, v: Vec3, p: Vec3): Vec3 {
    MulMV(num.inverse(Frame(u, v)), p)
  }

  /** Both edge coordinates lie in `[0, 1]`; the third is not looked at. */
  predicate InPatch(c: Vec3) {
    0.0 <= c.x <= 1.0 && 0.0 <= c.y <= 1.0
  }

  /** The parameter at which the ray meets the plane through `position` with normal
      `n`, computed as the routines do through `dp = -position.n`. */
  function PlaneParameter(ray: Ray, position: Vec3, n: Vec3): real
    requires Dot(ray.direction, n) != 0.0
  {
    var dp := -Dot(position, n);
    (-dp - Dot(n, ray.origin)) / Dot(ray.direction, n)
  }

  /** The shared body of `xPlane` and `xAreaLight`: a miss when the ray is parallel by
      the window, or the parameter is out of range, or the point's frame coordinates
      leave `[0, 1]`; otherwise a hit with the given normal and material. */
  function PatchHit(num: Numerics, ray: Ray, position: Vec3, normal: Vec3, u: Vec3, v: Vec3,
                    material: Handle, tMin: real, tMax: Limit): (r: HitRecord)
    ensures OnRay(r, ray, tMin, tMax)
    ensures Parallel(Dot(ray.direction, normal)) ==> r.None?
    ensures r.Some? ==> r.value.normal == normal && r.value.material == material
                        && r.value.t == PlaneParameter(ray, position, normal)
                        && InPatch(PatchCoordinates(num, u, v, Sub(r.value.hitPoint, position)))
  {
    var nd := Dot(ray.direction, normal);
    if Parallel(nd) then None
    else
      var t := PlaneParameter(ray, position, normal);
      if !Below(t, tMax) || t <= tMin then None
      else
        var hitPoint := PointAt(ray, t);
        if InPatch(PatchCoordinates(num, u, v, Sub(hitPoint, position))) then MakeHit(t, hitPoint, normal, material)
        else None
  }

  /** `xPlane`: the patch test with the normalised plane normal and the plane's
      material. */
  function HitPlane(num: Numerics, ray: Ray, p: Plane, tMin: real, tMax: Limit): (r: HitRecord)
    ensures OnRay(r, ray, tMin, tMax)
    ensures r.Some? ==> r.value.normal == num.normalize(p.normal) && r.value.material == p.material
  {
    PatchHit(num, ray, p.position, num.normalize(p.normal), p.u, p.v, p.material, tMin, tMax)
  }

  /** `xAreaLight`: the patch test with the unnormalised `u x v` as normal and no
      material. */
  function HitAreaLight(num: Numerics, ray: Ray, a: AreaLight, tMin: real, tMax: Limit): (r: HitRecord)
    ensures OnRay(r, ray, tMin, tMax)
    ensures r.Some? ==> r.value.normal == Cross(a.u, a.v) && r.value.material == NoHandle
  {
    PatchHit(num, ray, a.position, Cross(a.u, a.v), a.u, a.v, NoHandle, tMin, tMax)
  }

  /** `n.(o + t d - p)` splits into its three parts. */
  lemma DotAlongRay(n: Vec3, ray: Ray, position: Vec3, t: real)
    ensures Dot(n, Sub(PointAt(ray, t), position))
         == Dot(n, ray.origin) + t * Dot(ray.direction, n) - Dot(position, n)
  {
    var o := ray.origin;
    var d := ray.direction;
    assert Sub(PointAt(ray, t), position) == Vec3(o.x + t * d.x - position.x, o.y + t * d.y - position.y, o.z + t * d.z - position.z);
    assert n.x * (o.x + t * d.x - position.x) == n.x * o.x + t * (d.x * n.x) - position.x * n.x;
    assert n.y * (o.y + t * d.y - position.y) == n.y * o.y + t * (d.y * n.y) - position.y * n.y;
    assert n.z * (o.z + t * d.z - position.z) == n.z * o.z + t * (d.z * n.z) - position.z * n.z;
  }

  /** Off the parallel window, the ray meets the plane through `position` with normal
      `n` at exactly one parameter, the one the routines compute. */
  lemma OnPlaneIffParameter(ray: Ray, position: Vec3, n: Vec3, t: real)
    requires Dot(ray.direction, n) != 0.0
    ensures Dot(n, Sub(PointAt(ray, t), position)) == 0.0 <==> t == PlaneParameter(ray, position, n)
  {
    DotAlongRay(n, ray, position, t);
    var nd := Dot(ray.direction, n);
    var k := Dot(position, n) - Dot(n, ray.origin);
    assert PlaneParameter(ray, position, n) == k / nd;
    assert t * nd == k <==> t == k / nd;
  }

  /** The window is lopsided: a direction meeting the normal at `+5e-8` counts as
      parallel, the mirror image at `-5e-8` does not. */
  lemma ParallelWindowAsymmetric()
    ensures Parallel(0.00000005) && !Parallel(-0.00000005)
    ensures Parallel(0.0)
  {
  }

  /** Soundness of the patch test: a hit lies on the plane through `position` with
      the given normal, and its offset from `position` is the frame applied to
      coordinates whose first two lie in `[0, 1]`. */
  lemma PatchHitSound(num: Numerics, ray: Ray, position: Vec3, normal: Vec3, u: Vec3, v: Vec3,
                      material: Handle, tMin: real, tMax: Limit)
    requires InverseSound(num, Frame(u, v))
    ensures var r := PatchHit(num, ray, position, normal, u, v, material, tMin, tMax);
      r.Some? ==>
        var c := PatchCoordinates(num, u, v, Sub(r.value.hitPoint, position));
        Dot(normal, Sub(r.value.hitPoint, position)) == 0.0
        && InPatch(c) && Sub(r.value.hitPoint, position) == MulMV(Frame(u, v), c)
  {
    var r := PatchHit(num, ray, position, normal, u, v, material, tMin, tMax);
    if r.Some? {
      OnPlaneIffParameter(ray, position, normal, r.value.t);
    }
  }

  /** Completeness of the patch test: off the parallel window, a point of the ray in
      range whose offset is the frame applied to coordinates with the first two in
      `[0, 1]`, and which lies on the plane, is reported as the hit. */
  lemma PatchHitComplete(num: Numerics, ray: Ray, position: Vec3, normal: Vec3, u: Vec3, v: Vec3,
                         material: Handle, tMin: real, tMax: Limit, c: Vec3, t: real)
    requires InverseSound(num, Frame(u, v))
    requires !Parallel(Dot(ray.direction, normal))
    requires InPatch(c) && Dot(normal, MulMV(Frame(u, v), c)) == 0.0
    requires InRange(t, tMin, tMax) && PointAt(ray, t) == Add(position, MulMV(Frame(u, v), c))
    ensures PatchHit(num, ray, position, normal, u, v, material, tMin, tMax)
         == MakeHit(t, PointAt(ray, t), normal, material)
  {
    var m := MulMV(Frame(u, v), c);
    assert Sub(PointAt(ray, t), position) == m;
    OnPlaneIffParameter(ray, position, normal, t);
    assert PatchCoordinates(num, u, v, m) == c;
  }

  /** A hit on an area light lies inside the parallelogram `position + s u + w v`,
      `s, w` in `[0, 1]`, provided `u` and `v` span a plane. */
  lemma AreaLightHitInside(num: Numerics, ray: Ray, a: AreaLight, tMin: real, tMax: Limit)
    requires InverseSound(num, Frame(a.u, a.v))
    requires Dot(Cross(a.u, a.v), Cross(a.u, a.v)) != 0.0
    ensures var r := HitAreaLight(num, ray, a, tMin, tMax);
      r.Some? ==>
        var c := PatchCoordinates(num, a.u, a.v, Sub(r.value.hitPoint, a.position));
        0.0 <= c.x <= 1.0 && 0.0 <= c.y <= 1.0
        && r.value.hitPoint == Add(a.position, Add(Scale(c.x, a.u), Scale(c.y, a.v)))
  {
    var n := Cross(a.u, a.v);
    var r := HitAreaLight(num, ray, a, tMin, tMax);
    PatchHitSound(num, ray, a.position, n, a.u, a.v, NoHandle, tMin, tMax);
    if r.Some? {
      var c := PatchCoordinates(num, a.u, a.v, Sub(r.value.hitPoint, a.position));
      DotOfFrame(n, Frame(a.u, a.v), c);
      CrossPerpendicular(a.u, a.v);
      assert c.z * Dot(n, n) == 0.0;
      ZeroProduct(c.z, Dot(n, n));
      assert MulMV(Frame(a.u, a.v), c) == Add(Scale(c.x, a.u), Scale(c.y, a.v));
    }
  }

  /** Conversely, a point of the parallelogram met in range by a ray off the parallel
      window is reported as the hit, with `u x v` as normal and no material. */
  lemma AreaLightInsideHit(num: Numerics, ray: Ray, a: AreaLight, tMin: real, tMax: Limit,
                           s: real, w: real, t: real)
    requires InverseSound(num, Frame(a.u, a.v))
    requires !Parallel(Dot(ray.direction, Cross(a.u, a.v)))
    requires 0.0 <= s <= 1.0 && 0.0 <= w <= 1.0
    requires InRange(t, tMin, tMax) && PointAt(ray, t) == Add(a.position, Add(Scale(s, a.u), Scale(w, a.v)))
    ensures HitAreaLight(num, ray, a, tMin, tMax) == MakeHit(t, PointAt(ray, t), Cross(a.u, a.v), NoHandle)
  {
    var n := Cross(a.u, a.v);
    var c := Vec3(s, w, 0.0);
    assert MulMV(Frame(a.u, a.v), c) == Add(Scale(s, a.u), Scale(w, a.v));
    DotOfFrame(n, Frame(a.u, a.v), c);
    CrossPerpendicular(a.u, a.v);
    PatchHitComplete(num, ray, a.position, n, a.u, a.v, NoHandle, tMin, tMax, c, t);
  }
}

=== FILE: kd_query.dfy ===
/** The KD-tree's closest-hit query: box pruning against the best distance so far,
    near child first, and a linear scan of each leaf reached. */
module KdQuery {
  import opened Optional
  import opened Vectors
  import opened Scene
  import opened Rays
  import opened HitRecords
  import opened Numerics
  import opened Aabb
  import opened Intersections
  import opened SceneBuild
  import opened KdTree
  import opened Nearest

  /** The smallest parameter a leaf accepts, so that a surface does not hit itself. */
  const LeafEpsilon: real := 0.01

  /** The intersection routine a leaf calls for one object, over `(0.01, tMax)`. */
  function Test(num: Numerics, scene: RenderScene, ray: Ray, shape: Shape, id: nat, tMax: Limit): (r: HitRecord)
    requires Exists(scene, shape, id)
    ensures OnRay(r, ray, LeafEpsilon, tMax)
  {
    TestAt(num, scene, ray, shape, id, LeafEpsilon, tMax)
  }

  /** Narrowing the range of a routine only drops hits: with the smaller bound it
      returns the same record when that record's parameter is still below the bound,
      and a miss otherwise. For a sphere this rests on the square root being the true
      one, so that the nearer root is tried first. */
  lemma Narrowing(num: Numerics, scene: RenderScene, ray: Ray, shape: Shape, id: nat, d: Limit, e: Limit)
    requires Exists(scene, shape, id) && AtMost(d, e) && SqrtSound(num)
    ensures var h := Test(num, scene, ray, shape, id, e);
      Test(num, scene, ray, shape, id, d) == if h.Some? && Below(h.value.t, d) then h else None
  {
    NarrowingAt(num, scene, ray, shape, id, LeafEpsilon, d, e);
  }

  /** The best hit so far and its distance, `closest` and `closestDist`. */
  datatype Best = Best(hit: HitRecord, dist: Limit)

  /** The query's initial state: the miss record at `FLOAT_INF`. */
  function Start(): (b: Best)
    ensures b.hit.None? && b.dist.Infinite?
  {
    Best(MissRecord(), Infinite)
  }

  /** The best record is a hit on the ray beyond the leaf epsilon, at the recorded
      distance; without one the distance is still infinite. */
  predicate Consistent(b: Best, ray: Ray) {
    (b.hit.None? <==> b.dist.Infinite?)
    && (b.hit.Some? ==> b.dist == Finite(b.hit.value.t) && OnRay(b.hit, ray, LeafEpsilon, Infinite))
  }

  predicate AllExist(scene: RenderScene, shape: Shape, ids: seq<nat>) {
    forall i :: 0 <= i < |ids| ==> Exists(scene, shape, ids[i])
  }

  /** One object of a leaf: its hit replaces the best when strictly nearer. */
  function Step(num: Numerics, scene: RenderScene, ray: Ray, shape: Shape, id: nat, b: Best): (r: Best)
    requires Exists(scene, shape, id)
    ensures AtMost(r.dist, b.dist)
    ensures Consistent(b, ray) ==> Consistent(r, ray)
  {
    var h := Test(num, scene, ray, shape, id, b.dist);
    if h.Some? && Below(h.value.t, b.dist) then Best(h, Finite(h.value.t)) else b
  }

  /** One loop of `queryRecursive`'s leaf branch over a list of one kind. */
  function Scan(num: Numerics, scene: RenderScene, ray: Ray, shape: Shape, ids: seq<nat>, b: Best): (r: Best)
    requires AllExist(scene, shape, ids)
    ensures AtMost(r.dist, b.dist)
    ensures Consistent(b, ray) ==> Consistent(r, ray)
    decreases |ids|
  {
    if ids == [] then b
    else Scan(num, scene, ray, shape, ids[1..], Step(num, scene, ray, shape, ids[0], b))
  }

  lemma AtMostTransitive(a: Limit, b: Limit, c: Limit)
    requires AtMost(a, b) && AtMost(b, c)
    ensures AtMost(a, c)
  {
  }

  /** After a scan no listed object hits below the final distance, and the best hit is
      the one it started with or one of the listed objects' own hits. */
  lemma {:induction false} ScanIsNearest(num: Numerics, scene: RenderScene, ray: Ray, shape: Shape, ids: seq<nat>, b: Best)
    requires AllExist(scene, shape, ids) && SqrtSound(num)
    ensures var r := Scan(num, scene, ray, shape, ids, b);
      forall i :: 0 <= i < |ids| ==> Test(num, scene, ray, shape, ids[i], r.dist).None?
    ensures var r := Scan(num, scene, ray, shape, ids, b);
      r.hit == b.hit || exists i :: 0 <= i < |ids| && r.hit == Test(num, scene, ray, shape, ids[i], b.dist) && r.hit.Some?
    decreases |ids|
  {
    if ids != [] {
      var b' := Step(num, scene, ray, shape, ids[0], b);
      var r := Scan(num, scene, ray, shape, ids[1..], b');
      ScanIsNearest(num, scene, ray, shape, ids[1..], b');
      // the head: its test at the narrower final bound is a miss
      Narrowing(num, scene, ray, shape, ids[0], b'.dist, b.dist);
      Narrowing(num, scene, ray, shape, ids[0], r.dist, b'.dist);
      assert Test(num, scene, ray, shape, ids[0], r.dist).None?;
      forall i | 1 <= i < |ids|
        ensures Test(num, scene, ray, shape, ids[i], r.dist).None?
      {
        assert ids[i] == ids[1..][i - 1];
      }
      // the tail: a hit found later, narrowed back to the original bound
      if r.hit != b'.hit {
        var j :| 0 <= j < |ids[1..]| && r.hit == Test(num, scene, ray, shape, ids[1..][j], b'.dist) && r.hit.Some?;
        Narrowing(num, scene, ray, shape, ids[1..][j], b'.dist, b.dist);
        assert r.hit == Test(num, scene, ray, shape, ids[j + 1], b.dist);
      } else if b'.hit != b.hit {
        assert r.hit == Test(num, scene, ray, shape, ids[0], b.dist);
      }
    }
  }

  /** Every index a subtree's leaves hold names an entry of its buffer. */
  predicate Indexes(scene: RenderScene, c: Contents) {
    (forall x :: x in c.triangles ==> x < |scene.triangleBuffer|)
    && (forall x :: x in c.spheres ==> x < |scene.sphereBuffer|)
    && (forall x :: x in c.planes ==> x < |scene.planeBuffer|)
  }

  /** The leaf branch: triangles, then spheres, then planes. */
  function ScanLeaf(num: Numerics, scene: RenderScene, ray: Ray, n: KDNode, b: Best): (r: Best)
    requires n.isLeaf && Indexes(scene, LeafContents(n))
    ensures AtMost(r.dist, b.dist)
    ensures Consistent(b, ray) ==> Consistent(r, ray)
  {
    LeafListsExist(scene, n);
    var b1 := Scan(num, scene, ray, TriangleShape, n.triangles, b);
    var b2 := Scan(num, scene, ray, SphereShape, n.spheres, b1);
    Scan(num, scene, ray, PlaneShape, n.planes, b2)
  }

  lemma LeafListsExist(scene: RenderScene, n: KDNode)
    requires n.isLeaf && Indexes(scene, LeafContents(n))
    ensures AllExist(scene, TriangleShape, n.triangles) && AllExist(scene, SphereShape, n.spheres)
      && AllExist(scene, PlaneShape, n.planes)
  {
    assert forall i :: 0 <= i < |n.triangles| ==> n.triangles[i] in Elements(n.triangles);
    assert forall i :: 0 <= i < |n.spheres| ==> n.spheres[i] in Elements(n.spheres);
    assert forall i :: 0 <= i < |n.planes| ==> n.planes[i] in Elements(n.planes);
  }

  /** `queryRecursive`: a node whose box the ray does not meet before the best distance
      is skipped; a leaf is scanned; an interior node visits the left child first when
      the direction's component on the split axis is non-negative, the right one first
      otherwise, each against the best distance left by the one before. */
  function Query(num: Numerics, scene: RenderScene, ray: Ray, n: KDNode, b: Best): (r: Best)
    requires Oblique(ray) && WellFormed(n) && Indexes(scene, LeafContents(n))
    ensures AtMost(r.dist, b.dist)
    ensures Consistent(b, ray) ==> Consistent(r, ray)
    ensures !HitsBox(ray, n.bounds, 0.0, b.dist) ==> r == b
    decreases n, 1
  {
    if !HitsBox(ray, n.bounds, 0.0, b.dist) then b
    else if n.isLeaf then ScanLeaf(num, scene, ray, n, b)
    else if Axis(ray.direction, n.axis) >= 0.0 then
      Visit(num, scene, ray, n.right, Visit(num, scene, ray, n.left, b))
    else
      Visit(num, scene, ray, n.left, Visit(num, scene, ray, n.right, b))
  }

  /** Descend into a child when there is one. */
  function Visit(num: Numerics, scene: RenderScene, ray: Ray, c: Option<KDNode>, b: Best): (r: Best)
    requires Oblique(ray) && (c.Some? ==> WellFormed(c.value) && Indexes(scene, LeafContents(c.value)))
    ensures AtMost(r.dist, b.dist)
    ensures Consistent(b, ray) ==> Consistent(r, ray)
    ensures c.None? ==> r == b
    decreases c, 2
  {
    if c.Some? then Query(num, scene, ray, c.value, b) else b
  }

  // ---------------------------------------------------------------- soundness

  /** `h` is the hit the routine of one of the objects in `c` returns over
      `(0.01, FLOAT_INF)`. */
  predicate FromObjects(num: Numerics, scene: RenderScene, ray: Ray, c: Contents, h: HitRecord) {
    h.Some? && (
      (exists x :: x in c.triangles && Exists(scene, TriangleShape, x) && h == Test(num, scene, ray, TriangleShape, x, Infinite))
      || (exists x :: x in c.spheres && Exists(scene, SphereShape, x) && h == Test(num, scene, ray, SphereShape, x, Infinite))
      || (exists x :: x in c.planes && Exists(scene, PlaneShape, x) && h == Test(num, scene, ray, PlaneShape, x, Infinite)))
  }

  /** A hit a scan found came from one of its objects. */
  lemma ScanSound(num: Numerics, scene: RenderScene, ray: Ray, shape: Shape, ids: seq<nat>, b: Best)
    requires AllExist(scene, shape, ids) && SqrtSound(num)
    ensures var r := Scan(num, scene, ray, shape, ids, b);
      r.hit == b.hit || (r.hit.Some? && exists i :: 0 <= i < |ids| && r.hit == Test(num, scene, ray, shape, ids[i], Infinite))
  {
    var r := Scan(num, scene, ray, shape, ids, b);
    ScanIsNearest(num, scene, ray, shape, ids, b);
    if r.hit != b.hit {
      var i :| 0 <= i < |ids| && r.hit == Test(num, scene, ray, shape, ids[i], b.dist) && r.hit.Some?;
      Narrowing(num, scene, ray, shape, ids[i], b.dist, Infinite);
    }
  }

  /** The same for a whole leaf. */
  lemma {:induction false} ScanLeafSound(num: Numerics, scene: RenderScene, ray: Ray, n: KDNode, b: Best)
    requires n.isLeaf && Indexes(scene, LeafContents(n)) && SqrtSound(num)
    ensures var r := ScanLeaf(num, scene, ray, n, b);
      r.hit == b.hit || FromObjects(num, scene, ray, LeafContents(n), r.hit)
  {
    LeafListsExist(scene, n);
    var b1 := Scan(num, scene, ray, TriangleShape, n.triangles, b);
    var b2 := Scan(num, scene, ray, SphereShape, n.spheres, b1);
    var r := Scan(num, scene, ray, PlaneShape, n.planes, b2);
    ScanSound(num, scene, ray, TriangleShape, n.triangles, b);
    ScanSound(num, scene, ray, SphereShape, n.spheres, b1);
    ScanSound(num, scene, ray, PlaneShape, n.planes, b2);
    if r.hit != b2.hit {
      var i :| 0 <= i < |n.planes| && r.hit == Test(num, scene, ray, PlaneShape, n.planes[i], Infinite);
      assert n.planes[i] in LeafContents(n).planes;
    } else if b2.hit != b1.hit {
      var i :| 0 <= i < |n.spheres| && b2.hit == Test(num, scene, ray, SphereShape, n.spheres[i], Infinite);
      assert n.spheres[i] in LeafContents(n).spheres;
    } else if b1.hit != b.hit {
      var i :| 0 <= i < |n.triangles| && b1.hit == Test(num, scene, ray, TriangleShape, n.triangles[i], Infinite);
      assert n.triangles[i] in LeafContents(n).triangles;
    }
  }

  /** Every object a subtree holds is held by its parent. */
  predicate SubContents(c: Contents, d: Contents) {
    c.triangles <= d.triangles && c.spheres <= d.spheres && c.planes <= d.planes
  }

  lemma FromLarger(num: Numerics, scene: RenderScene, ray: Ray, c: Contents, d: Contents, h: HitRecord)
    requires SubContents(c, d) && FromObjects(num, scene, ray, c, h)
    ensures FromObjects(num, scene, ray, d, h)
  {
  }

  /** A query changes the best record only to the hit of an object in the subtree. */
  lemma {:induction false} QuerySound(num: Numerics, scene: RenderScene, ray: Ray, n: KDNode, b: Best)
    requires Oblique(ray) && WellFormed(n) && Indexes(scene, LeafContents(n)) && SqrtSound(num)
    ensures var r := Query(num, scene, ray, n, b);
      r.hit == b.hit || FromObjects(num, scene, ray, LeafContents(n), r.hit)
    decreases n, 1
  {
    if HitsBox(ray, n.bounds, 0.0, b.dist) {
      if n.isLeaf {
        ScanLeafSound(num, scene, ray, n, b);
      } else {
        var c := LeafContents(n);
        var first, second := n.left, n.right;
        if Axis(ray.direction, n.axis) < 0.0 {
          first, second := n.right, n.left;
        }
        var b1 := Visit(num, scene, ray, first, b);
        var r := Visit(num, scene, ray, second, b1);
        assert r == Query(num, scene, ray, n, b);
        VisitSound(num, scene, ray, first, b, c);
        VisitSound(num, scene, ray, second, b1, c);
      }
    }
  }

  lemma {:induction false} VisitSound(num: Numerics, scene: RenderScene, ray: Ray, o: Option<KDNode>, b: Best, c: Contents)
    requires Oblique(ray) && SqrtSound(num)
    requires o.Some? ==> WellFormed(o.value) && Indexes(scene, LeafContents(o.value)) && SubContents(LeafContents(o.value), c)
    ensures var r := Visit(num, scene, ray, o, b);
      r.hit == b.hit || FromObjects(num, scene, ray, c, r.hit)
    decreases o, 2
  {
    if o.Some? {
      var r := Visit(num, scene, ray, o, b);
      QuerySound(num, scene, ray, o.value, b);
      if r.hit != b.hit {
        FromLarger(num, scene, ray, LeafContents(o.value), c, r.hit);
      }
    }
  }

  // ------------------------------------------------------------------ nearest

  /** A miss stays a miss under a smaller bound. */
  lemma MissStaysMiss(num: Numerics, scene: RenderScene, ray: Ray, shape: Shape, ids: seq<nat>, d: Limit, e: Limit)
    requires AllExist(scene, shape, ids) && AtMost(d, e) && SqrtSound(num)
    requires forall i :: 0 <= i < |ids| ==> Test(num, scene, ray, shape, ids[i], e).None?
    ensures forall i :: 0 <= i < |ids| ==> Test(num, scene, ray, shape, ids[i], d).None?
  {
    forall i | 0 <= i < |ids|
      ensures Test(num, scene, ray, shape, ids[i], d).None?
    {
      Narrowing(num, scene, ray, shape, ids[i], d, e);
    }
  }

  /** In a leaf the query reaches, no object hits the ray below the final best
      distance: the leaf's best is the nearest of its own objects' hits. */
  lemma LeafNearest(num: Numerics, scene: RenderScene, ray: Ray, n: KDNode, b: Best)
    requires Oblique(ray) && WellFormed(n) && n.isLeaf && Indexes(scene, LeafContents(n)) && SqrtSound(num)
    requires HitsBox(ray, n.bounds, 0.0, b.dist)
    ensures var r := Query(num, scene, ray, n, b); var c := LeafContents(n);
      (forall x :: x in c.triangles ==> Test(num, scene, ray, TriangleShape, x, r.dist).None?)
      && (forall x :: x in c.spheres ==> Test(num, scene, ray, SphereShape, x, r.dist).None?)
      && (forall x :: x in c.planes ==> Test(num, scene, ray, PlaneShape, x, r.dist).None?)
  {
    LeafListsExist(scene, n);
    var b1 := Scan(num, scene, ray, TriangleShape, n.triangles, b);
    var b2 := Scan(num, scene, ray, SphereShape, n.spheres, b1);
    var r := Scan(num, scene, ray, PlaneShape, n.planes, b2);
    ScanIsNearest(num, scene, ray, TriangleShape, n.triangles, b);
    ScanIsNearest(num, scene, ray, SphereShape, n.spheres, b1);
    ScanIsNearest(num, scene, ray, PlaneShape, n.planes, b2);
    AtMostTransitive(r.dist, b2.dist, b1.dist);
    MissStaysMiss(num, scene, ray, TriangleShape, n.triangles, r.dist, b1.dist);
    MissStaysMiss(num, scene, ray, SphereShape, n.spheres, r.dist, b2.dist);
  }

  /** `closestHit`: the miss record without a root or when the ray misses the root's
      box over `(0, FLOAT_INF)`; otherwise the best record of the query from the miss
      record at `FLOAT_INF`. */
  function ClosestHit(num: Numerics, t: KDTree, ray: Ray): (r: HitRecord)
    requires Oblique(ray)
    requires t.root.Some? ==> WellFormed(t.root.value) && Indexes(t.scene, LeafContents(t.root.value))
    ensures t.root.None? || !HitsBox(ray, t.root.value.bounds, 0.0, Infinite) ==> r.None?
    ensures OnRay(r, ray, LeafEpsilon, Infinite)
  {
    if t.root.Some? && HitsBox(ray, t.root.value.bounds, 0.0, Infinite) then
      Query(num, t.scene, ray, t.root.value, Start()).hit
    else MissRecord()
  }

  /** The closest hit is the miss record or the hit of one of the scene's objects. */
  lemma ClosestHitSound(num: Numerics, t: KDTree, ray: Ray)
    requires Oblique(ray) && SqrtSound(num)
    requires t.root.Some? ==> WellFormed(t.root.value) && Indexes(t.scene, LeafContents(t.root.value))
    ensures var r := ClosestHit(num, t, ray);
      r.None? || FromObjects(num, t.scene, ray, LeafContents(t.root.value), r)
  {
    if t.root.Some? && HitsBox(ray, t.root.value.bounds, 0.0, Infinite) {
      QuerySound(num, t.scene, ray, t.root.value, Start());
    }
  }

  /** A built tree meets the query's requirements: every leaf index names an object. */
  lemma BuiltTreeIndexes(t: KDTree)
    ensures var r := BuildTree(t);
      WellFormed(r.root.value) && Indexes(r.scene, LeafContents(r.root.value))
  {
  }
}

=== FILE: kdtree.dfy ===
/** The ray-cast renderer's KD-tree over the scene's triangles, spheres and planes:
    node and statistics records, the split choices, the recursive build and the node
    count. The query is in module KdQuery. */
module KdTree {
  import opened Optional
  import opened Vectors
  import opened Scene
  import opened Aabb
  import opened Median
  import opened SceneBuild

  /** A node: its box, the split, optional children and, in a leaf, the primitive
      indices it holds. */
  datatype KDNode = KDNode(
    bounds: AABB,
    axis: nat,
    splitPos: real,
    left: Option<KDNode>,
    right: Option<KDNode>,
    triangles: seq<nat>,
    spheres: seq<nat>,
    planes: seq<nat>,
    isLeaf: bool)

  /** `KDNode()`: a leaf on axis 0 at position 0, with the empty box and no content. */
  function NewNode(): (n: KDNode)
    ensures n.isLeaf && n.axis == 0 && n.splitPos == 0.0
    ensures n.left.None? && n.right.None? && n.triangles == [] && n.spheres == [] && n.planes == []
    ensures forall p :: !Contains(n.bounds, p)
  {
    KDNode(EmptyBox(), 0, 0.0, None, None, [], [], [], true)
  }

  /** The eight traversal counters. */
  datatype Statistics = Statistics(
    totalNodesVisited: int,
    totalLeafNodesVisited: int,
    totalRayAABBTests: int,
    totalRayTriangleTests: int,
    totalRaySphereTests: int,
    totalRayPlaneTests: int,
    totalEarlyOuts: int,
    raysProcessed: int)

  /** `totalObjectTests`: the primitive tests of all three kinds together. */
  function TotalObjectTests(s: Statistics): (n: int)
    ensures s.totalRayTriangleTests >= 0 && s.totalRaySphereTests >= 0 && s.totalRayPlaneTests >= 0 ==>
      n >= s.totalRayTriangleTests && n >= s.totalRaySphereTests && n >= s.totalRayPlaneTests
  {
    s.totalRayTriangleTests + s.totalRaySphereTests + s.totalRayPlaneTests
  }

  /** `reset`: every counter back to zero, so no test has been counted. */
  function Reset(): (s: Statistics)
    ensures TotalObjectTests(s) == 0 && s.raysProcessed == 0 && s.totalEarlyOuts == 0
    ensures s.totalNodesVisited == 0 && s.totalLeafNodesVisited == 0 && s.totalRayAABBTests == 0
  {
    Statistics(0, 0, 0, 0, 0, 0, 0, 0)
  }

  /** The tree: the scene it indexes, its two limits, the root once built, and the
      counters. */
  datatype KDTree = KDTree(scene: RenderScene, maxDepth: int, leafThreshold: int, root: Option<KDNode>,
                           stats: Statistics)

  /** The limits the constructor takes when the caller gives none. */
  const DefaultMaxDepth: int := 20
  const DefaultLeafThreshold: int := 5

  /** The constructor: no root yet, counters reset. */
  function NewTree(scene: RenderScene, maxDepth: int, leafThreshold: int): (t: KDTree)
    ensures t.root.None? && t.maxDepth == maxDepth && t.leafThreshold == leafThreshold
    ensures TotalObjectTests(t.stats) == 0 && t.stats.raysProcessed == 0 && t.stats.totalNodesVisited == 0
  {
    KDTree(scene, maxDepth, leafThreshold, None, Reset())
  }

  // --------------------------------------------------------------- split choice

  /** `chooseSplitAxis`: the first axis, in the order x, y, z, of greatest extent. */
  function ChooseSplitAxis(b: AABB): (axis: nat)
    ensures axis < 3
    ensures forall k :: 0 <= k < 3 ==> Axis(Sub(b.max, b.min), k) <= Axis(Sub(b.max, b.min), axis)
    ensures forall k :: 0 <= k < axis ==> Axis(Sub(b.max, b.min), k) < Axis(Sub(b.max, b.min), axis)
  {
    var extent := Sub(b.max, b.min);
    if extent.x >= extent.y && extent.x >= extent.z then 0
    else if extent.y >= extent.z then 1
    else 2
  }

  /** Every index is below `n`. */
  predicate IdsBelow(ids: seq<nat>, n: nat) {
    forall i :: 0 <= i < |ids| ==> ids[i] < n
  }

  /** The three index lists name entries of the scene's buffers. */
  predicate Resolves(scene: RenderScene, tris: seq<nat>, sphs: seq<nat>, plns: seq<nat>) {
    IdsBelow(tris, |scene.triangleBuffer|) && IdsBelow(sphs, |scene.sphereBuffer|)
    && IdsBelow(plns, |scene.planeBuffer|)
  }

  /** The coordinates the median is taken over: three vertices per triangle, then one
      position per sphere, then one per plane. */
  function TrianglePositions(scene: RenderScene, axis: nat, tris: seq<nat>): (r: seq<real>)
    requires axis < 3 && IdsBelow(tris, |scene.triangleBuffer|)
    ensures |r| == 3 * |tris|
  {
    if tris == [] then []
    else
      var t := scene.triangleBuffer[tris[0]];
      [Axis(t.v1, axis), Axis(t.v2, axis), Axis(t.v3, axis)] + TrianglePositions(scene, axis, tris[1..])
  }

  function SpherePositions(scene: RenderScene, axis: nat, sphs: seq<nat>): (r: seq<real>)
    requires axis < 3 && IdsBelow(sphs, |scene.sphereBuffer|)
    ensures |r| == |sphs|
  {
    if sphs == [] then []
    else [Axis(scene.sphereBuffer[sphs[0]].position, axis)] + SpherePositions(scene, axis, sphs[1..])
  }

  function PlanePositions(scene: RenderScene, axis: nat, plns: seq<nat>): (r: seq<real>)
    requires axis < 3 && IdsBelow(plns, |scene.planeBuffer|)
    ensures |r| == |plns|
  {
    if plns == [] then []
    else [Axis(scene.planeBuffer[plns[0]].position, axis)] + PlanePositions(scene, axis, plns[1..])
  }

  function Positions(scene: RenderScene, axis: nat, tris: seq<nat>, sphs: seq<nat>, plns: seq<nat>): (r: seq<real>)
    requires axis < 3 && Resolves(scene, tris, sphs, plns)
    ensures |r| == 3 * |tris| + |sphs| + |plns|
  {
    TrianglePositions(scene, axis, tris) + SpherePositions(scene, axis, sphs) + PlanePositions(scene, axis, plns)
  }

  /** `findMedianSplit`: 0 when there is nothing to split; otherwise one of the
      representative coordinates with at most half of them on either side. */
  function FindMedianSplit(scene: RenderScene, axis: nat, tris: seq<nat>, sphs: seq<nat>, plns: seq<nat>): (r: real)
    requires axis < 3 && Resolves(scene, tris, sphs, plns)
    ensures tris == [] && sphs == [] && plns == [] ==> r == 0.0
    ensures var p := Positions(scene, axis, tris, sphs, plns);
      p != [] ==> r in p && CountBelow(p, r) <= |p| / 2 && CountAbove(p, r) <= |p| - |p| / 2 - 1
  {
    MedianOf(Positions(scene, axis, tris, sphs, plns))
  }

  // ------------------------------------------------------------- classification

  /** A box goes to the left side unless it lies entirely at or beyond the split... */
  predicate GoesLeft(b: AABB, axis: nat, split: real)
    requires axis < 3
  {
    Axis(b.max, axis) <= split || Axis(b.min, axis) < split
  }

  /** ...and to the right side unless it lies entirely at or before it. */
  predicate GoesRight(b: AABB, axis: nat, split: real)
    requires axis < 3
  {
    Axis(b.max, axis) > split
  }

  /** The bounds the classification looks at: triangle boxes and sphere boxes. */
  datatype Kind = TriangleKind | SphereKind

  function PrimitiveBounds(scene: RenderScene, kind: Kind, x: nat): AABB
    requires kind == TriangleKind ==> x < |scene.triangleBuffer|
    requires kind == SphereKind ==> x < |scene.sphereBuffer|
  {
    match kind
    case TriangleKind => TriangleBounds(scene.triangleBuffer[x])
    case SphereKind => SphereBounds(scene.sphereBuffer[x])
  }

  predicate KindResolves(scene: RenderScene, kind: Kind, ids: seq<nat>) {
    match kind
    case TriangleKind => IdsBelow(ids, |scene.triangleBuffer|)
    case SphereKind => IdsBelow(ids, |scene.sphereBuffer|)
  }

  /** `ys` is `xs` with some elements left out, the rest in their order. */
  predicate Subsequence(ys: seq<nat>, xs: seq<nat>)
    decreases |xs|
  {
    if ys == [] then true
    else if xs == [] then false
    else if ys[0] == xs[0] then Subsequence(ys[1..], xs[1..])
    else Subsequence(ys, xs[1..])
  }

  /** One side of `classifyObjects` for triangles or spheres: the indices, in order,
      whose box goes to that side. */
  function Side(scene: RenderScene, kind: Kind, axis: nat, split: real, ids: seq<nat>, left: bool): (r: seq<nat>)
    requires axis < 3 && KindResolves(scene, kind, ids)
    ensures Subsequence(r, ids) && KindResolves(scene, kind, r)
    ensures forall x :: x in r <==> (x in ids &&
      (if left then GoesLeft(PrimitiveBounds(scene, kind, x), axis, split)
       else GoesRight(PrimitiveBounds(scene, kind, x), axis, split)))
  {
    if ids == [] then []
    else
      var b := PrimitiveBounds(scene, kind, ids[0]);
      var rest := Side(scene, kind, axis, split, ids[1..], left);
      assert ids == [ids[0]] + ids[1..];
      if (if left then GoesLeft(b, axis, split) else GoesRight(b, axis, split)) then [ids[0]] + rest
      else
        SubsequenceSkip(rest, ids);
        rest
  }

  lemma SubsequenceSkip(ys: seq<nat>, xs: seq<nat>)
    requires xs != [] && Subsequence(ys, xs[1..])
    ensures Subsequence(ys, xs)
    decreases |xs|, |ys|
  {
    if ys != [] && ys[0] == xs[0] {
      SubsequenceTail(ys, xs[1..]);
    }
  }

  /** Dropping the head of a subsequence leaves a subsequence. */
  lemma SubsequenceTail(ys: seq<nat>, xs: seq<nat>)
    requires ys != [] && Subsequence(ys, xs)
    ensures Subsequence(ys[1..], xs)
    decreases |xs|, |ys|
  {
    if ys[0] == xs[0] {
      if ys[1..] != [] {
        SubsequenceSkip(ys[1..], xs);
      }
    } else {
      SubsequenceTail(ys, xs[1..]);
      SubsequenceSkip(ys[1..], xs);
    }
  }

  /** The six lists `classifyObjects` fills. */
  datatype Parts = Parts(leftTriangles: seq<nat>, rightTriangles: seq<nat>,
                         leftSpheres: seq<nat>, rightSpheres: seq<nat>,
                         leftPlanes: seq<nat>, rightPlanes: seq<nat>)

  /** `classifyObjects`: triangles and spheres by their boxes, planes to both sides. */
  function Classify(scene: RenderScene, axis: nat, split: real, tris: seq<nat>, sphs: seq<nat>, plns: seq<nat>): (p: Parts)
    requires axis < 3 && Resolves(scene, tris, sphs, plns)
    ensures p.leftPlanes == plns && p.rightPlanes == plns
  {
    Parts(Side(scene, TriangleKind, axis, split, tris, true), Side(scene, TriangleKind, axis, split, tris, false),
          Side(scene, SphereKind, axis, split, sphs, true), Side(scene, SphereKind, axis, split, sphs, false),
          plns, plns)
  }

  /** Every primitive reaches at least one side; one that straddles the split reaches
      both; the sides are order-preserving sub-lists of the input. */
  lemma ClassifyCovers(scene: RenderScene, axis: nat, split: real, tris: seq<nat>, sphs: seq<nat>, plns: seq<nat>)
    requires axis < 3 && Resolves(scene, tris, sphs, plns)
    ensures var p := Classify(scene, axis, split, tris, sphs, plns);
      (forall x :: x in tris ==> x in p.leftTriangles || x in p.rightTriangles)
      && (forall x :: x in sphs ==> x in p.leftSpheres || x in p.rightSpheres)
      && Subsequence(p.leftTriangles, tris) && Subsequence(p.rightTriangles, tris)
      && Subsequence(p.leftSpheres, sphs) && Subsequence(p.rightSpheres, sphs)
    ensures var p := Classify(scene, axis, split, tris, sphs, plns);
      forall x :: x in tris ==>
        var b := TriangleBounds(scene.triangleBuffer[x]);
        (x in p.leftTriangles && x in p.rightTriangles <==> Axis(b.min, axis) < split < Axis(b.max, axis))
  {
  }

  // ------------------------------------------------------------------- bounds

  /** The boxes `computeBounds` folds, in its order: triangles, spheres, planes. */
  function PrimitiveBoxes(scene: RenderScene, tris: seq<nat>, sphs: seq<nat>, plns: seq<nat>): (r: seq<AABB>)
    requires Resolves(scene, tris, sphs, plns)
    ensures |r| == |tris| + |sphs| + |plns|
    ensures forall i :: 0 <= i < |tris| ==> r[i] == TriangleBounds(scene.triangleBuffer[tris[i]])
    ensures forall i :: 0 <= i < |sphs| ==> r[|tris| + i] == SphereBounds(scene.sphereBuffer[sphs[i]])
    ensures forall i :: 0 <= i < |plns| ==> r[|tris| + |sphs| + i] == PlaneBounds(scene.planeBuffer[plns[i]])
  {
    seq(|tris|, i requires 0 <= i < |tris| => TriangleBounds(scene.triangleBuffer[tris[i]]))
    + seq(|sphs|, i requires 0 <= i < |sphs| => SphereBounds(scene.sphereBuffer[sphs[i]]))
    + seq(|plns|, i requires 0 <= i < |plns| => PlaneBounds(scene.planeBuffer[plns[i]]))
  }

  /** `c` includes every box of `bs`. */
  predicate IncludesAll(c: AABB, bs: seq<AABB>) {
    forall i :: 0 <= i < |bs| ==> Includes(c, bs[i])
  }

  /** `expand` over a list: the smallest box including `acc` and every box of `bs`. */
  function ExpandAll(acc: AABB, bs: seq<AABB>): (r: AABB)
    ensures Includes(r, acc) && IncludesAll(r, bs)
    ensures forall c :: Includes(c, acc) && IncludesAll(c, bs) ==> Includes(c, r)
    decreases |bs|
  {
    if bs == [] then acc
    else ExpandAll(ExpandBox(acc, bs[0]), bs[1..])
  }

  /** `computeBounds`: the smallest box that includes every primitive's box (and the
      empty box it starts from, which any box within single-precision range does). */
  function ComputeBounds(scene: RenderScene, tris: seq<nat>, sphs: seq<nat>, plns: seq<nat>): (r: AABB)
    requires Resolves(scene, tris, sphs, plns)
    ensures IncludesAll(r, PrimitiveBoxes(scene, tris, sphs, plns))
    ensures forall c :: Includes(c, EmptyBox()) && IncludesAll(c, PrimitiveBoxes(scene, tris, sphs, plns)) ==>
      Includes(c, r)
  {
    ExpandAll(EmptyBox(), PrimitiveBoxes(scene, tris, sphs, plns))
  }

  /** Every vertex of every listed triangle and the centre of every listed sphere lie in
      the computed bounds. */
  lemma BoundsHoldPrimitives(scene: RenderScene, tris: seq<nat>, sphs: seq<nat>, plns: seq<nat>)
    requires Resolves(scene, tris, sphs, plns)
    ensures var b := ComputeBounds(scene, tris, sphs, plns);
      (forall i :: 0 <= i < |tris| ==>
        var t := scene.triangleBuffer[tris[i]];
        Contains(b, t.v1) && Contains(b, t.v2) && Contains(b, t.v3))
      && (forall i :: 0 <= i < |sphs| && scene.sphereBuffer[sphs[i]].radius >= 0.0 ==>
        Contains(b, scene.sphereBuffer[sphs[i]].position))
  {
    var b := ComputeBounds(scene, tris, sphs, plns);
    var boxes := PrimitiveBoxes(scene, tris, sphs, plns);
    forall i | 0 <= i < |tris|
      ensures Contains(b, scene.triangleBuffer[tris[i]].v1) && Contains(b, scene.triangleBuffer[tris[i]].v2)
        && Contains(b, scene.triangleBuffer[tris[i]].v3)
    {
      var t := scene.triangleBuffer[tris[i]];
      assert Includes(b, boxes[i]);
      IncludesMeansContains(b, TriangleBounds(t), t.v1);
      IncludesMeansContains(b, TriangleBounds(t), t.v2);
      IncludesMeansContains(b, TriangleBounds(t), t.v3);
    }
    forall i | 0 <= i < |sphs| && scene.sphereBuffer[sphs[i]].radius >= 0.0
      ensures Contains(b, scene.sphereBuffer[sphs[i]].position)
    {
      var sp := scene.sphereBuffer[sphs[i]];
      assert Includes(b, boxes[|tris| + i]);
      IncludesMeansContains(b, SphereBounds(sp), sp.position);
    }
  }

  /** The two halves of a box cut at `split` on `axis`: the left keeps the part up to
      the split, the right the part from it. When the split lies outside the box a
      half reaches beyond it. */
  function LeftBox(b: AABB, axis: nat, split: real): (r: AABB)
    requires axis < 3
    ensures forall p :: Contains(b, p) && Axis(p, axis) <= split ==> Contains(r, p)
    ensures forall p :: Contains(r, p) ==> Axis(p, axis) <= split
    ensures split <= Axis(b.max, axis) ==> forall p :: Contains(r, p) ==> Contains(b, p)
  {
    AABB(b.min, WithAxis(b.max, axis, split))
  }

  function RightBox(b: AABB, axis: nat, split: real): (r: AABB)
    requires axis < 3
    ensures forall p :: Contains(b, p) && split <= Axis(p, axis) ==> Contains(r, p)
    ensures forall p :: Contains(r, p) ==> split <= Axis(p, axis)
    ensures Axis(b.min, axis) <= split ==> forall p :: Contains(r, p) ==> Contains(b, p)
  {
    AABB(WithAxis(b.min, axis, split), b.max)
  }

  /** The halves cover the box, and they share only the cutting plane. */
  lemma HalvesCover(b: AABB, axis: nat, split: real, p: Vec3)
    requires axis < 3
    ensures Contains(b, p) ==> Contains(LeftBox(b, axis, split), p) || Contains(RightBox(b, axis, split), p)
    ensures Axis(b.min, axis) <= split <= Axis(b.max, axis) ==>
      (Contains(LeftBox(b, axis, split), p) || Contains(RightBox(b, axis, split), p) ==> Contains(b, p))
    ensures Contains(LeftBox(b, axis, split), p) && Contains(RightBox(b, axis, split), p) ==> Axis(p, axis) == split
  {
  }

  /** The shape every built node has: a leaf has no children, an interior node has at
      least one, holds no objects itself, and its children cover the two halves of its
      box. */
  predicate WellFormed(n: KDNode)
    decreases n
  {
    n.axis < 3
    && (n.isLeaf <==> n.left.None? && n.right.None?)
    && (!n.isLeaf ==> n.triangles == [] && n.spheres == [] && n.planes == [])
    && (n.left.Some? ==> n.left.value.bounds == LeftBox(n.bounds, n.axis, n.splitPos) && WellFormed(n.left.value))
    && (n.right.Some? ==> n.right.value.bounds == RightBox(n.bounds, n.axis, n.splitPos) && WellFormed(n.right.value))
  }

  /** The number of levels below and including a node. */
  function Height(n: KDNode): (h: nat)
    ensures h >= 1
    decreases n
  {
    var l := if n.left.Some? then Height(n.left.value) else 0;
    var r := if n.right.Some? then Height(n.right.value) else 0;
    1 + (if l < r then r else l)
  }

  /** The number of objects in three index lists. */
  function Total(tris: seq<nat>, sphs: seq<nat>, plns: seq<nat>): nat {
    |tris| + |sphs| + |plns|
  }

  /** Some side of a split receives an object whenever there is one to receive. */
  lemma SomeSideHolds(scene: RenderScene, axis: nat, split: real, tris: seq<nat>, sphs: seq<nat>, plns: seq<nat>)
    requires axis < 3 && Resolves(scene, tris, sphs, plns)
    ensures var p := Classify(scene, axis, split, tris, sphs, plns);
      Total(tris, sphs, plns) > 0 <==>
        Total(p.leftTriangles, p.leftSpheres, p.leftPlanes) > 0 || Total(p.rightTriangles, p.rightSpheres, p.rightPlanes) > 0
  {
    ClassifyCovers(scene, axis, split, tris, sphs, plns);
    if tris != [] {
      assert tris[0] in tris;
    } else if sphs != [] {
      assert sphs[0] in sphs;
    }
  }

  // -------------------------------------------------------------------- build

  /** A leaf holding the given lists, as `buildRecursive` returns it before any split. */
  function Leaf(bounds: AABB, tris: seq<nat>, sphs: seq<nat>, plns: seq<nat>): (n: KDNode)
    ensures n.isLeaf && n.bounds == bounds && n.left.None? && n.right.None?
    ensures n.triangles == tris && n.spheres == sphs && n.planes == plns
  {
    NewNode().(bounds := bounds, triangles := tris, spheres := sphs, planes := plns)
  }

  /** `buildRecursive`. A node becomes a leaf at the depth limit, at or below the leaf
      threshold, or when one side of the split would receive every object; otherwise it
      is cut at the median on its widest axis, and each non-empty side becomes a child
      over its half of the box. */
  function BuildRecursive(scene: RenderScene, maxDepth: int, leafThreshold: int,
                          bounds: AABB, tris: seq<nat>, sphs: seq<nat>, plns: seq<nat>, depth: int): (n: KDNode)
    requires Resolves(scene, tris, sphs, plns)
    ensures n.bounds == bounds
    ensures n.isLeaf <==> n.left.None? && n.right.None?
    ensures n.isLeaf ==> n.triangles == tris && n.spheres == sphs && n.planes == plns
    ensures !n.isLeaf ==> n.triangles == [] && n.spheres == [] && n.planes == []
    ensures depth >= maxDepth || Total(tris, sphs, plns) <= leafThreshold ==> n.isLeaf
    ensures WellFormed(n)
    ensures Height(n) <= if depth < maxDepth then maxDepth - depth + 1 else 1
    decreases maxDepth - depth, 1
  {
    var total := Total(tris, sphs, plns);
    if depth >= maxDepth || total <= leafThreshold then Leaf(bounds, tris, sphs, plns)
    else
      var axis := ChooseSplitAxis(bounds);
      var split := FindMedianSplit(scene, axis, tris, sphs, plns);
      var p := Classify(scene, axis, split, tris, sphs, plns);
      if Total(p.leftTriangles, p.leftSpheres, p.leftPlanes) == total
         || Total(p.rightTriangles, p.rightSpheres, p.rightPlanes) == total
      then
        Leaf(bounds, tris, sphs, plns).(axis := axis, splitPos := split)
      else
        SomeSideHolds(scene, axis, split, tris, sphs, plns);
        var left := Child(scene, maxDepth, leafThreshold, LeftBox(bounds, axis, split),
                          p.leftTriangles, p.leftSpheres, p.leftPlanes, depth + 1);
        var right := Child(scene, maxDepth, leafThreshold, RightBox(bounds, axis, split),
                           p.rightTriangles, p.rightSpheres, p.rightPlanes, depth + 1);
        KDNode(bounds, axis, split, left, right, [], [], [], false)
  }

  /** A child is built only for a side that received some object. */
  function Child(scene: RenderScene, maxDepth: int, leafThreshold: int,
                 bounds: AABB, tris: seq<nat>, sphs: seq<nat>, plns: seq<nat>, depth: int): (c: Option<KDNode>)
    requires Resolves(scene, tris, sphs, plns)
    ensures c.Some? <==> Total(tris, sphs, plns) > 0
    ensures c.Some? ==> c.value.bounds == bounds && WellFormed(c.value)
    ensures c.Some? ==> Height(c.value) <= if depth < maxDepth then maxDepth - depth + 1 else 1
    decreases maxDepth - depth, 2
  {
    if Total(tris, sphs, plns) > 0 then
      Some(BuildRecursive(scene, maxDepth, leafThreshold, bounds, tris, sphs, plns, depth))
    else None
  }

  /** The set of indices a list holds. */
  function Elements(s: seq<nat>): set<nat> {
    set x | x in s
  }

  /** The objects a subtree's leaves hold, by kind. */
  datatype Contents = Contents(triangles: set<nat>, spheres: set<nat>, planes: set<nat>)

  function Union(a: Contents, b: Contents): Contents {
    Contents(a.triangles + b.triangles, a.spheres + b.spheres, a.planes + b.planes)
  }

  function ListContents(tris: seq<nat>, sphs: seq<nat>, plns: seq<nat>): Contents {
    Contents(Elements(tris), Elements(sphs), Elements(plns))
  }

  function LeafContents(n: KDNode): Contents
    decreases n
  {
    if n.isLeaf then ListContents(n.triangles, n.spheres, n.planes)
    else
      var l := if n.left.Some? then LeafContents(n.left.value) else Contents({}, {}, {});
      var r := if n.right.Some? then LeafContents(n.right.value) else Contents({}, {}, {});
      Union(l, r)
  }

  /** The two sides of a split hold exactly the objects of the node between them. */
  lemma ClassifyKeepsContents(scene: RenderScene, axis: nat, split: real, tris: seq<nat>, sphs: seq<nat>, plns: seq<nat>)
    requires axis < 3 && Resolves(scene, tris, sphs, plns)
    ensures var p := Classify(scene, axis, split, tris, sphs, plns);
      Union(ListContents(p.leftTriangles, p.leftSpheres, p.leftPlanes),
            ListContents(p.rightTriangles, p.rightSpheres, p.rightPlanes))
      == ListContents(tris, sphs, plns)
  {
    ClassifyCovers(scene, axis, split, tris, sphs, plns);
  }

  /** No object is lost or invented by the build: the leaves of the tree hold exactly the
      triangles, spheres and planes it was built over. */
  lemma {:induction false} BuildKeepsContents(scene: RenderScene, maxDepth: int, leafThreshold: int,
                                             bounds: AABB, tris: seq<nat>, sphs: seq<nat>, plns: seq<nat>, depth: int)
    requires Resolves(scene, tris, sphs, plns)
    ensures LeafContents(BuildRecursive(scene, maxDepth, leafThreshold, bounds, tris, sphs, plns, depth))
      == ListContents(tris, sphs, plns)
    decreases maxDepth - depth, 1
  {
    var n := BuildRecursive(scene, maxDepth, leafThreshold, bounds, tris, sphs, plns, depth);
    if !n.isLeaf {
      var axis := ChooseSplitAxis(bounds);
      var split := FindMedianSplit(scene, axis, tris, sphs, plns);
      var p := Classify(scene, axis, split, tris, sphs, plns);
      ClassifyKeepsContents(scene, axis, split, tris, sphs, plns);
      ChildKeepsContents(scene, maxDepth, leafThreshold, LeftBox(bounds, axis, split),
                         p.leftTriangles, p.leftSpheres, p.leftPlanes, depth + 1);
      ChildKeepsContents(scene, maxDepth, leafThreshold, RightBox(bounds, axis, split),
                         p.rightTriangles, p.rightSpheres, p.rightPlanes, depth + 1);
    }
  }

  /** The same for an optional child: an absent child holds nothing. */
  lemma {:induction false} ChildKeepsContents(scene: RenderScene, maxDepth: int, leafThreshold: int,
                                             bounds: AABB, tris: seq<nat>, sphs: seq<nat>, plns: seq<nat>, depth: int)
    requires Resolves(scene, tris, sphs, plns)
    ensures var c := Child(scene, maxDepth, leafThreshold, bounds, tris, sphs, plns, depth);
      (if c.Some? then LeafContents(c.value) else Contents({}, {}, {})) == ListContents(tris, sphs, plns)
    decreases maxDepth - depth, 2
  {
    if Total(tris, sphs, plns) > 0 {
      BuildKeepsContents(scene, maxDepth, leafThreshold, bounds, tris, sphs, plns, depth);
    } else {
      assert tris == [] && sphs == [] && plns == [];
      assert Elements([]) == {};
    }
  }

  /** `build`: the root covers the bounds of everything in the scene and is built over
      every triangle, sphere and plane, by index. */
  function Indices(n: nat): (r: seq<nat>)
    ensures |r| == n && forall i :: 0 <= i < n ==> r[i] == i
  {
    seq(n, i => i)
  }

  /** The indices below `n`, as a set. */
  function Range(n: nat): (r: set<nat>)
    ensures forall i: nat :: i in r <==> i < n
  {
    if n == 0 then {} else Range(n - 1) + {n - 1}
  }

  /** The index list `build` starts from holds every index below the buffer's size. */
  lemma IndicesCoverRange(n: nat)
    ensures Elements(Indices(n)) == Range(n)
  {
    var ids := Indices(n);
    forall x | x in Range(n)
      ensures x in Elements(ids)
    {
      assert ids[x] == x;
    }
  }

  function BuildTree(t: KDTree): (r: KDTree)
    ensures r == t.(root := r.root)
    ensures r.root.Some? && WellFormed(r.root.value)
    ensures LeafContents(r.root.value) == Contents(
      Range(|t.scene.triangleBuffer|), Range(|t.scene.sphereBuffer|), Range(|t.scene.planeBuffer|))
  {
    var tris := Indices(|t.scene.triangleBuffer|);
    var sphs := Indices(|t.scene.sphereBuffer|);
    var plns := Indices(|t.scene.planeBuffer|);
    var bounds := ComputeBounds(t.scene, tris, sphs, plns);
    BuildKeepsContents(t.scene, t.maxDepth, t.leafThreshold, bounds, tris, sphs, plns, 0);
    IndicesCoverRange(|t.scene.triangleBuffer|);
    IndicesCoverRange(|t.scene.sphereBuffer|);
    IndicesCoverRange(|t.scene.planeBuffer|);
    t.(root := Some(BuildRecursive(t.scene, t.maxDepth, t.leafThreshold, bounds, tris, sphs, plns, 0)))
  }

  // ------------------------------------------------------------------- counts

  /** `countNodes` from an optional node: the nodes and the leaves reached, where an
      interior node's children are counted below it. */
  function CountNodes(n: Option<KDNode>): (c: (nat, nat))
    ensures c.1 <= c.0
    ensures n.None? <==> c.0 == 0
    ensures n.Some? ==> c.0 < Pow2(Height(n.value))
    ensures n.Some? && WellFormed(n.value) ==> c.1 >= 1
    decreases n
  {
    if n.None? then (0, 0)
    else if n.value.isLeaf then (1, 1)
    else
      var l := CountNodes(n.value.left);
      var r := CountNodes(n.value.right);
      HeightOfChildren(n.value);
      (1 + l.0 + r.0, l.1 + r.1)
  }

  function Pow2(k: nat): (p: nat)
    ensures p >= 1
  {
    if k == 0 then 1 else 2 * Pow2(k - 1)
  }

  lemma {:induction false} Pow2Monotone(a: nat, b: nat)
    requires a <= b
    ensures Pow2(a) <= Pow2(b)
    decreases b
  {
    if a < b {
      Pow2Monotone(a, b - 1);
    }
  }

  /** A child is at least one level lower than its parent. */
  lemma HeightOfChildren(n: KDNode)
    ensures n.left.Some? ==> Pow2(Height(n.left.value)) * 2 <= Pow2(Height(n))
    ensures n.right.Some? ==> Pow2(Height(n.right.value)) * 2 <= Pow2(Height(n))
  {
    if n.left.Some? {
      Pow2Monotone(Height(n.left.value), Height(n) - 1);
    }
    if n.right.Some? {
      Pow2Monotone(Height(n.right.value), Height(n) - 1);
    }
  }

  /** `getNodeCount` and `getLeafCount`, both 0 before the tree is built. */
  function NodeCount(t: KDTree): (c: nat)
    ensures t.root.None? ==> c == 0
    ensures t.root.Some? ==> c >= 1
  {
    CountNodes(t.root).0
  }

  function LeafCount(t: KDTree): (c: nat)
    ensures c <= NodeCount(t)
    ensures t.root.Some? && WellFormed(t.root.value) ==> c >= 1
  {
    CountNodes(t.root).1
  }
}

=== FILE: materials.dfy ===
/** The material property store: a material is a type tag plus a list of keyed,
    typed properties. Keys are looked up by their first occurrence, and registering
    never adds a key that is already present. */
module Materials {
  import opened Vectors
  import opened Handles

  /** The tag a property carries beside its value. */
  datatype PropertyType = INT | FLOAT | RGB | RGBA | VEC3 | VEC4 | TEXTURE_ID

  /** The value of a property, one alternative per wrapper type. `RGB` values are
      three-component and `RGBA` values four-component vectors. */
  datatype Wrapper =
    | IntType(i: int)
    | FloatType(f: real)
    | RGBType(rgb: Vec3)
    | RGBAType(rgba: Vec4)
    | Vec3Type(v3: Vec3)
    | Vec4Type(v4: Vec4)
    | TextureIdType(texture: Handle)

  datatype Property = Property(key: string, ptype: PropertyType, valueWrapper: Wrapper)

  /** A material: an unsigned type tag and its property list. */
  datatype Material = Material(mtype: nat, properties: seq<Property>)

  /** The tag that matches each wrapper alternative. */
  function TagOf(w: Wrapper): PropertyType {
    match w
    case IntType(_) => INT
    case FloatType(_) => FLOAT
    case RGBType(_) => RGB
    case RGBAType(_) => RGBA
    case Vec3Type(_) => VEC3
    case Vec4Type(_) => VEC4
    case TextureIdType(_) => TEXTURE_ID
  }

  /** The `Property` constructors: one per wrapper, each setting the matching tag. */
  function MakeProperty(key: string, w: Wrapper): (p: Property)
    ensures p.key == key && p.valueWrapper == w
    ensures p.ptype == INT <==> w.IntType?
    ensures p.ptype == FLOAT <==> w.FloatType?
    ensures p.ptype == RGB <==> w.RGBType?
    ensures p.ptype == RGBA <==> w.RGBAType?
    ensures p.ptype == VEC3 <==> w.Vec3Type?
    ensures p.ptype == VEC4 <==> w.Vec4Type?
    ensures p.ptype == TEXTURE_ID <==> w.TextureIdType?
  {
    Property(key, TagOf(w), w)
  }

  /** A default material: type 0 and no properties. */
  function DefaultMaterial(): (m: Material)
    ensures m.mtype == 0
    ensures forall k :: !HasProperty(m, k)
  {
    Material(0, [])
  }

  /** The position of the first property with key `key`, or the list's length when
      there is none (what `find_if` returns). */
  function Find(props: seq<Property>, key: string): (r: nat)
    ensures r <= |props|
    ensures r < |props| ==> props[r].key == key
    ensures forall j :: 0 <= j < r ==> props[j].key != key
  {
    if |props| == 0 then 0
    else if props[0].key == key then 0
    else 1 + Find(props[1..], key)
  }

  /** `hasProperty(key)`. */
  predicate HasProperty(m: Material, key: string) {
    Find(m.properties, key) < |m.properties|
  }

  /** `hasProperty` holds exactly when some stored property has the key. */
  lemma HasPropertyMeaning(m: Material, key: string)
    ensures HasProperty(m, key) <==> exists i :: 0 <= i < |m.properties| && m.properties[i].key == key
  {
  }

  /** The outcome of `getProperty<T>(key)`: no entry, the stored value, or the
      `bad_variant_access` raised when the first entry's wrapper is not a `T`. */
  datatype Lookup = Missing | Found(value: Wrapper) | WrongType

  /** `getProperty<T>(key)` where `T` is the wrapper with tag `t`. */
  function GetProperty(m: Material, key: string, t: PropertyType): (r: Lookup)
    ensures r.Missing? <==> !HasProperty(m, key)
    ensures r.Found? ==> TagOf(r.value) == t
    ensures r.Found? ==> exists i :: 0 <= i < |m.properties| && m.properties[i].key == key
                                  && m.properties[i].valueWrapper == r.value
    ensures HasProperty(m, key) && TagOf(m.properties[Find(m.properties, key)].valueWrapper) == t ==> r.Found?
  {
    var i := Find(m.properties, key);
    if i == |m.properties| then Missing
    else if TagOf(m.properties[i].valueWrapper) == t then Found(m.properties[i].valueWrapper)
    else WrongType
  }

  /** True when every property with key `key` holds a wrapper tagged `t`, so that
      `getProperty` with that wrapper type cannot throw. */
  predicate KeyHasType(m: Material, key: string, t: PropertyType) {
    forall i :: 0 <= i < |m.properties| && m.properties[i].key == key ==> TagOf(m.properties[i].valueWrapper) == t
  }

  /** No two properties share a key. */
  predicate UniqueKeys(m: Material) {
    forall i, j :: 0 <= i < j < |m.properties| ==> m.properties[i].key != m.properties[j].key
  }

  /** `registerProperty(prop)`: appends `p` and reports true exactly when its key is
      absent; otherwise the material is returned unchanged with false. */
  function RegisterProperty(m: Material, p: Property): (r: (Material, bool))
    ensures r.1 <==> !HasProperty(m, p.key)
    ensures r.1 ==> r.0 == Material(m.mtype, m.properties + [p])
    ensures !r.1 ==> r.0 == m
    ensures UniqueKeys(m) ==> UniqueKeys(r.0)
  {
    if HasProperty(m, p.key) then (m, false)
    else (Material(m.mtype, m.properties + [p]), true)
  }

  /** `registerProperty(key, value)`: the same, for a property built from a wrapper. */
  function Register(m: Material, key: string, w: Wrapper): (r: (Material, bool))
    ensures r.1 <==> !HasProperty(m, key)
    ensures r.1 ==> r.0.properties == m.properties + [MakeProperty(key, w)] && r.0.mtype == m.mtype
    ensures !r.1 ==> r.0 == m
  {
    RegisterProperty(m, MakeProperty(key, w))
  }

  /** `getPropertiesNum()`. */
  function PropertiesNum(m: Material): nat {
    |m.properties|
  }

  /** `removeProperty(key)`: erases the first property with that key, if any. */
  function RemoveByKey(m: Material, key: string): (r: Material)
    ensures !HasProperty(m, key) ==> r == m
    ensures HasProperty(m, key) ==>
      var i := Find(m.properties, key);
      r.mtype == m.mtype && r.properties == m.properties[..i] + m.properties[i + 1..]
  {
    var i := Find(m.properties, key);
    if i < |m.properties| then Material(m.mtype, m.properties[..i] + m.properties[i + 1..]) else m
  }

  /** `removeProperty(i)`: erases index `i` when it is in range, else does nothing. */
  function RemoveAt(m: Material, i: nat): (r: Material)
    ensures i >= |m.properties| ==> r == m
    ensures i < |m.properties| ==>
      r.mtype == m.mtype && multiset(r.properties) + multiset{m.properties[i]} == multiset(m.properties)
    ensures i < |m.properties| ==>
      |r.properties| == |m.properties| - 1
      && (forall j :: 0 <= j < i ==> r.properties[j] == m.properties[j])
      && (forall j :: i <= j < |r.properties| ==> r.properties[j] == m.properties[j + 1])
  {
    if i < |m.properties| then
      assert m.properties == m.properties[..i] + [m.properties[i]] + m.properties[i + 1..];
      Material(m.mtype, m.properties[..i] + m.properties[i + 1..])
    else m
  }

  /** Registering under a fresh key and then reading it back with the matching type
      yields the registered value. */
  lemma RegisterThenGet(m: Material, key: string, w: Wrapper)
    requires !HasProperty(m, key)
    ensures Register(m, key, w).1
    ensures GetProperty(Register(m, key, w).0, key, TagOf(w)) == Found(w)
  {
    var m' := Register(m, key, w).0;
    assert Find(m'.properties, key) == |m.properties| by {
      FindAppend(m.properties, MakeProperty(key, w), key);
    }
  }

  /** Searching a list with an element appended finds the old match, or else the new
      element when it carries the key. */
  lemma {:induction false} FindAppend(props: seq<Property>, p: Property, key: string)
    ensures Find(props, key) < |props| ==> Find(props + [p], key) == Find(props, key)
    ensures Find(props, key) == |props| && p.key == key ==> Find(props + [p], key) == |props|
  {
    if |props| > 0 {
      assert (props + [p])[1..] == props[1..] + [p];
      FindAppend(props[1..], p, key);
    }
  }

  /** The list left by removing position `i`, read index by index. */
  lemma RemovedAt(props: seq<Property>, i: nat, rest: seq<Property>)
    requires i < |props| && rest == props[..i] + props[i + 1..]
    ensures |rest| == |props| - 1
    ensures forall j :: 0 <= j < |rest| ==> rest[j] == (if j < i then props[j] else props[j + 1])
  {
  }

  /** With unique keys, removing a key leaves no property with that key. */
  lemma RemoveByKeyRemoves(m: Material, key: string)
    requires UniqueKeys(m)
    ensures !HasProperty(RemoveByKey(m, key), key)
    ensures UniqueKeys(RemoveByKey(m, key))
    ensures PropertiesNum(RemoveByKey(m, key)) == PropertiesNum(m) - (if HasProperty(m, key) then 1 else 0)
  {
    var r := RemoveByKey(m, key);
    if HasProperty(m, key) {
      var i := Find(m.properties, key);
      RemovedAt(m.properties, i, r.properties);
      forall j | 0 <= j < |r.properties|
        ensures r.properties[j].key != key
      {
        if j >= i {
          assert m.properties[i].key != m.properties[j + 1].key;
        }
      }
    }
  }

  /** Removing one key keeps every other key present or absent as it was. */
  lemma RemoveByKeyKeepsOthers(m: Material, key: string, other: string)
    requires other != key
    ensures HasProperty(RemoveByKey(m, key), other) <==> HasProperty(m, other)
  {
    var r := RemoveByKey(m, key);
    if HasProperty(m, key) {
      var i := Find(m.properties, key);
      RemovedAt(m.properties, i, r.properties);
      if HasProperty(m, other) {
        var k := Find(m.properties, other);
        if k < i {
          assert r.properties[k].key == other;
        } else {
          assert r.properties[k - 1].key == other;
        }
      }
      if HasProperty(r, other) {
        var k := Find(r.properties, other);
        if k < i {
          assert m.properties[k].key == other;
        } else {
          assert m.properties[k + 1].key == other;
        }
      }
    }
  }

  /** Registering changes the count by one exactly on success and keeps keys unique,
      so a sequence of registrations never stores a key twice. */
  lemma RegisterCounts(m: Material, p: Property)
    requires UniqueKeys(m)
    ensures PropertiesNum(RegisterProperty(m, p).0) == PropertiesNum(m) + (if RegisterProperty(m, p).1 then 1 else 0)
    ensures UniqueKeys(RegisterProperty(m, p).0)
  {
  }

  /** After registering, the key is present, whether it was added now or before. */
  lemma RegisterMakesPresent(m: Material, p: Property)
    ensures HasProperty(RegisterProperty(m, p).0, p.key)
  {
    var r := RegisterProperty(m, p);
    if r.1 {
      FindAppend(m.properties, p, p.key);
    }
  }
}

=== FILE: median.dfy ===
/** Sorting a list of coordinates and taking the element at the middle index, as the
    KD-tree's split chooses its position. */
module Median {

  predicate Sorted(s: seq<real>) {
    forall i, j :: 0 <= i < j < |s| ==> s[i] <= s[j]
  }

  /** How many elements lie strictly below `m`. */
  function CountBelow(s: seq<real>, m: real): (n: nat)
    ensures n <= |s|
  {
    if s == [] then 0 else (if s[0] < m then 1 else 0) + CountBelow(s[1..], m)
  }

  /** How many elements lie strictly above `m`. */
  function CountAbove(s: seq<real>, m: real): (n: nat)
    ensures n <= |s|
  {
    if s == [] then 0 else (if s[0] > m then 1 else 0) + CountAbove(s[1..], m)
  }

  /** `x` placed before the first element not below it. */
  function Insert(x: real, s: seq<real>): (r: seq<real>)
    requires Sorted(s)
    ensures Sorted(r) && |r| == |s| + 1
    ensures multiset(r) == multiset(s) + multiset{x}
    ensures r[0] == x || (s != [] && r[0] == s[0])
  {
    if s == [] then [x]
    else if x <= s[0] then
      ConsSorted(x, s);
      [x] + s
    else
      var rest := Insert(x, s[1..]);
      ConsSorted(s[0], rest);
      assert s == [s[0]] + s[1..];
      [s[0]] + rest
  }

  /** A sorted list stays sorted under a head no greater than its first element. */
  lemma ConsSorted(a: real, r: seq<real>)
    requires Sorted(r) && (r != [] ==> a <= r[0])
    ensures Sorted([a] + r)
  {
    forall i, j | 0 <= i < j < |[a] + r| ensures ([a] + r)[i] <= ([a] + r)[j] {
      if i == 0 {
        assert r[0] <= r[j - 1];
      }
    }
  }

  /** Insertion sort: the `std::sort` of the coordinates. */
  function Sort(s: seq<real>): (r: seq<real>)
    ensures Sorted(r) && |r| == |s|
    ensures multiset(r) == multiset(s)
  {
    if s == [] then []
    else
      assert s == [s[0]] + s[1..];
      Insert(s[0], Sort(s[1..]))
  }

  lemma {:induction false} CountsAppend(a: seq<real>, b: seq<real>, m: real)
    ensures CountBelow(a + b, m) == CountBelow(a, m) + CountBelow(b, m)
    ensures CountAbove(a + b, m) == CountAbove(a, m) + CountAbove(b, m)
  {
    if a == [] {
      assert a + b == b;
    } else {
      assert (a + b)[1..] == a[1..] + b;
      CountsAppend(a[1..], b, m);
    }
  }

  lemma {:induction false} InsertCounts(x: real, s: seq<real>, m: real)
    requires Sorted(s)
    ensures CountBelow(Insert(x, s), m) == CountBelow(s, m) + (if x < m then 1 else 0)
    ensures CountAbove(Insert(x, s), m) == CountAbove(s, m) + (if x > m then 1 else 0)
  {
    var r := Insert(x, s);
    if s == [] {
      assert r == [x];
    } else if x > s[0] {
      var rest := Insert(x, s[1..]);
      assert r == [s[0]] + rest;
      assert r[0] == s[0] && r[1..] == rest;
      InsertCounts(x, s[1..], m);
      assert CountBelow(r, m) == (if s[0] < m then 1 else 0) + CountBelow(rest, m);
      assert CountAbove(r, m) == (if s[0] > m then 1 else 0) + CountAbove(rest, m);
    } else {
      assert r == [x] + s;
      assert r[0] == x && r[1..] == s;
    }
  }

  /** Sorting does not change how many elements lie below or above a value. */
  lemma {:induction false} SortCounts(s: seq<real>, m: real)
    ensures CountBelow(Sort(s), m) == CountBelow(s, m)
    ensures CountAbove(Sort(s), m) == CountAbove(s, m)
  {
    if s != [] {
      SortCounts(s[1..], m);
      InsertCounts(s[0], Sort(s[1..]), m);
    }
  }

  lemma {:induction false} NoneBelow(s: seq<real>, m: real)
    requires forall i :: 0 <= i < |s| ==> s[i] >= m
    ensures CountBelow(s, m) == 0
  {
    if s != [] {
      NoneBelow(s[1..], m);
    }
  }

  lemma {:induction false} NoneAbove(s: seq<real>, m: real)
    requires forall i :: 0 <= i < |s| ==> s[i] <= m
    ensures CountAbove(s, m) == 0
  {
    if s != [] {
      NoneAbove(s[1..], m);
    }
  }

  /** In a sorted list, at most `k` elements lie below the one at index `k`, and at most
      `|s| - k - 1` above it. */
  lemma RankInSorted(s: seq<real>, k: nat)
    requires Sorted(s) && k < |s|
    ensures CountBelow(s, s[k]) <= k
    ensures CountAbove(s, s[k]) <= |s| - k - 1
  {
    var m := s[k];
    var lo, hi := s[..k], s[k..];
    assert s == lo + hi;
    CountsAppend(lo, hi, m);
    assert forall i :: 0 <= i < |hi| ==> hi[i] >= m;
    NoneBelow(hi, m);
    var lo', hi' := s[..k + 1], s[k + 1..];
    assert s == lo' + hi';
    CountsAppend(lo', hi', m);
    assert forall i :: 0 <= i < |lo'| ==> lo'[i] <= m;
    NoneAbove(lo', m);
  }

  /** The middle element of the sorted list: one of the values, with at most half of
      them below it and at most half above it. The empty list gives 0. */
  function MedianOf(s: seq<real>): (r: real)
    ensures s == [] ==> r == 0.0
    ensures s != [] ==> r in s && CountBelow(s, r) <= |s| / 2 && CountAbove(s, r) <= |s| - |s| / 2 - 1
  {
    if s == [] then 0.0
    else
      var sorted := Sort(s);
      RankInSorted(sorted, |s| / 2);
      SortCounts(s, sorted[|s| / 2]);
      assert sorted[|s| / 2] in multiset(sorted);
      sorted[|s| / 2]
  }
}

=== FILE: mtl_properties.dfy ===
/** What the material-library parser guarantees, and the index `newmtl` records. */
module MtlProperties {
  import opened Optional
  import opened Vectors
  import opened Handles
  import opened Materials
  import opened Assets
  import opened Tokens
  import opened Files
  import opened ObjImport

  /** Keywords are matched without regard to case: two lines whose first tokens lower
      to the same text and whose other tokens agree have the same effect. */
  lemma MtlKeywordsIgnoreCase(s: MtlState, line: Line, line': Line, dir: string, images: set<string>)
    requires MtlValid(s, 0)
    requires |line| > 0 && |line'| > 0 && Lower(line[0].text) == Lower(line'[0].text)
    requires line[1..] == line'[1..]
    ensures MtlStep(s, line, dir, images) == MtlStep(s, line', dir, images)
  {
    assert forall i :: 1 <= i < |line| ==> line[i] == line'[i] by {
      forall i | 1 <= i < |line| ensures line[i] == line'[i] {
        assert line[i] == line[1..][i - 1];
      }
    }
    assert |line| == |line'|;
    assert Vec3At(line, 1) == Vec3At(line', 1);
    assert Num(line, 1) == Num(line', 1);
    assert WordOr(line, 1, MtlKeyword(s, line)) == WordOr(line', 1, MtlKeyword(s, line'));
  }

  /** A keyword the parser does not handle, and every unsupported one, only updates the
      kept token. */
  lemma MtlUnknownSkipped(s: MtlState, line: Line, dir: string, images: set<string>)
    requires MtlValid(s, 0)
    requires MtlKeyword(s, line) !in {"newmtl", "kd", "ks", "ns", "map_kd", "map_ks", "map_bump", "bump"}
    ensures MtlStep(s, line, dir, images) == Some(s.(token := MtlKeyword(s, line)))
  {
  }

  /** A property line before any `newmtl` is undefined behaviour, and nothing in a
      library is a reported failure. */
  lemma MtlPropertyNeedsMaterial(s: MtlState, line: Line, dir: string, images: set<string>)
    requires MtlValid(s, 0) && s.current.None?
    ensures MtlKeyword(s, line) in {"kd", "ks", "ns"} ==> MtlStep(s, line, dir, images).None?
    ensures MtlKeyword(s, line) !in {"kd", "ks", "ns", "map_kd", "map_ks", "map_bump", "bump"} ==>
      MtlStep(s, line, dir, images).Some?
  {
  }

  /** `Kd`, `Ks` and `Ns` register the diffuse colour, specular colour and exponent on
      the current material under their keys, and the first value for a key stays. */
  lemma ColorLinesRegister(s: MtlState, line: Line, dir: string, images: set<string>)
    requires MtlValid(s, 0) && s.current.Some?
    requires MtlKeyword(s, line) == "kd"
    ensures var r := MtlStep(s, line, dir, images);
      var c := s.current.value;
      var before := s.asset.materialItems[c].material;
      r.Some? && c < |r.value.asset.materialItems|
      && HasProperty(r.value.asset.materialItems[c].material, "diffuseColor")
      && (HasProperty(before, "diffuseColor") ==> r.value.asset.materialItems[c].material == before)
      && (!HasProperty(before, "diffuseColor") ==>
            r.value.asset.materialItems[c].material.properties
              == before.properties + [MakeProperty("diffuseColor", RGBType(Vec3At(line, 1)))])
  {
    var c := s.current.value;
    RegisterMakesPresent(s.asset.materialItems[c].material, MakeProperty("diffuseColor", RGBType(Vec3At(line, 1))));
  }

  /** `newmtl` never overwrites a name already recorded: the map keeps every earlier
      entry, and a repeated name only appends another material item. */
  lemma NewmtlKeepsFirstEntry(s: MtlState, line: Line, dir: string, images: set<string>)
    requires MtlValid(s, 0) && MtlKeyword(s, line) == "newmtl"
    ensures var r := MtlStep(s, line, dir, images);
      r.Some?
      && (forall k :: k in s.mtlMap ==> k in r.value.mtlMap && r.value.mtlMap[k] == s.mtlMap[k])
      && (WordOr(line, 1, "newmtl") in s.mtlMap ==> r.value.mtlMap == s.mtlMap)
      && |r.value.asset.materialItems| == |s.asset.materialItems| + 1
      && r.value.asset.materialItems[|s.asset.materialItems|].name == WordOr(line, 1, "newmtl")
  {
  }

  // ------------------------------------------------------------------ the index

  /** Every recorded name indexes a material item of that name. */
  predicate NamesItsItem(s: MtlState) {
    forall k :: k in s.mtlMap ==> s.mtlMap[k] < |s.asset.materialItems| && s.asset.materialItems[s.mtlMap[k]].name == k
  }

  /** As written, `newmtl` records the index of the item before the one it appends: in
      a library that declares `A` then `B`, `B` is recorded as item 0, which is `A`; and
      the first material of an empty list is recorded as 2^64 - 1, outside the list. */
  lemma NewmtlRecordsPreviousItem()
    ensures var a := EmptyAsset().(materialItems := [MaterialItem("A", Material(1, []))]);
      var r := MtlStep(MtlState(a, map["A" := 0], Some(0), "newmtl"), [Tok("newmtl"), Tok("B")], "", {});
      r.Some? && r.value.mtlMap["B"] == 0 && r.value.asset.materialItems[0].name == "A"
      && !NamesItsItem(r.value)
    ensures var r := MtlStep(MtlState(EmptyAsset(), map[], None, ""), [Tok("newmtl"), Tok("A")], "", {});
      r.Some? && r.value.mtlMap["A"] == NPos && |r.value.asset.materialItems| == 1
  {
    assert Lower("newmtl") == "newmtl";
  }

  /** The evidently intended `newmtl`: the name is recorded with the index of the item
      appended for it. */
  function NewMaterialFixed(s: MtlState, name: string): (r: MtlState)
    ensures name in s.mtlMap ==> r.mtlMap == s.mtlMap
    ensures name !in s.mtlMap ==> r.mtlMap == s.mtlMap[name := |s.asset.materialItems|]
    ensures r.asset.materialItems == s.asset.materialItems + [MaterialItem(name, Material(1, []))]
  {
    var s' := NewMaterial(s, name);
    s'.(mtlMap := if name in s.mtlMap then s.mtlMap else s.mtlMap[name := |s.asset.materialItems|])
  }

  /** The MTL step with the corrected `newmtl`; every other line as before. */
  function MtlStepFixed(s: MtlState, line: Line, dir: string, images: set<string>): (r: Option<MtlState>)
    requires MtlValid(s, 0)
    ensures MtlKeyword(s, line) != "newmtl" ==> r == MtlStep(s, line, dir, images)
  {
    var kw := MtlKeyword(s, line);
    if kw == "newmtl" then Some(NewMaterialFixed(s.(token := kw), WordOr(line, 1, kw)))
    else MtlStep(s, line, dir, images)
  }

  /** With the correction every recorded name keeps naming its own item, line after
      line; in particular `usemtl B` then selects the material declared as `B`. */
  lemma FixedStepKeepsNames(s: MtlState, line: Line, dir: string, images: set<string>)
    requires MtlValid(s, 0) && NamesItsItem(s)
    ensures MtlStepFixed(s, line, dir, images).Some? ==> NamesItsItem(MtlStepFixed(s, line, dir, images).value)
  {
    var kw := MtlKeyword(s, line);
    if kw != "newmtl" {
      MtlStepChange(s, line, dir, images);
    } else {
      var r := NewMaterialFixed(s.(token := kw), WordOr(line, 1, kw));
      assert forall j :: 0 <= j < |s.asset.materialItems| ==> r.asset.materialItems[j] == s.asset.materialItems[j];
    }
  }
}

=== FILE: numerics.dfy ===
/** The floating-point library calls the geometry uses but the model does not compute:
    square root, normalisation and the 3x3 inverse. They are parameters; a lemma that
    needs one of them to behave states that as a requirement on the value passed. */
module Numerics {
  import opened Vectors

  datatype Numerics = Numerics(sqrt: real -> real, normalize: Vec3 -> Vec3, inverse: Mat3 -> Mat3)

  /** `sqrt` returns the non-negative square root of every non-negative argument. */
  ghost predicate SqrtSound(n: Numerics) {
    forall x :: x >= 0.0 ==> n.sqrt(x) >= 0.0 && n.sqrt(x) * n.sqrt(x) == x
  }

  /** `inverse(m)` is the two-sided inverse of `m` (so `m` is invertible). */
  ghost predicate InverseSound(n: Numerics, m: Mat3) {
    (forall y :: MulMV(m, MulMV(n.inverse(m), y)) == y)
    && (forall y :: MulMV(n.inverse(m), MulMV(m, y)) == y)
  }
}

=== FILE: obj_faces.dfy ===
/** Face vertex tokens of the OBJ format: `v`, `v/t`, `v//n` or `v/t/n`, told apart by
    the positions of the first and the last '/'. */
module ObjFaces {
  import opened Files

  datatype VertexForm = PositionOnly | PositionUv | PositionNormal | PositionUvNormal

  /** The indices named by one vertex token; -1 marks an attribute the token does not
      name. */
  datatype VertexRef = VertexRef(v: int, t: int, n: int)

  /** `find_first_of('/')`, or the length when there is none. */
  function FirstSlash(s: string): (r: nat)
    ensures r <= |s|
    ensures r < |s| ==> s[r] == '/'
    ensures forall j :: 0 <= j < r ==> s[j] != '/'
  {
    if |s| == 0 then 0 else if s[0] == '/' then 0 else 1 + FirstSlash(s[1..])
  }

  /** How many '/' the token holds. */
  function SlashCount(s: string): nat {
    if |s| == 0 then 0 else (if s[0] == '/' then 1 else 0) + SlashCount(s[1..])
  }

  /** The classification by slash positions: none, the first is the last, the last
      directly follows the first, or anything else. */
  function Classify(s: string): VertexForm
    requires |s| < NPos
  {
    var first := FirstSlash(s);
    var last := FindLastOf(s, {'/'});
    if first == |s| then PositionOnly
    else if first == last then PositionUv
    else if first + 1 == last then PositionNormal
    else PositionUvNormal
  }

  lemma {:induction false} SlashCountZero(s: string)
    ensures SlashCount(s) == 0 <==> forall j :: 0 <= j < |s| ==> s[j] != '/'
  {
    if |s| > 0 {
      SlashCountZero(s[1..]);
      assert forall j :: 1 <= j < |s| ==> s[j] == s[1..][j - 1];
    }
  }

  /** Slashes counted over a concatenation add up. */
  lemma {:induction false} SlashCountAppend(a: string, b: string)
    ensures SlashCount(a + b) == SlashCount(a) + SlashCount(b)
  {
    if |a| > 0 {
      assert (a + b)[0] == a[0];
      assert (a + b)[1..] == a[1..] + b;
      SlashCountAppend(a[1..], b);
    } else {
      assert a + b == b;
    }
  }

  /** Splitting a token around its first and last slash. */
  lemma SlashCountAround(s: string, first: nat, last: nat)
    requires first <= last < |s| && s[first] == '/' && s[last] == '/'
    requires forall j :: 0 <= j < first ==> s[j] != '/'
    requires forall j :: last < j < |s| ==> s[j] != '/'
    ensures first == last ==> SlashCount(s) == 1
    ensures first < last ==> SlashCount(s) == 2 + SlashCount(s[first + 1..last])
  {
    var a := s[..first];
    var b := s[last + 1..];
    assert forall j :: 0 <= j < |a| ==> a[j] != '/' by {
      forall j | 0 <= j < |a| ensures a[j] != '/' { assert a[j] == s[j]; }
    }
    SlashCountZero(a);
    assert forall j :: 0 <= j < |b| ==> b[j] != '/' by {
      forall j | 0 <= j < |b| ensures b[j] != '/' { assert b[j] == s[last + 1 + j]; }
    }
    SlashCountZero(b);
    var c := [s[first]];
    assert SlashCount(c) == 1 by { assert c[1..] == []; }
    if first == last {
      assert s == a + c + b;
      SlashCountAppend(a + c, b);
      SlashCountAppend(a, c);
    } else {
      var mid := s[first + 1..last];
      var d := [s[last]];
      assert SlashCount(d) == 1 by { assert d[1..] == []; }
      assert s == a + c + mid + d + b;
      SlashCountAppend(a + c + mid + d, b);
      SlashCountAppend(a + c + mid, d);
      SlashCountAppend(a + c, mid);
      SlashCountAppend(a, c);
    }
  }

  /** The four forms in terms of the slashes the token holds: none; exactly one; exactly
      two, adjacent; or any other arrangement of two or more. */
  lemma ClassifyBySlashes(s: string)
    requires |s| < NPos
    ensures Classify(s) == PositionOnly <==> SlashCount(s) == 0
    ensures Classify(s) == PositionUv <==> SlashCount(s) == 1
    ensures Classify(s) == PositionNormal <==>
      SlashCount(s) == 2 && FindLastOf(s, {'/'}) == FirstSlash(s) + 1
    ensures Classify(s) == PositionUvNormal ==> SlashCount(s) >= 2
  {
    SlashCountZero(s);
    var first := FirstSlash(s);
    var last := FindLastOf(s, {'/'});
    if first < |s| {
      assert last != NPos;
      assert first <= last;
      SlashCountAround(s, first, last);
      if first + 1 == last {
        assert s[first + 1..last] == [];
      }
    }
  }

  function IsDigit(c: char): bool {
    '0' <= c <= '9'
  }

  /** The value of the leading decimal digits. */
  function DigitsValue(s: string, acc: nat): nat
    decreases |s|
  {
    if |s| == 0 || !IsDigit(s[0]) then acc
    else DigitsValue(s[1..], acc * 10 + (s[0] as int - '0' as int))
  }

  /** A `long` read from the start of `s`: an optional sign and decimal digits; a
      field without digits reads as 0. */
  function ParseLong(s: string): int {
    if |s| > 0 && s[0] == '-' then 0 - DigitsValue(s[1..], 0)
    else if |s| > 0 && s[0] == '+' then DigitsValue(s[1..], 0)
    else DigitsValue(s, 0)
  }

  /** Field `k` of the token, the text between its `k`-th and `k+1`-th '/'. */
  function Field(s: string, k: nat): string
    decreases |s|
  {
    var cut := FirstSlash(s);
    if k == 0 then s[..cut]
    else if cut == |s| then ""
    else Field(s[cut + 1..], k - 1)
  }

  /** The indices a face vertex token names: v always, t for `v/t` and `v/t/n`, n for
      `v//n` and `v/t/n`; the others are -1. */
  function ParseVertex(s: string): (r: VertexRef)
    requires |s| < NPos
    ensures Classify(s) == PositionOnly ==> r.t == -1 && r.n == -1
    ensures Classify(s) == PositionUv ==> r.n == -1
    ensures Classify(s) == PositionNormal ==> r.t == -1
    ensures r.v == ParseLong(Field(s, 0))
  {
    var v := ParseLong(Field(s, 0));
    match Classify(s)
    case PositionOnly => VertexRef(v, -1, -1)
    case PositionUv => VertexRef(v, ParseLong(Field(s, 1)), -1)
    case PositionNormal => VertexRef(v, -1, ParseLong(Field(s, 2)))
    case PositionUvNormal => VertexRef(v, ParseLong(Field(s, 1)), ParseLong(Field(s, 2)))
  }

  /** Examples of the four forms. */
  lemma ParsePositionOnly()
    ensures ParseVertex("7") == VertexRef(7, -1, -1)
  {
    assert FirstSlash("7") == 1;
  }

  lemma ParsePositionUv()
    ensures ParseVertex("7/3") == VertexRef(7, 3, -1)
  {
    FindLastOfIs("7/3", {'/'}, 1);
    assert FirstSlash("7/3") == 1;
    assert "7/3"[2..] == "3";
    assert Field("7/3", 0) == "7";
  }

  lemma ParsePositionNormal()
    ensures ParseVertex("7//2") == VertexRef(7, -1, 2)
  {
    FindLastOfIs("7//2", {'/'}, 2);
    assert FirstSlash("7//2") == 1;
    assert Field("7//2", 0) == "7";
    assert "7//2"[2..] == "/2";
    assert FirstSlash("/2") == 0;
    assert "/2"[1..] == "2";
  }

  lemma ParsePositionUvNormal()
    ensures ParseVertex("7/3/2") == VertexRef(7, 3, 2)
  {
    FindLastOfIs("7/3/2", {'/'}, 3);
    assert FirstSlash("7/3/2") == 1;
    assert Field("7/3/2", 0) == "7";
    assert "7/3/2"[2..] == "3/2";
    assert FirstSlash("3/2") == 1;
    assert "3/2"[..1] == "3";
    assert "3/2"[2..] == "2";
  }
}

=== FILE: obj_importer.dfy ===
/** The Wavefront OBJ importer and its material-library (MTL) parser. An OBJ file is
    read line by line; `o`/`g` start a mesh node, `v`/`vt`/`vn` collect global vertex
    attributes, and each `f` line adds one triangle to the current mesh, copying every
    attribute into the mesh the first time the mesh uses it. Both parsers keep the last
    keyword they read: a line without tokens is handled as a repeat of it. */
module ObjImport {
  import opened Optional
  import opened Vectors
  import opened Handles
  import opened Materials
  import opened Scene
  import opened Assets
  import opened Tokens
  import opened Files
  import opened ObjFaces

  const FileMissing: string := "File does not exist!"
  const MtlFileMissing: string := "Cannot file .mtl file"
  const MaterialMissing: string := "Cannot find material: "
  const NotTriangulated: string := "Only Triangulated mesh is supported!"
  /** The name of the node a face line creates when no `o`/`g` came first. */
  const UnnamedNode: string := "Undefined"

  /** What the importer reads through the file system: the lines of every file it can
      open, by path, and the paths of the images the image loader can decode. */
  datatype Environment = Environment(files: map<string, seq<Line>>, images: set<string>)

  /** Every token is shorter than the `npos` sentinel, as every string in memory is. */
  predicate Bounded(line: Line) {
    forall i :: 0 <= i < |line| ==> |line[i].text| < NPos
  }

  predicate AllBounded(lines: seq<Line>) {
    forall i :: 0 <= i < |lines| ==> Bounded(lines[i])
  }

  // ---------------------------------------------------------------- material library

  /** The MTL parser's state: the asset, the name-to-index map it fills, the material
      item the last `newmtl` appended, and the last keyword read (lower-cased), or the
      name or file name a `newmtl` or `map_*` line read into the same variable. */
  datatype MtlState = MtlState(asset: Asset, mtlMap: map<string, nat>, current: Option<nat>, token: string)

  /** The current material is one this parse appended: at or after `base`, in range. */
  predicate MtlValid(s: MtlState, base: nat) {
    s.current.Some? ==> base <= s.current.value < |s.asset.materialItems|
  }

  /** The index `newmtl` records: the list's size minus one, taken before the new item
      is appended, as an unsigned 64-bit value. */
  function RecordedIndex(a: Asset): (r: nat)
    ensures 0 < |a.materialItems| <= SizeMod ==> r + 1 == |a.materialItems|
    ensures |a.materialItems| == 0 ==> r == NPos
  {
    (|a.materialItems| - 1) % SizeMod
  }

  /** `newmtl name`: a material item of type 1 without properties is appended and
      becomes current; the name is recorded only when it is not in the map yet. */
  function NewMaterial(s: MtlState, name: string): (r: MtlState)
    ensures |r.asset.materialItems| == |s.asset.materialItems| + 1
    ensures r.asset.materialItems[..|s.asset.materialItems|] == s.asset.materialItems
    ensures r.current == Some(|s.asset.materialItems|)
    ensures r.asset.materialItems[|s.asset.materialItems|] == MaterialItem(name, Material(1, []))
    ensures name in r.mtlMap && r.mtlMap.Keys == s.mtlMap.Keys + {name}
    ensures forall k :: k in s.mtlMap ==> r.mtlMap[k] == s.mtlMap[k]
  {
    var items := s.asset.materialItems;
    MtlState(
      s.asset.(materialItems := items + [MaterialItem(name, Material(1, []))]),
      if name in s.mtlMap then s.mtlMap else s.mtlMap[name := RecordedIndex(s.asset)],
      Some(|items|),
      name)
  }

  /** The asset with the material of item `i` replaced. */
  function SetMaterialOf(a: Asset, i: nat, m: Material): (r: Asset)
    requires i < |a.materialItems|
    ensures r == a.(materialItems := r.materialItems)
    ensures |r.materialItems| == |a.materialItems|
    ensures r.materialItems[i] == MaterialItem(a.materialItems[i].name, m)
    ensures forall j :: 0 <= j < |a.materialItems| && j != i ==> r.materialItems[j] == a.materialItems[j]
  {
    a.(materialItems := a.materialItems[i := a.materialItems[i].(material := m)])
  }

  /** What one MTL line may change: the material and texture lists, and of the
      material items that existed before only the current one. */
  predicate MtlChange(s: MtlState, t: MtlState) {
    t.asset == s.asset.(materialItems := t.asset.materialItems, textureItems := t.asset.textureItems)
    && s.asset.textureItems <= t.asset.textureItems
    && |s.asset.materialItems| <= |t.asset.materialItems|
    && (forall j :: 0 <= j < |s.asset.materialItems| && s.current != Some(j) ==>
          t.asset.materialItems[j] == s.asset.materialItems[j])
    && (forall j :: 0 <= j < |s.asset.materialItems| ==>
          t.asset.materialItems[j].name == s.asset.materialItems[j].name)
    && (t.current.Some? ==> t.current == s.current || t.current == Some(|s.asset.materialItems|))
  }

  /** `registerProperty` on the current material; undefined without one. */
  function RegisterOnCurrent(s: MtlState, key: string, w: Wrapper): (r: Option<MtlState>)
    requires MtlValid(s, 0)
    ensures r.None? <==> s.current.None?
    ensures r.Some? ==> r.value == s.(asset := SetMaterialOf(s.asset, s.current.value,
      Register(s.asset.materialItems[s.current.value].material, key, w).0))
    ensures r.Some? ==> MtlChange(s, r.value) && MtlValid(r.value, 0)
  {
    match s.current
    case None => None
    case Some(i) =>
      Some(s.(asset := SetMaterialOf(s.asset, i, Register(s.asset.materialItems[i].material, key, w).0)))
  }

  /** `map_kd`, `map_ks`, `map_bump`/`bump`: when the image `dir + file` loads, the
      current material gets a texture property under `key` holding the index the new
      texture item receives (as an unsigned 32-bit value), and a texture item named
      `file` is appended. An image that does not load changes nothing. */
  function LoadTexture(s: MtlState, key: string, file: string, dir: string, images: set<string>): (r: Option<MtlState>)
    requires MtlValid(s, 0)
    ensures dir + file !in images ==> r == Some(s)
    ensures dir + file in images && s.current.None? ==> r.None?
    ensures r.Some? && dir + file in images ==>
      s.current.Some? && r.value.asset.textureItems == s.asset.textureItems + [TextureItem(file)]
      && |r.value.asset.materialItems| == |s.asset.materialItems|
      && HasProperty(r.value.asset.materialItems[s.current.value].material, key)
    ensures r.Some? ==> MtlChange(s, r.value) && MtlValid(r.value, 0)
    ensures r.Some? ==> r.value.mtlMap == s.mtlMap
  {
    if dir + file !in images then Some(s)
    else
      var handle := At(Unsigned32(|s.asset.textureItems|));
      match RegisterOnCurrent(s, key, TextureIdType(handle))
      case None => None
      case Some(s') =>
        RegisterMakesPresent(s.asset.materialItems[s.current.value].material, MakeProperty(key, TextureIdType(handle)));
        Some(s'.(asset := s'.asset.(textureItems := s'.asset.textureItems + [TextureItem(file)])))
  }

  /** The keyword an MTL line is dispatched on: its first token, or the kept token when
      the line has none, lower-cased. */
  function MtlKeyword(s: MtlState, line: Line): (r: string)
    ensures Lower(r) == r
  {
    LowerIdempotent(if |line| > 0 then line[0].text else s.token);
    Lower(if |line| > 0 then line[0].text else s.token)
  }

  /** One line of a material library; `None` is undefined behaviour (a property or map
      line before any `newmtl`). Unsupported keywords and unknown lines are skipped. */
  function MtlStep(s: MtlState, line: Line, dir: string, images: set<string>): (r: Option<MtlState>)
    requires MtlValid(s, 0)
  {
    var kw := MtlKeyword(s, line);
    var s := s.(token := kw);
    if kw == "newmtl" then Some(NewMaterial(s, WordOr(line, 1, kw)))
    else if kw == "kd" then RegisterOnCurrent(s, "diffuseColor", RGBType(Vec3At(line, 1)))
    else if kw == "ks" then RegisterOnCurrent(s, "specularColor", RGBType(Vec3At(line, 1)))
    else if kw == "ns" then RegisterOnCurrent(s, "specularEx", FloatType(Num(line, 1)))
    else if kw == "map_kd" then
      var file := WordOr(line, 1, kw);
      LoadTexture(s.(token := file), "diffuseMap", file, dir, images)
    else if kw == "map_ks" then
      var file := WordOr(line, 1, kw);
      LoadTexture(s.(token := file), "specularMap", file, dir, images)
    else if kw == "map_bump" || kw == "bump" then
      var file := WordOr(line, 1, kw);
      LoadTexture(s.(token := file), "bumpMap", file, dir, images)
    else Some(s)
  }

  /** Changing only the kept token changes nothing `MtlChange` speaks of. */
  lemma MtlChangeIgnoresToken(s: MtlState, token: string, t: MtlState)
    requires MtlChange(s.(token := token), t)
    ensures MtlChange(s, t)
  {
  }

  lemma MtlStepChange(s: MtlState, line: Line, dir: string, images: set<string>)
    requires MtlValid(s, 0)
    ensures MtlStep(s, line, dir, images).Some? ==>
      MtlChange(s, MtlStep(s, line, dir, images).value) && MtlValid(MtlStep(s, line, dir, images).value, 0)
    ensures MtlStep(s, line, dir, images).Some? && MtlKeyword(s, line) != "newmtl" ==>
      MtlStep(s, line, dir, images).value.mtlMap == s.mtlMap
  {
    var kw := MtlKeyword(s, line);
    var s1 := s.(token := kw);
    var r := MtlStep(s, line, dir, images);
    if kw == "newmtl" {
      var n := NewMaterial(s1, WordOr(line, 1, kw));
      assert r == Some(n);
      assert forall j :: 0 <= j < |s.asset.materialItems| ==> n.asset.materialItems[j] == s.asset.materialItems[j];
      assert MtlChange(s, n);
    } else if kw == "kd" || kw == "ks" || kw == "ns" {
      if r.Some? {
        MtlChangeIgnoresToken(s, kw, r.value);
      }
    } else if kw == "map_kd" || kw == "map_ks" || kw == "map_bump" || kw == "bump" {
      var file := WordOr(line, 1, kw);
      if r.Some? {
        MtlChangeIgnoresToken(s, file, r.value);
      }
    } else {
      assert r == Some(s1);
    }
  }

  /** Every line of a material library in turn; `parseMtl` never reports failure. */
  function MtlRun(s: MtlState, lines: seq<Line>, dir: string, images: set<string>): (r: Option<MtlState>)
    requires MtlValid(s, 0)
    decreases |lines|
  {
    if |lines| == 0 then Some(s)
    else
      match MtlStep(s, lines[0], dir, images)
      case None => None
      case Some(s') =>
        MtlStepChange(s, lines[0], dir, images);
        MtlRun(s', lines[1..], dir, images)
  }

  /** A whole library run, started without a current material, leaves every list of
      the asset but the material and texture lists as it was, only appends textures,
      and leaves every material item that existed before unchanged. */
  lemma {:induction false} MtlRunAppends(s: MtlState, lines: seq<Line>, dir: string, images: set<string>, base: nat)
    requires MtlValid(s, base) && base <= |s.asset.materialItems|
    ensures MtlRun(s, lines, dir, images).Some? ==>
      var t := MtlRun(s, lines, dir, images).value;
      t.asset == s.asset.(materialItems := t.asset.materialItems, textureItems := t.asset.textureItems)
      && s.asset.textureItems <= t.asset.textureItems
      && |s.asset.materialItems| <= |t.asset.materialItems|
      && s.asset.materialItems[..base] <= t.asset.materialItems
      && MtlValid(t, base)
    decreases |lines|
  {
    if |lines| > 0 {
      match MtlStep(s, lines[0], dir, images)
      case None =>
      case Some(s') =>
        MtlStepChange(s, lines[0], dir, images);
        assert s.asset.materialItems[..base] <= s'.asset.materialItems;
        MtlRunAppends(s', lines[1..], dir, images, base);
        assert s'.asset.materialItems[..base] == s.asset.materialItems[..base];
    }
  }

  // ------------------------------------------------------------- per-mesh attributes

  /** One attribute of the current mesh: the mesh's own list of values, its index
      list, and the map from the file's 1-based attribute numbers to positions in the
      mesh's list. */
  datatype Channel<T> = Channel(list: seq<T>, indices: seq<nat>, keys: map<int, nat>)

  /** Every index refers into the list, and every value was added together with an
      index. */
  predicate Indexed<T>(list: seq<T>, indices: seq<nat>) {
    (forall j :: 0 <= j < |indices| ==> indices[j] < |list|) && |list| <= |indices|
  }

  /** The channel agrees with the file's attribute list `source`: attribute number `k`
      was copied to position `keys[k]` of the mesh's list. */
  predicate Mapped<T(==)>(c: Channel<T>, source: seq<T>) {
    Indexed(c.list, c.indices)
    && forall k :: k in c.keys ==> 1 <= k <= |source| && c.keys[k] < |c.list| && c.list[c.keys[k]] == source[k - 1]
  }

  /** One attribute of one face vertex: -1 adds nothing; a number the mesh has used
      before appends its known position; a new one copies `source[k - 1]` into the mesh
      first. A new number outside the list is undefined behaviour (`None`). */
  function Use<T(==)>(c: Channel<T>, source: seq<T>, k: int): (r: Option<Channel<T>>)
    ensures k == -1 ==> r == Some(c)
    ensures r.None? <==> k != -1 && k !in c.keys && !(1 <= k <= |source|)
    ensures r.Some? ==> c.list <= r.value.list && c.keys.Keys <= r.value.keys.Keys
    ensures r.Some? && k != -1 ==> k in r.value.keys && r.value.indices == c.indices + [r.value.keys[k]]
    ensures r.Some? && k in c.keys ==> r.value.list == c.list && r.value.keys == c.keys
    ensures r.Some? && Mapped(c, source) ==> Mapped(r.value, source)
  {
    if k == -1 then Some(c)
    else if k in c.keys then Some(c.(indices := c.indices + [c.keys[k]]))
    else if 1 <= k <= |source| then
      var idx := |c.list|;
      Some(Channel(c.list + [source[k - 1]], c.indices + [idx], c.keys[k := idx]))
    else None
  }

  function Positions(m: Mesh, keys: map<int, nat>): Channel<Vec3> {
    Channel(m.positions, m.positionIndices, keys)
  }

  function Uvs(m: Mesh, keys: map<int, nat>): Channel<Vec2> {
    Channel(m.uvs, m.uvIndices, keys)
  }

  function Normals(m: Mesh, keys: map<int, nat>): Channel<Vec3> {
    Channel(m.normals, m.normalIndices, keys)
  }

  /** Every index list of the mesh refers into its own attribute list. */
  predicate MeshIndexed(m: Mesh) {
    Indexed(m.positions, m.positionIndices) && Indexed(m.uvs, m.uvIndices)
    && Indexed(m.normals, m.normalIndices)
  }

  // --------------------------------------------------------------------- OBJ parsing

  /** The importer's state: the asset, the model it builds (appended to the asset at
      the end), the material names from the libraries read, the file's global
      attribute lists, the current node's three maps, the mesh of the current node,
      and the last keyword read. */
  datatype ObjState = ObjState(
    asset: Asset,
    model: Model,
    mtlMap: map<string, nat>,
    positions: seq<Vec3>,
    uvs: seq<Vec2>,
    normals: seq<Vec3>,
    pMap: map<int, nat>,
    tMap: map<int, nat>,
    nMap: map<int, nat>,
    current: Option<nat>,
    token: string)

  /** One line's effect: go on, stop with a failure message (the asset is rolled
      back), an exception thrown out of the importer (nothing is rolled back and no
      model item is added), or undefined behaviour. */
  datatype ObjOutcome = Continue(state: ObjState) | Stop(state: ObjState, message: string) | Threw(state: ObjState) | Undefined

  datatype ImportResult = Imported(asset: Asset) | Failed(asset: Asset, message: string) | Thrown(asset: Asset) | UndefinedBehaviour

  /** The current node's mesh is an entry of the mesh list. */
  predicate ObjValid(s: ObjState) {
    s.current.Some? ==> s.current.value < |s.asset.meshes|
  }

  function InitialState(a: Asset): ObjState {
    ObjState(a, DefaultModel(), map[], [], [], [], map[], map[], map[], None, "")
  }

  /** `o`, `g`, or a face before any node: a mesh node named `name` is appended, its
      index added to the model, an empty mesh appended as its entity, and the three
      maps start empty. The node's model index is the index the model item will get. */
  function NewNode(s: ObjState, name: string): (r: ObjState)
    ensures r.asset.nodeItems == s.asset.nodeItems
      + [NodeItem(name, Node(MESH, |s.asset.meshes|, |s.asset.modelItems|))]
    ensures r.asset.meshes == s.asset.meshes + [DefaultMesh()]
    ensures r.model.nodes == s.model.nodes + [|s.asset.nodeItems|]
    ensures r.current == Some(|s.asset.meshes|)
    ensures r.pMap == map[] && r.tMap == map[] && r.nMap == map[]
    ensures r.asset == s.asset.(nodeItems := r.asset.nodeItems, meshes := r.asset.meshes)
    ensures r == s.(asset := r.asset, model := r.model, current := r.current, pMap := map[], tMap := map[], nMap := map[])
  {
    var a := s.asset;
    s.(asset := a.(nodeItems := a.nodeItems + [NodeItem(name, Node(MESH, |a.meshes|, |a.modelItems|))],
                   meshes := a.meshes + [DefaultMesh()]),
       model := s.model.(nodes := s.model.nodes + [|a.nodeItems|]),
       current := Some(|a.meshes|),
       pMap := map[], tMap := map[], nMap := map[])
  }

  /** The asset with mesh `e` replaced. */
  function SetMesh(a: Asset, e: nat, m: Mesh): (r: Asset)
    requires e < |a.meshes|
    ensures r == a.(meshes := r.meshes) && |r.meshes| == |a.meshes| && r.meshes[e] == m
    ensures forall i :: 0 <= i < |a.meshes| && i != e ==> r.meshes[i] == a.meshes[i]
  {
    a.(meshes := a.meshes[e := m])
  }

  /** One face vertex added to the current mesh: its position, uv and normal, each
      through its own channel. `None` is undefined behaviour. */
  function AddVertex(s: ObjState, ref: VertexRef): (r: Option<ObjState>)
    requires s.current.Some? && ObjValid(s)
    ensures r.Some? ==> r.value == s.(asset := r.value.asset, pMap := r.value.pMap, tMap := r.value.tMap, nMap := r.value.nMap)
    ensures r.Some? ==> |r.value.asset.meshes| == |s.asset.meshes|
    ensures r.Some? ==> r.value.asset == SetMesh(s.asset, s.current.value, r.value.asset.meshes[s.current.value])
  {
    var e := s.current.value;
    var m := s.asset.meshes[e];
    match Use(Positions(m, s.pMap), s.positions, ref.v)
    case None => None
    case Some(p) =>
      match Use(Uvs(m, s.tMap), s.uvs, ref.t)
      case None => None
      case Some(t) =>
        match Use(Normals(m, s.nMap), s.normals, ref.n)
        case None => None
        case Some(n) =>
          var m' := m.(positions := p.list, positionIndices := p.indices, uvs := t.list,
                       uvIndices := t.indices, normals := n.list, normalIndices := n.indices);
          Some(s.(asset := SetMesh(s.asset, e, m'), pMap := p.keys, tMap := t.keys, nMap := n.keys))
  }

  /** The vertex tokens of a face line, from token `i` on: before each of the three
      vertices an exhausted line throws; after the third, a token left over fails the
      import. */
  function Face(s: ObjState, line: Line, i: nat): (r: ObjOutcome)
    requires 1 <= i <= 4 && s.current.Some? && ObjValid(s) && Bounded(line)
    ensures !r.Undefined? ==> r.state.current == s.current && ObjValid(r.state)
    ensures !r.Undefined? ==>
      r.state == s.(asset := r.state.asset, pMap := r.state.pMap, tMap := r.state.tMap, nMap := r.state.nMap)
    ensures !r.Undefined? ==>
      r.state.asset == SetMesh(s.asset, s.current.value, r.state.asset.meshes[s.current.value])
    decreases 4 - i
  {
    if i == 4 then (if |line| > 4 then Stop(s, NotTriangulated) else Continue(s))
    else if i >= |line| then Threw(s)
    else
      match AddVertex(s, ParseVertex(line[i].text))
      case None => Undefined
      case Some(s') => Face(s', line, i + 1)
  }

  /** The keyword an OBJ line is dispatched on: its first token, or the kept token when
      the line has none. Unlike the library parser's, it is matched as written. */
  function ObjKeyword(s: ObjState, line: Line): string {
    if |line| > 0 then line[0].text else s.token
  }

  /** One line of an OBJ file read from `path`. */
  function ObjStep(s: ObjState, line: Line, path: string, env: Environment): (r: ObjOutcome)
    requires ObjValid(s) && Bounded(line) && |path| < NPos
    ensures !r.Undefined? ==> ObjValid(r.state) && AtLeast(r.state.asset, SizesOf(s.asset))
  {
    var kw := ObjKeyword(s, line);
    var s := s.(token := kw);
    if kw == "mtllib" then
      var dir := DirectoryOf(path);
      var full := dir + Word(line, 1);
      if full !in env.files then Stop(s, MtlFileMissing)
      else
        var m0 := MtlState(s.asset, s.mtlMap, None, "");
        match MtlRun(m0, env.files[full], dir, env.images)
        case None => Undefined
        case Some(m) =>
          MtlRunAppends(m0, env.files[full], dir, env.images, 0);
          Continue(s.(asset := m.asset, mtlMap := m.mtlMap))
    else if kw == "usemtl" then
      var name := Word(line, 1);
      if name !in s.mtlMap then Stop(s, MaterialMissing + name)
      else if s.current.None? then Undefined
      else
        var e := s.current.value;
        var m := s.asset.meshes[e];
        Continue(s.(asset := SetMesh(s.asset, e, m.(material := SetIndex(m.material, s.mtlMap[name])))))
    else if kw == "v" then Continue(s.(positions := s.positions + [Vec3At(line, 1)]))
    else if kw == "vt" then Continue(s.(uvs := s.uvs + [Vec2(Num(line, 1), Num(line, 2))]))
    else if kw == "vn" then Continue(s.(normals := s.normals + [Vec3At(line, 1)]))
    else if kw == "o" || kw == "g" then Continue(NewNode(s, WordOr(line, 1, DefaultName)))
    else if kw == "f" then Face(if s.current.None? then NewNode(s, UnnamedNode) else s, line, 1)
    else Continue(s)
  }

  /** Every line in turn, until one stops, throws or is undefined. */
  function ObjRun(s: ObjState, lines: seq<Line>, path: string, env: Environment): (r: ObjOutcome)
    requires ObjValid(s) && AllBounded(lines) && |path| < NPos
    ensures !r.Undefined? ==> ObjValid(r.state) && AtLeast(r.state.asset, SizesOf(s.asset))
    decreases |lines|
  {
    if |lines| == 0 then Continue(s)
    else
      match ObjStep(s, lines[0], path, env)
      case Continue(s') => ObjRun(s', lines[1..], path, env)
      case Stop(s', m) => Stop(s', m)
      case Threw(s') => Threw(s')
      case Undefined => Undefined
  }

  /** The asset with the model item appended: named after the file, holding the model
      built. */
  function WithModelItem(s: ObjState, path: string): (r: Asset)
    requires |path| < NPos
    ensures r == s.asset.(modelItems := r.modelItems)
    ensures r.modelItems == s.asset.modelItems + [ModelItem(GetFileName(path), s.model)]
  {
    s.asset.(modelItems := s.asset.modelItems + [ModelItem(GetFileName(path), s.model)])
  }

  /** `ObjImporter::import(asset, path)`. The model item is appended whether or not a
      line failed; on failure every list is then cut back to its earlier length. */
  function Import(asset: Asset, path: string, env: Environment): (r: ImportResult)
    requires |path| < NPos && (path in env.files ==> AllBounded(env.files[path]))
    ensures path !in env.files ==> r == Failed(asset, FileMissing)
    ensures r.Failed? ==> SizesOf(r.asset) == SizesOf(asset)
    ensures r.Imported? ==> AtLeast(r.asset, SizesOf(asset))
  {
    if path !in env.files then Failed(asset, FileMissing)
    else
      match ObjRun(InitialState(asset), env.files[path], path, env)
      case Continue(s) => Imported(WithModelItem(s, path))
      case Stop(s, m) => Failed(Truncate(WithModelItem(s, path), SizesOf(asset)), m)
      case Threw(s) => Thrown(s.asset)
      case Undefined => UndefinedBehaviour
  }
}

=== FILE: obj_properties.dfy ===
/** What the OBJ importer guarantees: the shape of what an import adds, exact rollback
    on failure, how face vertices are shared within a mesh, and the per-line rules. */
module ObjProperties {
  import opened Optional
  import opened Vectors
  import opened Handles
  import opened Materials
  import opened Scene
  import opened Assets
  import opened Tokens
  import opened Files
  import opened ObjFaces
  import opened ObjImport

  /** The current mesh's three channels agree with the file's attribute lists. */
  predicate CurrentMapped(s: ObjState)
    requires s.current.Some? && s.current.value < |s.asset.meshes|
  {
    var m := s.asset.meshes[s.current.value];
    Mapped(Positions(m, s.pMap), s.positions) && Mapped(Uvs(m, s.tMap), s.uvs)
    && Mapped(Normals(m, s.nMap), s.normals)
  }

  /** What an import started on `orig` has built so far: only appended to `orig`
      (edits touch only meshes it added), no model item yet, one new mesh node per new
      mesh, in order, each pointing at the model item to come; the model lists exactly
      the new nodes; every new mesh's index lists refer into its own lists; and the
      current mesh is the last one, consistent with the three maps. */
  predicate ObjWellFormed(s: ObjState, orig: Asset) {
    var a := s.asset;
    Extends(orig, a)
    && |a.modelItems| == |orig.modelItems|
    && |a.nodeItems| - |orig.nodeItems| == |a.meshes| - |orig.meshes|
    && (forall i :: |orig.meshes| <= i < |a.meshes| ==> MeshIndexed(a.meshes[i]))
    && (s.current.None? ==> |a.meshes| == |orig.meshes|)
    && (s.current.Some? ==>
          s.current.value + 1 == |a.meshes| && |orig.meshes| <= s.current.value && CurrentMapped(s))
    && |s.model.nodes| == |a.nodeItems| - |orig.nodeItems|
    && (forall j :: 0 <= j < |s.model.nodes| ==> s.model.nodes[j] == |orig.nodeItems| + j)
    && (forall i :: |orig.nodeItems| <= i < |a.nodeItems| ==>
          a.nodeItems[i].node == Node(MESH, |orig.meshes| + (i - |orig.nodeItems|), |orig.modelItems|))
  }

  lemma InitialWellFormed(a: Asset)
    ensures ObjWellFormed(InitialState(a), a)
  {
  }

  /** A new file attribute keeps every channel's copies valid. */
  lemma MappedGrows<T>(c: Channel<T>, source: seq<T>, x: T)
    requires Mapped(c, source)
    ensures Mapped(c, source + [x])
  {
    forall k | k in c.keys
      ensures (source + [x])[k - 1] == source[k - 1]
    {
    }
  }

  /** An index list that refers into its list does so for any list it is a prefix
      of. */
  lemma IndexedPrefix<T>(list: seq<T>, indices: seq<nat>, list': seq<T>)
    requires Indexed(list, indices) && list <= list'
    ensures forall j :: 0 <= j < |indices| ==> indices[j] < |list'|
  {
  }

  lemma NewNodeWellFormed(s: ObjState, name: string, orig: Asset)
    requires ObjWellFormed(s, orig)
    ensures ObjWellFormed(NewNode(s, name), orig)
  {
    var r := NewNode(s, name);
    assert MeshIndexed(DefaultMesh());
    forall i | |orig.meshes| <= i < |r.asset.meshes|
      ensures MeshIndexed(r.asset.meshes[i])
    {
      if i < |s.asset.meshes| {
        assert r.asset.meshes[i] == s.asset.meshes[i];
      }
    }
  }

  /** Replacing the current mesh keeps every other part of the invariant. */
  lemma SetCurrentMeshWellFormed(s: ObjState, t: ObjState, orig: Asset)
    requires ObjWellFormed(s, orig) && s.current.Some?
    requires t == s.(asset := t.asset, pMap := t.pMap, tMap := t.tMap, nMap := t.nMap)
    requires |t.asset.meshes| == |s.asset.meshes|
    requires t.asset == SetMesh(s.asset, s.current.value, t.asset.meshes[s.current.value])
    requires MeshIndexed(t.asset.meshes[s.current.value]) && CurrentMapped(t)
    ensures ObjWellFormed(t, orig)
  {
    var e := s.current.value;
    assert orig.meshes <= t.asset.meshes by {
      assert t.asset.meshes[..|orig.meshes|] == s.asset.meshes[..|orig.meshes|];
    }
  }

  lemma AddVertexWellFormed(s: ObjState, ref: VertexRef, orig: Asset)
    requires ObjWellFormed(s, orig) && s.current.Some?
    requires AddVertex(s, ref).Some?
    ensures ObjWellFormed(AddVertex(s, ref).value, orig)
  {
    var t := AddVertex(s, ref).value;
    var e := s.current.value;
    var m := t.asset.meshes[e];
    assert Mapped(Positions(m, t.pMap), t.positions);
    assert Mapped(Uvs(m, t.tMap), t.uvs);
    assert Mapped(Normals(m, t.nMap), t.normals);
    SetCurrentMeshWellFormed(s, t, orig);
  }

  lemma {:induction false} FaceWellFormed(s: ObjState, line: Line, i: nat, orig: Asset)
    requires 1 <= i <= 4 && s.current.Some? && ObjValid(s) && Bounded(line)
    requires ObjWellFormed(s, orig)
    ensures !Face(s, line, i).Undefined? ==> ObjWellFormed(Face(s, line, i).state, orig)
    decreases 4 - i
  {
    if i < 4 && i < |line| {
      var ref := ParseVertex(line[i].text);
      if AddVertex(s, ref).Some? {
        AddVertexWellFormed(s, ref, orig);
        FaceWellFormed(AddVertex(s, ref).value, line, i + 1, orig);
      }
    }
  }

  lemma MtllibWellFormed(s: ObjState, line: Line, path: string, env: Environment, orig: Asset)
    requires ObjValid(s) && |path| < NPos && ObjWellFormed(s, orig)
    requires DirectoryOf(path) + Word(line, 1) in env.files
    ensures var m0 := MtlState(s.asset, s.mtlMap, None, "");
      var run := MtlRun(m0, env.files[DirectoryOf(path) + Word(line, 1)], DirectoryOf(path), env.images);
      run.Some? ==> ObjWellFormed(s.(asset := run.value.asset, mtlMap := run.value.mtlMap), orig)
  {
    var dir := DirectoryOf(path);
    var m0 := MtlState(s.asset, s.mtlMap, None, "");
    var run := MtlRun(m0, env.files[dir + Word(line, 1)], dir, env.images);
    if run.Some? {
      var base := |s.asset.materialItems|;
      MtlRunAppends(m0, env.files[dir + Word(line, 1)], dir, env.images, base);
      assert s.asset.materialItems[..base] == s.asset.materialItems;
      var a := run.value.asset;
      assert a == s.asset.(materialItems := a.materialItems, textureItems := a.textureItems);
      assert orig.materialItems <= a.materialItems;
      assert orig.textureItems <= a.textureItems;
      assert Extends(orig, a);
    }
  }

  lemma UsemtlWellFormed(s: ObjState, name: string, orig: Asset)
    requires ObjValid(s) && ObjWellFormed(s, orig) && name in s.mtlMap && s.current.Some?
    ensures var e := s.current.value;
      var m := s.asset.meshes[e];
      ObjWellFormed(s.(asset := SetMesh(s.asset, e, m.(material := SetIndex(m.material, s.mtlMap[name])))), orig)
  {
    var e := s.current.value;
    var m := s.asset.meshes[e];
    var t := s.(asset := SetMesh(s.asset, e, m.(material := SetIndex(m.material, s.mtlMap[name]))));
    assert t.asset.meshes[e] == m.(material := SetIndex(m.material, s.mtlMap[name]));
    assert Positions(t.asset.meshes[e], t.pMap) == Positions(m, s.pMap);
    assert Uvs(t.asset.meshes[e], t.tMap) == Uvs(m, s.tMap);
    assert Normals(t.asset.meshes[e], t.nMap) == Normals(m, s.nMap);
    SetCurrentMeshWellFormed(s, t, orig);
  }

  /** New file attributes keep the invariant. */
  lemma AttributesWellFormed(s: ObjState, p: Vec3, uv: Vec2, n: Vec3, orig: Asset)
    requires ObjWellFormed(s, orig)
    ensures ObjWellFormed(s.(positions := s.positions + [p]), orig)
    ensures ObjWellFormed(s.(uvs := s.uvs + [uv]), orig)
    ensures ObjWellFormed(s.(normals := s.normals + [n]), orig)
  {
    if s.current.Some? {
      var m := s.asset.meshes[s.current.value];
      MappedGrows(Positions(m, s.pMap), s.positions, p);
      MappedGrows(Uvs(m, s.tMap), s.uvs, uv);
      MappedGrows(Normals(m, s.nMap), s.normals, n);
    }
  }

  lemma ObjStepWellFormed(s: ObjState, line: Line, path: string, env: Environment, orig: Asset)
    requires ObjValid(s) && Bounded(line) && |path| < NPos
    requires ObjWellFormed(s, orig)
    ensures !ObjStep(s, line, path, env).Undefined? ==> ObjWellFormed(ObjStep(s, line, path, env).state, orig)
  {
    var kw := ObjKeyword(s, line);
    var s1 := s.(token := kw);
    assert ObjWellFormed(s1, orig);
    if kw == "mtllib" {
      if DirectoryOf(path) + Word(line, 1) in env.files {
        MtllibWellFormed(s1, line, path, env, orig);
      }
    } else if kw == "usemtl" {
      if Word(line, 1) in s1.mtlMap && s1.current.Some? {
        UsemtlWellFormed(s1, Word(line, 1), orig);
      }
    } else if kw == "v" || kw == "vt" || kw == "vn" {
      AttributesWellFormed(s1, Vec3At(line, 1), Vec2(Num(line, 1), Num(line, 2)), Vec3At(line, 1), orig);
    } else if kw == "o" || kw == "g" {
      NewNodeWellFormed(s1, WordOr(line, 1, DefaultName), orig);
    } else if kw == "f" {
      var s2 := if s1.current.None? then NewNode(s1, UnnamedNode) else s1;
      if s1.current.None? {
        NewNodeWellFormed(s1, UnnamedNode, orig);
      }
      FaceWellFormed(s2, line, 1, orig);
    }
  }

  lemma {:induction false} ObjRunWellFormed(s: ObjState, lines: seq<Line>, path: string, env: Environment, orig: Asset)
    requires ObjValid(s) && AllBounded(lines) && |path| < NPos
    requires ObjWellFormed(s, orig)
    ensures !ObjRun(s, lines, path, env).Undefined? ==> ObjWellFormed(ObjRun(s, lines, path, env).state, orig)
    decreases |lines|
  {
    if |lines| > 0 {
      ObjStepWellFormed(s, lines[0], path, env, orig);
      var r := ObjStep(s, lines[0], path, env);
      if r.Continue? {
        assert AllBounded(lines[1..]) by {
          forall i | 0 <= i < |lines[1..]| ensures Bounded(lines[1..][i]) {
            assert lines[1..][i] == lines[i + 1];
          }
        }
        ObjRunWellFormed(r.state, lines[1..], path, env, orig);
      }
    }
  }

  /** A failed import leaves the asset exactly as it was: unlike the scene-file
      importer, nothing it edits in place existed before the import. */
  lemma FailedImportRestores(asset: Asset, path: string, env: Environment)
    requires |path| < NPos && (path in env.files ==> AllBounded(env.files[path]))
    ensures Import(asset, path, env).Failed? ==> Import(asset, path, env).asset == asset
  {
    if path in env.files {
      InitialWellFormed(asset);
      ObjRunWellFormed(InitialState(asset), env.files[path], path, env, asset);
      var run := ObjRun(InitialState(asset), env.files[path], path, env);
      if run.Stop? {
        TruncateUndoesAppends(asset, WithModelItem(run.state, path));
      }
    }
  }

  /** A successful import only appends: one model item named after the file, whose
      model lists exactly the node items added; every added node is a mesh node
      pointing at that model item and at the mesh added with it, in order; and the
      index lists of every added mesh refer into the mesh's own attribute lists. */
  lemma SuccessfulImportShape(asset: Asset, path: string, env: Environment)
    requires |path| < NPos && (path in env.files ==> AllBounded(env.files[path]))
    ensures Import(asset, path, env).Imported? ==>
      var a := Import(asset, path, env).asset;
      Extends(asset, a)
      && |a.modelItems| == |asset.modelItems| + 1
      && a.modelItems[|asset.modelItems|].name == GetFileName(path)
      && a.modelItems[|asset.modelItems|].model.nodes == seq(|a.nodeItems| - |asset.nodeItems|, j => |asset.nodeItems| + j)
      && |a.nodeItems| - |asset.nodeItems| == |a.meshes| - |asset.meshes|
      && (forall i :: |asset.nodeItems| <= i < |a.nodeItems| ==>
            a.nodeItems[i].node == Node(MESH, |asset.meshes| + (i - |asset.nodeItems|), |asset.modelItems|))
      && (forall i :: |asset.meshes| <= i < |a.meshes| ==> MeshIndexed(a.meshes[i]))
  {
    if path in env.files {
      InitialWellFormed(asset);
      var r := ObjRun(InitialState(asset), env.files[path], path, env);
      ObjRunWellFormed(InitialState(asset), env.files[path], path, env, asset);
      if r.Continue? {
        assert Import(asset, path, env) == Imported(WithModelItem(r.state, path));
        ModelItemShape(r.state, path, asset);
      }
    }
  }

  /** Appending the model item to a well-formed import state gives the finished shape. */
  lemma ModelItemShape(s: ObjState, path: string, asset: Asset)
    requires |path| < NPos && ObjWellFormed(s, asset)
    ensures var a := WithModelItem(s, path);
      Extends(asset, a)
      && |a.modelItems| == |asset.modelItems| + 1
      && a.modelItems[|asset.modelItems|].name == GetFileName(path)
      && a.modelItems[|asset.modelItems|].model.nodes == seq(|a.nodeItems| - |asset.nodeItems|, j => |asset.nodeItems| + j)
      && |a.nodeItems| - |asset.nodeItems| == |a.meshes| - |asset.meshes|
      && (forall i :: |asset.nodeItems| <= i < |a.nodeItems| ==>
            a.nodeItems[i].node == Node(MESH, |asset.meshes| + (i - |asset.nodeItems|), |asset.modelItems|))
      && (forall i :: |asset.meshes| <= i < |a.meshes| ==> MeshIndexed(a.meshes[i]))
  {
    var a := WithModelItem(s, path);
    assert a.modelItems[|asset.modelItems|] == ModelItem(GetFileName(path), s.model);
    assert s.model.nodes == seq(|a.nodeItems| - |asset.nodeItems|, j => |asset.nodeItems| + j);
  }

  /** A face line that throws leaves behind what it had added; the model item is not
      added. */
  lemma ThrownImportKeeps(asset: Asset, path: string, env: Environment)
    requires |path| < NPos && (path in env.files ==> AllBounded(env.files[path]))
    ensures Import(asset, path, env).Thrown? ==>
      Extends(asset, Import(asset, path, env).asset)
      && |Import(asset, path, env).asset.modelItems| == |asset.modelItems|
  {
    if path in env.files {
      InitialWellFormed(asset);
      ObjRunWellFormed(InitialState(asset), env.files[path], path, env, asset);
    }
  }

  /** With consistent index lists, a mesh has normals exactly when it has normal
      indices, and uvs exactly when it has uv indices. */
  lemma HasNormalIffIndices(m: Mesh)
    requires MeshIndexed(m)
    ensures HasNormal(m) <==> |m.normalIndices| > 0
    ensures HasUv(m) <==> |m.uvIndices| > 0
  {
    if |m.normalIndices| > 0 {
      assert m.normalIndices[0] < |m.normals|;
    }
    if |m.uvIndices| > 0 {
      assert m.uvIndices[0] < |m.uvs|;
    }
  }

  // ------------------------------------------------------------------ single lines

  /** The keywords the importer acts on. */
  const ObjKeywords: set<string> := {"mtllib", "usemtl", "v", "vt", "vn", "o", "g", "f"}

  /** Any other keyword, including a known one in other letter case, only updates the
      kept token. */
  lemma ObjUnknownSkipped(s: ObjState, line: Line, path: string, env: Environment)
    requires ObjValid(s) && Bounded(line) && |path| < NPos
    requires ObjKeyword(s, line) !in ObjKeywords
    ensures ObjStep(s, line, path, env) == Continue(s.(token := ObjKeyword(s, line)))
  {
  }

  /** Unlike the library parser, the OBJ parser does not fold case: `V` is skipped while
      `v` adds a position. */
  lemma ObjKeywordsAreCaseSensitive(s: ObjState, path: string, env: Environment)
    requires ObjValid(s) && |path| < NPos
    ensures ObjStep(s, [Tok("V")], path, env) == Continue(s.(token := "V"))
    ensures ObjStep(s, [Tok("v")], path, env).Continue?
    ensures ObjStep(s, [Tok("v")], path, env).state.positions == s.positions + [Zero]
  {
    assert Vec3At([Tok("v")], 1) == Zero;
  }

  /** `usemtl` with a name no library declared fails with the name in the message;
      with a declared name it points the current mesh at the recorded material, and
      before any node it is undefined. */
  lemma UsemtlOutcome(s: ObjState, line: Line, path: string, env: Environment)
    requires ObjValid(s) && Bounded(line) && |path| < NPos
    requires ObjKeyword(s, line) == "usemtl"
    ensures var r := ObjStep(s, line, path, env);
      var name := Word(line, 1);
      (name !in s.mtlMap ==> r == Stop(s.(token := "usemtl"), MaterialMissing + name))
      && (name in s.mtlMap && s.current.None? ==> r.Undefined?)
      && (name in s.mtlMap && s.current.Some? ==>
            r.Continue? && |r.state.asset.meshes| == |s.asset.meshes|
            && r.state.asset.meshes[s.current.value].material == At(s.mtlMap[name]))
  {
  }

  /** `mtllib` naming a file that does not open fails; the library is looked up next
      to the OBJ file. */
  lemma MtllibMissingFails(s: ObjState, line: Line, path: string, env: Environment)
    requires ObjValid(s) && Bounded(line) && |path| < NPos
    requires ObjKeyword(s, line) == "mtllib" && DirectoryOf(path) + Word(line, 1) !in env.files
    ensures ObjStep(s, line, path, env) == Stop(s.(token := "mtllib"), MtlFileMissing)
  {
  }

  /** `o` and `g` start a new node: named by the next token, or "undefined" without
      one; its mesh is new and empty and becomes current; the vertex maps start empty,
      so the new mesh copies every attribute it uses afresh. */
  lemma GroupStartsNode(s: ObjState, line: Line, path: string, env: Environment)
    requires ObjValid(s) && Bounded(line) && |path| < NPos
    requires ObjKeyword(s, line) in {"o", "g"}
    ensures var r := ObjStep(s, line, path, env);
      r.Continue?
      && |r.state.asset.nodeItems| == |s.asset.nodeItems| + 1
      && r.state.asset.nodeItems[|s.asset.nodeItems|].name == (if |line| > 1 then line[1].text else "undefined")
      && r.state.asset.meshes == s.asset.meshes + [DefaultMesh()]
      && r.state.current == Some(|s.asset.meshes|)
      && r.state.pMap == map[] && r.state.tMap == map[] && r.state.nMap == map[]
  {
  }

  /** A face before any `o` or `g` first creates a node named "Undefined". */
  lemma FaceFirstCreatesNode(s: ObjState, line: Line, path: string, env: Environment)
    requires ObjValid(s) && Bounded(line) && |path| < NPos
    requires ObjKeyword(s, line) == "f" && s.current.None?
    ensures var r := ObjStep(s, line, path, env);
      !r.Undefined? ==>
        |r.state.asset.nodeItems| == |s.asset.nodeItems| + 1
        && r.state.asset.nodeItems[|s.asset.nodeItems|].name == UnnamedNode
        && r.state.current == Some(|s.asset.meshes|)
  {
    var s1 := NewNode(s.(token := "f"), UnnamedNode);
    var r := Face(s1, line, 1);
    ObjStepFace(s, line, path, env);
    if !r.Undefined? {
      assert r.state.asset.nodeItems == s1.asset.nodeItems;
    }
  }

  /** A face line needs exactly three vertex tokens: fewer throw, more fail the import
      with "Only Triangulated mesh is supported!". */
  lemma {:induction false} FaceOutcome(s: ObjState, line: Line, i: nat)
    requires 1 <= i <= 4 && s.current.Some? && ObjValid(s) && Bounded(line)
    requires i == 1 || i <= |line|
    ensures var r := Face(s, line, i);
      (|line| < 4 ==> r.Threw? || r.Undefined?)
      && (|line| == 4 ==> r.Continue? || r.Undefined?)
      && (|line| > 4 ==> r.Undefined? || (r.Stop? && r.message == NotTriangulated))
    decreases 4 - i
  {
    if i < 4 && i < |line| {
      var a := AddVertex(s, ParseVertex(line[i].text));
      if a.Some? {
        FaceOutcome(a.value, line, i + 1);
      }
    }
  }

  /** Position `j` of the mesh's index list names the file's position number `v`. */
  predicate Corner(m: Mesh, j: nat, positions: seq<Vec3>, v: int) {
    j < |m.positionIndices| && m.positionIndices[j] < |m.positions|
    && 1 <= v <= |positions| && m.positions[m.positionIndices[j]] == positions[v - 1]
  }

  /** A corner stays what it was as the mesh's lists grow. */
  lemma CornerPersists(m: Mesh, m': Mesh, j: nat, positions: seq<Vec3>, v: int)
    requires Corner(m, j, positions, v)
    requires m.positions <= m'.positions && m.positionIndices <= m'.positionIndices
    ensures Corner(m', j, positions, v)
  {
    assert m'.positionIndices[j] == m.positionIndices[j];
    assert m'.positions[m.positionIndices[j]] == m.positions[m.positionIndices[j]];
  }

  /** One face vertex with a position number appends exactly one position index,
      and that index names the file's position; a number the mesh has used before adds
      no position, so the mesh shares it. */
  lemma AddVertexCorner(s: ObjState, ref: VertexRef)
    requires s.current.Some? && ObjValid(s) && CurrentMapped(s)
    requires AddVertex(s, ref).Some?
    ensures var e := s.current.value;
      var m := s.asset.meshes[e];
      var t := AddVertex(s, ref).value;
      var m' := t.asset.meshes[e];
      CurrentMapped(t) && t.positions == s.positions
      && m.positions <= m'.positions && m.positionIndices <= m'.positionIndices
      && (ref.v == -1 ==> m'.positionIndices == m.positionIndices)
      && (ref.v != -1 ==> |m'.positionIndices| == |m.positionIndices| + 1 && Corner(m', |m.positionIndices|, s.positions, ref.v))
      && (ref.v in s.pMap ==> m'.positions == m.positions)
  {
    var e := s.current.value;
    var m := s.asset.meshes[e];
    var p := Use(Positions(m, s.pMap), s.positions, ref.v).value;
    var t := AddVertex(s, ref).value;
    assert t.asset.meshes[e].positions == p.list;
    assert t.asset.meshes[e].positionIndices == p.indices;
    assert t.pMap == p.keys;
    var u := Use(Uvs(m, s.tMap), s.uvs, ref.t).value;
    var n := Use(Normals(m, s.nMap), s.normals, ref.n).value;
    assert Uvs(t.asset.meshes[e], t.tMap) == u;
    assert Normals(t.asset.meshes[e], t.nMap) == n;
  }

  /** The position numbers of the vertex tokens from token `i` up to the third. */
  function PositionNumbers(line: Line, i: nat): (r: seq<int>)
    requires Bounded(line)
    ensures |r| == if i < 4 && i < |line| then (if |line| < 4 then |line| - i else 4 - i) else 0
    decreases 4 - i
  {
    if i >= 4 || i >= |line| then [] else [ParseVertex(line[i].text).v] + PositionNumbers(line, i + 1)
  }

  /** Index-list entries `base`, `base + 1`, ... name the positions numbered `vs`. */
  predicate CornersFrom(m: Mesh, base: nat, positions: seq<Vec3>, vs: seq<int>) {
    forall c :: 0 <= c < |vs| ==> Corner(m, base + c, positions, vs[c])
  }

  lemma CornersCons(m: Mesh, base: nat, positions: seq<Vec3>, vs: seq<int>)
    requires |vs| > 0 && Corner(m, base, positions, vs[0]) && CornersFrom(m, base + 1, positions, vs[1..])
    ensures CornersFrom(m, base, positions, vs)
  {
    forall c | 0 <= c < |vs| ensures Corner(m, base + c, positions, vs[c]) {
      if c > 0 {
        assert vs[c] == vs[1..][c - 1];
        assert base + c == base + 1 + (c - 1);
      }
    }
  }

  /** A face of three vertex tokens that all name a position adds three position
      indices, in order, naming the three positions the tokens name. */
  lemma {:induction false} FaceCorners(s: ObjState, line: Line, i: nat)
    requires 1 <= i <= 4 && s.current.Some? && ObjValid(s) && Bounded(line) && CurrentMapped(s)
    requires |line| == 4
    requires forall c :: 0 <= c < |PositionNumbers(line, i)| ==> PositionNumbers(line, i)[c] != -1
    ensures var r := Face(s, line, i);
      r.Continue? ==>
        CornersAdded(s.asset.meshes[s.current.value], r.state.asset.meshes[s.current.value],
                     4 - i, s.positions, PositionNumbers(line, i))
    decreases 4 - i
  {
    if i < 4 {
      var ref := ParseVertex(line[i].text);
      var vs := PositionNumbers(line, i);
      assert vs[0] == ref.v && vs[1..] == PositionNumbers(line, i + 1);
      var a := AddVertex(s, ref);
      if a.Some? {
        var e := s.current.value;
        var t := a.value;
        FaceStep(s, line, i);
        AddVertexCorner(s, ref);
        FaceCorners(t, line, i + 1);
        var r := Face(t, line, i + 1);
        if r.Continue? {
          CornersExtend(s.asset.meshes[e], t.asset.meshes[e], r.state.asset.meshes[e], 4 - (i + 1), s.positions, vs);
        }
      }
    } else {
      assert PositionNumbers(line, i) == [];
    }
  }

  /** One face vertex that the mesh accepts hands the rest of the line on. */
  lemma FaceStep(s: ObjState, line: Line, i: nat)
    requires 1 <= i < 4 && i < |line| && s.current.Some? && ObjValid(s) && Bounded(line)
    requires AddVertex(s, ParseVertex(line[i].text)).Some?
    ensures Face(s, line, i) == Face(AddVertex(s, ParseVertex(line[i].text)).value, line, i + 1)
  {
  }

  /** `m'` grew from `m` by `k` position indices naming the positions numbered `vs`. */
  predicate CornersAdded(m: Mesh, m': Mesh, k: nat, positions: seq<Vec3>, vs: seq<int>) {
    |m'.positionIndices| == |m.positionIndices| + k
    && m.positions <= m'.positions && m.positionIndices <= m'.positionIndices
    && CornersFrom(m', |m.positionIndices|, positions, vs)
  }

  /** A corner added at the end of `m`, followed by corners added after it, gives the
      corners `vs` from the end of `m` on. */
  lemma CornersExtend(m: Mesh, mt: Mesh, m': Mesh, k: nat, positions: seq<Vec3>, vs: seq<int>)
    requires |vs| > 0
    requires m.positions <= mt.positions && m.positionIndices <= mt.positionIndices
    requires |mt.positionIndices| == |m.positionIndices| + 1 && Corner(mt, |m.positionIndices|, positions, vs[0])
    requires CornersAdded(mt, m', k, positions, vs[1..])
    ensures CornersAdded(m, m', k + 1, positions, vs)
  {
    CornerPersists(mt, m', |m.positionIndices|, positions, vs[0]);
    CornersCons(m', |m.positionIndices|, positions, vs);
  }

  /** A triangle line `f a b c` on a current mesh appends three position indices that
      name the file's positions `a`, `b` and `c`, even when the mesh shares them. */
  lemma TriangleAddsCorners(s: ObjState, line: Line, path: string, env: Environment)
    requires ObjValid(s) && Bounded(line) && |path| < NPos
    requires s.current.Some? && CurrentMapped(s)
    requires |line| == 4 && line[0].text == "f"
    requires forall c :: 0 <= c < |PositionNumbers(line, 1)| ==> PositionNumbers(line, 1)[c] != -1
    ensures var r := ObjStep(s, line, path, env);
      var m := s.asset.meshes[s.current.value];
      r.Continue? ==>
        var m' := r.state.asset.meshes[s.current.value];
        |m'.positionIndices| == |m.positionIndices| + 3
        && CornersFrom(m', |m.positionIndices|, s.positions, PositionNumbers(line, 1))
  {
    var s1 := s.(token := "f");
    ObjStepFace(s, line, path, env);
    FaceCorners(s1, line, 1);
  }

  /** An `f` line is handed to the face routine, on a new unnamed node when no mesh
      is current. */
  lemma ObjStepFace(s: ObjState, line: Line, path: string, env: Environment)
    requires ObjValid(s) && Bounded(line) && |path| < NPos
    requires ObjKeyword(s, line) == "f"
    ensures var s1 := s.(token := "f");
      ObjStep(s, line, path, env) == Face(if s.current.None? then NewNode(s1, UnnamedNode) else s1, line, 1)
  {
    assert "f" != "mtllib" && "f" != "usemtl" && "f" != "v" && "f" != "vt" && "f" != "vn";
    assert "f" != "o" && "f" != "g";
  }
}

=== FILE: optional.dfy ===
/** An optional value, standing for the renderer's `std::optional` results and for
    pointers that may be null. */
module Optional {

  datatype Option<+T> = None | Some(value: T) {

    /** The value when present, otherwise `default`. */
    function GetOr(default: T): (r: T)
      ensures Some? ==> r == value
      ensures None? ==> r == default
    {
      match this
      case Some(v) => v
      case None => default
    }
  }
}

=== FILE: path_tracer.dfy ===
/** The simple path tracer's control logic: which rows each render task handles, where
    a pixel is written, how samples are averaged, the closest light, and the recursive
    `trace`. Sampling is a parameter. */
module PathTracer {
  import opened Optional
  import opened Vectors
  import opened Handles
  import opened Materials
  import opened Scene
  import opened Rays
  import opened HitRecords
  import opened Numerics
  import opened Intersections
  import opened SceneBuild
  import opened Nearest
  import opened Shaders

  /** The number of render tasks, which is also the row step. */
  const TaskCount: int := 8

  /** The rows task `off` renders: `off`, `off + step`, ... below `height`. */
  function TaskRows(off: int, step: int, height: int): (r: seq<int>)
    requires step > 0
    ensures forall k :: 0 <= k < |r| ==> r[k] == off + k * step && r[k] < height
    ensures off < height ==> |r| > 0
    decreases height - off
  {
    if off >= height then [] else [off] + TaskRows(off + step, step, height)
  }

  /** A row belongs to a task exactly when its remainder by the step is the task's
      offset. */
  lemma {:induction false} RowInTask(row: int, off: int, step: int, height: int)
    requires step > 0 && 0 <= off < step && 0 <= row < height
    ensures row in TaskRows(off, step, height) <==> row % step == off
  {
    var r := TaskRows(off, step, height);
    if row % step == off {
      var k := row / step;
      assert row == off + k * step;
      RowAtIndex(off, step, height, k);
      assert r[k] == row;
    }
    if row in r {
      var k :| 0 <= k < |r| && r[k] == row;
      DivModUnique(off + k * step, step, k, off);
    }
  }

  /** `n == q * d + r` with `0 <= r < d` determines Euclidean quotient and remainder. */
  lemma DivModUnique(n: int, d: int, q: int, r: int)
    requires d > 0 && 0 <= r < d && n == q * d + r
    ensures n / d == q && n % d == r
  {
    var q', r' := n / d, n % d;
    assert n == q' * d + r';
    assert (q - q') * d == r' - r;
    if q > q' {
      MulAtLeast(q - q', d);
    } else if q < q' {
      MulAtLeast(q' - q, d);
    }
  }

  lemma {:induction false} MulAtLeast(a: int, d: int)
    requires a >= 1 && d > 0
    ensures a * d >= d
    decreases a
  {
    if a > 1 {
      MulAtLeast(a - 1, d);
      assert a * d == (a - 1) * d + d;
    }
  }

  /** The `k`-th row of a task exists when it lies below the height. */
  lemma {:induction false} RowAtIndex(off: int, step: int, height: int, k: nat)
    requires step > 0 && off + k * step < height
    ensures k < |TaskRows(off, step, height)|
    decreases k
  {
    if k > 0 {
      assert off + step + (k - 1) * step == off + k * step;
      RowAtIndex(off + step, step, height, k - 1);
    }
  }

  /** With eight tasks at offsets 0 to 7, every row of the image is rendered by exactly
      one task, and by that task once. */
  lemma EveryRowOnce(row: int, height: int)
    requires 0 <= row < height
    ensures forall off :: 0 <= off < TaskCount ==> (row in TaskRows(off, TaskCount, height) <==> off == row % TaskCount)
    ensures forall off, k, l :: 0 <= off < TaskCount && 0 <= k < l < |TaskRows(off, TaskCount, height)| ==>
      TaskRows(off, TaskCount, height)[k] != TaskRows(off, TaskCount, height)[l]
  {
    forall off | 0 <= off < TaskCount
      ensures row in TaskRows(off, TaskCount, height) <==> off == row % TaskCount
    {
      RowInTask(row, off, TaskCount, height);
    }
  }

  // ------------------------------------------------------------ pixels

  /** `(height - i - 1) * width + j`: row `i` counted from the bottom of the buffer. */
  function PixelIndex(width: int, height: int, i: int, j: int): int {
    (height - i - 1) * width + j
  }

  /** Row and column of a buffer position: the inverse of `PixelIndex`. */
  function PixelOf(width: int, height: int, p: int): (r: (int, int))
    requires width > 0
  {
    (height - 1 - p / width, p % width)
  }

  /** Every pixel of the image lands in the buffer, at a position from which its row
      and column are recovered, so distinct pixels land at distinct positions; and
      every position of the buffer is some pixel's. */
  lemma PixelIndexBijective(width: int, height: int, i: int, j: int, p: int)
    requires width > 0 && height > 0
    ensures 0 <= i < height && 0 <= j < width ==>
      0 <= PixelIndex(width, height, i, j) < width * height
      && PixelOf(width, height, PixelIndex(width, height, i, j)) == (i, j)
    ensures 0 <= p < width * height ==>
      var (i', j') := PixelOf(width, height, p);
      0 <= i' < height && 0 <= j' < width && PixelIndex(width, height, i', j') == p
  {
    if 0 <= i < height && 0 <= j < width {
      var q := height - i - 1;
      assert 0 <= q < height;
      if q < height - 1 {
        MulAtLeast(height - 1 - q, width);
      }
      assert q * width + width <= height * width;
      DivModUnique(q * width + j, width, q, j);
    }
    if 0 <= p < width * height {
      var q := p / width;
      assert q * width <= p;
      if q >= height {
        MulAtLeast(q - height + 1, width);
      }
      assert q < height;
    }
  }

  /** The sum of a sequence of colours. */
  function SumColors(cs: seq<Vec3>): Vec3 {
    if cs == [] then Zero else Add(SumColors(cs[..|cs| - 1]), cs[|cs| - 1])
  }

  /** The pixel colour before gamma: the sum of the `samples` traced colours divided by
      `samples`, which must be positive. */
  function PixelColor(traces: seq<Vec3>): Vec3
    requires |traces| > 0
  {
    DivScalar(SumColors(traces), |traces| as real)
  }

  /** Averaging is exact on a constant: when every sample traces the same colour, the
      pixel has that colour. */
  lemma {:induction false} AverageOfConstant(traces: seq<Vec3>, c: Vec3)
    requires |traces| > 0 && forall k :: 0 <= k < |traces| ==> traces[k] == c
    ensures PixelColor(traces) == c
  {
    SumOfConstant(traces, c);
  }

  lemma {:induction false} SumOfConstant(traces: seq<Vec3>, c: Vec3)
    requires forall k :: 0 <= k < |traces| ==> traces[k] == c
    ensures SumColors(traces) == Scale(|traces| as real, c)
  {
    if traces != [] {
      SumOfConstant(traces[..|traces| - 1], c);
    }
  }

  // ------------------------------------------------------------ lights

  /** The smallest parameter the path tracer accepts. */
  const TraceEpsilon: real := 0.000001

  /** The nearest light so far: its distance (`FLOAT_INF` when none) and radiance. */
  datatype LightHit = LightHit(t: Limit, radiance: Vec3)

  /** The area-light loop of `closestHitLight` over a prefix of the lights. */
  function ScanLights(num: Numerics, ray: Ray, lights: seq<AreaLight>): (r: LightHit)
    ensures r.t.Infinite? ==> r.radiance == Zero
  {
    if lights == [] then LightHit(Infinite, Zero)
    else
      var b := ScanLights(num, ray, lights[..|lights| - 1]);
      var a := lights[|lights| - 1];
      var h := HitAreaLight(num, ray, a, TraceEpsilon, b.t);
      if h.Some? && Below(h.value.t, b.t) then LightHit(Finite(h.value.t), a.radiance) else b
  }

  /** `closestHitLight`: the distance and radiance of the nearest area light, or
      `FLOAT_INF` and black when no light is hit. */
  function ClosestLight(num: Numerics, scene: RenderScene, ray: Ray): (r: LightHit)
    ensures r.t.Infinite? ==> r.radiance == Zero
  {
    ScanLights(num, ray, scene.areaLightBuffer)
  }

  /** A light test with a smaller bound keeps a hit below it and drops the rest. */
  lemma LightNarrowing(num: Numerics, ray: Ray, a: AreaLight, d: Limit, e: Limit)
    requires AtMost(d, e)
    ensures var h := HitAreaLight(num, ray, a, TraceEpsilon, e);
      HitAreaLight(num, ray, a, TraceEpsilon, d) == if h.Some? && Below(h.value.t, d) then h else None
  {
  }

  /** Light `a` is hit, unbounded, at the distance recorded in `r`, and `r` holds its
      radiance. */
  predicate LightWitness(num: Numerics, ray: Ray, a: AreaLight, r: LightHit) {
    var h := HitAreaLight(num, ray, a, TraceEpsilon, Infinite);
    r.t.Finite? && h.Some? && h.value.t == r.t.value && r.radiance == a.radiance
  }

  /** The light found is the nearest: no light is hit below its distance; a finite
      distance is the hit parameter of a light whose radiance is returned; an infinite
      one means no light is hit at all. */
  lemma {:induction false} ClosestLightIsNearest(num: Numerics, ray: Ray, lights: seq<AreaLight>)
    ensures var r := ScanLights(num, ray, lights);
      (forall k :: 0 <= k < |lights| ==> HitAreaLight(num, ray, lights[k], TraceEpsilon, r.t).None?)
      && (r.t.Finite? ==> exists w :: 0 <= w < |lights| && LightWitness(num, ray, lights[w], r))
      && (r.t.Infinite? <==> forall k :: 0 <= k < |lights| ==> HitAreaLight(num, ray, lights[k], TraceEpsilon, Infinite).None?)
  {
    if lights != [] {
      var n := |lights| - 1;
      var front := lights[..n];
      var b := ScanLights(num, ray, front);
      var r := ScanLights(num, ray, lights);
      ClosestLightIsNearest(num, ray, front);
      LightNarrowing(num, ray, lights[n], r.t, b.t);
      LightNarrowing(num, ray, lights[n], b.t, Infinite);
      forall k | 0 <= k < n
        ensures HitAreaLight(num, ray, lights[k], TraceEpsilon, r.t).None?
      {
        assert lights[k] == front[k];
        LightNarrowing(num, ray, lights[k], r.t, b.t);
        LightNarrowing(num, ray, lights[k], r.t, Infinite);
      }
      if r.t.Finite? && r != b {
        assert LightWitness(num, ray, lights[n], r);
      } else if r.t.Finite? {
        var w :| 0 <= w < |front| && LightWitness(num, ray, front[w], b);
        assert lights[w] == front[w];
      }
      if r.t.Infinite? {
        forall k | 0 <= k < |lights|
          ensures HitAreaLight(num, ray, lights[k], TraceEpsilon, Infinite).None?
        {
          if k < n {
            assert lights[k] == front[k];
          }
        }
      }
    }
  }

  // ------------------------------------------------------------ trace

  /** Every material's `diffuseColor`, when present, holds a colour; otherwise the
      shader constructor's `getProperty` throws. */
  predicate DiffuseTyped(scene: RenderScene) {
    forall i :: 0 <= i < |scene.materials| ==> KeyHasType(scene.materials[i], "diffuseColor", RGB)
  }

  /** `trace`: the ambient constant at the depth limit; otherwise the object hit when it
      lies strictly nearer than every light, shaded by its Lambertian's scatter record
      and the recursively traced scattered ray; else a light's radiance, else black.
      `sampling(d)` is the hemisphere sample drawn at depth `d`. */
  function Trace(num: Numerics, scene: RenderScene, depth: int, sampling: int -> Hemisphere, ray: Ray, currDepth: int): (r: Vec3)
    requires currDepth <= depth && MaterialsResolve(scene) && DiffuseTyped(scene)
    ensures currDepth == depth ==> r == scene.ambient.constant
    decreases depth - currDepth
  {
    if currDepth == depth then scene.ambient.constant
    else
      var hit := ClosestObjectHit(num, scene, ray, TraceEpsilon);
      var light := ClosestLight(num, scene, ray);
      if hit.Some? && Below(hit.value.t, light.t) then
        var shader := MakePathLambertian(scene.materials[hit.value.material.index]);
        var scattered := Scatter(num, shader, hit.value.hitPoint, hit.value.normal, sampling(currDepth));
        var next := Trace(num, scene, depth, sampling, scattered.ray, currDepth + 1);
        var nDotIn := Dot(hit.value.normal, scattered.ray.direction);
        Add(scattered.emitted, DivScalar(Scale(nDotIn, Mul(scattered.attenuation, next)), scattered.pdf))
      else if light.t.Finite? then light.radiance
      else Zero
  }

  /** Below the depth limit a ray that meets neither an object nor a light is black,
      and one that meets a light and no nearer object returns that light's radiance. */
  lemma TraceMisses(num: Numerics, scene: RenderScene, depth: int, sampling: int -> Hemisphere, ray: Ray, currDepth: int)
    requires currDepth < depth && MaterialsResolve(scene) && DiffuseTyped(scene)
    ensures var hit := ClosestObjectHit(num, scene, ray, TraceEpsilon);
      var light := ClosestLight(num, scene, ray);
      (hit.None? && light.t.Infinite? ==> Trace(num, scene, depth, sampling, ray, currDepth) == Zero)
      && (light.t.Finite? && (hit.None? || hit.value.t >= light.t.value) ==>
            Trace(num, scene, depth, sampling, ray, currDepth) == light.radiance)
  {
  }

  /** A scene without area lights under a black ambient renders black: nothing emits,
      so every path carries zero. */
  lemma {:induction false} DarkSceneIsBlack(num: Numerics, scene: RenderScene, depth: int, sampling: int -> Hemisphere,
                                            ray: Ray, currDepth: int)
    requires currDepth <= depth && MaterialsResolve(scene) && DiffuseTyped(scene)
    requires scene.areaLightBuffer == [] && scene.ambient.constant == Zero
    ensures Trace(num, scene, depth, sampling, ray, currDepth) == Zero
    decreases depth - currDepth
  {
    if currDepth < depth {
      var hit := ClosestObjectHit(num, scene, ray, TraceEpsilon);
      var light := ClosestLight(num, scene, ray);
      assert light == LightHit(Infinite, Zero);
      if hit.Some? {
        var shader := MakePathLambertian(scene.materials[hit.value.material.index]);
        var scattered := Scatter(num, shader, hit.value.hitPoint, hit.value.normal, sampling(currDepth));
        DarkSceneIsBlack(num, scene, depth, sampling, scattered.ray, currDepth + 1);
        var next := Trace(num, scene, depth, sampling, scattered.ray, currDepth + 1);
        var nDotIn := Dot(hit.value.normal, scattered.ray.direction);
        assert Trace(num, scene, depth, sampling, ray, currDepth)
            == Add(scattered.emitted, DivScalar(Scale(nDotIn, Mul(scattered.attenuation, next)), scattered.pdf));
        BlackStaysBlack(scattered.attenuation, nDotIn, scattered.pdf);
      }
    }
  }

  /** The shading of a black incoming colour adds nothing. */
  lemma BlackStaysBlack(attenuation: Vec3, nDotIn: real, pdf: real)
    requires pdf != 0.0
    ensures Add(Zero, DivScalar(Scale(nDotIn, Mul(attenuation, Zero)), pdf)) == Zero
  {
  }
}

=== FILE: photon_map.dfy ===
/** The ray-cast renderer's photon store: photons are appended as they are traced, an
    index is taken of them on request, and range queries fall back to a linear scan
    while there is no index. */
module PhotonMaps {
  import opened Optional
  import opened Vectors
  import opened Numerics

  /** A stored photon: where it landed, the direction it came from, its power, the
      bounce it was stored at and the id of the emitted photon it descends from. */
  datatype Photon = Photon(position: Vec3, direction: Vec3, power: Vec3, bounce: int, photonId: int)

  /** The photons in storage order, and the photons the spatial index was last built
      from (empty while it has never been built). */
  datatype PhotonMap = PhotonMap(photons: seq<Photon>, index: seq<Photon>)

  /** A fresh map: no photons and no index. */
  function EmptyMap(): (m: PhotonMap)
    ensures Size(m) == 0 && m.index == []
  {
    PhotonMap([], [])
  }

  /** `size`: the number of photons stored. */
  function Size(m: PhotonMap): nat {
    |m.photons|
  }

  /** `store`: one more photon at the end; the index is not touched. */
  function Store(m: PhotonMap, p: Photon): (r: PhotonMap)
    ensures Size(r) == Size(m) + 1 && r.photons[Size(m)] == p
    ensures r.photons[..Size(m)] == m.photons && r.index == m.index
  {
    m.(photons := m.photons + [p])
  }

  /** `buildKDTree`: the index now covers the photons stored. */
  function BuildIndex(m: PhotonMap): (r: PhotonMap)
    ensures r.photons == m.photons && r.index == m.photons
  {
    m.(index := m.photons)
  }

  /** `clear`: the photons are dropped but the index is kept as it was. */
  function Clear(m: PhotonMap): (r: PhotonMap)
    ensures Size(r) == 0 && r.index == m.index
  {
    m.(photons := [])
  }

  /** After an index has been built over some photons, clearing leaves that stale
      index in place: the map is empty, yet a range query no longer takes the linear
      branch. */
  lemma ClearKeepsStaleIndex(m: PhotonMap)
    requires m.photons != []
    ensures Size(Clear(BuildIndex(m))) == 0 && Clear(BuildIndex(m)).index != []
  {
  }

  /** `glm::length(a - b)`, through the library square root. */
  function Distance(num: Numerics, a: Vec3, b: Vec3): real {
    num.sqrt(Dot(Sub(a, b), Sub(a, b)))
  }

  predicate Near(num: Numerics, p: Photon, position: Vec3, radius: real) {
    Distance(num, p.position, position) <= radius
  }

  /** The linear scan: the photons within `radius`, in storage order. */
  function Scan(num: Numerics, ps: seq<Photon>, position: Vec3, radius: real): (r: seq<Photon>)
    ensures forall p :: p in r <==> p in ps && Near(num, p, position, radius)
    ensures |r| <= |ps|
    decreases |ps|
  {
    if ps == [] then []
    else
      var rest := Scan(num, ps[1..], position, radius);
      assert forall p :: p in ps <==> p == ps[0] || p in ps[1..];
      if Near(num, ps[0], position, radius) then [ps[0]] + rest else rest
  }

  /** `queryRange` on a map without an index. */
  function QueryRange(num: Numerics, m: PhotonMap, position: Vec3, radius: real): (r: seq<Photon>)
    requires m.index == []
    ensures forall p :: p in r <==> p in m.photons && Near(num, p, position, radius)
  {
    Scan(num, m.photons, position, radius)
  }

  /** The scan keeps storage order: scanning two runs one after the other is scanning
      each and joining the results. */
  lemma {:induction false} ScanAppend(num: Numerics, a: seq<Photon>, b: seq<Photon>, position: Vec3, radius: real)
    ensures Scan(num, a + b, position, radius) == Scan(num, a, position, radius) + Scan(num, b, position, radius)
    decreases |a|
  {
    if a == [] {
      assert a + b == b;
    } else {
      assert (a + b)[1..] == a[1..] + b;
      ScanAppend(num, a[1..], b, position, radius);
    }
  }

  /** A photon stored after the scan's photons shows up at the end of its result
      exactly when it is in range. */
  lemma StoreThenQuery(num: Numerics, m: PhotonMap, p: Photon, position: Vec3, radius: real)
    requires m.index == []
    ensures QueryRange(num, Store(m, p), position, radius)
      == QueryRange(num, m, position, radius) + (if Near(num, p, position, radius) then [p] else [])
  {
    ScanAppend(num, m.photons, [p], position, radius);
    assert Scan(num, [p], position, radius) == (if Near(num, p, position, radius) then [p] else []) by {
      assert [p][1..] == [];
    }
  }

  // -------------------------------------------------- adaptive-radius selection

  /** A photon paired with its distance from the query position, as the estimate
      ranks them. */
  datatype Ranked = Ranked(distance: real, photon: Photon)

  predicate SortedByDistance(s: seq<Ranked>) {
    forall i, j :: 0 <= i < j < |s| ==> s[i].distance <= s[j].distance
  }

  function Rank(num: Numerics, ps: seq<Photon>, position: Vec3): (r: seq<Ranked>)
    ensures |r| == |ps|
    ensures forall i :: 0 <= i < |ps| ==> r[i] == Ranked(Distance(num, ps[i].position, position), ps[i])
  {
    seq(|ps|, i requires 0 <= i < |ps| => Ranked(Distance(num, ps[i].position, position), ps[i]))
  }

  lemma ConsSortedByDistance(a: Ranked, r: seq<Ranked>)
    requires SortedByDistance(r) && (r != [] ==> a.distance <= r[0].distance)
    ensures SortedByDistance([a] + r)
  {
    forall i, j | 0 <= i < j < |[a] + r| ensures ([a] + r)[i].distance <= ([a] + r)[j].distance {
      if i == 0 {
        assert r[0].distance <= r[j - 1].distance;
      }
    }
  }

  function InsertByDistance(x: Ranked, s: seq<Ranked>): (r: seq<Ranked>)
    requires SortedByDistance(s)
    ensures SortedByDistance(r) && |r| == |s| + 1
    ensures multiset(r) == multiset(s) + multiset{x}
    ensures r[0] == x || (s != [] && r[0] == s[0])
  {
    if s == [] then [x]
    else if x.distance <= s[0].distance then
      ConsSortedByDistance(x, s);
      [x] + s
    else
      var rest := InsertByDistance(x, s[1..]);
      ConsSortedByDistance(s[0], rest);
      assert s == [s[0]] + s[1..];
      [s[0]] + rest
  }

  /** The `std::sort` of the ranked photons by distance. */
  function SortByDistance(s: seq<Ranked>): (r: seq<Ranked>)
    ensures SortedByDistance(r) && |r| == |s|
    ensures multiset(r) == multiset(s)
  {
    if s == [] then []
    else
      assert s == [s[0]] + s[1..];
      InsertByDistance(s[0], SortByDistance(s[1..]))
  }

  /** The smallest radius the estimate uses. */
  const MinRadius: real := 10.0

  /** The photons the estimate sums over and the radius of the disc it divides by. */
  datatype Selection = Selection(nearest: seq<Photon>, radius: real)

  function Min(a: int, b: int): int {
    if a < b then a else b
  }

  /** The photons of a ranked sequence, in order. */
  function Photons(s: seq<Ranked>): (r: seq<Photon>)
    ensures |r| == |s| && forall i :: 0 <= i < |s| ==> r[i] == s[i].photon
  {
    if s == [] then [] else [s[0].photon] + Photons(s[1..])
  }

  lemma {:induction false} PhotonsAppend(a: seq<Ranked>, b: seq<Ranked>)
    ensures Photons(a + b) == Photons(a) + Photons(b)
  {
    if a != [] {
      assert (a + b)[1..] == a[1..] + b;
      PhotonsAppend(a[1..], b);
    }
  }

  /** Reordering the ranked entries reorders their photons the same way. */
  lemma {:induction false} PhotonsPermute(s: seq<Ranked>, t: seq<Ranked>)
    requires multiset(s) == multiset(t)
    ensures multiset(Photons(s)) == multiset(Photons(t))
    decreases |s|
  {
    if s == [] {
      assert |t| == |multiset(t)|;
    } else {
      assert s[0] in multiset(t);
      var j :| 0 <= j < |t| && t[j] == s[0];
      var rest := t[..j] + t[j + 1..];
      assert t == t[..j] + [t[j]] + t[j + 1..];
      assert s == [s[0]] + s[1..];
      assert multiset(t) == multiset(t[..j]) + multiset{t[j]} + multiset(t[j + 1..]);
      assert multiset(rest) == multiset(t[..j]) + multiset(t[j + 1..]);
      assert multiset(s) == multiset{s[0]} + multiset(s[1..]);
      assert multiset(s[1..]) == multiset(s) - multiset{s[0]};
      assert multiset(rest) == multiset(t) - multiset{t[j]};
      PhotonsPermute(s[1..], rest);
      PhotonsAppend(t[..j] + [t[j]], t[j + 1..]);
      PhotonsAppend(t[..j], [t[j]]);
      PhotonsAppend(t[..j], t[j + 1..]);
    }
  }

  /** The selection step of `estimateRadianceAdaptive`: nothing for an empty map or a
      non-positive count; otherwise the `k` photons nearest to `position` (all of them
      when there are fewer), and the distance of the farthest of them, raised to 10. */
  function SelectNearest(num: Numerics, m: PhotonMap, position: Vec3, k: int): (r: Option<Selection>)
    ensures r.None? <==> m.photons == [] || k <= 0
    ensures r.Some? ==>
      var sel := r.value.nearest;
      |sel| == Min(k, |m.photons|) && |sel| > 0
      && multiset(sel) <= multiset(m.photons)
      && var far := Distance(num, sel[|sel| - 1].position, position);
      (forall q :: q in sel ==> Distance(num, q.position, position) <= far)
      && (forall p :: p in m.photons && Distance(num, p.position, position) < far ==> p in sel)
      && r.value.radius == Max(far, MinRadius)
  {
    if m.photons == [] || k <= 0 then None
    else
      var ranked := Rank(num, m.photons, position);
      var sorted := SortByDistance(ranked);
      var count := Min(k, |sorted|);
      var radius := if sorted[count - 1].distance < MinRadius then MinRadius else sorted[count - 1].distance;
      var sel := Photons(sorted[..count]);
      SelectionIsNearest(num, m, position, ranked, sorted, count, sel);
      Some(Selection(sel, radius))
  }

  lemma SelectionIsNearest(num: Numerics, m: PhotonMap, position: Vec3, ranked: seq<Ranked>, sorted: seq<Ranked>,
                           count: nat, sel: seq<Photon>)
    requires ranked == Rank(num, m.photons, position)
    requires SortedByDistance(sorted) && multiset(sorted) == multiset(ranked)
    requires 0 < count <= |sorted| && sel == Photons(sorted[..count])
    ensures var far := Distance(num, sel[count - 1].position, position);
      sorted[count - 1].distance == far
      && multiset(sel) <= multiset(m.photons)
      && (forall q :: q in sel ==> Distance(num, q.position, position) <= far)
      && (forall p :: p in m.photons && Distance(num, p.position, position) < far ==> p in sel)
  {
    RankedDistances(num, m, position, ranked, sorted);
    assert sorted[count - 1] in sorted;
    var far := Distance(num, sel[count - 1].position, position);
    forall q | q in sel
      ensures Distance(num, q.position, position) <= far
    {
      var i :| 0 <= i < count && sel[i] == q;
      assert sorted[i] in sorted;
    }
    CloserIsSelected(num, m, position, ranked, sorted, count, sel);
    SelectionFromMap(num, m, position, ranked, sorted, count, sel);
  }

  /** Every ranked entry pairs a photon of the map with its own distance. */
  lemma RankedDistances(num: Numerics, m: PhotonMap, position: Vec3, ranked: seq<Ranked>, sorted: seq<Ranked>)
    requires ranked == Rank(num, m.photons, position)
    requires multiset(sorted) == multiset(ranked)
    ensures forall x :: x in sorted ==> x in ranked && x.distance == Distance(num, x.photon.position, position)
  {
    forall x | x in sorted
      ensures x in ranked && x.distance == Distance(num, x.photon.position, position)
    {
      assert x in multiset(sorted);
    }
  }

  lemma CloserIsSelected(num: Numerics, m: PhotonMap, position: Vec3, ranked: seq<Ranked>, sorted: seq<Ranked>,
                         count: nat, sel: seq<Photon>)
    requires ranked == Rank(num, m.photons, position)
    requires SortedByDistance(sorted) && multiset(sorted) == multiset(ranked)
    requires 0 < count <= |sorted| && sel == Photons(sorted[..count])
    requires sorted[count - 1].distance == Distance(num, sel[count - 1].position, position)
    ensures forall p :: p in m.photons && Distance(num, p.position, position) < sorted[count - 1].distance ==> p in sel
  {
    forall p | p in m.photons && Distance(num, p.position, position) < sorted[count - 1].distance
      ensures p in sel
    {
      var i :| 0 <= i < |m.photons| && m.photons[i] == p;
      var x := ranked[i];
      assert x in multiset(ranked);
      var j :| 0 <= j < |sorted| && sorted[j] == x;
      assert j < count;
      assert sel[j] == p;
    }
  }

  /** The selection is a prefix of a reordering of the map's photons. */
  lemma SelectionFromMap(num: Numerics, m: PhotonMap, position: Vec3, ranked: seq<Ranked>, sorted: seq<Ranked>,
                         count: nat, sel: seq<Photon>)
    requires ranked == Rank(num, m.photons, position)
    requires multiset(sorted) == multiset(ranked)
    requires count <= |sorted| && sel == Photons(sorted[..count])
    ensures multiset(sel) <= multiset(m.photons)
  {
    var ps := Photons(ranked);
    assert ps == m.photons by {
      assert |ps| == |m.photons|;
      forall i | 0 <= i < |ps| ensures ps[i] == m.photons[i] {
      }
    }
    PhotonsPermute(sorted, ranked);
    var whole := Photons(sorted);
    assert sorted == sorted[..count] + sorted[count..];
    PhotonsAppend(sorted[..count], sorted[count..]);
    assert whole == sel + Photons(sorted[count..]);
    assert multiset(whole) == multiset(sel) + multiset(Photons(sorted[count..]));
  }
}

=== FILE: ray_cast_renderer.dfy ===
/** The ray-casting renderer's control logic: its settings, the material tests it
    makes, the Russian-roulette table, and the photon tracing that fills its photon
    map. The random draws and the Glass optics are parameters. */
module RayCast {
  import opened Optional
  import opened Vectors
  import opened Handles
  import opened Materials
  import opened Scene
  import opened Rays
  import opened HitRecords
  import opened Numerics
  import opened SceneBuild
  import opened Nearest
  import PhotonMaps
  import opened Shaders

  type Photon = PhotonMaps.Photon
  type PhotonMap = PhotonMaps.PhotonMap

  /** The renderer's state besides its camera and shader list. */
  datatype Renderer = Renderer(scene: RenderScene, photonMap: PhotonMap, photonCount: int, maxBounces: int,
                               usePhotonMapping: bool, nextPhotonId: int)

  const DefaultPhotonCount: int := 10000
  const DefaultMaxBounces: int := 5

  /** The constructor: 10000 photons, 5 bounces, photon mapping on, ids from 0. */
  function NewRenderer(scene: RenderScene): (r: Renderer)
    ensures r.photonCount == DefaultPhotonCount && r.maxBounces == DefaultMaxBounces
    ensures r.usePhotonMapping && r.nextPhotonId == 0
    ensures PhotonMaps.Size(r.photonMap) == 0 && r.photonMap.index == []
  {
    Renderer(scene, PhotonMaps.EmptyMap(), DefaultPhotonCount, DefaultMaxBounces, true, 0)
  }

  /** `setPhotonCount`. */
  function SetPhotonCount(rr: Renderer, count: int): (r: Renderer)
    ensures r.photonCount == count
    ensures r.maxBounces == rr.maxBounces && r.usePhotonMapping == rr.usePhotonMapping
    ensures r.nextPhotonId == rr.nextPhotonId && r.photonMap == rr.photonMap
  {
    rr.(photonCount := count)
  }

  /** `setMaxBounces`. */
  function SetMaxBounces(rr: Renderer, bounces: int): (r: Renderer)
    ensures r.maxBounces == bounces
    ensures r.photonCount == rr.photonCount && r.usePhotonMapping == rr.usePhotonMapping
    ensures r.nextPhotonId == rr.nextPhotonId && r.photonMap == rr.photonMap
  {
    rr.(maxBounces := bounces)
  }

  /** `setUsePhotonMapping`. */
  function SetUsePhotonMapping(rr: Renderer, use: bool): (r: Renderer)
    ensures r.usePhotonMapping == use
    ensures r.photonCount == rr.photonCount && r.maxBounces == rr.maxBounces
    ensures r.nextPhotonId == rr.nextPhotonId && r.photonMap == rr.photonMap
  {
    rr.(usePhotonMapping := use)
  }

  /** Each setter touches its own field only, so setters of different fields commute
      and a second call to the same setter overrides the first. */
  lemma SettersIndependent(rr: Renderer, count: int, bounces: int, use: bool, count': int)
    ensures SetMaxBounces(SetPhotonCount(rr, count), bounces) == SetPhotonCount(SetMaxBounces(rr, bounces), count)
    ensures SetUsePhotonMapping(SetPhotonCount(rr, count), use) == SetPhotonCount(SetUsePhotonMapping(rr, use), count)
    ensures SetPhotonCount(SetPhotonCount(rr, count'), count) == SetPhotonCount(rr, count)
  {
  }

  /** `getStoredPhotonCount`. */
  function StoredPhotonCount(rr: Renderer): (r: nat)
    ensures r == |rr.photonMap.photons|
  {
    PhotonMaps.Size(rr.photonMap)
  }

  // ------------------------------------------------------------ roulette

  /** The probability `russianRoulette` terminates with at a bounce. */
  function TerminationProbability(bounce: int): (p: real)
    ensures 0.0 <= p < 1.0
    ensures p == 0.0 <==> bounce == 0
  {
    if bounce == 0 then 0.0 else if bounce == 1 then 0.2 else 0.8
  }

  /** `russianRoulette` with its uniform draw in `[0, 1)` as a parameter. */
  predicate RussianRoulette(bounce: int, sample: real) {
    sample < TerminationProbability(bounce)
  }

  /** The first bounce never terminates, and from bounce 0 on a draw that ends a path
      at one bounce ends it at every later bounce. */
  lemma RouletteMonotone(bounce: int, bounce': int, sample: real)
    requires 0.0 <= sample
    ensures !RussianRoulette(0, sample)
    ensures 0 <= bounce <= bounce' && RussianRoulette(bounce, sample) ==> RussianRoulette(bounce', sample)
  {
  }

  // ------------------------------------------------------------ materials

  /** `rec.material.index()`: an unset handle's index is taken as -1, outside every
      buffer. */
  function MaterialIndex(h: Handle): (r: int)
    ensures h.Valid() ==> r == h.index
    ensures !h.Valid() ==> r < 0
  {
    match h
    case NoHandle => -1
    case At(i) => i
  }

  /** `isLambertianMaterial`. */
  predicate IsLambertian(scene: RenderScene, index: int) {
    0 <= index < |scene.materials| && scene.materials[index].mtype == 0
  }

  /** `isDielectricMaterial`. */
  predicate IsDielectric(scene: RenderScene, index: int) {
    0 <= index < |scene.materials| && scene.materials[index].mtype == 2
  }

  /** The two tests never both hold, hold only for an index in range, and split the
      materials in range by type. */
  lemma MaterialClasses(scene: RenderScene, index: int)
    ensures !(IsLambertian(scene, index) && IsDielectric(scene, index))
    ensures (IsLambertian(scene, index) || IsDielectric(scene, index)) ==> 0 <= index < |scene.materials|
    ensures 0 <= index < |scene.materials| ==>
      (IsLambertian(scene, index) <==> scene.materials[index].mtype == 0)
      && (IsDielectric(scene, index) <==> scene.materials[index].mtype == 2)
  {
  }

  /** Every material's `diffuseColor` and `ior`, when present, have the wrapper type the
      renderer reads them with; otherwise `getProperty` throws. */
  predicate Typed(scene: RenderScene) {
    forall i :: 0 <= i < |scene.materials| ==>
      KeyHasType(scene.materials[i], "diffuseColor", RGB) && KeyHasType(scene.materials[i], "ior", FLOAT)
  }

  /** The reflectance used when a material has none. */
  const Grey: Vec3 := Vec3(0.7, 0.7, 0.7)

  /** `getMaterialReflectance`: the `diffuseColor` of a Lambertian or Phong material
      that has one, grey otherwise, including for an index out of range. */
  function MaterialReflectance(scene: RenderScene, index: int): (r: Vec3)
    requires Typed(scene)
    ensures !(0 <= index < |scene.materials|) ==> r == Grey
    ensures 0 <= index < |scene.materials| ==>
      var m := scene.materials[index];
      (m.mtype !in {0, 1} || !HasProperty(m, "diffuseColor") ==> r == Grey)
      && (m.mtype in {0, 1} && HasProperty(m, "diffuseColor") ==>
            exists i :: 0 <= i < |m.properties| && m.properties[i].key == "diffuseColor"
                        && m.properties[i].valueWrapper == RGBType(r))
  {
    if index < 0 || index >= |scene.materials| then Grey
    else
      var m := scene.materials[index];
      if m.mtype == 0 || m.mtype == 1 then DiffuseOr(m, Grey) else Grey
  }

  /** The index of refraction: the material's `ior`, 1.5 when it has none. */
  function Ior(m: Material): (r: real)
    requires KeyHasType(m, "ior", FLOAT)
    ensures !HasProperty(m, "ior") ==> r == 1.5
    ensures HasProperty(m, "ior") ==>
      exists i :: 0 <= i < |m.properties| && m.properties[i].key == "ior" && m.properties[i].valueWrapper == FloatType(r)
  {
    match GetProperty(m, "ior", FLOAT)
    case Found(w) => w.f
    case _ => 1.5
  }

  // ------------------------------------------------------------ photon tracing

  /** The refraction `Glass::refract` computes, and whether it was total internal
      reflection instead. */
  datatype Refraction = Refraction(direction: Vec3, totalInternal: bool)

  /** Glass's `fresnel`, `reflect` and `refract`, which the model does not compute. */
  datatype Optics = Optics(fresnel: (Vec3, Vec3, real) -> real, reflect: (Vec3, Vec3) -> Vec3,
                           refract: (Vec3, Vec3, real) -> Refraction)

  /** Which recursive call of the tracer a path step took. */
  datatype Branch = Reflected | Refracted | Diffuse

  /** The random draws of one photon, keyed by the photon's id and the branches taken to
      reach the current call: the storing draw, the roulette draw, and the
      cosine-weighted direction about a normal. */
  datatype Draws = Draws(store: (int, seq<Branch>) -> real, roulette: (int, seq<Branch>) -> real,
                         diffuse: (int, seq<Branch>, Vec3) -> Vec3)

  /** The photon map, `storedCount` and `storedPhotonIds` the tracer updates. */
  datatype PhotonState = PhotonState(photonMap: PhotonMap, storedCount: int, storedIds: set<int>)

  /** `r.r + r.g + r.b`. */
  function Energy(v: Vec3): real {
    v.x + v.y + v.z
  }

  /** `std::min(1.0f, energy * 0.2 / 0.001)`. */
  function StoreProbability(energy: real): (p: real)
    ensures p <= 1.0 && (energy >= 0.0 ==> p >= 0.0)
    ensures energy >= 0.005 ==> p == 1.0
  {
    var x := energy * 0.2 / 0.001;
    if x < 1.0 then x else 1.0
  }

  /** The step `s'` adds one photon `p` to `s`, for the emitted photon `id`. */
  predicate AddsPhoton(s: PhotonState, s': PhotonState, id: int, p: Photon) {
    id !in s.storedIds
    && s'.storedIds == s.storedIds + {id}
    && s'.photonMap == s.photonMap.(photons := s.photonMap.photons + [p])
    && s'.storedCount == s.storedCount + 1
  }

  /** The storing step on a Lambertian hit: at bounce 1 or later, with energy above
      1e-5, for a photon id not yet stored, and when the draw falls below the store
      probability, the photon is recorded at the hit point, facing back along the ray,
      with its power, bounce and id. */
  function MaybeStore(s: PhotonState, hit: HitRecordBase, ray: Ray, power: Vec3, bounce: int, id: int, sample: real): (r: PhotonState)
    ensures r != s <==>
      bounce >= 1 && Energy(power) > 0.00001 && id !in s.storedIds && sample < StoreProbability(Energy(power))
    ensures r != s ==> AddsPhoton(s, r, id, PhotonMaps.Photon(hit.hitPoint, Neg(ray.direction), power, bounce, id))
  {
    var energy := Energy(power);
    if bounce >= 1 && energy > 0.00001 && id !in s.storedIds && sample < StoreProbability(energy) then
      var p := PhotonMaps.Photon(hit.hitPoint, Neg(ray.direction), power, bounce, id);
      assert id in s.storedIds + {id};
      PhotonState(PhotonMaps.Store(s.photonMap, p), s.storedCount + 1, s.storedIds + {id})
    else s
  }

  /** What one call of the tracer may do to the state: nothing, or add one photon of
      this id, stored at a bounce in `[from, maxBounces)` and at least 1. */
  predicate TraceEffect(s: PhotonState, r: PhotonState, id: int, from: int, maxBounces: int) {
    r == s
    || (|r.photonMap.photons| > 0
        && var p := r.photonMap.photons[|r.photonMap.photons| - 1];
        AddsPhoton(s, r, id, p) && p.photonId == id && 1 <= p.bounce && from <= p.bounce < maxBounces)
  }

  /** A later call with the same id after a store changes nothing, so two effects in a
      row are again one effect. */
  lemma EffectsCompose(s: PhotonState, s1: PhotonState, s2: PhotonState, id: int, from: int, maxBounces: int)
    requires TraceEffect(s, s1, id, from, maxBounces) && TraceEffect(s1, s2, id, from, maxBounces)
    requires id in s1.storedIds ==> s2 == s1
    ensures TraceEffect(s, s2, id, from, maxBounces)
  {
  }

  /** `tracePhoton`: follow one photon from `ray` with `power` at `bounce`. The call
      does nothing from `maxBounces` on or below 1e-6 energy, or when the ray escapes
      or hits an object whose material index is out of range; a dielectric splits it
      into a reflected and a refracted photon; a Lambertian surface may store it and
      then, unless the roulette ends it, sends it on in a cosine-weighted direction;
      any other material absorbs it. */
  function TracePhoton(num: Numerics, optics: Optics, draws: Draws, scene: RenderScene, maxBounces: int,
                       ray: Ray, power: Vec3, bounce: int, id: int, path: seq<Branch>, s: PhotonState): (r: PhotonState)
    requires Typed(scene)
    ensures TraceEffect(s, r, id, bounce, maxBounces)
    ensures id in s.storedIds ==> r == s
    ensures bounce >= maxBounces || Energy(power) < 0.000001 ==> r == s
    decreases maxBounces - bounce, 1
  {
    if bounce >= maxBounces || Energy(power) < 0.000001 then s
    else
      var hit := ClosestObjectHit(num, scene, ray, 0.01);
      if hit.None? then s
      else
        var index := MaterialIndex(hit.value.material);
        if index < 0 || index >= |scene.materials| then s
        else if IsDielectric(scene, index) then
          TraceDielectric(num, optics, draws, scene, maxBounces, ray, power, bounce, id, path, s, hit.value, index)
        else if IsLambertian(scene, index) then
          TraceLambertian(num, optics, draws, scene, maxBounces, ray, power, bounce, id, path, s, hit.value, index)
        else s
  }

  /** The dielectric branch: the Fresnel share of the power is reflected and the rest
      refracted (unless the refraction is total internal reflection), each traced one
      bounce later when its energy exceeds 1e-6. */
  function TraceDielectric(num: Numerics, optics: Optics, draws: Draws, scene: RenderScene, maxBounces: int,
                           ray: Ray, power: Vec3, bounce: int, id: int, path: seq<Branch>, s: PhotonState,
                           hit: HitRecordBase, index: int): (r: PhotonState)
    requires Typed(scene) && bounce < maxBounces && IsDielectric(scene, index)
    ensures TraceEffect(s, r, id, bounce, maxBounces)
    ensures id in s.storedIds ==> r == s
    decreases maxBounces - bounce, 0
  {
    var m := scene.materials[index];
    var ior := Ior(m);
    var fr := optics.fresnel(hit.normal, ray.direction, ior);
    var reflectPower := Scale(fr, power);
    var s1 :=
      if Energy(reflectPower) > 0.000001 then
        TracePhoton(num, optics, draws, scene, maxBounces,
                    Ray(Add(hit.hitPoint, Scale(0.001, hit.normal)), optics.reflect(hit.normal, ray.direction)),
                    reflectPower, bounce + 1, id, path + [Reflected], s)
      else s;
    var refraction := optics.refract(hit.normal, ray.direction, ior);
    var refractPower := Scale(1.0 - fr, power);
    var s2 :=
      if !refraction.totalInternal && Energy(refractPower) > 0.000001 then
        TracePhoton(num, optics, draws, scene, maxBounces,
                    Ray(Sub(hit.hitPoint, Scale(0.001, hit.normal)), refraction.direction),
                    refractPower, bounce + 1, id, path + [Refracted], s1)
      else s1;
    EffectsCompose(s, s1, s2, id, bounce, maxBounces);
    s2
  }

  /** The Lambertian branch: the storing step, then the roulette, then the
      cosine-weighted continuation with power scaled by the albedo over pi and the
      cosine, dropped when the cosine is not positive or the energy falls below 1e-6. */
  function TraceLambertian(num: Numerics, optics: Optics, draws: Draws, scene: RenderScene, maxBounces: int,
                           ray: Ray, power: Vec3, bounce: int, id: int, path: seq<Branch>, s: PhotonState,
                           hit: HitRecordBase, index: int): (r: PhotonState)
    requires Typed(scene) && bounce < maxBounces && IsLambertian(scene, index)
    ensures TraceEffect(s, r, id, bounce, maxBounces)
    ensures id in s.storedIds ==> r == s
    decreases maxBounces - bounce, 0
  {
    var s1 := MaybeStore(s, hit, ray, power, bounce, id, draws.store(id, path));
    if RussianRoulette(bounce, draws.roulette(id, path)) then s1
    else
      var direction := draws.diffuse(id, path, hit.normal);
      var cosTheta := Dot(direction, hit.normal);
      if cosTheta <= 0.0 then s1
      else
        var newPower := Scale(cosTheta, Mul(power, DivScalar(MaterialReflectance(scene, index), Pi)));
        if Energy(newPower) < 0.000001 then s1
        else
          var s2 := TracePhoton(num, optics, draws, scene, maxBounces,
                                Ray(Add(hit.hitPoint, Scale(0.001, hit.normal)), num.normalize(direction)),
                                newPower, bounce + 1, id, path + [Diffuse], s1);
          EffectsCompose(s, s1, s2, id, bounce, maxBounces);
          s2
  }

  // ------------------------------------------------------------ the photon map

  /** The photons hold distinct ids, all in `[0, bound)`. */
  predicate IdsBelow(ps: seq<Photon>, bound: int) {
    (forall k :: 0 <= k < |ps| ==> 0 <= ps[k].photonId < bound)
    && (forall k, l :: 0 <= k < l < |ps| ==> ps[k].photonId != ps[l].photonId)
  }

  /** `buildPhotonMap`. The map is cleared and ids restart at 0; without a point light
      nothing more happens. Otherwise photon `i` for `i` in `[0, photonCount)` leaves the
      first point light in the direction `emission(i)` with a `1/photonCount` share of
      its intensity times 2 pi, and is traced; then the index is built. Returns the
      renderer and the emitted and stored counts. */
  method BuildPhotonMap(num: Numerics, optics: Optics, draws: Draws, emission: int -> Vec3, rr: Renderer)
      returns (r: Renderer, emitted: int, stored: int)
    requires Typed(rr.scene)
    ensures r == rr.(photonMap := r.photonMap, nextPhotonId := r.nextPhotonId)
    ensures rr.scene.pointLightBuffer == [] ==>
      r.photonMap.photons == [] && r.photonMap.index == rr.photonMap.index && r.nextPhotonId == 0 && emitted == 0
    ensures rr.scene.pointLightBuffer != [] ==>
      r.photonMap.index == r.photonMap.photons
      && emitted == (if rr.photonCount < 0 then 0 else rr.photonCount) && r.nextPhotonId == emitted
    ensures stored == |r.photonMap.photons| <= emitted
    ensures IdsBelow(r.photonMap.photons, emitted)
  {
    var cleared := PhotonMaps.Clear(rr.photonMap);
    if rr.scene.pointLightBuffer == [] {
      return rr.(photonMap := cleared, nextPhotonId := 0), 0, 0;
    }
    var light := rr.scene.pointLightBuffer[0];
    var st := PhotonState(cleared, 0, {});
    emitted := 0;
    var i := 0;
    while i < rr.photonCount
      invariant 0 <= i && (rr.photonCount >= 0 ==> i <= rr.photonCount) && (rr.photonCount < 0 ==> i == 0)
      invariant emitted == i
      invariant st.photonMap.index == rr.photonMap.index
      invariant st.storedCount == |st.photonMap.photons| <= i
      invariant IdsBelow(st.photonMap.photons, i)
      decreases rr.photonCount - i
    {
      emitted := emitted + 1;
      var direction := emission(i);
      var power := DivScalar(Scale(2.0 * Pi, light.intensity), rr.photonCount as real);
      var ray := Ray(Add(light.position, Scale(0.001, direction)), direction);
      var st' := TracePhoton(num, optics, draws, rr.scene, rr.maxBounces, ray, power, 0, i, [], st);
      assert st' != st ==> st'.photonMap.photons == st.photonMap.photons + [st'.photonMap.photons[|st'.photonMap.photons| - 1]];
      st := st';
      i := i + 1;
    }
    stored := st.storedCount;
    r := rr.(photonMap := PhotonMaps.BuildIndex(st.photonMap), nextPhotonId := i);
  }
}

=== FILE: rays.dfy ===
/** The ray both renderers trace: an origin and a direction, evaluated at a parameter. */
module Rays {
  import opened Vectors

  /** A ray. The constructor stores both vectors as given; only `SetDirection`
      normalises. */
  datatype Ray = Ray(origin: Vec3, direction: Vec3)

  /** The default ray: origin and direction both zero. */
  function DefaultRay(): (r: Ray)
    ensures r.origin == Zero && r.direction == Zero
    ensures forall t :: PointAt(r, t) == Zero
  {
    Ray(Zero, Zero)
  }

  /** The point `origin + t * direction`. */
  function PointAt(r: Ray, t: real): (p: Vec3)
    ensures Sub(p, r.origin) == Scale(t, r.direction)
  {
    Add(r.origin, Scale(t, r.direction))
  }

  /** `setOrigin`: the origin is replaced and the direction kept. */
  function SetOrigin(r: Ray, o: Vec3): (r': Ray)
    ensures r'.origin == o && r'.direction == r.direction
    ensures PointAt(r', 0.0) == o
  {
    r.(origin := o)
  }

  /** `setDirection`: the direction becomes the normalised vector, the origin is kept;
      normalisation is a parameter of the model. */
  function SetDirection(r: Ray, v: Vec3, normalize: Vec3 -> Vec3): (r': Ray)
    ensures r'.origin == r.origin && r'.direction == normalize(v)
  {
    r.(direction := normalize(v))
  }

  /** Evaluation is affine in the parameter: stepping `s` then `t` along the ray is
      stepping `s + t`, and parameter zero is the origin. */
  lemma AtAffine(r: Ray, s: real, t: real)
    ensures PointAt(r, 0.0) == r.origin
    ensures PointAt(r, s + t) == Add(PointAt(r, s), Scale(t, r.direction))
    ensures PointAt(SetOrigin(r, PointAt(r, s)), t) == PointAt(r, s + t)
  {
  }

  /** Along a ray with a non-zero direction, distinct parameters give distinct points. */
  lemma AtInjective(r: Ray, s: real, t: real)
    requires r.direction != Zero
    ensures PointAt(r, s) == PointAt(r, t) <==> s == t
  {
    if PointAt(r, s) == PointAt(r, t) {
      var d := r.direction;
      assert s * d.x == t * d.x && s * d.y == t * d.y && s * d.z == t * d.z;
      if d.x != 0.0 {
        assert (s - t) * d.x == 0.0;
      } else if d.y != 0.0 {
        assert (s - t) * d.y == 0.0;
      } else {
        assert (s - t) * d.z == 0.0;
      }
    }
  }
}

=== FILE: scene.dfy ===
/** The scene's geometry and light records with their default values, the node that
    places an entity in a model, and the model with its transform. */
module Scene {
  import opened Vectors
  import opened Handles

  datatype Sphere = Sphere(material: Handle, direction: Vec3, position: Vec3, radius: real)

  datatype Triangle = Triangle(material: Handle, v1: Vec3, v2: Vec3, v3: Vec3, normal: Vec3)

  datatype Plane = Plane(material: Handle, normal: Vec3, position: Vec3, u: Vec3, v: Vec3)

  /** An indexed mesh; the index lists refer into the mesh's own attribute lists. */
  datatype Mesh = Mesh(
    material: Handle,
    normals: seq<Vec3>,
    positions: seq<Vec3>,
    uvs: seq<Vec2>,
    normalIndices: seq<nat>,
    positionIndices: seq<nat>,
    uvIndices: seq<nat>)

  datatype NodeType = SPHERE | TRIANGLE | PLANE | MESH

  /** A node: which buffer (`ntype`), which entry in it (`entity`) and which model
      it belongs to. */
  datatype Node = Node(ntype: NodeType, entity: nat, model: nat)

  datatype Model = Model(nodes: seq<nat>, translation: Vec3, scale: Vec3)

  datatype LightType = POINT | SPOT | DIRECTIONAL | AREA

  /** A light: its kind and its index in the buffer of that kind. */
  datatype Light = Light(ltype: LightType, entity: nat)

  datatype PointLight = PointLight(intensity: Vec3, position: Vec3)

  datatype AreaLight = AreaLight(radiance: Vec3, position: Vec3, u: Vec3, v: Vec3)

  datatype DirectionalLight = DirectionalLight(irradiance: Vec3, direction: Vec3)

  datatype SpotLight = SpotLight(intensity: Vec3, position: Vec3, direction: Vec3, hotSpot: real, fallout: real)

  const UnitZ: Vec3 := Vec3(0.0, 0.0, 1.0)
  const One: Vec3 := Vec3(1.0, 1.0, 1.0)

  /** The single-precision value of pi the light defaults use. */
  const LightPi: real := 3.1415926

  function DefaultSphere(): Sphere {
    Sphere(NoHandle, UnitZ, Zero, 0.0)
  }

  function DefaultTriangle(): Triangle {
    Triangle(NoHandle, Zero, Zero, Zero, UnitZ)
  }

  function DefaultPlane(): Plane {
    Plane(NoHandle, UnitZ, Zero, Zero, Zero)
  }

  function DefaultMesh(): Mesh {
    Mesh(NoHandle, [], [], [], [], [], [])
  }

  /** A value-initialised node: a sphere node with both indices zero. */
  function DefaultNode(): Node {
    Node(SPHERE, 0, 0)
  }

  function DefaultModel(): Model {
    Model([], Zero, One)
  }

  function DefaultPointLight(): PointLight {
    PointLight(One, Zero)
  }

  function DefaultAreaLight(): AreaLight {
    AreaLight(One, Zero, Zero, Zero)
  }

  function DefaultDirectionalLight(): DirectionalLight {
    DirectionalLight(One, Zero)
  }

  function DefaultSpotLight(): SpotLight {
    SpotLight(One, Zero, Zero, LightPi / 4.0, LightPi / 3.0)
  }

  /** Vertex `i` of a triangle, the source's `v[i]`. */
  function Vertex(t: Triangle, i: nat): Vec3
    requires i < 3
  {
    if i == 0 then t.v1 else if i == 1 then t.v2 else t.v3
  }

  /** The triangle with vertex `i` replaced. */
  function WithVertex(t: Triangle, i: nat, p: Vec3): (r: Triangle)
    requires i < 3
    ensures Vertex(r, i) == p
    ensures forall k :: 0 <= k < 3 && k != i ==> Vertex(r, k) == Vertex(t, k)
    ensures r.material == t.material && r.normal == t.normal
  {
    if i == 0 then t.(v1 := p) else if i == 1 then t.(v2 := p) else t.(v3 := p)
  }

  /** `Mesh::hasNormal()`. */
  predicate HasNormal(m: Mesh) {
    |m.normals| != 0
  }

  /** `Mesh::hasUv()`. */
  predicate HasUv(m: Mesh) {
    |m.uvs| != 0
  }

  /** What the defaults mean: a default model's transform leaves every point where
      it is, a default triangle is collapsed at the origin with unit normal +z, a
      default sphere is a point at the origin facing +z, a default node is a sphere
      node, and a default spot light's hot spot is narrower than its fall-off. */
  lemma DefaultGeometry(p: Vec3)
    ensures Add(p, DefaultModel().translation) == p
    ensures Mul(p, DefaultModel().scale) == p
    ensures |DefaultModel().nodes| == 0
    ensures forall i :: 0 <= i < 3 ==> Vertex(DefaultTriangle(), i) == Zero
    ensures Dot(DefaultTriangle().normal, DefaultTriangle().normal) == 1.0 && DefaultTriangle().normal.z == 1.0
    ensures DefaultSphere().radius == 0.0 && DefaultSphere().position == Zero && DefaultSphere().direction == UnitZ
    ensures DefaultNode().ntype == SPHERE
    ensures !DefaultSphere().material.Valid() && !DefaultTriangle().material.Valid()
    ensures 0.0 < DefaultSpotLight().hotSpot < DefaultSpotLight().fallout
    ensures !HasNormal(DefaultMesh()) && !HasUv(DefaultMesh())
  {
  }
}

=== FILE: scene_builder.dfy ===
/** The scene builder: the copy from the asset container to the scene a renderer
    reads, which fails when a node's geometry has no material. */
module SceneBuild {
  import opened Optional
  import opened Vectors
  import opened Handles
  import opened Scene
  import opened Materials
  import opened Assets

  /** The render settings the builder copies. */
  datatype RenderOption = RenderOption(depth: int, samplesPerPixel: int, width: int, height: int)

  /** The viewing camera, copied as a whole. */
  datatype Camera = Camera(position: Vec3, up: Vec3, lookAt: Vec3, fov: real, aperture: real,
                           focusDistance: real, aspect: real)

  /** The ambient kind chosen in the settings. */
  datatype AmbientSetting = ConstantSetting | MapSetting

  datatype AmbientSettings = AmbientSettings(kind: AmbientSetting, ambient: Vec3, mapTexture: Handle)

  /** The scene's ambient kind; the spelling `ENVIROMENT_MAP` is the program's. */
  datatype AmbientType = CONSTANT | ENVIROMENT_MAP

  datatype Ambient = Ambient(atype: AmbientType, constant: Vec3, environmentMap: Handle)

  /** The scene a renderer reads: settings, camera, ambient, and one buffer per asset
      list. */
  datatype RenderScene = RenderScene(
    renderOption: RenderOption,
    camera: Camera,
    ambient: Ambient,
    materials: seq<Material>,
    textures: seq<TextureItem>,
    models: seq<Model>,
    nodes: seq<Node>,
    lights: seq<Light>,
    sphereBuffer: seq<Sphere>,
    triangleBuffer: seq<Triangle>,
    planeBuffer: seq<Plane>,
    meshBuffer: seq<Mesh>,
    pointLightBuffer: seq<PointLight>,
    areaLightBuffer: seq<AreaLight>,
    directionalLightBuffer: seq<DirectionalLight>,
    spotLightBuffer: seq<SpotLight>)

  /** Every node names an entry of the buffer its type selects (the program indexes
      the buffer without a check). */
  predicate NodesResolve(a: Asset) {
    forall i :: 0 <= i < |a.nodeItems| ==> EntityInRange(a, a.nodeItems[i].node)
  }

  predicate EntityInRange(a: Asset, n: Node) {
    match n.ntype
    case SPHERE => n.entity < |a.spheres|
    case TRIANGLE => n.entity < |a.triangles|
    case PLANE => n.entity < |a.planes|
    case MESH => n.entity < |a.meshes|
  }

  /** The material handle of the entity a node names. */
  function EntityMaterial(a: Asset, n: Node): Handle
    requires EntityInRange(a, n)
  {
    match n.ntype
    case SPHERE => a.spheres[n.entity].material
    case TRIANGLE => a.triangles[n.entity].material
    case PLANE => a.planes[n.entity].material
    case MESH => a.meshes[n.entity].material
  }

  /** The condition `build` checks: every node's entity has a valid material. */
  predicate AllMaterialsValid(a: Asset)
    requires NodesResolve(a)
  {
    forall i :: 0 <= i < |a.nodeItems| ==> EntityMaterial(a, a.nodeItems[i].node).Valid()
  }

  /** `buildRenderOption`: the four settings copied field by field. */
  function BuildRenderOption(settings: RenderOption): (ro: RenderOption)
    ensures ro.depth == settings.depth && ro.samplesPerPixel == settings.samplesPerPixel
    ensures ro.width == settings.width && ro.height == settings.height
  {
    RenderOption(settings.depth, settings.samplesPerPixel, settings.width, settings.height)
  }

  /** `buildAmbient`: the constant and the map handle are copied; a constant setting
      gives a constant ambient and any other an environment map. */
  function BuildAmbient(s: AmbientSettings): (r: Ambient)
    ensures r.constant == s.ambient && r.environmentMap == s.mapTexture
    ensures r.atype == CONSTANT <==> s.kind == ConstantSetting
  {
    Ambient(if s.kind == ConstantSetting then CONSTANT else ENVIROMENT_MAP, s.ambient, s.mapTexture)
  }

  /** The node loop of `buildBuffer`: the nodes are copied in order, and the flag stays
      set exactly when every node's entity has a valid material. */
  method CopyNodes(a: Asset) returns (nodes: seq<Node>, success: bool)
    requires NodesResolve(a)
    ensures |nodes| == |a.nodeItems|
    ensures forall i :: 0 <= i < |nodes| ==> nodes[i] == a.nodeItems[i].node
    ensures success <==> AllMaterialsValid(a)
  {
    nodes := [];
    success := true;
    var k := 0;
    while k < |a.nodeItems|
      invariant 0 <= k <= |a.nodeItems|
      invariant |nodes| == k
      invariant forall i :: 0 <= i < k ==> nodes[i] == a.nodeItems[i].node
      invariant success <==> forall i :: 0 <= i < k ==> EntityMaterial(a, a.nodeItems[i].node).Valid()
    {
      var n := a.nodeItems[k].node;
      nodes := nodes + [n];
      if n.ntype == SPHERE && !a.spheres[n.entity].material.Valid() {
        success := false;
      }
      if n.ntype == PLANE && !a.planes[n.entity].material.Valid() {
        success := false;
      }
      if n.ntype == TRIANGLE && !a.triangles[n.entity].material.Valid() {
        success := false;
      }
      if n.ntype == MESH && !a.meshes[n.entity].material.Valid() {
        success := false;
      }
      k := k + 1;
    }
  }

  /** The item lists unwrapped, in order. */
  function MaterialsOf(items: seq<MaterialItem>): (r: seq<Material>)
    ensures |r| == |items| && forall i :: 0 <= i < |items| ==> r[i] == items[i].material
  {
    if items == [] then [] else [items[0].material] + MaterialsOf(items[1..])
  }

  function ModelsOf(items: seq<ModelItem>): (r: seq<Model>)
    ensures |r| == |items| && forall i :: 0 <= i < |items| ==> r[i] == items[i].model
  {
    if items == [] then [] else [items[0].model] + ModelsOf(items[1..])
  }

  function LightsOf(items: seq<LightItem>): (r: seq<Light>)
    ensures |r| == |items| && forall i :: 0 <= i < |items| ==> r[i] == items[i].light
  {
    if items == [] then [] else [items[0].light] + LightsOf(items[1..])
  }

  /** `build`: the scene assembled from the settings, the camera, the asset and the
      ambient settings, or none when some node's entity lacks a material. The flag
      starts set. */
  method Build(settings: RenderOption, camera: Camera, ambient: AmbientSettings, a: Asset)
    returns (r: Option<RenderScene>)
    requires NodesResolve(a)
    ensures r.None? <==> !AllMaterialsValid(a)
    ensures r.Some? ==> SceneOf(r.value, settings, camera, ambient, a)
  {
    var nodes, success := CopyNodes(a);
    var scene := RenderScene(
      BuildRenderOption(settings), camera, BuildAmbient(ambient),
      MaterialsOf(a.materialItems), a.textureItems, ModelsOf(a.modelItems), nodes, LightsOf(a.lightItems),
      a.spheres, a.triangles, a.planes, a.meshes,
      a.pointLights, a.areaLights, a.directionalLights, a.spotLights);
    if success {
      r := Some(scene);
    } else {
      r := None;
    }
  }

  /** What a built scene holds: the settings, the camera and the ambient as given, and
      every buffer an element-wise copy of its asset list, same length, same order. */
  predicate SceneOf(s: RenderScene, settings: RenderOption, camera: Camera, ambient: AmbientSettings, a: Asset) {
    s.renderOption == settings && s.camera == camera
    && s.ambient.constant == ambient.ambient && s.ambient.environmentMap == ambient.mapTexture
    && (s.ambient.atype == CONSTANT <==> ambient.kind == ConstantSetting)
    && |s.materials| == |a.materialItems| && (forall i :: 0 <= i < |s.materials| ==> s.materials[i] == a.materialItems[i].material)
    && s.textures == a.textureItems
    && |s.models| == |a.modelItems| && (forall i :: 0 <= i < |s.models| ==> s.models[i] == a.modelItems[i].model)
    && |s.nodes| == |a.nodeItems| && (forall i :: 0 <= i < |s.nodes| ==> s.nodes[i] == a.nodeItems[i].node)
    && |s.lights| == |a.lightItems| && (forall i :: 0 <= i < |s.lights| ==> s.lights[i] == a.lightItems[i].light)
    && s.sphereBuffer == a.spheres && s.triangleBuffer == a.triangles
    && s.planeBuffer == a.planes && s.meshBuffer == a.meshes
    && s.pointLightBuffer == a.pointLights && s.areaLightBuffer == a.areaLights
    && s.directionalLightBuffer == a.directionalLights && s.spotLightBuffer == a.spotLights
  }
}

=== FILE: scn_importer.dfy ===
/** The scene-file importer. A scene file is read line by line at top level, where
    `Begin Material`, `Begin Model` and `Begin Light` enter a section that runs until
    `End`. The sections are modelled as modes of one line-by-line state machine: the
    section parsers read on from the same stream, and their local state (the current
    material, the current node kind, the current light kind) starts afresh at every
    `Begin`. On failure every asset list is cut back to its length before the import. */
module ScnImport {
  import opened Optional
  import opened Vectors
  import opened Handles
  import opened Materials
  import opened Scene
  import opened Assets
  import opened Tokens

  const SyntaxError: string := "Syntax Error!"
  const InvalidMaterialName: string := "Invalid material name."
  const DuplicatedKey: string := "Duplicated Material Key:"
  const FileMissing: string := "File does not exist!"

  /** Where the parser is: at top level, or inside a section with that section's
      local state. The node kind is the parser's `currNodeType` (0 sphere, 1 triangle,
      2 plane) and the light kind its `currLightType` (0 point, 1 area, 2 directional,
      3 spot); `current` is the index of the material last declared in this section. */
  datatype Mode = Top | InMaterial(current: Option<nat>) | InModel(nodeKind: int) | InLight(lightKind: int)

  /** The asset being filled, the names declared so far in this file, and the mode. */
  datatype State = State(asset: Asset, mtlMap: map<string, nat>, mode: Mode)

  /** One line's effect: go on, fail (with the error text it records, or none when
      the previous error text is left in place), or undefined behaviour (a
      dereference of an empty list's last element or of a null material). */
  datatype Step = Next(state: State) | Fail(state: State, message: Option<string>) | Undefined

  datatype ImportResult = Imported(asset: Asset) | Failed(asset: Asset, message: Option<string>) | UndefinedBehaviour

  /** The current material, when there is one, is an entry of the material list. */
  predicate WellFormed(s: State) {
    s.mode.InMaterial? && s.mode.current.Some? ==> s.mode.current.value < |s.asset.materialItems|
  }

  function Last<T>(s: seq<T>): T
    requires |s| > 0
  {
    s[|s| - 1]
  }

  /** `s` with its last element replaced. */
  function SetLast<T>(s: seq<T>, x: T): (r: seq<T>)
    requires |s| > 0
    ensures |r| == |s| && r[..|s| - 1] == s[..|s| - 1] && r[|s| - 1] == x
  {
    s[|s| - 1 := x]
  }

  predicate Grows(before: Asset, after: Asset) {
    AtLeast(after, SizesOf(before))
  }

  function TopStep(s: State, line: Line): (r: Step)
    requires s.mode.Top?
    ensures r.Next? ==> r.state.asset == s.asset && r.state.mtlMap == s.mtlMap && WellFormed(r.state)
    ensures r.Fail? ==> r.state == s
    ensures !r.Undefined?
  {
    var token := Word(line, 0);
    if token == "" || token[0] == '#' then Next(s)
    else if token == "Begin" then
      var block := WordOr(line, 1, "Begin");
      if block == "Material" then Next(s.(mode := InMaterial(None)))
      else if block == "Model" then Next(s.(mode := InModel(0)))
      else if block == "Light" then Next(s.(mode := InLight(0)))
      else Fail(s, None)
    else Fail(s, Some(SyntaxError))
  }

  /** The value a `Prop` line gives for its type name, or none for a type name the
      parser does not know. */
  function PropValue(typeName: string, line: Line): (r: Option<Wrapper>)
    ensures r.None? <==> typeName !in {"Int", "Float", "Vec3", "Vec4", "RGB", "RGBA"}
    ensures typeName == "Int" ==> r.value.IntType? && -0x8000_0000 <= r.value.i <= 0x7FFF_FFFF
    ensures typeName == "Int" && -0x8000_0000 <= Int(line, 3) <= 0x7FFF_FFFF ==> r.value.i == Int(line, 3)
  {
    if typeName == "Int" then Some(IntType(ReadInt32(Int(line, 3))))
    else if typeName == "Float" then Some(FloatType(Num(line, 3)))
    else if typeName == "Vec3" then Some(Vec3Type(Vec3At(line, 3)))
    else if typeName == "Vec4" then Some(Vec4Type(Vec4At(line, 3)))
    else if typeName == "RGB" then Some(RGBType(Vec3At(line, 3)))
    else if typeName == "RGBA" then Some(RGBAType(Vec4At(line, 3)))
    else None
  }

  function MaterialStep(s: State, line: Line): (r: Step)
    requires s.mode.InMaterial? && WellFormed(s)
    ensures r.Next? ==> WellFormed(r.state) && Grows(s.asset, r.state.asset)
    ensures r.Fail? ==> Grows(s.asset, r.state.asset)
  {
    var token := Word(line, 0);
    var a := s.asset;
    if token == "" || token[0] == '#' then Next(s)
    else if token == "Material" then
      var name := Word(line, 1);
      var index := |a.materialItems|;
      if name in s.mtlMap then
        var pushed := a.(materialItems := a.materialItems + [MaterialItem(name, DefaultMaterial())]);
        Fail(State(pushed, s.mtlMap, InMaterial(Some(index))), Some(DuplicatedKey + name))
      else
        var mtype := if |line| > 2 then ReadUnsigned32(line[2].integer) else 0;
        var pushed := a.(materialItems := a.materialItems + [MaterialItem(name, Material(mtype, []))]);
        Next(State(pushed, s.mtlMap[name := index], InMaterial(Some(index))))
    else if token == "Prop" then
      match PropValue(Word(line, 2), line)
      case None => Next(s)
      case Some(w) =>
        match s.mode.current
        case None => Undefined
        case Some(i) =>
          var item := a.materialItems[i];
          var m := Register(item.material, Word(line, 1), w).0;
          Next(s.(asset := a.(materialItems := a.materialItems[i := item.(material := m)])))
    else if token == "End" then Next(s.(mode := Top))
    else Fail(s, None)
  }

  /** The `Sphere`, `Triangle` and `Plane` lines: a node of kind `kind` in the last
      model, using the named material. */
  function AddNode(s: State, line: Line, kind: NodeType, code: int): (r: Step)
    requires kind in {SPHERE, TRIANGLE, PLANE}
    ensures r.Next? ==> Grows(s.asset, r.state.asset) && r.state.mode == InModel(code) && r.state.mtlMap == s.mtlMap
    ensures r.Fail? ==> r.state.asset == s.asset
    ensures r.Fail? <==> Word(line, 2) !in s.mtlMap
    ensures r.Undefined? <==> Word(line, 2) in s.mtlMap && |s.asset.modelItems| == 0
  {
    var a := s.asset;
    var mtlName := Word(line, 2);
    if mtlName !in s.mtlMap then Fail(s.(mode := InModel(code)), Some(InvalidMaterialName))
    else if |a.modelItems| == 0 then Undefined
    else
      var owner := Last(a.modelItems);
      var models := SetLast(a.modelItems, owner.(model := owner.model.(nodes := owner.model.nodes + [|a.nodeItems|])));
      var handle := At(s.mtlMap[mtlName]);
      var entity := if kind == SPHERE then |a.spheres| else if kind == TRIANGLE then |a.triangles| else |a.planes|;
      var node := NodeItem(WordOr(line, 1, DefaultName), Node(kind, entity, |a.modelItems| - 1));
      var withNode := a.(modelItems := models, nodeItems := a.nodeItems + [node]);
      var a' :=
        if kind == SPHERE then withNode.(spheres := a.spheres + [DefaultSphere().(material := handle)])
        else if kind == TRIANGLE then withNode.(triangles := a.triangles + [DefaultTriangle().(material := handle)])
        else withNode.(planes := a.planes + [DefaultPlane().(material := handle)]);
      Next(State(a', s.mtlMap, InModel(code)))
  }

  function ModelStep(s: State, line: Line): (r: Step)
    requires s.mode.InModel?
    ensures r.Next? ==> Grows(s.asset, r.state.asset) && WellFormed(r.state)
    ensures r.Fail? ==> Grows(s.asset, r.state.asset)
  {
    var token := Word(line, 0);
    var a := s.asset;
    var kind := s.mode.nodeKind;
    var v := Vec3At(line, 1);
    if token == "" || token[0] == '#' then Next(s)
    else if token == "Model" then
      Next(s.(asset := a.(modelItems := a.modelItems + [ModelItem(WordOr(line, 1, DefaultName), DefaultModel())])))
    else if token == "Translation" || token == "Scale" then
      if |a.modelItems| == 0 then Undefined
      else
        var item := Last(a.modelItems);
        var model := if token == "Translation" then item.model.(translation := v) else item.model.(scale := v);
        Next(s.(asset := a.(modelItems := SetLast(a.modelItems, item.(model := model)))))
    else if token == "Sphere" then AddNode(s, line, SPHERE, 0)
    else if token == "Triangle" then AddNode(s, line, TRIANGLE, 1)
    else if token == "Plane" then AddNode(s, line, PLANE, 2)
    else if token == "R" then
      if |a.spheres| == 0 then Undefined
      else Next(s.(asset := a.(spheres := SetLast(a.spheres, Last(a.spheres).(radius := Num(line, 1))))))
    else if token == "N" then
      if kind == 0 then
        if |a.spheres| == 0 then Undefined
        else Next(s.(asset := a.(spheres := SetLast(a.spheres, Last(a.spheres).(direction := v)))))
      else if kind == 1 then
        if |a.triangles| == 0 then Undefined
        else Next(s.(asset := a.(triangles := SetLast(a.triangles, Last(a.triangles).(normal := v)))))
      else if kind == 2 then
        if |a.planes| == 0 then Undefined
        else Next(s.(asset := a.(planes := SetLast(a.planes, Last(a.planes).(normal := v)))))
      else Next(s)
    else if token == "V1" || token == "V2" || token == "V3" then
      if |a.triangles| == 0 then Undefined
      else
        var i := if token == "V1" then 0 else if token == "V2" then 1 else 2;
        Next(s.(asset := a.(triangles := SetLast(a.triangles, WithVertex(Last(a.triangles), i, v)))))
    else if token == "P" then
      if kind == 0 then
        if |a.spheres| == 0 then Undefined
        else Next(s.(asset := a.(spheres := SetLast(a.spheres, Last(a.spheres).(position := v)))))
      else if kind == 2 then
        if |a.planes| == 0 then Undefined
        else Next(s.(asset := a.(planes := SetLast(a.planes, Last(a.planes).(position := v)))))
      else Next(s)
    else if token == "U" || token == "V" then
      if |a.planes| == 0 then Undefined
      else
        var p := Last(a.planes);
        Next(s.(asset := a.(planes := SetLast(a.planes, if token == "U" then p.(u := v) else p.(v := v)))))
    else if token == "End" then Next(s.(mode := Top))
    else Fail(s, Some(SyntaxError))
  }

  /** The `Point`, `Spot`, `Directional` and `Area` lines: a light item and a default
      light of that kind. */
  function AddLight(s: State, line: Line, code: int): (r: Step)
    requires code in {0, 1, 2, 3}
    ensures r.Next? && Grows(s.asset, r.state.asset) && r.state.mode == InLight(code)
    ensures |r.state.asset.lightItems| == |s.asset.lightItems| + 1
  {
    var a := s.asset;
    var name := Word(line, 1);
    var a' :=
      if code == 0 then
        a.(lightItems := a.lightItems + [LightItem(name, Light(POINT, |a.pointLights|))],
           pointLights := a.pointLights + [DefaultPointLight()])
      else if code == 3 then
        a.(lightItems := a.lightItems + [LightItem(name, Light(SPOT, |a.spotLights|))],
           spotLights := a.spotLights + [DefaultSpotLight()])
      else if code == 2 then
        a.(lightItems := a.lightItems + [LightItem(name, Light(DIRECTIONAL, |a.directionalLights|))],
           directionalLights := a.directionalLights + [DefaultDirectionalLight()])
      else
        a.(lightItems := a.lightItems + [LightItem(name, Light(AREA, |a.areaLights|))],
           areaLights := a.areaLights + [DefaultAreaLight()]);
    Next(State(a', s.mtlMap, InLight(code)))
  }

  function LightStep(s: State, line: Line): (r: Step)
    requires s.mode.InLight?
    ensures r.Next? ==> Grows(s.asset, r.state.asset) && WellFormed(r.state)
    ensures r.Fail? ==> Grows(s.asset, r.state.asset)
  {
    var token := Word(line, 0);
    var a := s.asset;
    var kind := s.mode.lightKind;
    var v := Vec3At(line, 1);
    if token == "" || token[0] == '#' then Next(s)
    else if token == "Point" then AddLight(s, line, 0)
    else if token == "Spot" then AddLight(s, line, 3)
    else if token == "Directional" then AddLight(s, line, 2)
    else if token == "Area" then AddLight(s, line, 1)
    else if token == "IRV" then
      if kind == 0 then
        if |a.pointLights| == 0 then Undefined
        else Next(s.(asset := a.(pointLights := SetLast(a.pointLights, Last(a.pointLights).(intensity := v)))))
      else if kind == 1 then
        if |a.areaLights| == 0 then Undefined
        else Next(s.(asset := a.(areaLights := SetLast(a.areaLights, Last(a.areaLights).(radiance := v)))))
      else if kind == 2 then
        if |a.directionalLights| == 0 then Undefined
        else Next(s.(asset := a.(directionalLights := SetLast(a.directionalLights, Last(a.directionalLights).(irradiance := v)))))
      else if kind == 3 then
        if |a.spotLights| == 0 then Undefined
        else Next(s.(asset := a.(spotLights := SetLast(a.spotLights, Last(a.spotLights).(intensity := v)))))
      else Next(s)
    else if token == "P" then
      if kind == 0 then
        if |a.pointLights| == 0 then Undefined
        else Next(s.(asset := a.(pointLights := SetLast(a.pointLights, Last(a.pointLights).(position := v)))))
      else if kind == 1 then
        if |a.areaLights| == 0 then Undefined
        else Next(s.(asset := a.(areaLights := SetLast(a.areaLights, Last(a.areaLights).(position := v)))))
      else if kind == 3 then
        if |a.spotLights| == 0 then Undefined
        else Next(s.(asset := a.(spotLights := SetLast(a.spotLights, Last(a.spotLights).(position := v)))))
      else Next(s)
    else if token == "D" then
      // Both the directional and the spot case write the last directional light.
      if kind == 2 || kind == 3 then
        if |a.directionalLights| == 0 then Undefined
        else Next(s.(asset := a.(directionalLights := SetLast(a.directionalLights, Last(a.directionalLights).(direction := v)))))
      else Next(s)
    else if token == "HotSpot" || token == "Fallout" then
      if |a.spotLights| == 0 then Undefined
      else
        var spot := Last(a.spotLights);
        var spot' := if token == "HotSpot" then spot.(hotSpot := Num(line, 1)) else spot.(fallout := Num(line, 1));
        Next(s.(asset := a.(spotLights := SetLast(a.spotLights, spot'))))
    else if token == "U" || token == "V" then
      if |a.areaLights| == 0 then Undefined
      else
        var area := Last(a.areaLights);
        Next(s.(asset := a.(areaLights := SetLast(a.areaLights, if token == "U" then area.(u := v) else area.(v := v)))))
    else if token == "End" then Next(s.(mode := Top))
    else Fail(s, Some(SyntaxError))
  }

  /** One line in whatever mode the parser is in. */
  function StepLine(s: State, line: Line): (r: Step)
    requires WellFormed(s)
    ensures r.Next? ==> Grows(s.asset, r.state.asset) && WellFormed(r.state)
    ensures r.Fail? ==> Grows(s.asset, r.state.asset)
  {
    match s.mode
    case Top => TopStep(s, line)
    case InMaterial(_) => MaterialStep(s, line)
    case InModel(_) => ModelStep(s, line)
    case InLight(_) => LightStep(s, line)
  }

  /** The lines in order, stopping at the first failure; every list only grows. */
  function Run(s: State, lines: seq<Line>): (r: Step)
    requires WellFormed(s)
    ensures r.Next? ==> Grows(s.asset, r.state.asset) && WellFormed(r.state)
    ensures r.Fail? ==> Grows(s.asset, r.state.asset)
    decreases |lines|
  {
    if |lines| == 0 then Next(s)
    else
      match StepLine(s, lines[0])
      case Next(s') => Run(s', lines[1..])
      case Fail(s', m) => Fail(s', m)
      case Undefined => Undefined
  }

  /** `ScnImporter::import`, with the file given as its lines or as `None` when it
      cannot be opened. */
  function Import(asset: Asset, file: Option<seq<Line>>): (r: ImportResult)
    ensures file.None? ==> r == Failed(asset, Some(FileMissing))
    ensures r.Failed? ==> SizesOf(r.asset) == SizesOf(asset)
    ensures r.Imported? ==> Grows(asset, r.asset)
  {
    if file.None? then Failed(asset, Some(FileMissing))
    else
      match Run(State(asset, map[], Top), file.value)
      case Next(s) => Imported(s.asset)
      case Fail(s, m) => Failed(Truncate(s.asset, SizesOf(asset)), m)
      case Undefined => UndefinedBehaviour
  }

  /** The importer's line loop, written as a loop over the file's lines. */
  method ImportLines(asset: Asset, lines: seq<Line>) returns (r: ImportResult)
    ensures r == Import(asset, Some(lines))
    ensures r.Failed? ==> SizesOf(r.asset) == SizesOf(asset)
  {
    var s := State(asset, map[], Top);
    var i := 0;
    while i < |lines|
      invariant 0 <= i <= |lines|
      invariant WellFormed(s)
      invariant Run(State(asset, map[], Top), lines) == Run(s, lines[i..])
      invariant Grows(asset, s.asset)
    {
      assert lines[i..][1..] == lines[i + 1..];
      var step := StepLine(s, lines[i]);
      match step {
        case Next(s') =>
          s := s';
        case Fail(s', m) =>
          return Failed(Truncate(s'.asset, SizesOf(asset)), m);
        case Undefined =>
          return UndefinedBehaviour;
      }
      i := i + 1;
    }
    return Imported(s.asset);
  }
}

=== FILE: scn_properties.dfy ===
/** Properties of the scene-file importer: skipped lines, the accepted top-level
    forms, section ends, material naming, the spot-light direction quirk, and what
    the rollback does and does not undo. */
module ScnProperties {
  import opened Optional
  import opened Vectors
  import opened Handles
  import opened Materials
  import opened Scene
  import opened Assets
  import opened Tokens
  import opened ScnImport

  /** The first tokens a section accepts. */
  function SectionKeywords(m: Mode): set<string> {
    match m
    case Top => {"Begin"}
    case InMaterial(_) => {"Material", "Prop", "End"}
    case InModel(_) => {"Model", "Translation", "Scale", "Sphere", "Triangle", "Plane", "R", "N",
                        "V1", "V2", "V3", "P", "U", "V", "End"}
    case InLight(_) => {"Point", "Spot", "Directional", "Area", "IRV", "P", "D", "HotSpot", "Fallout",
                        "U", "V", "End"}
  }

  /** Empty lines and comment lines change nothing, at top level and in every section. */
  lemma SkipLinesAreNoOps(s: State, line: Line)
    requires WellFormed(s) && IsSkip(line)
    ensures StepLine(s, line) == Next(s)
  {
  }

  /** A line whose first token the current mode does not know fails, with
      "Syntax Error!" except inside a material section, which fails without a message. */
  lemma UnknownLinesFail(s: State, line: Line)
    requires WellFormed(s) && !IsSkip(line) && Word(line, 0) !in SectionKeywords(s.mode)
    ensures StepLine(s, line).Fail?
    ensures StepLine(s, line).state == s
    ensures StepLine(s, line).message == if s.mode.InMaterial? then None else Some(SyntaxError)
  {
    match s.mode
    case Top => UnknownTopFails(s, line);
    case InMaterial(_) => UnknownMaterialFails(s, line);
    case InModel(_) => UnknownModelFails(s, line);
    case InLight(_) => UnknownLightFails(s, line);
  }

  lemma UnknownTopFails(s: State, line: Line)
    requires WellFormed(s) && s.mode.Top? && !IsSkip(line) && Word(line, 0) !in SectionKeywords(s.mode)
    ensures TopStep(s, line) == Fail(s, Some(SyntaxError))
  {
  }

  lemma UnknownMaterialFails(s: State, line: Line)
    requires WellFormed(s) && s.mode.InMaterial? && !IsSkip(line) && Word(line, 0) !in SectionKeywords(s.mode)
    ensures MaterialStep(s, line) == Fail(s, None)
  {
  }

  lemma UnknownModelFails(s: State, line: Line)
    requires WellFormed(s) && s.mode.InModel? && !IsSkip(line) && Word(line, 0) !in SectionKeywords(s.mode)
    ensures ModelStep(s, line) == Fail(s, Some(SyntaxError))
  {
  }

  lemma UnknownLightFails(s: State, line: Line)
    requires WellFormed(s) && s.mode.InLight? && !IsSkip(line) && Word(line, 0) !in SectionKeywords(s.mode)
    ensures LightStep(s, line) == Fail(s, Some(SyntaxError))
  {
  }

  /** At top level only `Begin Material`, `Begin Model` and `Begin Light` are accepted;
      another block name fails without a message. */
  lemma TopLevelForms(s: State, line: Line)
    requires s.mode.Top? && Word(line, 0) == "Begin"
    ensures StepLine(s, line).Next? <==> WordOr(line, 1, "Begin") in {"Material", "Model", "Light"}
    ensures WordOr(line, 1, "Begin") == "Material" ==> StepLine(s, line) == Next(s.(mode := InMaterial(None)))
    ensures WordOr(line, 1, "Begin") == "Model" ==> StepLine(s, line) == Next(s.(mode := InModel(0)))
    ensures WordOr(line, 1, "Begin") == "Light" ==> StepLine(s, line) == Next(s.(mode := InLight(0)))
    ensures StepLine(s, line).Fail? ==> StepLine(s, line).message.None?
  {
  }

  /** `End` closes any section and returns to top level without other changes. */
  lemma EndClosesSection(s: State, line: Line)
    requires WellFormed(s) && !s.mode.Top? && Word(line, 0) == "End"
    ensures StepLine(s, line) == Next(s.(mode := Top))
  {
  }

  /** A `Material` line: a name already declared in this file fails with
      "Duplicated Material Key:" and the name; a new name is recorded with the index
      the new item gets, and the type is 0 unless a third token gives it. */
  lemma MaterialDeclaration(s: State, line: Line)
    requires s.mode.InMaterial? && WellFormed(s) && Word(line, 0) == "Material"
    ensures Word(line, 1) in s.mtlMap ==>
      StepLine(s, line).Fail? && StepLine(s, line).message == Some(DuplicatedKey + Word(line, 1))
    ensures Word(line, 1) !in s.mtlMap ==>
      var r := StepLine(s, line);
      var n := |s.asset.materialItems|;
      r.Next? && r.state.mtlMap == s.mtlMap[Word(line, 1) := n]
      && |r.state.asset.materialItems| == n + 1
      && r.state.asset.materialItems[n].name == Word(line, 1)
      && r.state.asset.materialItems[n].material.mtype == (if |line| <= 2 then 0 else ReadUnsigned32(line[2].integer))
      && r.state.asset.materialItems[n].material.properties == []
  {
  }

  /** A `Prop` line with a type name outside Int/Float/Vec3/Vec4/RGB/RGBA is ignored,
      even before any material is declared. */
  lemma UnknownPropTypeIgnored(s: State, line: Line)
    requires s.mode.InMaterial? && WellFormed(s) && Word(line, 0) == "Prop"
    requires Word(line, 2) !in {"Int", "Float", "Vec3", "Vec4", "RGB", "RGBA"}
    ensures StepLine(s, line) == Next(s)
  {
  }

  /** A known `Prop` line registers the property on the current material, where an
      existing key is left as it was. */
  lemma PropRegisters(s: State, line: Line, i: nat)
    requires s.mode == InMaterial(Some(i)) && WellFormed(s) && Word(line, 0) == "Prop"
    requires Word(line, 2) in {"Int", "Float", "Vec3", "Vec4", "RGB", "RGBA"}
    ensures StepLine(s, line).Next?
    ensures var m := StepLine(s, line).state.asset.materialItems[i].material;
      HasProperty(m, Word(line, 1))
      && (HasProperty(s.asset.materialItems[i].material, Word(line, 1)) ==> m == s.asset.materialItems[i].material)
  {
    var w := PropValue(Word(line, 2), line).value;
    RegisterMakesPresent(s.asset.materialItems[i].material, MakeProperty(Word(line, 1), w));
  }

  /** A node line naming a material not declared in this file fails with "Invalid
      material name."; with a declared one, the new node refers to the new entity
      and the last model, and the entity carries that material. */
  lemma NodeMaterialChecked(s: State, line: Line)
    requires s.mode.InModel? && Word(line, 0) == "Sphere"
    ensures Word(line, 2) !in s.mtlMap ==> StepLine(s, line) == Fail(s.(mode := InModel(0)), Some(InvalidMaterialName))
    ensures Word(line, 2) in s.mtlMap && |s.asset.modelItems| > 0 ==>
      var a := StepLine(s, line).state.asset;
      var n := |s.asset.nodeItems|;
      |a.nodeItems| == n + 1
      && a.nodeItems[n].node == Node(SPHERE, |s.asset.spheres|, |s.asset.modelItems| - 1)
      && a.spheres == s.asset.spheres + [DefaultSphere().(material := At(s.mtlMap[Word(line, 2)]))]
      && Last(a.modelItems).model.nodes == Last(s.asset.modelItems).model.nodes + [n]
  {
  }

  /** In a spot-light block, `D` writes the direction of the last directional light
      and leaves every spot light as it was; with no directional light at all the
      access is undefined. */
  lemma SpotDirectionWritesDirectional(s: State, line: Line)
    requires s.mode == InLight(3) && Word(line, 0) == "D"
    ensures |s.asset.directionalLights| == 0 ==> StepLine(s, line).Undefined?
    ensures |s.asset.directionalLights| > 0 ==>
      var a := StepLine(s, line).state.asset;
      a.spotLights == s.asset.spotLights
      && Last(a.directionalLights).direction == Vec3At(line, 1)
      && |a.directionalLights| == |s.asset.directionalLights|
  {
  }

  /** A directional light ignores `P`. */
  lemma DirectionalIgnoresPosition(s: State, line: Line)
    requires s.mode == InLight(2) && Word(line, 0) == "P"
    ensures StepLine(s, line) == Next(s)
  {
  }

  /** Rollback: after a failed import every list has its old length again, and when
      the failed run had only appended, the asset is exactly the old one. */
  lemma RollbackRestoresLengths(asset: Asset, lines: seq<Line>)
    ensures Import(asset, Some(lines)).Failed? ==> SizesOf(Import(asset, Some(lines)).asset) == SizesOf(asset)
    ensures var run := Run(State(asset, map[], Top), lines);
      run.Fail? && Extends(asset, run.state.asset) ==> Import(asset, Some(lines)) == Failed(asset, run.message)
  {
    var run := Run(State(asset, map[], Top), lines);
    if run.Fail? && Extends(asset, run.state.asset) {
      TruncateUndoesAppends(asset, run.state.asset);
    }
  }

  /** The import as evidently intended: a failure leaves the asset exactly as it was,
      including entries that existed before the import. */
  function ImportAtomic(asset: Asset, file: Option<seq<Line>>): (r: ImportResult)
    ensures r.Failed? ==> r.asset == asset
    ensures r.Imported? <==> Import(asset, file).Imported?
    ensures r.Imported? ==> r == Import(asset, file)
    ensures r.Failed? <==> Import(asset, file).Failed?
  {
    match Import(asset, file)
    case Failed(_, m) => Failed(asset, m)
    case other => other
  }

  /** The two agree whenever the failed run only appended, so they differ only on
      edits the run made to entries that were there before. */
  lemma AtomicAgreesOnAppendOnlyRuns(asset: Asset, lines: seq<Line>)
    requires var run := Run(State(asset, map[], Top), lines); run.Fail? ==> Extends(asset, run.state.asset)
    ensures ImportAtomic(asset, Some(lines)) == Import(asset, Some(lines))
  {
    RollbackRestoresLengths(asset, lines);
  }

  /** A file that edits a sphere from an earlier import and then fails: the rollback
      cuts the lists back to their old lengths, but the earlier sphere keeps its new
      radius. */
  lemma RollbackKeepsEditsOfEarlierEntries()
    ensures var before := EmptyAsset().(spheres := [DefaultSphere().(radius := 1.0)]);
      var lines := [[Tok("Begin", 0.0), Tok("Model", 0.0)], [Tok("R", 0.0), Tok("5", 5.0)], [Tok("Bogus", 0.0)]];
      var r := Import(before, Some(lines));
      r.Failed? && r.message == Some(SyntaxError) && r.asset.spheres[0].radius == 5.0 && r.asset != before
      && ImportAtomic(before, Some(lines)).asset == before
  {
    var before := EmptyAsset().(spheres := [DefaultSphere().(radius := 1.0)]);
    var lines := [[Tok("Begin", 0.0), Tok("Model", 0.0)], [Tok("R", 0.0), Tok("5", 5.0)], [Tok("Bogus", 0.0)]];
    var s0 := State(before, map[], Top);
    var s1 := s0.(mode := InModel(0));
    assert StepLine(s0, lines[0]) == Next(s1);
    var s2 := s1.(asset := before.(spheres := [DefaultSphere().(radius := 5.0)]));
    assert StepLine(s1, lines[1]) == Next(s2);
    assert StepLine(s2, lines[2]) == Fail(s2, Some(SyntaxError));
    assert lines[1..][1..] == [lines[2]];
    assert Run(s2, [lines[2]]) == Fail(s2, Some(SyntaxError));
    assert Run(s0, lines) == Fail(s2, Some(SyntaxError));
  }
}

=== FILE: shaders.dfy ===
/** The shaders of both renderers: which shader a material's type selects, the
    ray-casting Lambertian's `shade`, and the path tracer's Lambertian scatter record. */
module Shaders {
  import opened Vectors
  import opened Materials
  import opened Rays
  import opened Numerics

  /** `PI` as both renderers define it. */
  const Pi: real := 3.1415926535898

  /** The shaders the ray-casting renderer can create. */
  datatype ShaderKind = LambertianShader | PhongShader

  /** The ray-casting `ShaderCreator::create`: type 1 selects Phong and every other
      type, Glass's 2 included, falls back to Lambertian. */
  function RayCastShaderFor(m: Material): (r: ShaderKind)
    ensures r == PhongShader <==> m.mtype == 1
  {
    match m.mtype
    case 0 => LambertianShader
    case 1 => PhongShader
    case _ => LambertianShader
  }

  /** No material makes the ray-casting renderer build a Glass shader: a dielectric
      (type 2) is shaded as Lambertian. */
  lemma DielectricShadedAsLambertian(m: Material)
    requires m.mtype == 2
    ensures RayCastShaderFor(m) == LambertianShader
  {
  }

  /** The path tracer's `ShaderCreator::create`: type 0 and every other type give a
      Lambertian (built from the material by `MakePathLambertian`). */
  function PathTracerShaderFor(m: Material): (r: ShaderKind)
    ensures r == LambertianShader
  {
    match m.mtype
    case 0 => LambertianShader
    case _ => LambertianShader
  }

  /** The colour a Lambertian reads from `diffuseColor`, white when the key is absent. */
  function DiffuseOr(m: Material, fallback: Vec3): (r: Vec3)
    requires KeyHasType(m, "diffuseColor", RGB)
    ensures !HasProperty(m, "diffuseColor") ==> r == fallback
    ensures HasProperty(m, "diffuseColor") ==>
      exists i :: 0 <= i < |m.properties| && m.properties[i].key == "diffuseColor"
                  && m.properties[i].valueWrapper == RGBType(r)
  {
    match GetProperty(m, "diffuseColor", RGB)
    case Found(w) => w.rgb
    case _ => fallback
  }

  // ------------------------------------------------------------ ray casting

  /** The ray-casting Lambertian shader. */
  datatype CastLambertian = CastLambertian(diffuseColor: Vec3)

  const White: Vec3 := Vec3(1.0, 1.0, 1.0)

  /** The ray-casting Lambertian constructor. */
  function MakeCastLambertian(m: Material): (r: CastLambertian)
    requires KeyHasType(m, "diffuseColor", RGB)
    ensures !HasProperty(m, "diffuseColor") ==> r.diffuseColor == White
    ensures HasProperty(m, "diffuseColor") ==>
      exists i :: 0 <= i < |m.properties| && m.properties[i].key == "diffuseColor"
                  && m.properties[i].valueWrapper == RGBType(r.diffuseColor)
  {
    CastLambertian(DiffuseOr(m, White))
  }

  /** `Lambertian::shade`: the diffuse colour scaled by the cosine between the light
      direction `out` and the normal, without clamping. */
  function CastShade(l: CastLambertian, inDir: Vec3, out: Vec3, normal: Vec3): (r: Vec3)
  {
    Scale(Dot(out, normal), l.diffuseColor)
  }

  /** The shaded colour does not depend on the incoming direction, vanishes when the
      light direction is perpendicular to the normal, and turns negative (where the
      colour is positive) when the light is behind the surface. */
  lemma CastShadeProperties(l: CastLambertian, inDir: Vec3, inDir': Vec3, out: Vec3, normal: Vec3)
    ensures CastShade(l, inDir, out, normal) == CastShade(l, inDir', out, normal)
    ensures Dot(out, normal) == 0.0 ==> CastShade(l, inDir, out, normal) == Zero
    ensures Dot(out, normal) < 0.0 && l.diffuseColor.x > 0.0 ==> CastShade(l, inDir, out, normal).x < 0.0
    ensures Dot(out, normal) > 0.0 && l.diffuseColor.x > 0.0 ==> CastShade(l, inDir, out, normal).x > 0.0
  {
  }

  // ------------------------------------------------------------ path tracing

  /** The path tracer's Lambertian shader. */
  datatype PathLambertian = PathLambertian(albedo: Vec3)

  /** The path tracer's Lambertian constructor. */
  function MakePathLambertian(m: Material): (r: PathLambertian)
    requires KeyHasType(m, "diffuseColor", RGB)
    ensures !HasProperty(m, "diffuseColor") ==> r.albedo == White
    ensures HasProperty(m, "diffuseColor") ==>
      exists i :: 0 <= i < |m.properties| && m.properties[i].key == "diffuseColor"
                  && m.properties[i].valueWrapper == RGBType(r.albedo)
  {
    PathLambertian(DiffuseOr(m, White))
  }

  /** `Scattered`: the outgoing ray, the BRDF, the emitted light and the density. */
  datatype Scattered = Scattered(ray: Ray, attenuation: Vec3, emitted: Vec3, pdf: real)

  /** The sampling the shader does not compute: a point of the hemisphere and the
      orthonormal basis's `local`. */
  datatype Hemisphere = Hemisphere(sample: Vec3, local: (Vec3, Vec3) -> Vec3)

  /** `Lambertian::shade` of the path tracer: the scattered ray leaves from the hit
      point in the sampled direction, with a uniform hemisphere density and the
      albedo over pi as BRDF, and the surface emits nothing. */
  function Scatter(num: Numerics, l: PathLambertian, hitPoint: Vec3, normal: Vec3, h: Hemisphere): (r: Scattered)
    ensures r.ray.origin == hitPoint && r.ray.direction == num.normalize(h.local(normal, h.sample))
    ensures r.emitted == Zero
    ensures r.pdf * (2.0 * Pi) == 1.0
    ensures Scale(Pi, r.attenuation) == l.albedo
  {
    Scattered(Ray(hitPoint, num.normalize(h.local(normal, h.sample))), DivScalar(l.albedo, Pi), Zero, 1.0 / (2.0 * Pi))
  }
}

=== FILE: tokens.dfy ===
/** Importer input. A file is a sequence of lines and a line is the sequence of its
    whitespace-separated tokens. Each token carries its text together with the values
    a stream extraction of a floating-point number and of an integer yields for it;
    both are zero for a token that does not start with a number. */
module Tokens {
  import opened Vectors

  datatype Token = Token(text: string, number: real, integer: int)

  type Line = seq<Token>

  /** A token written out directly: its text and the number it reads as, whose
      integer reading is the number rounded down. */
  function Tok(text: string, value: real := 0.0): (t: Token)
    ensures t.text == text && t.number == value
    ensures t.integer as real <= t.number < t.integer as real + 1.0
  {
    Token(text, value, value.Floor)
  }

  /** The text of token `i`, or "" when the line is shorter (a failed extraction
      into a fresh string). */
  function Word(line: Line, i: nat): (r: string)
    ensures i >= |line| ==> r == ""
  {
    if i < |line| then line[i].text else ""
  }

  /** The text of token `i`, or `fallback` when the line is shorter (a failed
      extraction leaves the target string as it was). */
  function WordOr(line: Line, i: nat, fallback: string): (r: string)
    ensures i < |line| ==> r == line[i].text
    ensures i >= |line| ==> r == fallback
  {
    if i < |line| then line[i].text else fallback
  }

  /** The number in token `i`; a missing field reads as zero. */
  function Num(line: Line, i: nat): real {
    if i < |line| then line[i].number else 0.0
  }

  /** The integer in token `i`; a missing field reads as zero. */
  function Int(line: Line, i: nat): int {
    if i < |line| then line[i].integer else 0
  }

  /** Three numbers starting at token `i`. */
  function Vec3At(line: Line, i: nat): Vec3 {
    Vec3(Num(line, i), Num(line, i + 1), Num(line, i + 2))
  }

  /** Four numbers starting at token `i`. */
  function Vec4At(line: Line, i: nat): Vec4 {
    Vec4(Num(line, i), Num(line, i + 1), Num(line, i + 2), Num(line, i + 3))
  }

  /** A line the scene parser skips: no first token, or a first token starting with '#'. */
  predicate IsSkip(line: Line) {
    Word(line, 0) == "" || Word(line, 0)[0] == '#'
  }

  /** The conversion `(unsigned int)n`: modulo 2^32. */
  function Unsigned32(i: int): (r: nat)
    ensures r < 0x1_0000_0000
    ensures 0 <= i < 0x1_0000_0000 ==> r == i
    ensures exists k :: i == r + k * 0x1_0000_0000
  {
    var r := i % 0x1_0000_0000;
    assert i == r + (i / 0x1_0000_0000) * 0x1_0000_0000;
    r
  }

  /** Extracting an `unsigned int` from a stream (`ss >> n`) that holds the integer
      `i`: a magnitude that fits is taken modulo 2^32, so a negative one wraps; a
      magnitude of 2^32 or more stores the largest value (the read fails). */
  function ReadUnsigned32(i: int): (r: nat)
    ensures r < 0x1_0000_0000
    ensures 0 <= i < 0x1_0000_0000 ==> r == i
    ensures -0x1_0000_0000 < i < 0 ==> r == i + 0x1_0000_0000
    ensures i >= 0x1_0000_0000 || i <= -0x1_0000_0000 ==> r == 0xFFFF_FFFF
  {
    if i >= 0x1_0000_0000 || i <= -0x1_0000_0000 then 0xFFFF_FFFF else i % 0x1_0000_0000
  }

  /** Extracting an `int` from a stream (`ss >> n`) that holds the integer `i`: a
      value outside the 32-bit range stores the nearest bound (the read fails). */
  function ReadInt32(i: int): (r: int)
    ensures -0x8000_0000 <= r <= 0x7FFF_FFFF
    ensures -0x8000_0000 <= i <= 0x7FFF_FFFF ==> r == i
    ensures i > 0x7FFF_FFFF ==> r == 0x7FFF_FFFF
    ensures i < -0x8000_0000 ==> r == -0x8000_0000
  {
    if i > 0x7FFF_FFFF then 0x7FFF_FFFF else if i < -0x8000_0000 then -0x8000_0000 else i
  }

  /** `tolower` on one ASCII character. */
  function LowerChar(c: char): char {
    if 'A' <= c <= 'Z' then (c as int + 32) as char else c
  }

  /** The string with every ASCII upper-case letter lowered. */
  function Lower(s: string): (r: string)
    ensures |r| == |s|
    ensures forall i :: 0 <= i < |s| ==> r[i] == LowerChar(s[i])
  {
    if |s| == 0 then [] else [LowerChar(s[0])] + Lower(s[1..])
  }

  /** Lowering is idempotent and leaves no upper-case letter. */
  lemma LowerIdempotent(s: string)
    ensures Lower(Lower(s)) == Lower(s)
    ensures forall i :: 0 <= i < |s| ==> !('A' <= Lower(s)[i] <= 'Z')
  {
  }
}

=== FILE: vectors.dfy ===
/** Three-component vectors over the reals, standing for the renderer's single-precision
    `Vec3`, and an extended bound that may be infinite, standing for `FLOAT_INF`. */
module Vectors {

  datatype Vec2 = Vec2(u: real, v: real)

  datatype Vec3 = Vec3(x: real, y: real, z: real)

  datatype Vec4 = Vec4(x: real, y: real, z: real, w: real)

  /** A 3x3 matrix given by its columns, as glm stores it. */
  datatype Mat3 = Mat3(c0: Vec3, c1: Vec3, c2: Vec3)

  const Zero: Vec3 := Vec3(0.0, 0.0, 0.0)

  /** The vector with all three components equal to `s`. */
  function Splat(s: real): (r: Vec3)
    ensures r.x == s && r.y == s && r.z == s
  {
    Vec3(s, s, s)
  }

  function Add(a: Vec3, b: Vec3): Vec3 {
    Vec3(a.x + b.x, a.y + b.y, a.z + b.z)
  }

  function Sub(a: Vec3, b: Vec3): Vec3 {
    Vec3(a.x - b.x, a.y - b.y, a.z - b.z)
  }

  function Neg(a: Vec3): Vec3 {
    Vec3(-a.x, -a.y, -a.z)
  }

  /** Scalar multiple `s * a`. */
  function Scale(s: real, a: Vec3): Vec3 {
    Vec3(s * a.x, s * a.y, s * a.z)
  }

  /** Componentwise product, glm's `a * b` on vectors. */
  function Mul(a: Vec3, b: Vec3): Vec3 {
    Vec3(a.x * b.x, a.y * b.y, a.z * b.z)
  }

  /** Componentwise quotient by a scalar. */
  function DivScalar(a: Vec3, s: real): Vec3
    requires s != 0.0
  {
    Vec3(a.x / s, a.y / s, a.z / s)
  }

  function Dot(a: Vec3, b: Vec3): real {
    a.x * b.x + a.y * b.y + a.z * b.z
  }

  function Cross(a: Vec3, b: Vec3): Vec3 {
    Vec3(a.y * b.z - a.z * b.y, a.z * b.x - a.x * b.z, a.x * b.y - a.y * b.x)
  }

  function Min(a: real, b: real): real {
    if a < b then a else b
  }

  function Max(a: real, b: real): real {
    if a < b then b else a
  }

  /** Componentwise minimum, glm's `min` on vectors. */
  function MinV(a: Vec3, b: Vec3): Vec3 {
    Vec3(Min(a.x, b.x), Min(a.y, b.y), Min(a.z, b.z))
  }

  /** Componentwise maximum, glm's `max` on vectors. */
  function MaxV(a: Vec3, b: Vec3): Vec3 {
    Vec3(Max(a.x, b.x), Max(a.y, b.y), Max(a.z, b.z))
  }

  /** Matrix times column vector. */
  function MulMV(m: Mat3, v: Vec3): Vec3 {
    Add(Add(Scale(v.x, m.c0), Scale(v.y, m.c1)), Scale(v.z, m.c2))
  }

  /** Component `axis` of `v`, the renderer's `v[axis]`. */
  function Axis(v: Vec3, axis: nat): real
    requires axis < 3
  {
    if axis == 0 then v.x else if axis == 1 then v.y else v.z
  }

  /** `v` with component `axis` replaced by `s`. */
  function WithAxis(v: Vec3, axis: nat, s: real): (r: Vec3)
    requires axis < 3
    ensures Axis(r, axis) == s
    ensures forall a :: 0 <= a < 3 && a != axis ==> Axis(r, a) == Axis(v, a)
  {
    if axis == 0 then Vec3(s, v.y, v.z)
    else if axis == 1 then Vec3(v.x, s, v.z)
    else Vec3(v.x, v.y, s)
  }

  /** True when every component of `a` is at most the matching one of `b`. */
  predicate LessEq(a: Vec3, b: Vec3) {
    a.x <= b.x && a.y <= b.y && a.z <= b.z
  }

  /** An upper bound on a ray parameter that may be infinite. */
  datatype Limit = Finite(value: real) | Infinite

  /** True when `t` lies strictly below the bound. */
  predicate Below(t: real, l: Limit) {
    l.Infinite? || t < l.value
  }

  /** `Add` is commutative and `Zero` is its unit. */
  lemma AddLaws(a: Vec3, b: Vec3)
    ensures Add(a, b) == Add(b, a)
    ensures Add(a, Zero) == a
    ensures Sub(Add(a, b), b) == a
  {
  }

  /** Swapping the operands of a cross product negates it, so `Cross(a, a)` is zero. */
  lemma CrossAntisymmetric(a: Vec3, b: Vec3)
    ensures Cross(b, a) == Neg(Cross(a, b))
    ensures Cross(a, a) == Zero
  {
  }

  /** The squared length `Dot(a, a)` is never negative. */
  lemma DotSelfNonNegative(a: Vec3)
    ensures Dot(a, a) >= 0.0
  {
    assert a.x * a.x >= 0.0 && a.y * a.y >= 0.0 && a.z * a.z >= 0.0;
  }

  /** Lagrange's identity: `|a|^2 |b|^2 - (a.b)^2 = |a x b|^2`. Its consequence is the
      Cauchy-Schwarz inequality `(a.b)^2 <= |a|^2 |b|^2`. */
  lemma CauchySchwarz(a: Vec3, b: Vec3)
    ensures Dot(a, a) * Dot(b, b) - Dot(a, b) * Dot(a, b) == Dot(Cross(a, b), Cross(a, b))
    ensures Dot(a, b) * Dot(a, b) <= Dot(a, a) * Dot(b, b)
  {
    DotSelfNonNegative(Cross(a, b));
  }

  /** The cross product is perpendicular to both operands. */
  lemma CrossPerpendicular(a: Vec3, b: Vec3)
    ensures Dot(Cross(a, b), a) == 0.0 && Dot(Cross(a, b), b) == 0.0
  {
  }

  /** The dot product is linear in its second operand, taken over a frame. */
  lemma DotOfFrame(n: Vec3, m: Mat3, c: Vec3)
    ensures Dot(n, MulMV(m, c)) == c.x * Dot(n, m.c0) + c.y * Dot(n, m.c1) + c.z * Dot(n, m.c2)
  {
    assert n.x * (c.x * m.c0.x + c.y * m.c1.x + c.z * m.c2.x)
        == c.x * (n.x * m.c0.x) + c.y * (n.x * m.c1.x) + c.z * (n.x * m.c2.x);
    assert n.y * (c.x * m.c0.y + c.y * m.c1.y + c.z * m.c2.y)
        == c.x * (n.y * m.c0.y) + c.y * (n.y * m.c1.y) + c.z * (n.y * m.c2.y);
    assert n.z * (c.x * m.c0.z + c.y * m.c1.z + c.z * m.c2.z)
        == c.x * (n.z * m.c0.z) + c.y * (n.z * m.c1.z) + c.z * (n.z * m.c2.z);
  }
}

=== FILE: vertex_transformer.dfy ===
/** `VertexTransformer::exec`, identical in both renderers: every node moves its
    entity by its model's translation. Only the translation is applied; the scale is
    not, meshes are not touched, and an entity is moved once per node naming it. */
module VertexTransform {
  import opened Vectors
  import opened Scene
  import opened SceneBuild

  /** The program indexes the model list and the node's buffer without a check, so
      every node must name an existing model and, unless it is a mesh node, an
      existing entity. */
  predicate NodeResolves(s: RenderScene, n: Node) {
    n.model < |s.models|
    && match n.ntype
       case SPHERE => n.entity < |s.sphereBuffer|
       case TRIANGLE => n.entity < |s.triangleBuffer|
       case PLANE => n.entity < |s.planeBuffer|
       case MESH => true
  }

  predicate AllResolve(s: RenderScene, nodes: seq<Node>) {
    forall i :: 0 <= i < |nodes| ==> NodeResolves(s, nodes[i])
  }

  /** Both scenes have the same buffer sizes and models, so a node that resolves in
      one resolves in the other. */
  predicate SameShape(s: RenderScene, t: RenderScene) {
    t.models == s.models && |t.sphereBuffer| == |s.sphereBuffer|
    && |t.triangleBuffer| == |s.triangleBuffer| && |t.planeBuffer| == |s.planeBuffer|
  }

  function MoveSphere(x: Sphere, d: Vec3): Sphere {
    x.(position := Add(x.position, d))
  }

  function MoveTriangle(x: Triangle, d: Vec3): Triangle {
    x.(v1 := Add(x.v1, d), v2 := Add(x.v2, d), v3 := Add(x.v3, d))
  }

  function MovePlane(x: Plane, d: Vec3): Plane {
    x.(position := Add(x.position, d))
  }

  /** One iteration of the loop: `t * Vec4{v, 1}` with `t` a translation adds the
      translation to `v`. */
  function ApplyNode(s: RenderScene, n: Node): (r: RenderScene)
    requires NodeResolves(s, n)
    ensures SameShape(s, r)
  {
    var d := s.models[n.model].translation;
    match n.ntype
    case TRIANGLE => s.(triangleBuffer := s.triangleBuffer[n.entity := MoveTriangle(s.triangleBuffer[n.entity], d)])
    case SPHERE => s.(sphereBuffer := s.sphereBuffer[n.entity := MoveSphere(s.sphereBuffer[n.entity], d)])
    case PLANE => s.(planeBuffer := s.planeBuffer[n.entity := MovePlane(s.planeBuffer[n.entity], d)])
    case MESH => s
  }

  /** The total translation the nodes give entity `e` of buffer `kind`: the sum of
      the translations of the models of the nodes naming it. */
  function Shift(models: seq<Model>, nodes: seq<Node>, kind: NodeType, e: nat): Vec3
    requires forall i :: 0 <= i < |nodes| ==> nodes[i].model < |models|
  {
    if nodes == [] then Zero
    else
      var n := nodes[|nodes| - 1];
      var rest := Shift(models, nodes[..|nodes| - 1], kind, e);
      if n.ntype == kind && n.entity == e then Add(rest, models[n.model].translation) else rest
  }

  /** The loop over `nodes`, front to back. */
  function ApplyNodes(s: RenderScene, nodes: seq<Node>): (r: RenderScene)
    requires AllResolve(s, nodes)
    ensures SameShape(s, r)
    ensures r.meshBuffer == s.meshBuffer && r.nodes == s.nodes && r.materials == s.materials
            && r.lights == s.lights && r.areaLightBuffer == s.areaLightBuffer && r.ambient == s.ambient
    ensures forall e: nat :: e < |s.sphereBuffer| ==>
      (r.sphereBuffer[e] == MoveSphere(s.sphereBuffer[e], Shift(s.models, nodes, SPHERE, e)))
    ensures forall e: nat :: e < |s.triangleBuffer| ==>
      (r.triangleBuffer[e] == MoveTriangle(s.triangleBuffer[e], Shift(s.models, nodes, TRIANGLE, e)))
    ensures forall e: nat :: e < |s.planeBuffer| ==>
      (r.planeBuffer[e] == MovePlane(s.planeBuffer[e], Shift(s.models, nodes, PLANE, e)))
  {
    if nodes == [] then s
    else
      var front := ApplyNodes(s, nodes[..|nodes| - 1]);
      ApplyNode(front, nodes[|nodes| - 1])
  }

  /** `VertexTransformer::exec`. */
  function Exec(s: RenderScene): (r: RenderScene)
    requires AllResolve(s, s.nodes)
    ensures AllResolve(r, r.nodes)
  {
    ApplyNodes(s, s.nodes)
  }

  /** Apart from the three moved buffers, nothing in the scene changes; and in those
      buffers only positions and vertices move: radii, normals, plane frames and
      materials are kept. */
  lemma ExecKeepsTheRest(s: RenderScene)
    requires AllResolve(s, s.nodes)
    ensures var r := Exec(s);
      r == s.(sphereBuffer := r.sphereBuffer, triangleBuffer := r.triangleBuffer, planeBuffer := r.planeBuffer)
      && (forall e :: 0 <= e < |s.sphereBuffer| ==>
            (r.sphereBuffer[e].radius == s.sphereBuffer[e].radius
             && r.sphereBuffer[e].material == s.sphereBuffer[e].material))
      && (forall e :: 0 <= e < |s.triangleBuffer| ==>
            (r.triangleBuffer[e].normal == s.triangleBuffer[e].normal
             && r.triangleBuffer[e].material == s.triangleBuffer[e].material))
      && (forall e :: 0 <= e < |s.planeBuffer| ==>
            (r.planeBuffer[e].normal == s.planeBuffer[e].normal
             && r.planeBuffer[e].u == s.planeBuffer[e].u && r.planeBuffer[e].v == s.planeBuffer[e].v
             && r.planeBuffer[e].material == s.planeBuffer[e].material))
  {
    KeepsTheRest(s, s.nodes);
  }

  lemma {:induction false} KeepsTheRest(s: RenderScene, nodes: seq<Node>)
    requires AllResolve(s, nodes)
    ensures var r := ApplyNodes(s, nodes);
      r == s.(sphereBuffer := r.sphereBuffer, triangleBuffer := r.triangleBuffer, planeBuffer := r.planeBuffer)
  {
    if nodes != [] {
      KeepsTheRest(s, nodes[..|nodes| - 1]);
    }
  }

  /** How many of `nodes` name entity `e` of buffer `kind`. */
  function Count(nodes: seq<Node>, kind: NodeType, e: nat): nat {
    if nodes == [] then 0
    else
      var n := nodes[|nodes| - 1];
      Count(nodes[..|nodes| - 1], kind, e) + if n.ntype == kind && n.entity == e then 1 else 0
  }

  /** An entity named by `k` nodes of models that share translation `d` is moved by
      `k` times `d`: it is moved once per node, not once. */
  lemma {:induction false} ShiftCounts(models: seq<Model>, nodes: seq<Node>, kind: NodeType, e: nat, d: Vec3)
    requires forall i :: 0 <= i < |nodes| ==> nodes[i].model < |models|
    requires forall i :: 0 <= i < |nodes| && nodes[i].ntype == kind && nodes[i].entity == e ==>
      models[nodes[i].model].translation == d
    ensures Shift(models, nodes, kind, e) == Scale(Count(nodes, kind, e) as real, d)
  {
    if nodes != [] {
      var front := nodes[..|nodes| - 1];
      var n := nodes[|nodes| - 1];
      assert forall i :: 0 <= i < |front| ==> front[i] == nodes[i];
      ShiftCounts(models, front, kind, e, d);
      var c := Count(front, kind, e) as real;
      if n.ntype == kind && n.entity == e {
        assert Count(nodes, kind, e) as real == c + 1.0;
        assert models[n.model].translation == d;
        ScaleStep(c, d);
      }
    }
  }

  lemma ScaleStep(c: real, d: Vec3)
    ensures Add(Scale(c, d), d) == Scale(c + 1.0, d)
  {
  }

  /** Only translations matter: replacing the models by ones with the same
      translations (a different scale, say) moves everything identically. */
  lemma {:induction false} ShiftUsesTranslationOnly(models: seq<Model>, models': seq<Model>, nodes: seq<Node>, kind: NodeType, e: nat)
    requires |models'| == |models|
    requires forall m :: 0 <= m < |models| ==> models'[m].translation == models[m].translation
    requires forall i :: 0 <= i < |nodes| ==> nodes[i].model < |models|
    ensures Shift(models', nodes, kind, e) == Shift(models, nodes, kind, e)
  {
    if nodes != [] {
      ShiftUsesTranslationOnly(models, models', nodes[..|nodes| - 1], kind, e);
    }
  }

  /** The model scale is never applied: two scenes whose models differ only in scale
      (or node lists) are transformed to the same geometry. */
  lemma ScaleIgnored(s: RenderScene, scales: seq<Vec3>)
    requires AllResolve(s, s.nodes) && |scales| == |s.models|
    ensures var s' := s.(models := seq(|s.models|, m requires 0 <= m < |s.models| => s.models[m].(scale := scales[m])));
      AllResolve(s', s'.nodes)
      && Exec(s').sphereBuffer == Exec(s).sphereBuffer
      && Exec(s').triangleBuffer == Exec(s).triangleBuffer
      && Exec(s').planeBuffer == Exec(s).planeBuffer
  {
    var s' := s.(models := seq(|s.models|, m requires 0 <= m < |s.models| => s.models[m].(scale := scales[m])));
    assert AllResolve(s', s'.nodes) by {
      forall i | 0 <= i < |s.nodes|
        ensures NodeResolves(s', s'.nodes[i])
      {
        assert NodeResolves(s, s.nodes[i]);
      }
    }
    forall kind, e: nat
      ensures Shift(s'.models, s.nodes, kind, e) == Shift(s.models, s.nodes, kind, e)
    {
      ShiftUsesTranslationOnly(s.models, s'.models, s.nodes, kind, e);
    }
  }

  /** Running `exec` twice moves every entity by twice its shift. */
  lemma ExecTwice(s: RenderScene)
    requires AllResolve(s, s.nodes)
    ensures var t := Exec(Exec(s));
      (forall e: nat :: e < |s.sphereBuffer| ==>
        t.sphereBuffer[e].position == Add(s.sphereBuffer[e].position, Scale(2.0, Shift(s.models, s.nodes, SPHERE, e))))
      && (forall e: nat :: e < |s.planeBuffer| ==>
        t.planeBuffer[e].position == Add(s.planeBuffer[e].position, Scale(2.0, Shift(s.models, s.nodes, PLANE, e))))
      && (forall e: nat :: e < |s.triangleBuffer| ==>
        t.triangleBuffer[e].v1 == Add(s.triangleBuffer[e].v1, Scale(2.0, Shift(s.models, s.nodes, TRIANGLE, e))))
  {
    var r := Exec(s);
    var t := Exec(r);
    assert r.models == s.models && r.nodes == s.nodes;
    forall e: nat | e < |s.sphereBuffer|
      ensures t.sphereBuffer[e].position == Add(s.sphereBuffer[e].position, Scale(2.0, Shift(s.models, s.nodes, SPHERE, e)))
    {
      assert t.sphereBuffer[e] == MoveSphere(r.sphereBuffer[e], Shift(s.models, s.nodes, SPHERE, e));
    }
    forall e: nat | e < |s.planeBuffer|
      ensures t.planeBuffer[e].position == Add(s.planeBuffer[e].position, Scale(2.0, Shift(s.models, s.nodes, PLANE, e)))
    {
      assert t.planeBuffer[e] == MovePlane(r.planeBuffer[e], Shift(s.models, s.nodes, PLANE, e));
    }
    forall e: nat | e < |s.triangleBuffer|
      ensures t.triangleBuffer[e].v1 == Add(s.triangleBuffer[e].v1, Scale(2.0, Shift(s.models, s.nodes, TRIANGLE, e)))
    {
      assert t.triangleBuffer[e] == MoveTriangle(r.triangleBuffer[e], Shift(s.models, s.nodes, TRIANGLE, e));
    }
  }

  /** The first `count` entities of buffer `kind` have a zero shift. */
  predicate Unshifted(s: RenderScene, kind: NodeType, count: nat)
    requires AllResolve(s, s.nodes)
  {
    forall e: nat :: e < count ==> Shift(s.models, s.nodes, kind, e) == Zero
  }

  /** Every entity's shift is zero: the transform has nothing to move. */
  predicate NoShift(s: RenderScene)
    requires AllResolve(s, s.nodes)
  {
    Unshifted(s, SPHERE, |s.sphereBuffer|) && Unshifted(s, TRIANGLE, |s.triangleBuffer|)
    && Unshifted(s, PLANE, |s.planeBuffer|)
  }

  /** What a second run does to the buffers of the first: it moves each entity by
      its shift once more. */
  lemma SecondRun(s: RenderScene)
    requires AllResolve(s, s.nodes)
    ensures var r := Exec(s);
      var t := Exec(r);
      SameShape(s, r) && SameShape(r, t)
      && (forall e: nat :: e < |r.sphereBuffer| ==>
            (t.sphereBuffer[e] == MoveSphere(r.sphereBuffer[e], Shift(s.models, s.nodes, SPHERE, e))))
      && (forall e: nat :: e < |r.triangleBuffer| ==>
            (t.triangleBuffer[e] == MoveTriangle(r.triangleBuffer[e], Shift(s.models, s.nodes, TRIANGLE, e))))
      && (forall e: nat :: e < |r.planeBuffer| ==>
            (t.planeBuffer[e] == MovePlane(r.planeBuffer[e], Shift(s.models, s.nodes, PLANE, e))))
  {
    var r := Exec(s);
    assert r.models == s.models && r.nodes == s.nodes;
  }

  /** A second run leaves the buffers of the first exactly when nothing shifts. */
  lemma SecondRunBuffers(s: RenderScene)
    requires AllResolve(s, s.nodes)
    ensures var r := Exec(s);
      var t := Exec(r);
      (t.sphereBuffer == r.sphereBuffer && t.triangleBuffer == r.triangleBuffer && t.planeBuffer == r.planeBuffer)
      <==> NoShift(s)
  {
    SecondRun(s);
    SpheresFixedIff(s);
    TrianglesFixedIff(s);
    PlanesFixedIff(s);
  }

  lemma SpheresFixedIff(s: RenderScene)
    requires AllResolve(s, s.nodes)
    ensures Exec(Exec(s)).sphereBuffer == Exec(s).sphereBuffer
      <==> Unshifted(s, SPHERE, |s.sphereBuffer|)
  {
    var r := Exec(s);
    var t := Exec(r);
    SecondRun(s);
    if t.sphereBuffer == r.sphereBuffer {
      forall e: nat | e < |s.sphereBuffer|
        ensures Shift(s.models, s.nodes, SPHERE, e) == Zero
      {
        assert t.sphereBuffer[e].position == r.sphereBuffer[e].position;
      }
    }
    if Unshifted(s, SPHERE, |s.sphereBuffer|) {
      forall e | 0 <= e < |t.sphereBuffer|
        ensures t.sphereBuffer[e] == r.sphereBuffer[e]
      {
        assert Shift(s.models, s.nodes, SPHERE, e) == Zero;
      }
      assert t.sphereBuffer == r.sphereBuffer;
    }
  }

  lemma TrianglesFixedIff(s: RenderScene)
    requires AllResolve(s, s.nodes)
    ensures Exec(Exec(s)).triangleBuffer == Exec(s).triangleBuffer
      <==> Unshifted(s, TRIANGLE, |s.triangleBuffer|)
  {
    var r := Exec(s);
    var t := Exec(r);
    SecondRun(s);
    if t.triangleBuffer == r.triangleBuffer {
      forall e: nat | e < |s.triangleBuffer|
        ensures Shift(s.models, s.nodes, TRIANGLE, e) == Zero
      {
        assert t.triangleBuffer[e].v1 == r.triangleBuffer[e].v1;
      }
    }
    if Unshifted(s, TRIANGLE, |s.triangleBuffer|) {
      forall e | 0 <= e < |t.triangleBuffer|
        ensures t.triangleBuffer[e] == r.triangleBuffer[e]
      {
        assert Shift(s.models, s.nodes, TRIANGLE, e) == Zero;
      }
      assert t.triangleBuffer == r.triangleBuffer;
    }
  }

  lemma PlanesFixedIff(s: RenderScene)
    requires AllResolve(s, s.nodes)
    ensures Exec(Exec(s)).planeBuffer == Exec(s).planeBuffer
      <==> Unshifted(s, PLANE, |s.planeBuffer|)
  {
    var r := Exec(s);
    var t := Exec(r);
    SecondRun(s);
    if t.planeBuffer == r.planeBuffer {
      forall e: nat | e < |s.planeBuffer|
        ensures Shift(s.models, s.nodes, PLANE, e) == Zero
      {
        assert t.planeBuffer[e].position == r.planeBuffer[e].position;
      }
    }
    if Unshifted(s, PLANE, |s.planeBuffer|) {
      forall e | 0 <= e < |t.planeBuffer|
        ensures t.planeBuffer[e] == r.planeBuffer[e]
      {
        assert Shift(s.models, s.nodes, PLANE, e) == Zero;
      }
      assert t.planeBuffer == r.planeBuffer;
    }
  }

  /** `exec` is idempotent exactly when it moves nothing: as soon as one entity has
      a non-zero shift, a second run moves it again. */
  lemma ExecIdempotentIff(s: RenderScene)
    requires AllResolve(s, s.nodes)
    ensures Exec(Exec(s)) == Exec(s) <==> NoShift(s)
  {
    var r := Exec(s);
    var t := Exec(r);
    SecondRunBuffers(s);
    KeepsTheRest(r, r.nodes);
  }

  /** A scene with one sphere placed by one node of a model translated by (1, 0, 0):
      one `exec` moves the sphere by 1 along x, and a second moves it again. */
  lemma OneNodeMovesTwice(s: RenderScene)
    requires |s.sphereBuffer| == 1 && s.nodes == [Node(SPHERE, 0, 0)]
    requires |s.models| == 1 && s.models[0].translation == Vec3(1.0, 0.0, 0.0)
    ensures AllResolve(s, s.nodes)
    ensures Exec(s).sphereBuffer[0].position.x == s.sphereBuffer[0].position.x + 1.0
    ensures Exec(Exec(s)).sphereBuffer[0].position.x == s.sphereBuffer[0].position.x + 2.0
    ensures Exec(Exec(s)) != Exec(s)
  {
    assert NodeResolves(s, s.nodes[0]);
    assert s.nodes[..0] == [];
    assert Shift(s.models, s.nodes[..0], SPHERE, 0) == Zero;
    var d := Shift(s.models, s.nodes, SPHERE, 0);
    assert d == Vec3(1.0, 0.0, 0.0);
    ExecTwice(s);
    var r := Exec(s);
    assert r.sphereBuffer[0] == MoveSphere(s.sphereBuffer[0], d);
  }
}
